=== FILE: README.md ===
# PillCheck reminder core in Dafny

PillCheck is a medication-reminder app written in React Native, with a Portuguese interface and a small Android bridge. Its users register medicines and alerts. Alerts are either fixed weekday times or "every N hours" intervals. A user may also look after dependants, who get their own alerts, history and a PIN-protected home screen.

This project models the app's deterministic logic as pure Dafny functions over immutable datatypes. Every database read, clock reading, platform call and user answer is a parameter. Every write, notification and Android call comes back as a value: a record, a command or an effect log.

Conventions:

- Times are integer milliseconds.
- A stored "HH:MM" time is read as a minute of the day.
- History keys are "YYYY-MM-DD" dates over a proleptic Gregorian calendar.
- Local time is taken to be UTC.

## Modules

| file | module | what it models |
|---|---|---|
| js_text.dfy | JsText | the JavaScript semantics the screens rely on: `undefined` as `Option`, truthiness and the `or` and nullish fallbacks, `trim`, case mapping, `split`/`join`/`includes`, `Number`/`parseInt` with NaN, `padStart`, string order |
| calendar.dfy | Calendar | civil dates, day numbers, weekdays and the ISO day key |
| clock.dfy | Clock | start of day, minute of the day, the "HH:MM" text and its lenient reader |
| days.dfy | Days | weekday sets stored as an array or a comma string |
| lookup.dfy | Lookup | `list.find(r => r.id === id)` and lookups in small constant tables |
| android_intent.dfy | Intents | intents with string extras and the platform effect log |
| foreground_service.dfy | ForegroundService | `MedicationForegroundService`: the single-slot reminder notification |
| confirm_relay.dfy | ConfirmRelay | `MedicationConfirmReceiver` and `MedicationModule`: the confirm broadcast relayed to JavaScript, service start/stop promises and teardown |
| persistent_service.dfy | PersistentService | `PersistentForegroundService`: the start/stop machine |
| alarm_system.dfy | AlarmSystem | `AlarmSystem.js`: the per-minute check, interval timing, taken-dose matching, day schedules and the taken log |
| notification_manager.dfy | NotificationManager | `NotificationManager.js`: the next-weekday search, immediate notifications and the sync id map |
| med_reminder.dfy | MedReminder | `services/MedReminder.js`: the notification payload and the confirm handlers |
| dependent_home.dfy | DependentHome | the dependant's home screen: next dose, take window, time left, PIN dialog |
| phone_mask.dfy | PhoneMask | the Brazilian phone mask shared by the wizard and the profile |
| profile_wizard.dfy | ProfileWizard | the seven-step profile wizard |
| profile.dfy | Profile | the profile screen's load and save |
| login.dfy | Login | sign-in, the e-mail pattern and the password-reset dialog |
| dependent_form.dfy | DependentForm | the dependant form: ordered checks, account creation, record |
| alert_forms.dfy | AlertForms | the two alert forms |
| medicine_forms.dfy | MedicineForms | the two medicine forms |
| alert_lists.dfy | AlertLists | the own and the dependant's alert lists |
| history.dfy | History | the two-key descending sort and group-by-day shared by the history screens |
| own_history.dfy | OwnHistory | the user's own history: date filters and day headers |
| dependent_history.dfy | DependentHistory | the dependants' history: query, filters, groups, headers |
| dependents_menu.dfy | DependentsMenu | age and avatar of a dependant card |
| medicine_list.dfy | MedicineList | the medicine list: type icons, "updated" label, taken record |
| settings_screen.dfy | SettingsScreen | the settings switches and their reset |
| help_screen.dfy | HelpScreen | the FAQ accordion |
| home_screen.dfy | HomeScreen | the signed-in home screen: greeting, priority badges, notices |
| onboarding.dfy | OnBoarding | the onboarding pager |

## Model

| member | source | states |
|---|---|---|
| Intents.GetStringExtra | android/app/src/main/java/com/app/MedicationConfirmReceiver.java:26-31 | a key that was never put reads as null; a present key reads exactly the value stored under it, which may itself be null |
| Intents.PutExtra | android/app/src/main/java/com/app/MedicationForegroundService.java:137-142 | after `putExtra` the key reads back the value put; every other key, the target and the action are unchanged |
| ForegroundService.ContentText | android/app/src/main/java/com/app/MedicationForegroundService.java:151-158 | the text begins with the dosage; for the "intervalo" tag with hours, the dosage is followed by exactly " (A cada " + hours + "h)", otherwise by nothing; it ends in " - " and the time when the time is non-empty; with neither it is the dosage alone |
| ForegroundService.ConfirmIntent | android/app/src/main/java/com/app/MedicationForegroundService.java:134-142 | the confirm button's intent is aimed at the confirm receiver and carries the confirm action |
| ForegroundService.Build | android/app/src/main/java/com/app/MedicationForegroundService.java:160-187 | the notification has the fixed title, the medicine name as text, name + newline + content text as big text, is ongoing, not auto-cancelled, at maximum priority, and has exactly one action, labelled "✅ Tomei o medicamento", that fires the confirm action |
| ForegroundService.OnStartCommand | android/app/src/main/java/com/app/MedicationForegroundService.java:48-78 | the stop action leaves the fields alone, stops the foreground and the service and returns START_NOT_STICKY; anything else returns START_STICKY and posts the rebuilt notification under id 1001; a null intent keeps the fields; a missing name becomes "Medicamento" |
| ForegroundService.ConfirmPayloadRoundTrip | android/app/src/main/java/com/app/MedicationForegroundService.java:134-142 | reading the confirm button's intent back gives exactly the six fields it was built from |
| ForegroundService.LastStartWins | android/app/src/main/java/com/app/MedicationForegroundService.java:60-75 | two services in any states that receive the same non-stop intent end with the same fields and make the same calls |
| ForegroundService.OneNotificationSlot | android/app/src/main/java/com/app/MedicationForegroundService.java:74-75 | two successive non-stop starts post under the same notification id, so the second replaces the first |
| ForegroundService.StopPostsNothing | android/app/src/main/java/com/app/MedicationForegroundService.java:53-58 | a stop request posts no notification and starts no foreground |
| ForegroundService.ConfirmIntentIsNotStop | android/app/src/main/java/com/app/MedicationForegroundService.java:134-142 | the confirm button's intent is never read as a stop request |
| ForegroundService.FreshRestartShowsEmptyName | android/app/src/main/java/com/app/MedicationForegroundService.java:35-70 | a system restart (null intent) of a fresh instance shows an empty name, while an intent without a name shows "Medicamento" |
| ForegroundService.IntervalSuffixOnlyForTag | android/app/src/main/java/com/app/MedicationForegroundService.java:153-155 | the interval suffix appears exactly when the type is the exact tag "intervalo" and the hours are present |
| ForegroundService.ContentTextExamples | android/app/src/main/java/com/app/MedicationForegroundService.java:151-158 | "50mg (A cada 8h) - 08:00" for the interval tag, no suffix for another tag, the dosage alone without hours and time |
| PersistentService.ExtraOr | android/app/src/main/java/com/app/PersistentForegroundService.kt:35-36 | a null intent gives the default; otherwise the stored string, with the default only when the extra is missing or null |
| PersistentService.Build | android/app/src/main/java/com/app/PersistentForegroundService.kt:61-76 | the given title and message, ongoing, not auto-cancelled, high priority, and one "Confirmar" action that fires the stop intent |
| PersistentService.OnStartCommand | android/app/src/main/java/com/app/PersistentForegroundService.kt:27-81 | the stop action only stops the service and returns START_NOT_STICKY; anything else posts one notification under id 1 and returns START_STICKY, with the default title and message for a null intent |
| PersistentService.ButtonStopsService | android/app/src/main/java/com/app/PersistentForegroundService.kt:47-58 | the posted notification's only button delivers an intent that the service reads as a stop request |
| PersistentService.TitleAndMessage | android/app/src/main/java/com/app/PersistentForegroundService.kt:35-36 | the title and message are the extras when present and the defaults only when missing |
| ConfirmRelay.RelayBroadcast | android/app/src/main/java/com/app/MedicationConfirmReceiver.java:48-66 | an untargeted MEDICATION_CONFIRMED broadcast whose six relay keys read back exactly the payload |
| ConfirmRelay.ReceiverOnReceive | android/app/src/main/java/com/app/MedicationConfirmReceiver.java:17-43 | a null intent or another action does nothing; the confirm action yields the broadcast (or a logged error) followed by the stop request |
| ConfirmRelay.ModuleOnReceive | android/app/src/main/java/com/app/MedicationModule.java:46-63 | an event exists exactly for the MEDICATION_CONFIRMED action; it is "onMedicationConfirmed" with exactly the six relay keys |
| ConfirmRelay.Dispatch | android/app/src/main/java/com/app/MedicationModule.java:45-67 | at most one event per broadcast, and one exactly when the receiver is registered and the action is MEDICATION_CONFIRMED |
| ConfirmRelay.Teardown | android/app/src/main/java/com/app/MedicationModule.java:133-143 | without a receiver nothing happens; a successful unregister leaves the module deaf; a failed one changes nothing and logs one error |
| ConfirmRelay.ServiceIntent | android/app/src/main/java/com/app/MedicationModule.java:86-101 | once the five keys are present: aimed at the foreground service with no action; five extras copy the map's strings; the interval extra is present exactly when the map has the key |
| ConfirmRelay.StartForegroundService | android/app/src/main/java/com/app/MedicationModule.java:81-111 | a missing one of the five keys rejects with START_SERVICE_ERROR and the key's name, as `getString` throws; otherwise success starts the service with that intent and resolves true, and a failure rejects with START_SERVICE_ERROR; a rejection starts nothing |
| ConfirmRelay.MissingStartKey | android/app/src/main/java/com/app/MedicationModule.java:87-96 | no key is missing exactly when all five keys read unconditionally are in the map; a reported key is one of them and absent |
| ConfirmRelay.FirstMissing | android/app/src/main/java/com/app/MedicationModule.java:87-96 | the first key, in reading order, that the map lacks; none exactly when the map has them all |
| ConfirmRelay.StopForegroundService | android/app/src/main/java/com/app/MedicationModule.java:116-131 | success sends the stop request and resolves true; a failure rejects with STOP_SERVICE_ERROR and stops nothing |
| ConfirmRelay.RelayIsIdentity | android/app/src/main/java/com/app/MedicationConfirmReceiver.java:26-60 | receiver then module: one "onMedicationConfirmed" event whose six values are those of the confirm intent |
| ConfirmRelay.FailedRelayStillStops | android/app/src/main/java/com/app/MedicationConfirmReceiver.java:33-65 | a broadcast that throws delivers no event, yet the stop request is still issued |
| ConfirmRelay.TornDownModuleIsDeaf | android/app/src/main/java/com/app/MedicationModule.java:133-143 | after a successful teardown no broadcast reaches JavaScript |
| ConfirmRelay.ButtonDeliversServiceFields | android/app/src/main/java/com/app/MedicationForegroundService.java:134-142 | pressing the service notification's button delivers one event carrying exactly the service's current fields |
| ConfirmRelay.StartThenConfirm | android/app/src/main/java/com/app/MedicationModule.java:86-101 | when the start succeeds (all five keys present), the values passed to `startForegroundService` come back in the confirm event, changed only by the service's null defaults for name, dosage and time |
| AlarmSystem.CheckForAlarms | components/AlarmSystem.js:1018-1042 | signed out: nothing changes and nothing runs; signed in: the last checked minute becomes the current "HH:MM", and the checks run exactly when it differs from the previous one |
| AlarmSystem.SameMinuteChecksOnce | components/AlarmSystem.js:1027-1030 | a second tick within the same minute of the day runs no checks |
| AlarmSystem.NewMinuteChecksAgain | components/AlarmSystem.js:1027-1030 | a tick in a different minute of the day runs the checks again |
| AlarmSystem.MatchOnFormattedTimes | components/AlarmSystem.js:1225-1241 | on "HH:MM" texts a taken record matches a dose exactly when the minutes of the day are at most 30 apart, and the match is symmetric |
| AlarmSystem.MatchesDose | components/AlarmSystem.js:1225-1241 | a record matches exactly when it has a time whose minutes, read leniently, lie within 30 of the expected minutes |
| AlarmSystem.NoWrapAtMidnight | components/AlarmSystem.js:1236-1240 | 23:50 and 00:10 do not match: the distance is taken within one day, without wrapping |
| AlarmSystem.StartOfFormattedTime | components/AlarmSystem.js:1173-1177 | a stored "HH:MM" is read as that minute of today |
| AlarmSystem.StartToday | components/AlarmSystem.js:1173-1177 | there is no start exactly when the hour field is not a number; a start is a whole number of minutes after today's midnight |
| AlarmSystem.ScheduleFixed | components/AlarmSystem.js:800-848 | an entry exists exactly when the alarm is schedulable (today's weekday listed, trigger ahead, not taken, medicine exists); its trigger is after now and its id is "horario-" + doc id + "-" + time |
| AlarmSystem.FixedTriggerIsTodayAtItsTime | components/AlarmSystem.js:804-810 | a fixed alarm at "HH:MM" triggers at that minute today, and is schedulable with nothing taken exactly when today is listed and the minute is still ahead |
| AlarmSystem.FirstFixedToFire | components/AlarmSystem.js:1058-1097 | the alarm triggered is the first that qualifies, none before it qualifies, and none is triggered when none qualifies |
| AlarmSystem.FixedFiresOnlyOnceDue | components/AlarmSystem.js:1062-1090 | a fixed alarm stored as "HH:MM" fires exactly when its medicine exists, today is listed, its minute is at or before the current one, and no record today has that time |
| AlarmSystem.FixedFires | components/AlarmSystem.js:1058-1097 | a fixed alarm fires only for an existing medicine with a time, listed for today's weekday, with no record of today at exactly that time |
| AlarmSystem.Reference | components/AlarmSystem.js:1179-1188 | the reference is today's start, or yesterday's exactly while today's start is still ahead |
| AlarmSystem.ExpectedDose | components/AlarmSystem.js:1191-1198 | with a positive interval the expected dose is the latest slot not after now, less than one interval back |
| AlarmSystem.ExpectedDoseOffset | components/AlarmSystem.js:1191-1198 | the time since the expected dose is the time since the reference modulo the interval |
| AlarmSystem.IntervalFiresIff | components/AlarmSystem.js:1163-1258 | with a positive interval the alarm fires exactly when now is within five minutes after a whole number of intervals past the reference and no matching dose was taken |
| AlarmSystem.IntervalTiming | components/AlarmSystem.js:1163-1258 | the timing fires only with a start and a non-zero interval, and only within five minutes after the latest dose slot |
| AlarmSystem.IntervalFires | components/AlarmSystem.js:1131-1140 | an interval alarm fires exactly when its timing check passes and its medicine exists; so only with a readable start and a non-zero interval |
| AlarmSystem.IntervalFiresAtSlot | components/AlarmSystem.js:1194-1246 | for any slot reference + k·interval that now is at most five minutes past, the alarm fires exactly when that slot's "HH:MM" was not taken |
| AlarmSystem.SlotIsExpected | components/AlarmSystem.js:1194-1202 | with intervals wider than the five-minute window, a slot whose window holds now is the expected dose |
| AlarmSystem.FirstIntervalToFire | components/AlarmSystem.js:1122-1152 | the alarm triggered is the first whose timing fires and whose medicine exists; none before it does |
| AlarmSystem.Entries | components/AlarmSystem.js:932-947 | one notification per kept dose time, with id "intervalo-" + doc id + "-" + "HH:MM" and that trigger |
| AlarmSystem.SlotsBounded | components/AlarmSystem.js:891-959 | the loop yields at most its remaining 24 doses, each kept and no later than the end of the day |
| AlarmSystem.SlotsAscending | components/AlarmSystem.js:884-958 | with a positive interval the dose times strictly increase from the first |
| AlarmSystem.KeptSlots | components/AlarmSystem.js:891-959 | the loop computes exactly the recursive slot list |
| AlarmSystem.ScheduleInterval | components/AlarmSystem.js:873-960 | no entries without start time or interval; at most 24 entries, each after now and before the end of today, in strictly increasing order with a positive interval |
| AlarmSystem.LogMedicationTaken | components/AlarmSystem.js:1292-1321 | a record exactly when signed in, with user, medicine, name and dosage defaulting to ""; its day key is the ISO date of the confirming instant; a 'dias' alert keeps its time; an 'intervalo' alert keeps its time or takes the current minute; other types store no time |
| AlarmSystem.ReadingMatchesRecentDose | components/AlarmSystem.js:1316 | a clock reading at most five minutes after a dose, on the same day, matches that dose's "HH:MM" |
| AlarmSystem.LoggedDoseSilencesInterval | components/AlarmSystem.js:1312-1321 | confirming an interval dose that has no stored time silences that medicine's interval alarm for the rest of the firing window |
| AlarmSystem.LoggedDoseSilencesFixed | components/AlarmSystem.js:1312-1314 | confirming a fixed-time dose records its "HH:MM", which keeps the alarm out of the rest of today's plan and stops it firing again |
| NotificationManager.DayKeys | components/NotificationManager.js:132-137 | an array of days is lower-cased element by element, keeping its length; a text is lower-cased, split on ',' and trimmed, giving at least one key |
| NotificationManager.FirstListedStep | components/NotificationManager.js:129-143 | the step found is the first in its range whose weekday is listed; with none found, no step in the range is listed |
| NotificationManager.StepReaches | components/NotificationManager.js:129-131 | steps 1 to 7 from today reach every weekday, today itself at step 7 |
| NotificationManager.NoStepIffNoListedDay | components/NotificationManager.js:145-148 | the search fails exactly when no weekday of the table is listed |
| NotificationManager.DayOffsetAsWritten | components/NotificationManager.js:150-152 | as written, the days added are 0 to 6: the fallback to 7 applies to the whole `getDate() + …` sum, which is never 0 |
| NotificationManager.DayOffset | components/NotificationManager.js:150-152 | the intended offset is 1 to 7 days, lands on the listed weekday, and is 7 exactly when that weekday is today |
| NotificationManager.TriggerAt | components/NotificationManager.js:121-153 | the trigger is a number exactly when both fields of the stored time read as numbers |
| NotificationManager.NextListed | components/NotificationManager.js:129-143 | a found weekday is listed; none is found exactly when the table lists no day |
| NotificationManager.ReminderAt | components/NotificationManager.js:153-155 | the reminder's trigger is that time on the day `offset` days ahead, and its id is "med_" + medicine id + "_" + trigger |
| NotificationManager.ScheduleWith | components/NotificationManager.js:114-155 | no reminder without a truthy time or without days; with days, none exactly when the time is falsy or no weekday is listed; a reminder lies on the next listed weekday |
| NotificationManager.ScheduleAsWritten | components/NotificationManager.js:114-160 | a reminder exactly when the medicine has a time and a day the table as written lists, with the id "med_" + medicine id + "_" + trigger; its offset and Saturday spelling are exhibited under Findings |
| NotificationManager.Schedule | components/NotificationManager.js:114-160 | the corrected scheduler: a reminder exactly when the medicine has a time and a day the corrected table lists, with the id "med_" + medicine id + "_" + trigger |
| NotificationManager.ScheduledIdNamesTrigger | components/NotificationManager.js:155 | the scheduled id is "med_" + medicine id + "_" + trigger timestamp |
| NotificationManager.TriggerOfFormattedTime | components/NotificationManager.js:121-153 | a stored "HH:MM" gives that minute, `offset` days after today's midnight |
| NotificationManager.TriggerDay | components/NotificationManager.js:150-153 | a corrected offset gives a trigger after now, at the stored minute, on the chosen weekday |
| NotificationManager.ScheduledInFutureOnListedDay | components/NotificationManager.js:129-153 | corrected, a reminder with a stored "HH:MM" fires after now, within a week, at that minute, on a weekday the medicine lists |
| NotificationManager.OnlyTodayListedFiresInPast | components/NotificationManager.js:150-153 | as written, on a Monday at 12:00 a medicine listed only on Monday gets a trigger four hours in the past |
| NotificationManager.ExampleAsWritten | components/NotificationManager.js:150-153 | as written, that Monday example triggers on the same Monday at 08:00 |
| NotificationManager.ExampleCorrected | components/NotificationManager.js:150-153 | corrected, that example triggers the next Monday at 08:00 |
| NotificationManager.OnlyMondayListed | components/NotificationManager.js:125 | in both weekday tables `["seg"]` lists Monday and no other day |
| NotificationManager.OnlyTodayTrigger | components/NotificationManager.js:129-153 | for a medicine listed only on today's weekday: as written the trigger is today at its time; corrected, a week later |
| NotificationManager.OnlyTodayListed | components/NotificationManager.js:129-143 | when only today is listed, the search finds today |
| NotificationManager.OnlyStepSeven | components/NotificationManager.js:129-143 | when only today is listed, the search goes round to step 7 |
| NotificationManager.StoredSaturdayNeverMatches | components/NotificationManager.js:125 | as written, the forms' stored Saturday "Sáb" is never found, while the corrected table finds it |
| NotificationManager.EveryStoredDayIsFound | components/NotificationManager.js:125 | with the corrected table, every abbreviation the forms store is found from any weekday |
| NotificationManager.Channel | components/NotificationManager.js:243-254 | a channel exists exactly for 'general', 'alarm' and 'urgent', and is the type + "-channel" |
| NotificationManager.ShowImmediate | components/NotificationManager.js:234-264 | a missing title gives 'PillCheck' and a missing message 'Nova notificação'; given ones are kept; a missing type uses the general channel; importance is maximal exactly for 'urgent' |
| NotificationManager.Outcomes | components/NotificationManager.js:302-323 | one outcome per alert, under the alert's medicine id, holding an id exactly when the scheduler as written scheduled that alert |
| NotificationManager.SyncOne | components/NotificationManager.js:303-321 | an alert gets a reminder exactly when its medicine exists, it has a time and a day the table as written lists; the id names the medicine and the trigger |
| NotificationManager.RecordIds | components/NotificationManager.js:319-321 | a key is in the resulting map exactly when it was there before or some outcome recorded an id under it |
| NotificationManager.SyncIds | components/NotificationManager.js:285-329 | after a sync, a medicine has an id exactly when it had one or some alert for it was scheduled |
| NotificationManager.SyncKeepsLastId | components/NotificationManager.js:302-323 | a medicine's stored id is the one produced by its last scheduled alert |
| NotificationManager.RecordKeepsLast | components/NotificationManager.js:319-321 | among the outcomes, the last id recorded for a key is the one kept |
| NotificationManager.SyncLeavesUntouched | components/NotificationManager.js:302-323 | a medicine that no alert schedules keeps its earlier id |
| NotificationManager.RecordLeavesUntouched | components/NotificationManager.js:319-321 | a key no outcome records keeps its earlier id |
| MedReminder.Notification | services/MedReminder.js:32-59 | the notification keeps the id, title and body, carries `{id}` as data, is ongoing and not auto-cancelled on the alarm channel, and has one 'confirm' button |
| MedReminder.Show | services/MedReminder.js:14-64 | channel creation comes first; if it fails only an error is logged; otherwise the notification is displayed or the display error logged; no callback is ever made |
| MedReminder.ConfirmedId | services/MedReminder.js:81-88 | an id exactly for an action press on the 'confirm' button with a truthy data id, and then it is that id |
| MedReminder.Foreground | services/MedReminder.js:78-100 | no confirmed id: nothing happens; otherwise the callback gets the id first, and an error is logged exactly when it fails |
| MedReminder.Background | services/MedReminder.js:106-126 | the same as the foreground listener, with the callback awaited |
| MedReminder.Callbacks | services/MedReminder.js:74-130 | a log holds no more callbacks than effects |
| MedReminder.ListenersAgree | services/MedReminder.js:78-126 | both listeners make the same callbacks for every event, at most one, whether or not the callback fails |
| MedReminder.PressButton | services/MedReminder.js:49-56 | pressing a button yields an action-press event carrying that button's press id |
| MedReminder.ConfirmReachesCallback | services/MedReminder.js:53-94 | pressing the confirm button of the notification shown for an id calls the callback with that id when it is non-empty, and does nothing otherwise |
| MedReminder.Unsubscribe | services/MedReminder.js:133-142 | nothing happens unless the handle is a function; it unsubscribes exactly when the call does not fail, and a failure is only logged |
| Clock.StartOfDay | components/AlarmSystem.js:1209-1210 | local midnight is at most `t`, less than a day before it, and a whole number of days |
| Clock.WeekdayOf | components/AlarmSystem.js:1025 | `getDay()` is between 0 and 6 |
| Clock.WeekdayNextDay | components/AlarmSystem.js:1025 | one day later the weekday advances by one, modulo 7 |
| Clock.HourMinuteText | components/AlarmSystem.js:753-757 | five characters with ':' in the middle, the zero-padded hour before it and the zero-padded minute after |
| Clock.FormatHourMinute | components/AlarmSystem.js:753-757 | `formatHourMinute` always yields five characters |
| Clock.HourMinuteFields | components/AlarmSystem.js:1229-1237 | splitting a formatted time on ':' and applying `Number` gives back the hour and the minute |
| Clock.HourMinuteRoundTrip | components/AlarmSystem.js:1229-1237 | reading a formatted time back as minutes gives the minute of the day |
| Clock.FormatRoundTrip | components/AlarmSystem.js:1024 | reading `formatHourMinute(now)` back gives now's minute of the day |
| Clock.HourMinuteOrder | components/AlarmSystem.js:1064 | formatted times compare as strings exactly as the minutes they name, and are equal only for equal minutes |
| Clock.ClockMinutes | components/AlarmSystem.js:1229-1237 | two unreadable fields count as 0 minutes (`|| 0`); on "HH:MM" text the reading is the minute of the day, by Clock.HourMinuteRoundTrip |
| Clock.DateOf | components/AlarmSystem.js:1298-1299 | the civil date of an instant is valid, has a four-digit year, and its midnight is the instant's start of day |
| Clock.IsoDay | components/AlarmSystem.js:1299 | `toISOString().slice(0, 10)`: ten characters that parse back to the date whose midnight is the instant's start of day |
| Clock.IsoDayOrder | components/AlarmSystem.js:1299 | the day keys of two instants compare as text exactly as their days do, and are equal exactly on the same day |
| Clock.IsoDayOfDate | screens/telas_dependentes/IndexTelaDependente.js:306-308 | every instant of a date's day has that date's ISO text as its key |
| Calendar.DateOfDay | components/AlarmSystem.js:1299 | the date with a given day number: valid, four-digit year, and its day number is the one given |
| Calendar.DateOfDayNumber | components/AlarmSystem.js:1299 | a date's day number leads back to the same date |
| Lookup.FirstIndex | screens/forms/FormAlerta.js:317 | the first element with the key: none exactly when no element has it, and no earlier element has it; the same search serves the alert list's `find` by id and the type-icon table |
| Lookup.FirstIndexAt | screens/menus/AlertasMenu.js:279 | an element whose key no earlier element carries is the one the search finds |
| Lookup.NameOf | screens/forms/dependentes/FormAlertaDependentes.js:230 | `find(r => r.id === id)?.nome`: none exactly when no document has the id, otherwise the name of a document with that id |
| Lookup.NameOfUnique | screens/forms/dependentes/FormAlertaDependentes.js:230 | with unique ids the name found is that of the one document with the id |
| Login.ValidateEmail | screens/auth/LoginScreen.js:309-312 | an accepted address has no whitespace and exactly one '@' |
| Login.ValidateEmailMatchesPattern | screens/auth/LoginScreen.js:309-312 | the computation accepts exactly the strings `/^[^\s@]+@[^\s@]+\.[^\s@]+$/` matches |
| Login.LeadingSpaceRejected | screens/auth/LoginScreen.js:309-312 | a string starting with whitespace is rejected |
| Login.LoginMessage | screens/auth/LoginScreen.js:251-266 | the generic sign-in message appears exactly for codes other than the four known ones |
| Login.SignInOutcome | screens/auth/LoginScreen.js:217-268 | the attempt is blocked exactly when a field is empty; otherwise it signs in exactly when the service accepts, and a failure shows the message for its code |
| Login.SpacesAreNotEmpty | screens/auth/LoginScreen.js:218 | a password of spaces is not treated as empty |
| Login.ResetMessage | screens/auth/LoginScreen.js:346-361 | the generic reset message appears exactly for codes other than the four known ones |
| Login.PasswordReset | screens/auth/LoginScreen.js:315-362 | 'Campo obrigatório' exactly for blank input; 'Email inválido' exactly for non-blank input the pattern rejects; sent exactly for a valid address the service accepts; a failure shows the message for its code |
| Login.PaddedAddressIsInvalid | screens/auth/LoginScreen.js:320-327 | " a@b.c" passes the blank check but is rejected as invalid, because the pattern is applied to the untrimmed text |
| Login.OpenDialog | screens/auth/LoginScreen.js:290-301 | opening the dialog shows it prefilled with the login e-mail and leaves the sent flag alone |
| Login.CloseDialog | screens/auth/LoginScreen.js:125-131 | once the dialog is hidden its e-mail is cleared and the sent flag reset |
| Login.AfterReset | screens/auth/LoginScreen.js:334-336 | the dialog is marked as sent exactly when it already was or the reset succeeded; visibility and e-mail are unchanged |
| PhoneMask.FirstRun | screens/navigation/PerfilScreen.js:60-65 | the leftmost position at or after `from` where a run of `len` digits starts, with none before it; none when there is no such run |
| PhoneMask.FormatPhone | screens/navigation/PerfilScreen.js:56-67 | fewer than three digits are returned as they are; the full mask is PhoneMask.FormatPhoneIsMasked |
| PhoneMask.RunAfterArea | screens/navigation/PerfilScreen.js:61 | after "(DD) " the first run of digits of the searched length starts right after the area code, if the remaining digits are long enough |
| PhoneMask.FormatPhoneIsMasked | screens/navigation/PerfilScreen.js:56-67 | the three regular-expression replacements equal the closed-form mask of the digits |
| PhoneMask.MaskedDigits | screens/navigation/PerfilScreen.js:56-67 | the closed-form mask keeps the first eleven digits |
| PhoneMask.MaskKeepsDigits | screens/navigation/PerfilScreen.js:56-67 | the mask keeps the first eleven digits of the input, in order, and adds no digit |
| PhoneMask.FormatPhoneIdempotent | screens/navigation/PerfilScreen.js:56-67 | formatting an already formatted number changes nothing |
| PhoneMask.MaskLayout | screens/navigation/PerfilScreen.js:58-66 | 7 to 10 digits give "(DD) DDDD-D…"; 11 or more give "(DD) DDDDD-DDDD", dropping the rest |
| ProfileWizard.Start | screens/forms/FormUser.js:65-97 | the wizard opens on the first step with the birth date set to the current time |
| ProfileWizard.Age | screens/forms/FormUser.js:412-414 | the age is the number of whole 365.25-day years elapsed: the largest count whose span fits in the elapsed time |
| ProfileWizard.Blocker | screens/forms/FormUser.js:405-440 | the name and phone steps block exactly on blank text, the gender and blood-type steps exactly on no choice, the birth-date step exactly under 13 whole years; the allergies and conditions steps never block |
| ProfileWizard.Complete | screens/forms/FormUser.js:478-495 | a profile is written exactly when a user is signed in; it keeps name and phone, trims allergies and conditions, takes the user's e-mail and is marked complete |
| ProfileWizard.Next | screens/forms/FormUser.js:402-459 | "next" is blocked exactly when the step's check fails; otherwise it advances one step, or saves the profile exactly on the last step |
| ProfileWizard.Back | screens/forms/FormUser.js:466-470 | "back" steps back one step, and does nothing on the first |
| ProfileWizard.EnterPhone | screens/forms/FormUser.js:557 | the phone field holds the masked text, which masking again leaves unchanged |
| ProfileWizard.BirthDateRule | screens/forms/FormUser.js:411-422 | the birth-date step passes exactly when at least 13 Julian years have elapsed; a birth date in the future is refused |
| ProfileWizard.OptionalStepsAdvance | screens/forms/FormUser.js:440 | the allergies and conditions steps never block "next" |
| ProfileWizard.LastStepCompletes | screens/forms/FormUser.js:454-458 | "next" on the last step always saves the profile |
| Profile.Load | screens/navigation/PerfilScreen.js:88-135 | nothing loads without a user; a stored document's name falls back to the display name and then to ""; a missing document is created from the user's name and e-mail and is what gets shown |
| Profile.Save | screens/navigation/PerfilScreen.js:181-212 | nothing is written without a user, or with a blank name; otherwise the trimmed fields are written, and the display name is changed to the untrimmed name exactly when it differs |
| Profile.SaveThenLoad | screens/navigation/PerfilScreen.js:100-111 | loading after a save shows the trimmed fields that were saved |
| Profile.SelectBloodType | screens/navigation/PerfilScreen.js:176-179 | choosing a blood type changes only that field and closes the picker |
| Profile.OnDateChange | screens/navigation/PerfilScreen.js:147-159 | a dismissed picker leaves the profile as it was; a chosen date replaces only the birth date |
| Profile.AvatarLetter | screens/navigation/PerfilScreen.js:365 | the avatar is one letter: the upper-cased first letter of the name, or "U" without a name |
| DependentForm.CheckList | screens/forms/dependentes/FormDependentes.js:66-112 | every check passes exactly when name, e-mail, e-mail pattern, gender, relationship and birth date (not in the future) pass, and, when adding, both password checks (present, at least six characters) pass |
| DependentForm.FirstFailure | screens/forms/dependentes/FormDependentes.js:66-112 | no message exactly when every check passes; otherwise the message of the first check that fails |
| DependentForm.Validate | screens/forms/dependentes/FormDependentes.js:66-112 | the form is refused exactly when one of its checks fails |
| DependentForm.NameCheckedFirst | screens/forms/dependentes/FormDependentes.js:69-72 | a blank name is the message shown, whatever else is wrong |
| DependentForm.ShortPasswordReported | screens/forms/dependentes/FormDependentes.js:96-99 | a password shorter than six characters is reported when adding, once the earlier checks pass |
| DependentForm.EditingIgnoresPassword | screens/forms/dependentes/FormDependentes.js:90-100 | when editing, the password does not affect the outcome |
| DependentForm.ApiMessage | screens/forms/dependentes/FormDependentes.js:137-149 | "already in use" messages become the Portuguese text; a message naming no known code is shown as it is, or the generic text when empty |
| DependentForm.CreateAccount | screens/forms/dependentes/FormDependentes.js:115-151 | a created account yields its uid; a service error yields its body's message or 'Erro ao criar usuário'; a thrown error yields its message; each is mapped by the message table |
| DependentForm.PlainMessagePassesThrough | screens/forms/dependentes/FormDependentes.js:146-147 | a message naming none of the known codes is shown unchanged |
| DependentForm.HttpErrorWithoutBody | screens/forms/dependentes/FormDependentes.js:130-132 | a service error without a body shows 'Erro ao criar usuário' |
| DependentForm.SaveDependent | screens/forms/dependentes/FormDependentes.js:154-210 | an invalid form writes nothing; a valid one writes the trimmed name under both name fields; an edit updates the same document and keeps its account; an addition creates the account first and stores its uid |
| DependentForm.ParentescoLabel | screens/forms/dependentes/FormDependentes.js:229-232 | a stored relationship that is one of the options is shown as it is; anything else shows the placeholder |
| DependentForm.ParentescoLabelStable | screens/forms/dependentes/FormDependentes.js:229-232 | the label shown is an option or the placeholder, and looking it up again gives the same label |
| DependentForm.Prefill | screens/forms/dependentes/FormDependentes.js:39-51 | editing fills the name from nome, then nomeCompleto, then ""; the password starts blank; a missing birth date becomes the current time |
| DependentForm.PrefillKeepsValidity | screens/forms/dependentes/FormDependentes.js:39-51 | a stored dependant whose fields were valid passes validation again when edited with a blank password |
| AlertForms.Remove | screens/forms/FormAlerta.js:259 | filtering a day out never lengthens the selection |
| AlertForms.RemoveMembers | screens/forms/FormAlerta.js:259 | filtering a day out keeps exactly the other days |
| AlertForms.Toggle | screens/forms/FormAlerta.js:257-261 | a tapped day is in the new selection exactly when it was not in the old one; every other day keeps its membership; an unselected day is appended at the end |
| AlertForms.ToggleNoDup | screens/forms/FormAlerta.js:257-261 | tapping days never creates a duplicate in the selection |
| AlertForms.ToggleTwice | screens/forms/FormAlerta.js:257-261 | tapping a day twice gives back the same set of days, and the very same sequence when the day was not selected |
| AlertForms.AbbrevsNoDup | screens/forms/FormAlerta.js:38-46 | the week's seven abbreviations are distinct |
| AlertForms.SevenMeansEveryDay | screens/forms/FormAlerta.js:549-551 | for a duplicate-free selection of the week's days, a count of seven means every day is selected |
| AlertForms.RowSize | screens/forms/FormAlerta.js:34 | a row holds four days on a screen narrower than 360 points and seven otherwise |
| AlertForms.Chunks | screens/forms/FormAlerta.js:403-408 | every row is non-empty and at most the row size, and every row but the last is full |
| AlertForms.ChunksFlatten | screens/forms/FormAlerta.js:403-408 | reading the rows in order gives back the days in order |
| AlertForms.WeekRows | screens/forms/FormAlerta.js:403-408 | the grid's rows, read in order, are the week in order |
| AlertForms.CountSummary | screens/forms/FormAlerta.js:546-552 | no line for no day; 'Todos os dias' exactly for seven; '1 dia selecionado' for one; otherwise the count with the plural |
| AlertForms.Frequency | screens/forms/FormAlerta.js:575-580 | seven days read "Todos os dias"; no day reads as empty text |
| AlertForms.JoinCommaSpace | screens/forms/FormAlerta.js:579 | joining on ", " equals joining on "," once every later day carries a leading space |
| AlertForms.FrequencyListsDays | screens/forms/FormAlerta.js:575-580 | other than seven, the line split on commas gives back the days in order, every later one behind one space |
| AlertForms.SaveOwn | screens/forms/FormAlerta.js:263-285 | missing fields are reported exactly when the medicine, the days or a non-blank dosage is missing; then a missing user; otherwise the alert belongs to the user, keeps the medicine and days, trims the dosage, is active and stores the time as HH:MM |
| AlertForms.SavedTimeReadsBack | screens/forms/FormAlerta.js:281 | the stored "HH:MM" has five characters and reads back as the minute of the day that was picked |
| AlertForms.SpacesShowSummaryButDoNotSave | screens/forms/FormAlerta.js:559 | the summary appears for a dosage of spaces, which the save then refuses; the dependent form hides it |
| AlertForms.MedicineLabel | screens/forms/FormAlerta.js:316-319 | the picker shows the name of a loaded medicine with the selected id, or 'Selecionar medicamento' when none has it |
| AlertForms.OpenDependentForm | screens/forms/dependentes/FormAlertaDependentes.js:32-38 | the form stays open exactly when both a user and a dependent id are present |
| AlertForms.SaveForDependent | screens/forms/dependentes/FormAlertaDependentes.js:91-110 | nothing is written exactly when a field is missing; otherwise the alert names the user and the dependent, keeps medicine and days, stores HH:MM and the trimmed dosage |
| AlertForms.DependentAlertIsComplete | screens/forms/dependentes/FormAlertaDependentes.js:91-110 | a saved dependent's alert names a user, a dependent and a dosage, and its summary was on screen |
| AlertForms.FormsAgreeOnFields | screens/forms/dependentes/FormAlertaDependentes.js:92-95 | both forms refuse exactly the same fields |
| AlertForms.SavedMessage | screens/forms/dependentes/FormAlertaDependentes.js:111 | the success message names the dependent by nome when it has one |
| MedicineForms.FindTipo | screens/forms/FormRemedio.js:104 | the lookup finds the first entry with the value, and none exactly when no entry has it |
| MedicineForms.FindDistinct | screens/forms/FormRemedio.js:104 | in a table of distinct values, looking up an entry's value finds that entry |
| MedicineForms.TiposDistinct | screens/forms/FormRemedio.js:35-44 | the eight medicine types have distinct values |
| MedicineForms.PickedTipoShowsItsEntry | screens/forms/FormRemedio.js:103-116 | a type picked from the list shows its own label, icon and colour |
| MedicineForms.UnknownTipoShowsDefaults | screens/forms/FormRemedio.js:103-116 | a value outside the list shows 'Selecionar tipo', the chevron and grey |
| MedicineForms.TipoLabel | screens/forms/FormRemedio.js:103-106 | a value outside the list shows "Selecionar tipo"; any other label is the caption of an entry with that value |
| MedicineForms.TipoIcon | screens/forms/FormRemedio.js:108-111 | a value outside the list shows "chevron-down"; any other icon is that of an entry with that value |
| MedicineForms.TipoColor | screens/forms/FormRemedio.js:113-116 | a value outside the list shows "#8A8A8A"; any other colour is that of an entry with that value |
| MedicineForms.Prefill | screens/forms/FormRemedio.js:46-56 | editing fills every field from the stored medicine, a missing or empty one with "" |
| MedicineForms.SaveMedicine | screens/forms/FormRemedio.js:58-96 | missing fields exactly when name, purpose or type is empty before trimming; an edit updates the edited document; either way the trimmed fields and the user are written |
| MedicineForms.SpacesNameStoredEmpty | screens/forms/FormRemedio.js:60-69 | a name of spaces passes the check and is stored as the empty string |
| MedicineForms.SaveMedicineTrimmed | screens/forms/FormRemedio.js:60-76 | the corrected check refuses exactly a blank name or purpose or an empty type; what it accepts is written as before |
| MedicineForms.TrimmedCheckStoresNames | screens/forms/FormRemedio.js:60-76 | with the corrected check every stored medicine has a non-empty name and purpose |
| MedicineForms.EditRoundTrip | screens/forms/FormRemedio.js:46-80 | saving an edit of a prefilled, already-trimmed medicine updates the same document with the same fields |
| MedicineForms.OldPrefill | screens/forms_remedio/RemedioForm.js:13-21 | the older form's edit copies the four fields as they are; a new one starts empty |
| MedicineForms.SaveOld | screens/forms_remedio/RemedioForm.js:23-47 | nothing is written exactly when a field is missing or empty; an edit updates the four fields, an addition also stores the user; the screen goes back exactly when the write succeeds |
| MedicineForms.OldEditRoundTrip | screens/forms_remedio/RemedioForm.js:13-36 | re-saving an edited medicine with its four fields filled writes them back unchanged |
| MedicineForms.OldEmptyFormRefused | screens/forms_remedio/RemedioForm.js:25-28 | a new medicine's empty form is refused with 'Preencha todos os campos.' |
| AlertLists.CountActive | screens/menus/AlertasMenu.js:461 | the active count never exceeds the number of alerts |
| AlertLists.AlertStats | screens/menus/AlertasMenu.js:460-464 | the total is the number of alerts, split into active and inactive |
| AlertLists.Flipped | screens/menus/AlertasMenu.js:280 | a missing or false flag becomes true, a true one false |
| AlertLists.IsActive | screens/menus/AlertasMenu.js:461 | an alert is active exactly when its flag is missing or true |
| AlertLists.SetAtivo | screens/menus/AlertasMenu.js:288-290 | alerts with the id get the new flag and all others are kept as they were |
| AlertLists.ToggleAlert | screens/menus/AlertasMenu.js:277-295 | an unknown id changes nothing; otherwise the list keeps its length and every other alert |
| AlertLists.SetAtivoCount | screens/menus/AlertasMenu.js:461 | with unique ids, setting one alert's flag changes the active count by exactly that alert's change |
| AlertLists.UnchangedWithout | screens/menus/AlertasMenu.js:288-290 | setting a flag on an id no alert has leaves the list as it was |
| AlertLists.ToggleStats | screens/menus/AlertasMenu.js:277-295 | toggling a listed alert keeps the total, moves it between active and inactive, and leaves one with a missing flag counted as active |
| AlertLists.ParseDays | screens/menus/AlertasMenu.js:304-318 | no chips for a missing or empty value; otherwise at least one chip, and a stored list is used as it is |
| AlertLists.ParseJoinedDays | screens/menus/AlertasMenu.js:310-312 | days joined by commas parse back to the same days |
| AlertLists.JoinNotEmpty | screens/menus/AlertasMenu.js:310-312 | joining at least one non-empty day gives a non-empty text |
| AlertLists.TrimAllUntouched | screens/menus/AlertasMenu.js:311 | trimming days with no surrounding spaces changes nothing |
| AlertLists.DayLabelKeys | screens/menus/AlertasMenu.js:321-329 | every key of the label table is capitalised and maps to its own upper-case form |
| AlertLists.OwnLabelIsUpper | screens/menus/AlertasMenu.js:336-337 | looking up the lower-cased day never hits a capitalised key, so the chip is the upper-cased day |
| AlertLists.ListsAgreeOnLabels | screens/menus/dependentes/IndexDependentes.js:217 | the dependents' exact-key lookup gives the same chip as the own list's |
| AlertLists.OwnMedicineName | screens/menus/AlertasMenu.js:178-202 | a found document's name; then the title; then 'Remédio não encontrado' when a document exists, else 'Medicamento' |
| AlertLists.DependentMedicineName | screens/menus/dependentes/IndexDependentes.js:90-105 | the document's name when it has one, else the title, else 'Medicamento' |
| AlertLists.MedicineNamesDiffer | screens/menus/dependentes/IndexDependentes.js:90-105 | the two lists name a medicine differently exactly when its document has no name and the alert no title |
| AlertLists.DependentName | screens/menus/dependentes/IndexDependentes.js:111 | the dependant is named by nome, then nomeCompleto, then 'Dependente' |
| AlertLists.OwnCancelIds | screens/menus/AlertasMenu.js:243-248 | one id per day, each the medicine id, '_' and the day |
| AlertLists.DependentCancelIds | screens/menus/dependentes/IndexDependentes.js:157-164 | one id per day, each the medicine id, the dependant id and the day joined by '_' |
| AlertLists.DeleteOwnAsWritten | screens/menus/AlertasMenu.js:255-264 | the own deletion removes the alert and closes the dialog |
| AlertLists.OwnDeletionCancelsNothing | screens/menus/AlertasMenu.js:263 | an alert with days keeps all its notifications after the own list deletes it |
| AlertLists.DeleteOwn | screens/menus/AlertasMenu.js:243-264 | the corrected deletion removes the alert, closes the dialog and cancels the id of each of its days |
| AlertLists.DeleteOwnCancelsEveryDay | screens/menus/AlertasMenu.js:243-248 | each corrected cancellation names the alert's medicine and one of its days, one per day |
| AlertLists.DeleteDependent | screens/menus/dependentes/IndexDependentes.js:166-187 | the dependent deletion removes the alert and closes the dialog; it cancels notifications only for an alert with medicine, dependant and a list of days, and then one id per day |
| AlertLists.TextDaysNeverCancelled | screens/menus/dependentes/IndexDependentes.js:158 | days stored as text are never cancelled |
| AlertLists.OpenDependentList | screens/menus/dependentes/IndexDependentes.js:29-35 | the dependant's alert list stays open exactly when a user is signed in and a dependent id is given, and then loads that dependant |
| AlertLists.ListAndFormAdmitAlike | screens/menus/dependentes/IndexDependentes.js:29-35 | the list and the alert form it opens admit exactly the same dependants |
| DependentHome.FetchNext | screens/telas_dependentes/IndexTelaDependente.js:194-267 | the search fails exactly when some alert has no days; otherwise it finds no dose exactly when no alert is a candidate (due today, at or after now, not taken, medicine found), and else the candidate with the earliest time, the first one among equal times |
| DependentHome.Minutes | screens/telas_dependentes/IndexTelaDependente.js:277-281 | a time text has a number of minutes exactly when both its hour and minute parts are numbers |
| DependentHome.MinutesOfFormattedTime | screens/telas_dependentes/IndexTelaDependente.js:277-281 | reading an "HH:MM" text back gives the minute of the day it was made from |
| DependentHome.IsTimeCorrect | screens/telas_dependentes/IndexTelaDependente.js:269-287 | marking is allowed only for a next dose whose time reads as a number |
| DependentHome.TimeWindow | screens/telas_dependentes/IndexTelaDependente.js:280-284 | for a dose at minute t, marking is allowed exactly when the current minute lies between t - 5 and t + 30, without wrapping past midnight |
| DependentHome.MarkTaken | screens/telas_dependentes/IndexTelaDependente.js:289-318 | a record is written exactly when there is a next dose inside the window; its day key is the ISO date of the confirming instant, and it carries the medicine's name, the dose's dependant, medicine, time and dosage |
| DependentHome.TakenDoseLeavesSelection | screens/telas_dependentes/IndexTelaDependente.js:226-234 | once a dose is recorded the same alert no longer competes, and every alert with another key competes exactly as before |
| DependentHome.JsRem | screens/telas_dependentes/IndexTelaDependente.js:481 | the remainder takes the sign of the dividend and is smaller than the divisor in size |
| DependentHome.TimeUntilNext | screens/telas_dependentes/IndexTelaDependente.js:467-488 | the text is empty exactly when there is no next dose |
| DependentHome.UntilNextIsNextOccurrence | screens/telas_dependentes/IndexTelaDependente.js:471-478 | the wait is positive, at most a day, and ends exactly at the dose's minute of the day |
| DependentHome.UntilNext | screens/telas_dependentes/IndexTelaDependente.js:470-479 | the wait ends at today's hour:minute or at tomorrow's; for a time of day it is positive and at most a day |
| DependentHome.TimeUntilNextShape | screens/telas_dependentes/IndexTelaDependente.js:480-487 | with less than an hour left, the text gives only the minutes |
| DependentHome.JoinBoxes | screens/telas_dependentes/IndexTelaDependente.js:375 | joining boxes of at most one character gives one character per non-empty box |
| DependentHome.JoinSingles | screens/telas_dependentes/IndexTelaDependente.js:375 | joining one-character boxes spells out their characters |
| DependentHome.DigitChange | screens/telas_dependentes/IndexTelaDependente.js:358-380 | non-digits are stripped; text leaving more than one digit is ignored; otherwise only the edited box changes; a check is requested only from the last box, with six digits entered |
| DependentHome.DigitChangeChecksWhenFull | screens/telas_dependentes/IndexTelaDependente.js:373-379 | a check is requested exactly when the last box gets a digit and every box is filled |
| DependentHome.Verify | screens/telas_dependentes/IndexTelaDependente.js:389-445 | both outcomes clear the boxes; settings open exactly when the entry equals the stored password, closing the dialog; otherwise the wrong-password alert shows |
| DependentHome.ManualVerify | screens/telas_dependentes/IndexTelaDependente.js:447-456 | an entry shorter than six asks for all digits and changes nothing; a full entry is verified |
| DependentHome.SettingsPress | screens/telas_dependentes/IndexTelaDependente.js:338-356 | without a stored password the dialog does not open; with one it opens cleared |
| DependentHome.Close | screens/telas_dependentes/IndexTelaDependente.js:458-461 | closing hides the dialog and clears the boxes |
| DependentHome.TypingThePinOpensSettings | screens/telas_dependentes/IndexTelaDependente.js:358-398 | typing the six-digit password one digit per box into the fresh dialog checks exactly that password, which opens settings |
| History.PairLtIrreflexive | screens/menus/HistoricoMenu.js:59-64 | the (day, time) order puts no record before itself |
| History.PairLtTransitive | screens/menus/HistoricoMenu.js:59-64 | the (day, time) order is transitive |
| History.PairLtTrichotomy | screens/menus/HistoricoMenu.js:59-64 | any two distinct (day, time) pairs are ordered one way or the other |
| History.Insert | screens/menus/HistoricoMenu.js:59-64 | inserting adds exactly the one element to the list's contents |
| History.SortDesc | screens/menus/HistoricoMenu.js:59-64 | sorting keeps exactly the same records |
| History.InsertedFrom | screens/menus/HistoricoMenu.js:59-64 | every element after an insertion is the new one or was already there |
| History.InsertSorted | screens/menus/HistoricoMenu.js:59-64 | inserting into a newest-first list keeps it newest first |
| History.SortDescSorted | screens/menus/HistoricoMenu.js:59-64 | the sorted list runs newest day first and, within a day, latest time first |
| History.SameDayTimesDescend | screens/menus/HistoricoMenu.js:59-64 | in a list sorted by (day, time), records of one day run from the latest time down |
| History.AddKey | screens/menus/HistoricoMenu.js:129-139 | adding a day key gives the old keys and the new one |
| History.AddKeyDescending | screens/menus/HistoricoMenu.js:204 | adding a key keeps the key list strictly descending |
| History.Keys | screens/menus/HistoricoMenu.js:204 | the day keys run strictly newest first and are exactly the days of the records |
| History.GroupOf | screens/menus/HistoricoMenu.js:129-139 | a day's group holds each record of that day as often as the list does, and nothing else |
| History.GroupsFor | screens/menus/HistoricoMenu.js:203-204 | one group per key, in key order, each holding that day's records |
| History.HeadNotInTail | screens/menus/HistoricoMenu.js:204 | the newest day does not occur again among the other keys |
| History.CountInGroups | screens/menus/HistoricoMenu.js:129-139 | across the groups, a record appears as often as in the list when its day has a key, else not at all |
| History.GroupsPartition | screens/menus/HistoricoMenu.js:129-139 | grouping by day neither loses nor duplicates a record |
| History.RecordInItsGroup | screens/menus/HistoricoMenu.js:129-139 | each record sits in the group of its own day, and no other group holds it |
| History.GroupsNewestFirst | screens/menus/HistoricoMenu.js:204 | groups come newest day first, and no day has two groups |
| History.GroupKeepsOrder | screens/menus/HistoricoMenu.js:129-139 | taking one day's records out of a sorted list keeps them sorted |
| History.CountText | screens/menus/HistoricoMenu.js:195 | the count reads "n medicamento", with an 's' exactly when n is not 1 |
| OwnHistory.Range | screens/menus/HistoricoMenu.js:77-110 | 'todos' has no range; every other filter gives first and last keys of ten characters |
| OwnHistory.Filtered | screens/menus/HistoricoMenu.js:47-57 | the filter keeps each record whose day key lies in the range, as often as it occurs, and drops the rest |
| OwnHistory.ShownIsSortedSelection | screens/menus/HistoricoMenu.js:47-64 | the list shown is newest first and holds exactly the records the filter keeps |
| OwnHistory.Shown | screens/menus/HistoricoMenu.js:47-64 | the list shown holds exactly the records whose key lies in the filter's range, with their multiplicities |
| OwnHistory.Window | screens/menus/HistoricoMenu.js:77-110 | each filter's days end today, or yesterday for 'ontem' |
| OwnHistory.RangeMatchesWindow | screens/menus/HistoricoMenu.js:52-53 | comparing keys as text admits exactly the days inside the filter's window |
| OwnHistory.DaysBack | screens/menus/HistoricoMenu.js:88-96 | the day k days back, within a year, has a four-digit year and is exactly k days before today |
| OwnHistory.HojeKeepsToday | screens/menus/HistoricoMenu.js:82-86 | 'hoje' keeps exactly today |
| OwnHistory.SemanaKeepsEightDays | screens/menus/HistoricoMenu.js:94-100 | the '7 dias' filter keeps eight days: today and the seven before it |
| OwnHistory.MesKeepsMonthSoFar | screens/menus/HistoricoMenu.js:101-106 | the '30 dias' filter keeps the current month up to today, not thirty days |
| OwnHistory.NoFutureDays | screens/menus/HistoricoMenu.js:52-53 | no filter but 'todos' shows a day after today |
| OwnHistory.DayHeader | screens/menus/HistoricoMenu.js:112-127 | a key that is not a date gives the invalid-date header and nothing else does |
| OwnHistory.HeaderOfKey | screens/menus/HistoricoMenu.js:112-127 | the header says 'Hoje' exactly for today and 'Ontem' exactly for yesterday, and shows the key's own day |
| OwnHistory.GroupTimesDescend | screens/menus/HistoricoMenu.js:191-200 | inside a day group the records run from the latest time to the earliest |
| OwnHistory.DayGroups | screens/menus/HistoricoMenu.js:129-204 | the group keys strictly descend as text, and every record of a group has the group's day, inside the filter's range |
| DependentHistory.OfUser | screens/menus/dependentes/HistoricoDependentes.js:65-69 | the query keeps exactly the signed-in user's records |
| DependentHistory.QueryShowsOtherDependents | screens/menus/dependentes/HistoricoDependentes.js:67 | the query filters by user only, so a record of any of the user's dependants shows up |
| DependentHistory.Query | screens/menus/dependentes/HistoricoDependentes.js:65-69 | the snapshot holds exactly the user's records, with their multiplicities; DependentHistory.QueryNewestFirst states the order |
| DependentHistory.QueryNewestFirst | screens/menus/dependentes/HistoricoDependentes.js:68-69 | the snapshot arrives newest day first, latest time first |
| DependentHistory.MedicineName | screens/menus/dependentes/HistoricoDependentes.js:86-98 | a record always has a name: the stored medicine's name, else the record's own name, else 'Medicamento' |
| DependentHistory.IsoSplits | screens/menus/dependentes/HistoricoDependentes.js:185 | a date key splits into its year, month and day |
| DependentHistory.ParsedIsoDay | screens/menus/dependentes/HistoricoDependentes.js:185-186 | rebuilding the date of a key from year 100 on gives the same day |
| DependentHistory.Since | screens/menus/dependentes/HistoricoDependentes.js:173-179 | 'todos' and 'ontem' set no lower bound; the others do |
| DependentHistory.Filtered | screens/menus/dependentes/HistoricoDependentes.js:180-202 | the filter keeps each record it admits, as often as it occurs, in snapshot order |
| DependentHistory.WholeDaysReach | screens/menus/dependentes/HistoricoDependentes.js:176-179 | a whole number of days reaches a time of day exactly when it is positive, or zero at midnight |
| DependentHistory.MidnightSince | screens/menus/dependentes/HistoricoDependentes.js:176-179 | a day's midnight is at or after the bound exactly from the day the bound falls on, or the next day once the clock is past midnight |
| DependentHistory.KeepsByDay | screens/menus/dependentes/HistoricoDependentes.js:188-195 | 'hoje' keeps today and later; 'semana' and 'mes' keep days from 7 or 30 days back, one day fewer once the clock is past midnight |
| DependentHistory.Keeps | screens/menus/dependentes/HistoricoDependentes.js:173-202 | 'todos', 'ontem' (the default branch) and a day that is not a string keep the record; a string day that does not parse is dropped by every other filter |
| DependentHistory.NonStringDayKept | screens/menus/dependentes/HistoricoDependentes.js:196-199 | a record whose day cannot be split is kept by every filter |
| DependentHistory.BrokenKeyDropped | screens/menus/dependentes/HistoricoDependentes.js:185-195 | a key that does not rebuild into a date is dropped by 'hoje', 'semana' and 'mes' |
| DependentHistory.EmptyKeyDoesNotParse | screens/menus/dependentes/HistoricoDependentes.js:185-186 | an empty key does not rebuild into a date |
| DependentHistory.SeventhDayDiffers | screens/menus/dependentes/HistoricoDependentes.js:176-177 | past midnight, the seventh day back is on the user's own '7 dias' list but not on the dependant's |
| DependentHistory.SortGroups | screens/menus/dependentes/HistoricoDependentes.js:221 | each group keeps its day and its records, sorted latest time first |
| DependentHistory.SortGroupsKeepsRecords | screens/menus/dependentes/HistoricoDependentes.js:217-222 | sorting the groups neither loses nor duplicates a record |
| DependentHistory.DayGroupsPartition | screens/menus/dependentes/HistoricoDependentes.js:205-222 | grouping the filtered records neither loses nor duplicates one |
| DependentHistory.DayGroups | screens/menus/dependentes/HistoricoDependentes.js:205-222 | the group keys strictly descend as text, and every record of a group has the group's day |
| DependentHistory.IsoDayGroupsByDate | screens/menus/dependentes/HistoricoDependentes.js:217-218 | on ISO day keys an earlier group holds a later calendar date, the order `new Date(b) - new Date(a)` sorts by |
| DependentHistory.DayGroupsOrdered | screens/menus/dependentes/HistoricoDependentes.js:217-222 | groups run newest day first; inside a group every record has that day and times run latest first |
| DependentHistory.RecordInItsDayGroup | screens/menus/dependentes/HistoricoDependentes.js:205-214 | each record lands in the group of its own day |
| DependentHistory.DayLabel | screens/menus/dependentes/HistoricoDependentes.js:148-171 | a day that is not text is shown as it is, and nothing else is |
| DependentHistory.HeadersAgree | screens/menus/dependentes/HistoricoDependentes.js:148-171 | for keys from year 100 on, both history screens classify a day alike |
| DependentsMenu.Age | screens/menus/dependentes/DependentesMenu.js:109-122 | a missing birth date gives age 0; the age is not a number exactly when the value is not a date |
| DependentsMenu.AgeIsCompletedYears | screens/menus/dependentes/DependentesMenu.js:114-121 | the age counts the birthdays reached: that anniversary is not after today |
| DependentsMenu.BothFormsAgree | screens/menus/dependentes/DependentesMenu.js:113 | a stored timestamp and a plain date value naming the same day give the same age |
| DependentsMenu.AgeNotNegative | screens/menus/dependentes/DependentesMenu.js:114-121 | someone born on or before today is not of negative age |
| DependentsMenu.GroupOf | screens/menus/dependentes/DependentesMenu.js:96-102 | a child exactly under 18; an adult exactly from 18 to under 60; an age that is not a number falls to the elder group |
| DependentsMenu.Avatar | screens/menus/dependentes/DependentesMenu.js:95-103 | the avatar is one of the six faces |
| DependentsMenu.AvatarDecodes | screens/menus/dependentes/DependentesMenu.js:95-103 | the avatar tells the age group and whether the dependant is recorded as male |
| DependentsMenu.OnlyMasculinoIsMale | screens/menus/dependentes/DependentesMenu.js:95-103 | only 'masculino' gets the male faces |
| DependentsMenu.UnreadableBirthShowsElder | screens/menus/dependentes/DependentesMenu.js:109-126 | a birth value that is not a date shows an elder |
| DependentsMenu.AvatarColor | screens/menus/dependentes/DependentesMenu.js:105-107 | the colour is blue or purple |
| DependentsMenu.ColorMatchesAvatar | screens/menus/dependentes/DependentesMenu.js:95-107 | the card is blue exactly when its face is male |
| MedicineList.IconKey | screens/menus/RemediosMenu.js:284 | the key is never empty; a non-empty type is looked up lower-cased |
| MedicineList.TipoIcon | screens/menus/RemediosMenu.js:283-286 | the style is always an entry of the map, the 'outro' entry for an unknown type |
| MedicineList.LowerKeepsLowercase | screens/menus/RemediosMenu.js:284 | lower-casing leaves lower-case ASCII letters alone |
| MedicineList.IconMapMatchesTipos | screens/menus/RemediosMenu.js:93-102 | the icon map lists the form's eight type values in the same order |
| MedicineList.FormTipoShowsItsIcon | screens/menus/RemediosMenu.js:283-286 | a type saved by the medicine form shows that type's own icon and colour |
| MedicineList.TipoIconIgnoresCase | screens/menus/RemediosMenu.js:284 | the lookup ignores letter case |
| MedicineList.MissingTipoIsOutro | screens/menus/RemediosMenu.js:284-285 | a missing or empty type shows the 'outro' icon |
| MedicineList.UpdatedLabelOf | screens/menus/RemediosMenu.js:293-313 | no label exactly when the stamp is missing or falsy (`if (!timestamp) return null`) |
| MedicineList.LabelByElapsed | screens/menus/RemediosMenu.js:298-310 | 'Hoje' exactly under a day old, 'Ontem' exactly from one to two days, a date exactly from seven days |
| MedicineList.DaysAgoBetween | screens/menus/RemediosMenu.js:306-307 | from two up to seven days, the label reads 'd dias atrás' with d the whole days elapsed |
| MedicineList.FutureSaysNegativeDays | screens/menus/RemediosMenu.js:300-307 | a time stamp in the future reads as a negative number of days ago |
| MedicineList.UnreadableStampIsInvalidDate | screens/menus/RemediosMenu.js:297-309 | a value that is not a date reads 'Invalid Date' rather than nothing |
| MedicineList.CardName | screens/menus/RemediosMenu.js:372 | the card always shows a name, the medicine's own when it has one |
| MedicineList.TipoCaption | screens/menus/RemediosMenu.js:376-378 | a type is shown with its first letter upper-cased and the rest as stored; without one, 'Não informado' |
| MedicineList.CaptionLosesAccent | screens/menus/RemediosMenu.js:377 | the 'capsula' type is captioned 'Capsula', not the form's 'Cápsula' |
| MedicineList.CountHeader | screens/menus/RemediosMenu.js:615-617 | both words of the header agree with the count in number |
| MedicineList.DosagePrefill | screens/menus/RemediosMenu.js:229-232 | the dialog starts with the medicine's dosage, or '1' |
| MedicineList.TakenRecord | screens/menus/RemediosMenu.js:241-257 | the record is never without a dosage, keeps a typed one, names the medicine and the user, has the ISO date of the instant as its day key and that instant's minute of the day as its "HH:MM" |
| MedicineList.UntouchedDialogStoresPrefill | screens/menus/RemediosMenu.js:231-254 | confirming without editing stores the medicine's own dosage, or '1' |
| MedicineList.TakenShowsInHistory | screens/menus/RemediosMenu.js:250-257 | the record written is listed by the user's own history under 'Todos' |
| SettingsScreen.Load | screens/navigation/ConfigScreen.js:37-49 | a stored object replaces every setting with its stored value and keeps the storage; with nothing stored the screen is unchanged |
| SettingsScreen.Toggle | screens/navigation/ConfigScreen.js:84-104 | only the pressed setting changes, its on state flipped; storage holds the new settings exactly when the write succeeded; the warning appears exactly when notifications are turned off |
| SettingsScreen.ToggleTwice | screens/navigation/ConfigScreen.js:84-89 | pressing the same switch twice restores the settings exactly when that key was present |
| SettingsScreen.SavedSettingsReload | screens/navigation/ConfigScreen.js:37-49 | after a successful write, the next visit loads the settings that were written |
| SettingsScreen.Reset | screens/navigation/ConfigScreen.js:133-139 | a successful reset empties storage and turns all three switches on; a failed one changes nothing |
| SettingsScreen.ResetSurvivesReload | screens/navigation/ConfigScreen.js:27-31 | after a reset the next visit starts exactly as a first visit, with every setting on |
| SettingsScreen.Press | screens/navigation/ConfigScreen.js:248-256 | pressing a row changes the settings exactly when the row is enabled; a disabled row changes nothing and shows no warning |
| SettingsScreen.LockedWhileOff | screens/navigation/ConfigScreen.js:170-184 | while notifications are off, presses on the sound and vibration rows change nothing |
| HelpScreen.ToggleFaq | screens/navigation/AjudaScreen.js:340-342 | tapping the open question closes everything; tapping any other opens exactly that one |
| HelpScreen.ShownAnswers | screens/navigation/AjudaScreen.js:463 | an answer is shown exactly for a listed question that is the open one |
| HelpScreen.AtMostOneAnswer | screens/navigation/AjudaScreen.js:463 | with distinct question ids, at most one answer is on screen |
| HelpScreen.FaqIdsDistinct | screens/navigation/AjudaScreen.js:125-162 | the questions have distinct ids |
| HelpScreen.ToggleTwice | screens/navigation/AjudaScreen.js:340-342 | tapping a question twice returns to the start exactly when that question was open or none was |
| HelpScreen.LastTapDecides | screens/navigation/AjudaScreen.js:340-342 | after any run of taps the open question, if any, is the last one tapped; none is open exactly when the last tap hit the question that was open |
| HomeScreen.PriorityColor | screens/menus/Index.js:69-76 | the badge is grey exactly for a priority other than alta, media or baixa, and always one of the four colours |
| HomeScreen.ColorTellsPriority | screens/menus/Index.js:69-76 | the colour of a known priority tells it back; every other value gets no priority back |
| HomeScreen.LabelLowersBack | screens/menus/Index.js:91 | the badge text of a lower-case priority has its length and lower-cases back to it |
| HomeScreen.PriorityLabel | screens/menus/Index.js:91 | same length as the priority; the first letter upper-cased, the rest unchanged |
| HomeScreen.KnownLabels | screens/menus/Index.js:91 | the three priorities read 'Alta', 'Media' and 'Baixa' |
| HomeScreen.Greeting | screens/menus/Index.js:124 | the greeting is never empty |
| HomeScreen.GreetingIsLocalPart | screens/menus/Index.js:124 | without an address, or with an empty one or one starting with '@', the greeting is 'Usuário'; otherwise it is the address up to its first '@' |
| HomeScreen.GreetingOfAddress | screens/menus/Index.js:124 | an address name@domain greets name |
| HomeScreen.Apply | screens/menus/Index.js:30-53 | every snapshot or error stops the spinner and leaves the notices alone |
| HomeScreen.Render | screens/menus/Index.js:183-192 | notice cards are shown only for a non-empty notices list, and show exactly it |
| HomeScreen.RunKeepsNotices | screens/menus/Index.js:18 | no run of snapshots writes the notices, and any event stops the spinner |
| HomeScreen.AlwaysEmptyState | screens/menus/Index.js:190 | the notices list is never filled, so once loaded the screen shows the empty state |
| OnBoarding.Next | components/OnBoarding.js:24-32 | 'next' scrolls to the following slide exactly before the last one, and on the last resets navigation to the login route |
| OnBoarding.OnViewable | components/OnBoarding.js:16-20 | the current slide becomes the first viewable one, or stays when none is viewable |
| OnBoarding.WalkToLogin | components/OnBoarding.js:24-32 | each press moves one slide on; the press after the last slide resets to the login route and no earlier one does |
| OnBoarding.PercentageProgress | components/OnBoarding.js:58-61 | the ring fills strictly as the slide advances, stays within (0, 100] on the slides, and is full exactly on the last |
| OnBoarding.Percentage | components/OnBoarding.js:60 | the percentage times the slide count is 100 times the one-based slide index |

## Left out

- Firestore, Firebase Auth, AsyncStorage and the account-creation web service are not called. A query result, a stored object or a service answer is a parameter, and a write is returned as a value. Whether a write succeeded is a boolean parameter where the screen branches on it.
- The catch blocks that only log and show an error alert after a failed read are not modelled, apart from the failures the model names.
- notifee, AlarmManager, notification channels, sound, vibration, BackgroundTimer and AppState are not called. A notification or platform call is returned as a value or as an entry in an effect log.
- `setTimeout` delays are not modelled. Examples: the PIN check 100 ms after the last digit, the reset dialog closing after three seconds, the navigation 300 ms after a correct PIN. The delayed action is modelled as if it ran at once.
- Asynchronous interleaving is not modelled. Snapshot listeners, `Promise.all` and un-awaited calls are taken to run in program order.
- Time zones and daylight saving are not modelled: local time is taken to be UTC. This also removes the UTC shift of `toISOString` on a local midnight.
- Locale formatting is not modelled. `toLocaleDateString` and `toLocaleTimeString` are represented by the date or minute they format. The dependants' history shows its long weekday text only as the day number.
- `localeCompare` is modelled as code-unit order. The two agree on the digits, '-' and ':' of day keys and times.
- Case mapping covers ASCII and Latin-1 only. Multi-character mappings such as 'ß' to "SS" are left out.
- The `\s` class of the e-mail pattern is the whitespace set that `trim` uses.
- An object lookup under a key such as "constructor", which would hit an inherited property, is left out.
- Dates are modelled for years 0 to 9999, whose keys have four digits. Statements that rebuild a date from its key hold from year 100 on, because `new Date(y, m, d)` maps the years 0 to 99 into the 1900s.
- Rendering, styles, animations and modals are left out. Screen width is a parameter.
- The floating-point geometry of components/NextButton.js is left out. The onboarding percentage is computed over exact reals, so float rounding is not modelled.
- Static data is used only where a rule depends on it: the slide count of slides.js, the FAQ ids, the medicine types, the relationship labels and the weekday tables. OnBoardingItem.js, SignupScreen.js and screens/index/ hold UI and navigation wiring only.
- PersistentNotificationModule.kt, AlarmReceiver.kt, MedicationPackage.java and MainActivity.kt are not part of this model. They forward calls, register modules or set window flags.
- The debug button and state badge at screens/telas_dependentes/IndexTelaDependente.js:705-737 are left out. They reference state that does not exist.
- Settings are kept as stored booleans. Parsing the JSON text, and values that are not booleans, are left out.
- Console logging is not modelled.
- HomeScreen.Greeting: its own contract states only that the greeting is non-empty. Its full meaning is stated by HomeScreen.GreetingIsLocalPart.
- DependentForm.ApiMessage: the contract states the "already in use" case and the pass-through case. The weak-password and invalid-email texts are stated only by the definition.
- NotificationManager.TriggerAt: the hour and minute are read with `ToNumber`, which accepts only decimal integer text. JavaScript's `Number` also reads "8.5", "1e1", "0x10" and "Infinity"; such fields are read as NaN here.
- DependentHome.Minutes: the time fields are read with `ToNumber`, which accepts only decimal integer text. JavaScript's `Number` also reads "8.5", "1e1", "0x10" and "Infinity"; such fields are read as NaN here.
- Clock.ClockMinutes: the time fields are read with `ToNumber`, which accepts only decimal integer text. JavaScript's `Number` also reads "8.5", "1e1", "0x10" and "Infinity"; such fields are read as NaN here.
- AlarmSystem.StartToday: the start fields are read with `ToNumber`, which accepts only decimal integer text. JavaScript's `Number` also reads "8.5", "1e1", "0x10" and "Infinity"; such fields are read as NaN here.
- AlarmSystem.IntervalMs: `intervaloHoras` is modelled as an optional integer. A fractional number such as 1.5, or a numeric string such as "8" that the multiplication would coerce, is not modelled.
- Strings are sequences of Unicode scalar values, not UTF-16 code units. `length`, `charAt`, `slice` and code-unit order agree with the model only on text inside the Basic Multilingual Plane.
- DependentHistory.DayGroupsOrdered orders the groups by comparing the keys as text. The screen sorts with `new Date(b) - new Date(a)`. The two agree on ISO day keys (DependentHistory.IsoDayGroupsByDate). On keys that do not parse, the comparator yields NaN and the sort order depends on the engine; that case is not modelled.
- MedicineList.UpdatedLabelOf: the contract says only when there is a label. What the label says is stated by MedicineList.LabelByElapsed, MedicineList.DaysAgoBetween and MedicineList.FutureSaysNegativeDays.

## Findings

Each row below is backed by two members. The as-written member models the code as it stands and exhibits the discrepancy. The corrected member states the evidently intended property and proves it. NotificationManager.Schedule is the corrected scheduler, with the corrected offset and weekday table. The sync, NotificationManager.SyncOne, calls the scheduler as written, because that is what the app runs; the sync's contracts do not depend on which scheduler it calls.

| source | as written | input that shows it | evidently intended | confidence | as-written member | corrected member |
|---|---|---|---|---|---|---|
| components/NotificationManager.js:150-152 | the fallback to 7 applies to the whole `getDate() + offset` sum, which is never 0; so the offset is 0 to 6, and a medicine listed only for today's weekday is scheduled today | a medicine listed only for "seg", at 08:00, scheduled on a Monday at 12:00: the trigger is that Monday 08:00, already past | an offset of 1 to 7 days, so the reminder is next Monday at 08:00, strictly in the future | not executed | NotificationManager.OnlyTodayListedFiresInPast | NotificationManager.ScheduledInFutureOnListedDay |
| components/NotificationManager.js:125 | the weekday table spells Saturday "sab", but the forms store "Sáb", which lower-cases to "sáb" | an alert whose days are ["Sáb"]: no weekday matches and nothing is scheduled | "sáb" in the table, so every abbreviation the forms store is found | not executed | NotificationManager.StoredSaturdayNeverMatches | NotificationManager.EveryStoredDayIsFound |
| screens/forms/FormRemedio.js:60-76 | name, purpose and type are checked for emptiness before trimming, and then stored trimmed | a name of one space: it passes the check and is stored as "" | reject a name or purpose that is blank after trimming | not executed | MedicineForms.SpacesNameStoredEmpty | MedicineForms.TrimmedCheckStoresNames |
| screens/menus/AlertasMenu.js:243-263 | `excluirAlerta` calls `cancelarNotificacoesRemedio()` with no arguments; its loop over `undefined` throws inside the un-awaited call | deleting an alert with medicine "r1" and days ["Seg"]: "r1_Seg" is not cancelled | pass the alert's medicine and days, cancelling one id per day | not executed | AlertLists.OwnDeletionCancelsNothing | AlertLists.DeleteOwnCancelsEveryDay |

=== FILE: alarm_system.dfy ===
// The in-app alarm engine of `AlarmSystem`: the once-per-minute check guard,
// fixed-time alarms (a list of weekdays and an "HH:MM"), interval alarms (a
// start time and a spacing in whole hours), the 30-minutes-either-side "already taken"
// test, the day's notification plans, and the record written when a dose is
// confirmed. Database queries arrive as inputs: `taken` is the list of the
// user's records for today, and `remedios` the ids of existing medicines.

module AlarmSystem {
  import opened JsText
  import opened Calendar
  import opened Clock
  import opened Days

  const WindowMs: int := 5 * MinuteMs
  const TakenMarginMinutes: int := 30
  const MaxDosesPerDay: nat := 24

  /** `diasSemana[now.getDay()].abrev`. */
  function CurrentDay(now: int): string
  {
    Abbrevs[WeekdayOf(now)]
  }

  // ---------------------------------------------------------------------------
  // checkForAlarms: at most one round of checks per "HH:MM"

  datatype CheckOutcome = CheckOutcome(lastMinute: Option<string>, runsChecks: bool)

  function CheckForAlarms(signedIn: bool, last: Option<string>, now: int): (r: CheckOutcome)
    ensures !signedIn ==> r == CheckOutcome(last, false)
    ensures signedIn ==> r.lastMinute == Some(FormatHourMinute(now))
    ensures signedIn ==> (r.runsChecks <==> last != Some(FormatHourMinute(now)))
  {
    if !signedIn then CheckOutcome(last, false)
    else
      var minute := FormatHourMinute(now);
      if last == Some(minute) then CheckOutcome(last, false)
      else CheckOutcome(Some(minute), true)
  }

  /** A second call within the same minute of the day does nothing. */
  lemma SameMinuteChecksOnce(last: Option<string>, a: int, b: int)
    requires MinuteOfDay(a) == MinuteOfDay(b)
    ensures !CheckForAlarms(true, CheckForAlarms(true, last, a).lastMinute, b).runsChecks
  {
  }

  /** A call in a different minute of the day runs the checks again. */
  lemma NewMinuteChecksAgain(last: Option<string>, a: int, b: int)
    requires MinuteOfDay(a) != MinuteOfDay(b)
    ensures CheckForAlarms(true, CheckForAlarms(true, last, a).lastMinute, b).runsChecks
  {
    HourMinuteOrder(MinuteOfDay(a), MinuteOfDay(b));
  }

  // ---------------------------------------------------------------------------
  // Taken records

  /** One of today's `medicamentos_tomados` records of the user. */
  datatype TakenRecord = TakenRecord(remedioId: Option<string>, horario: Option<string>)

  /** A record time within thirty minutes of the expected "HH:MM", on minutes of the day. */
  function MatchesDose(horario: Option<string>, expected: string): (r: bool)
    ensures r <==> Truthy(horario) && ClockMinutes(expected) - TakenMarginMinutes <= ClockMinutes(horario.value)
                                   && ClockMinutes(horario.value) <= ClockMinutes(expected) + TakenMarginMinutes
  {
    Truthy(horario) && Distance(ClockMinutes(horario.value), ClockMinutes(expected)) <= TakenMarginMinutes
  }

  /** The interval check: a record of the same medicine near the expected time. */
  predicate TakenNear(taken: seq<TakenRecord>, remedioId: string, expected: string)
  {
    exists k :: 0 <= k < |taken| && taken[k].remedioId == Some(remedioId) && MatchesDose(taken[k].horario, expected)
  }

  /** The fixed-time check: any record of the user at exactly that "HH:MM" today. */
  predicate TakenAt(taken: seq<TakenRecord>, horario: Option<string>)
  {
    exists k :: 0 <= k < |taken| && taken[k].horario == horario
  }

  /** On formatted times the match is plain distance of minutes, with no wrap at midnight. */
  lemma MatchOnFormattedTimes(a: int, b: int)
    requires 0 <= a < 1440 && 0 <= b < 1440
    ensures MatchesDose(Some(HourMinuteText(a)), HourMinuteText(b)) <==> Distance(a, b) <= 30
    ensures MatchesDose(Some(HourMinuteText(a)), HourMinuteText(b)) <==> MatchesDose(Some(HourMinuteText(b)), HourMinuteText(a))
  {
    HourMinuteRoundTrip(a);
    HourMinuteRoundTrip(b);
  }

  /** 23:50 and 00:10 are twenty minutes apart on a clock but do not match. */
  lemma NoWrapAtMidnight()
    ensures !MatchesDose(Some(HourMinuteText(23 * 60 + 50)), HourMinuteText(10))
  {
    MatchOnFormattedTimes(23 * 60 + 50, 10);
  }

  // ---------------------------------------------------------------------------
  // Start times

  /**
   * `d = new Date(now); d.setHours(hora, minuto || 0, 0, 0)` with
   * `[hora, minuto] = String(text).split(':').map(Number)`; `None` when `hora`
   * is NaN (an invalid date, which every comparison rejects).
   */
  function StartToday(text: string, now: int): (r: Option<int>)
    ensures r.None? <==> ToNumber(Part(Split(text, ':'), 0)).NaN?
    ensures r.Some? ==> (r.value - StartOfDay(now)) % MinuteMs == 0
  {
    var parts := Split(text, ':');
    match ToNumber(Part(parts, 0))
    case NaN => None
    case Int(h) =>
      var m := OrZero(ToNumber(Part(parts, 1)));
      assert ((h * 60 + m) * MinuteMs) % MinuteMs == 0;
      Some(StartOfDay(now) + (h * 60 + m) * MinuteMs)
  }

  /** A stored "HH:MM" starts at that minute of today. */
  lemma StartOfFormattedTime(minutes: int, now: int)
    requires 0 <= minutes < 1440
    ensures StartToday(HourMinuteText(minutes), now) == Some(StartOfDay(now) + minutes * MinuteMs)
    ensures MinuteOfDay(StartOfDay(now) + minutes * MinuteMs) == minutes
  {
    HourMinuteFields(minutes);
    StartOfFields(HourMinuteText(minutes), now, minutes);
    MinuteOfDayAt(now, minutes);
  }

  /** A text whose fields read as the hour and minute of `minutes` starts at that minute today. */
  lemma StartOfFields(text: string, now: int, minutes: int)
    requires ToNumber(Part(Split(text, ':'), 0)) == Int(minutes / 60)
    requires ToNumber(Part(Split(text, ':'), 1)) == Int(minutes % 60)
    ensures StartToday(text, now) == Some(StartOfDay(now) + minutes * MinuteMs)
  {
    var parts := Split(text, ':');
    assert OrZero(ToNumber(Part(parts, 1))) == minutes % 60;
    HoursAndMinutes(minutes);
  }

  lemma MinuteOfDayAt(now: int, minutes: int)
    requires 0 <= minutes < 1440
    ensures TimeOfDay(StartOfDay(now) + minutes * MinuteMs) == minutes * MinuteMs
    ensures MinuteOfDay(StartOfDay(now) + minutes * MinuteMs) == minutes
  {
    var k := now / DayMs;
    assert StartOfDay(now) == k * DayMs;
    var t := k * DayMs + minutes * MinuteMs;
    assert t % DayMs == minutes * MinuteMs;
  }

  // ---------------------------------------------------------------------------
  // Fixed-time alarms

  datatype FixedAlarm = FixedAlarm(docId: string, remedioId: string, horario: Option<string>, dias: Option<Dias>)

  datatype Scheduled = Scheduled(id: string, trigger: int)

  /** The trigger of a fixed alarm today (`String(undefined)` is "undefined", which has no hour). */
  function FixedTrigger(a: FixedAlarm, now: int): Option<int>
  {
    StartToday(Coalesce(a.horario, "undefined"), now)
  }

  /** Whether `scheduleHorarioFixoNotifications` schedules this alarm. */
  predicate FixedSchedulable(a: FixedAlarm, now: int, taken: seq<TakenRecord>, remedios: set<string>)
  {
    DiasIncludes(a.dias, CurrentDay(now))
    && FixedTrigger(a, now).Some? && FixedTrigger(a, now).value > now
    && !TakenAt(taken, a.horario)
    && a.remedioId in remedios
  }

  /** One alarm's entry in the day's fixed-time plan. */
  function ScheduleFixed(a: FixedAlarm, now: int, taken: seq<TakenRecord>, remedios: set<string>): (r: Option<Scheduled>)
    ensures r.Some? <==> FixedSchedulable(a, now, taken, remedios)
    ensures r.Some? ==> r.value.trigger > now && r.value.trigger == FixedTrigger(a, now).value
    ensures r.Some? ==> r.value.id == "horario-" + a.docId + "-" + Coalesce(a.horario, "undefined")
  {
    if FixedSchedulable(a, now, taken, remedios) then
      Some(Scheduled("horario-" + a.docId + "-" + Coalesce(a.horario, "undefined"), FixedTrigger(a, now).value))
    else None
  }

  /** A fixed alarm stored as "HH:MM" is scheduled for that minute today, and only while it is ahead. */
  lemma FixedTriggerIsTodayAtItsTime(a: FixedAlarm, minutes: int, now: int)
    requires 0 <= minutes < 1440 && a.horario == Some(HourMinuteText(minutes))
    ensures FixedTrigger(a, now) == Some(StartOfDay(now) + minutes * MinuteMs)
    ensures FixedSchedulable(a, now, [], {a.remedioId}) <==> DiasIncludes(a.dias, CurrentDay(now)) && MinuteOfDay(now) < minutes
  {
    StartOfFormattedTime(minutes, now);
    assert MinuteOfDay(now) * MinuteMs <= TimeOfDay(now) < MinuteOfDay(now) * MinuteMs + MinuteMs;
  }

  /** `checkHorarioFixoAlarms`' condition on one alarm. */
  function FixedFires(a: FixedAlarm, now: int, taken: seq<TakenRecord>, remedios: set<string>): (r: bool)
    ensures r ==> a.remedioId in remedios && Truthy(a.horario) && DiasIncludes(a.dias, CurrentDay(now))
    ensures r ==> forall k :: 0 <= k < |taken| ==> taken[k].horario != a.horario
  {
    Truthy(a.horario) && StrLe(a.horario.value, FormatHourMinute(now))
    && DiasIncludes(a.dias, CurrentDay(now))
    && !TakenAt(taken, a.horario)
    && a.remedioId in remedios
  }

  /** The first index whose flag is set. */
  function FirstSet(flags: seq<bool>): (r: Option<nat>)
    ensures r.Some? ==> r.value < |flags| && flags[r.value]
    ensures r.Some? ==> forall j :: 0 <= j < r.value ==> !flags[j]
    ensures r.None? ==> forall j :: 0 <= j < |flags| ==> !flags[j]
  {
    if flags == [] then None
    else if flags[0] then Some(0)
    else
      var rest := FirstSet(flags[1..]);
      assert forall j :: 1 <= j < |flags| ==> flags[j] == flags[1..][j - 1];
      if rest.None? then None else Some(rest.value + 1)
  }

  /** The alarm `checkHorarioFixoAlarms` triggers: the first that qualifies; the loop then breaks. */
  function FirstFixedToFire(alarms: seq<FixedAlarm>, now: int, taken: seq<TakenRecord>, remedios: set<string>): (r: Option<nat>)
    ensures r.Some? ==> r.value < |alarms| && FixedFires(alarms[r.value], now, taken, remedios)
    ensures r.Some? ==> forall j :: 0 <= j < r.value ==> !FixedFires(alarms[j], now, taken, remedios)
    ensures r.None? ==> forall j :: 0 <= j < |alarms| ==> !FixedFires(alarms[j], now, taken, remedios)
  {
    var flags := seq(|alarms|, j requires 0 <= j < |alarms| => FixedFires(alarms[j], now, taken, remedios));
    assert forall j :: 0 <= j < |alarms| ==> flags[j] == FixedFires(alarms[j], now, taken, remedios);
    FirstSet(flags)
  }

  /**
   * A fixed alarm stored as "HH:MM" fires exactly when its medicine exists,
   * today is listed, its minute has come and no record today has that time.
   */
  lemma FixedFiresOnlyOnceDue(a: FixedAlarm, minutes: int, now: int, taken: seq<TakenRecord>, remedios: set<string>)
    requires 0 <= minutes < 1440 && a.horario == Some(HourMinuteText(minutes))
    ensures FixedFires(a, now, taken, remedios) <==>
              a.remedioId in remedios && DiasIncludes(a.dias, CurrentDay(now))
              && minutes <= MinuteOfDay(now) && !TakenAt(taken, a.horario)
  {
    HourMinuteOrder(minutes, MinuteOfDay(now));
  }

  // ---------------------------------------------------------------------------
  // Interval alarms

  datatype IntervalAlarm = IntervalAlarm(docId: string, remedioId: string, horarioInicio: Option<string>, intervaloHoras: Option<int>)

  /** `alarm.horarioInicio && alarm.intervaloHoras`. */
  predicate HasSchedule(a: IntervalAlarm)
  {
    Truthy(a.horarioInicio) && a.intervaloHoras.Some? && a.intervaloHoras.value != 0
  }

  function IntervalMs(a: IntervalAlarm): (ms: int)
    requires HasSchedule(a)
    ensures ms != 0
  {
    a.intervaloHoras.value * HourMs
  }

  /** Today's start, or yesterday's while today's has not come yet. */
  function Reference(base: int, now: int): (ref: int)
    ensures ref == base || ref == base - DayMs
    ensures now < base <==> ref == base - DayMs
  {
    if now < base then base - DayMs else base
  }

  /** `ref + Math.floor((now - ref) / interval) * interval`: the latest dose slot not after now. */
  function ExpectedDose(ref: int, now: int, interval: int): (e: int)
    requires interval != 0
    ensures interval > 0 ==> e <= now < e + interval
  {
    ref + FloorDiv(now - ref, interval) * interval
  }

  /** The time since the latest slot is the time since the reference, modulo the interval. */
  lemma ExpectedDoseOffset(ref: int, now: int, interval: int)
    requires interval > 0
    ensures now - ExpectedDose(ref, now, interval) == (now - ref) % interval
  {
    var q := FloorDiv(now - ref, interval);
    assert q == (now - ref) / interval;
  }

  /** `checkIntervaloTiming`. */
  function IntervalTiming(a: IntervalAlarm, now: int, taken: seq<TakenRecord>): (r: bool)
    ensures r ==> HasSchedule(a) && StartToday(a.horarioInicio.value, now).Some?
    ensures r ==> 0 <= now - ExpectedDose(Reference(StartToday(a.horarioInicio.value, now).value, now), now, IntervalMs(a)) <= WindowMs
  {
    if !HasSchedule(a) then false
    else
      match StartToday(a.horarioInicio.value, now)
      case None => false
      case Some(base) => DueSince(Reference(base, now), now, IntervalMs(a), taken, a.remedioId)
  }

  /** The latest slot is at most five minutes old and no dose near it was taken. */
  predicate DueSince(ref: int, now: int, step: int, taken: seq<TakenRecord>, remedioId: string)
    requires step != 0
  {
    var e := ExpectedDose(ref, now, step);
    0 <= now - e <= WindowMs && !TakenNear(taken, remedioId, FormatHourMinute(e))
  }

  /**
   * With a positive interval the alarm fires exactly when the time since the
   * reference start is within five minutes past a whole number of intervals
   * and no matching dose was taken.
   */
  lemma IntervalFiresIff(a: IntervalAlarm, now: int, taken: seq<TakenRecord>)
    requires HasSchedule(a) && a.intervaloHoras.value > 0
    requires StartToday(a.horarioInicio.value, now).Some?
    ensures var ref := Reference(StartToday(a.horarioInicio.value, now).value, now);
            var e := ExpectedDose(ref, now, IntervalMs(a));
            IntervalTiming(a, now, taken) <==> (now - ref) % IntervalMs(a) <= WindowMs && !TakenNear(taken, a.remedioId, FormatHourMinute(e))
  {
    var base := StartToday(a.horarioInicio.value, now).value;
    var ref := Reference(base, now);
    var step := IntervalMs(a);
    var e := ExpectedDose(ref, now, step);
    TimingFromStart(a, now, taken, base);
    assert step > WindowMs;
    ExpectedDoseOffset(ref, now, step);
    assert 0 <= now - e == (now - ref) % step;
    DueAtExpected(ref, now, step, taken, a.remedioId, e);
  }

  /** The check on an alarm with a readable start is the check from that start's reference. */
  lemma TimingFromStart(a: IntervalAlarm, now: int, taken: seq<TakenRecord>, base: int)
    requires HasSchedule(a) && StartToday(a.horarioInicio.value, now) == Some(base)
    ensures IntervalTiming(a, now, taken) == DueSince(Reference(base, now), now, IntervalMs(a), taken, a.remedioId)
  {
  }

  /**
   * Any dose slot `ref + k * interval` that `now` is at most five minutes past is
   * the one checked: the alarm fires exactly when that slot was not taken.
   */
  lemma IntervalFiresAtSlot(a: IntervalAlarm, now: int, taken: seq<TakenRecord>, k: int, slot: int)
    requires HasSchedule(a) && a.intervaloHoras.value > 0
    requires StartToday(a.horarioInicio.value, now).Some?
    requires slot - Reference(StartToday(a.horarioInicio.value, now).value, now) == k * IntervalMs(a)
    requires 0 <= now - slot <= WindowMs
    ensures IntervalTiming(a, now, taken) <==> !TakenNear(taken, a.remedioId, FormatHourMinute(slot))
  {
    var base := StartToday(a.horarioInicio.value, now).value;
    var ref := Reference(base, now);
    var step := IntervalMs(a);
    TimingFromStart(a, now, taken, base);
    assert step > WindowMs;
    SlotIsExpected(ref, now, step, k);
    DueAtExpected(ref, now, step, taken, a.remedioId, slot);
  }

  lemma DueAtExpected(ref: int, now: int, step: int, taken: seq<TakenRecord>, remedioId: string, e: int)
    requires step > WindowMs && ExpectedDose(ref, now, step) == e
    ensures DueSince(ref, now, step, taken, remedioId) <==> 0 <= now - e <= WindowMs && !TakenNear(taken, remedioId, FormatHourMinute(e))
  {
  }

  /** With slots wider than the window, a slot `now` is within the window of is the latest slot. */
  lemma SlotIsExpected(ref: int, now: int, step: int, k: int)
    requires step > WindowMs && 0 <= now - (ref + k * step) <= WindowMs
    ensures ExpectedDose(ref, now, step) == ref + k * step
  {
    var q := FloorDiv(now - ref, step);
    assert ExpectedDose(ref, now, step) == ref + q * step;
    assert q * step - k * step == (q - k) * step;
    OnlyZeroMultipleIsSmall(q - k, step);
  }

  lemma OnlyZeroMultipleIsSmall(n: int, step: int)
    requires step > 0 && -step < n * step < step
    ensures n == 0
  {
  }

  /** `checkIntervaloTiming` passes and the medicine still exists. */
  function IntervalFires(a: IntervalAlarm, now: int, taken: seq<TakenRecord>, remedios: set<string>): (r: bool)
    ensures r ==> a.remedioId in remedios && HasSchedule(a) && StartToday(a.horarioInicio.value, now).Some?
    ensures r <==> IntervalTiming(a, now, taken) && a.remedioId in remedios
  {
    IntervalTiming(a, now, taken) && a.remedioId in remedios
  }

  /** The alarm `checkIntervaloAlarms` triggers: the first whose timing fires and whose medicine exists. */
  function FirstIntervalToFire(alarms: seq<IntervalAlarm>, now: int, taken: seq<TakenRecord>, remedios: set<string>): (r: Option<nat>)
    ensures r.Some? ==> r.value < |alarms| && IntervalFires(alarms[r.value], now, taken, remedios)
    ensures r.Some? ==> forall j :: 0 <= j < r.value ==> !IntervalFires(alarms[j], now, taken, remedios)
    ensures r.None? ==> forall j :: 0 <= j < |alarms| ==> !IntervalFires(alarms[j], now, taken, remedios)
  {
    var flags := seq(|alarms|, j requires 0 <= j < |alarms| => IntervalFires(alarms[j], now, taken, remedios));
    assert forall j :: 0 <= j < |alarms| ==> flags[j] == IntervalFires(alarms[j], now, taken, remedios);
    FirstSet(flags)
  }

  // ---------------------------------------------------------------------------
  // The day's interval plan

  /** The id of a scheduled interval dose. */
  function IntervalId(docId: string, trigger: int): string
  {
    "intervalo-" + docId + "-" + FormatHourMinute(trigger)
  }

  predicate DoseSchedulable(a: IntervalAlarm, p: int, now: int, taken: seq<TakenRecord>, remedios: set<string>)
  {
    p > now && !TakenNear(taken, a.remedioId, FormatHourMinute(p)) && a.remedioId in remedios
  }

  function KeepDose(a: IntervalAlarm, now: int, taken: seq<TakenRecord>, remedios: set<string>): int -> bool
  {
    p => DoseSchedulable(a, p, now, taken, remedios)
  }

  /**
   * Reference plan: of the dose times `p, p + step, ...` that the loop still
   * visits with `count` doses behind it, the ones `keep` accepts.
   */
  function Slots(keep: int -> bool, p: int, step: int, count: nat, dayEnd: int): seq<int>
    decreases MaxDosesPerDay - count
  {
    if count >= MaxDosesPerDay || p > dayEnd then []
    else (if keep(p) then [p] else []) + Slots(keep, p + step, step, count + 1, dayEnd)
  }

  /** The scheduled notification for each kept dose time. */
  function Entries(docId: string, slots: seq<int>): (plan: seq<Scheduled>)
    ensures |plan| == |slots|
    ensures forall k :: 0 <= k < |plan| ==> plan[k] == Scheduled(IntervalId(docId, slots[k]), slots[k])
  {
    seq(|slots|, k requires 0 <= k < |slots| => Scheduled(IntervalId(docId, slots[k]), slots[k]))
  }

  /** Dose times strictly increase, all at or after `p`. */
  predicate AscendingFrom(slots: seq<int>, p: int)
  {
    (forall k :: 0 <= k < |slots| ==> p <= slots[k])
    && (forall i, j :: 0 <= i < j < |slots| ==> slots[i] < slots[j])
  }

  lemma SlotsStep(keep: int -> bool, p: int, step: int, count: nat, dayEnd: int)
    requires count < MaxDosesPerDay && p <= dayEnd
    ensures Slots(keep, p, step, count, dayEnd) == (if keep(p) then [p] else []) + Slots(keep, p + step, step, count + 1, dayEnd)
  {
  }

  /** At most the doses the loop has left, each kept and no later than `dayEnd`. */
  lemma {:induction false} SlotsBounded(keep: int -> bool, p: int, step: int, count: nat, dayEnd: int)
    requires count <= MaxDosesPerDay
    ensures |Slots(keep, p, step, count, dayEnd)| <= MaxDosesPerDay - count
    ensures forall k :: 0 <= k < |Slots(keep, p, step, count, dayEnd)| ==>
              Slots(keep, p, step, count, dayEnd)[k] <= dayEnd && keep(Slots(keep, p, step, count, dayEnd)[k])
    decreases MaxDosesPerDay - count
  {
    if count < MaxDosesPerDay && p <= dayEnd {
      SlotsBounded(keep, p + step, step, count + 1, dayEnd);
      SlotsStep(keep, p, step, count, dayEnd);
    }
  }

  lemma {:induction false} SlotsAscending(keep: int -> bool, p: int, step: int, count: nat, dayEnd: int)
    requires step > 0
    ensures AscendingFrom(Slots(keep, p, step, count, dayEnd), p)
    decreases MaxDosesPerDay - count
  {
    if count < MaxDosesPerDay && p <= dayEnd {
      SlotsAscending(keep, p + step, step, count + 1, dayEnd);
      SlotsStep(keep, p, step, count, dayEnd);
    }
  }

  lemma SlotsDone(keep: int -> bool, p: int, step: int, count: nat, dayEnd: int)
    requires !(count < MaxDosesPerDay && p <= dayEnd)
    ensures Slots(keep, p, step, count, dayEnd) == []
  {
  }

  /** The `while` loop of `scheduleIntervaloNotifications`: at most 24 doses, up to the end of the day. */
  method KeptSlots(keep: int -> bool, start: int, step: int, dayEnd: int) returns (slots: seq<int>)
    ensures slots == Slots(keep, start, step, 0, dayEnd)
  {
    slots := [];
    var p := start;
    var count: nat := 0;
    while p <= dayEnd && count < MaxDosesPerDay
      invariant count <= MaxDosesPerDay
      invariant slots + Slots(keep, p, step, count, dayEnd) == Slots(keep, start, step, 0, dayEnd)
      decreases MaxDosesPerDay - count
    {
      var item := if keep(p) then [p] else [];
      SlotsAfter(slots, keep, p, step, count, dayEnd);
      slots := slots + item;
      p := p + step;
      count := count + 1;
    }
    SlotsDone(keep, p, step, count, dayEnd);
    assert slots + [] == slots;
  }

  /** One turn of the loop moves the visited dose from the slots still to come to the slots found. */
  lemma SlotsAfter(found: seq<int>, keep: int -> bool, p: int, step: int, count: nat, dayEnd: int)
    requires count < MaxDosesPerDay && p <= dayEnd
    ensures found + Slots(keep, p, step, count, dayEnd)
            == (found + (if keep(p) then [p] else [])) + Slots(keep, p + step, step, count + 1, dayEnd)
  {
    SlotsStep(keep, p, step, count, dayEnd);
    var item := if keep(p) then [p] else [];
    var rest := Slots(keep, p + step, step, count + 1, dayEnd);
    assert found + (item + rest) == (found + item) + rest;
  }

  /** `scheduleIntervaloNotifications` for one alarm. */
  method ScheduleInterval(a: IntervalAlarm, now: int, taken: seq<TakenRecord>, remedios: set<string>)
    returns (plan: seq<Scheduled>)
    ensures !HasSchedule(a) || StartToday(a.horarioInicio.value, now).None? ==> plan == []
    ensures HasSchedule(a) && StartToday(a.horarioInicio.value, now).Some? ==>
              plan == Entries(a.docId, Slots(KeepDose(a, now, taken, remedios),
                                             StartToday(a.horarioInicio.value, now).value, IntervalMs(a), 0, StartOfDay(now) + DayMs - 1))
    ensures |plan| <= MaxDosesPerDay
    ensures forall k :: 0 <= k < |plan| ==>
              now < plan[k].trigger < StartOfDay(now) + DayMs
              && DoseSchedulable(a, plan[k].trigger, now, taken, remedios)
              && plan[k].id == IntervalId(a.docId, plan[k].trigger)
    ensures HasSchedule(a) && a.intervaloHoras.value > 0 ==>
              forall i, j :: 0 <= i < j < |plan| ==> plan[i].trigger < plan[j].trigger
  {
    plan := [];
    if !HasSchedule(a) {
      return;
    }
    var start := StartToday(a.horarioInicio.value, now);
    if start.None? {
      return;
    }
    var keep := KeepDose(a, now, taken, remedios);
    var step := IntervalMs(a);
    var dayEnd := StartOfDay(now) + DayMs - 1;
    var slots := KeptSlots(keep, start.value, step, dayEnd);
    SlotsBounded(keep, start.value, step, 0, dayEnd);
    if step > 0 {
      SlotsAscending(keep, start.value, step, 0, dayEnd);
    }
    plan := Entries(a.docId, slots);
  }

  // ---------------------------------------------------------------------------
  // logMedicationTaken

  /** The notification data handed back when the user confirms a dose. */
  datatype NotifData = NotifData(
    remedioId: Option<string>,
    remedioNome: Option<string>,
    dosagem: Option<string>,
    tipoAlerta: Option<string>,
    horario: Option<string>,
    intervaloHoras: Option<int>)

  /** The `medicamentos_tomados` document written (the server timestamp is left out). */
  datatype TakenEntry = TakenEntry(
    usuarioId: string,
    remedioId: Option<string>,
    remedioNome: string,
    dosagem: string,
    dia: string,
    horario: Option<string>,
    tipoAlerta: Option<string>,
    intervaloHoras: Option<int>)

  /** The entry written on a confirm at instant `now`; its `dia` is the ISO date of `now`. */
  function LogMedicationTaken(uid: Option<string>, n: NotifData, now: int): (r: Option<TakenEntry>)
    requires IsoInstant(now)
    ensures r.Some? <==> Truthy(uid)
    ensures r.Some? ==> DayKeyOf(r.value.dia, now)
    ensures r.Some? ==> r.value.usuarioId == uid.value && r.value.remedioId == n.remedioId
                        && r.value.remedioNome == OrElse(n.remedioNome, "") && r.value.dosagem == OrElse(n.dosagem, "")
    ensures r.Some? && n.tipoAlerta == Some("dias") ==>
              r.value.horario == n.horario && r.value.tipoAlerta == Some("dias") && r.value.intervaloHoras.None?
    ensures r.Some? && n.tipoAlerta == Some("intervalo") ==>
              r.value.horario == Some(OrElse(n.horario, FormatHourMinute(now)))
              && r.value.tipoAlerta == Some("intervalo") && r.value.intervaloHoras == n.intervaloHoras
    ensures r.Some? && n.tipoAlerta != Some("dias") && n.tipoAlerta != Some("intervalo") ==>
              r.value.horario.None? && r.value.tipoAlerta.None? && r.value.intervaloHoras.None?
  {
    if !Truthy(uid) then None
    else
      var base := TakenEntry(uid.value, n.remedioId, OrElse(n.remedioNome, ""), OrElse(n.dosagem, ""), IsoDay(now), None, None, None);
      if n.tipoAlerta == Some("dias") then
        Some(base.(horario := n.horario, tipoAlerta := Some("dias")))
      else if n.tipoAlerta == Some("intervalo") then
        Some(base.(horario := Some(OrElse(n.horario, FormatHourMinute(now))), tipoAlerta := Some("intervalo"),
                   intervaloHoras := n.intervaloHoras))
      else Some(base)
  }

  /** The part of a logged entry the alarm checks read back. */
  function AsTaken(e: TakenEntry): TakenRecord
  {
    TakenRecord(e.remedioId, e.horario)
  }

  /** A clock reading at most five minutes after `e`, on the same day, matches `e`'s "HH:MM". */
  lemma ReadingMatchesRecentDose(now: int, e: int)
    requires 0 <= now - e <= WindowMs && TimeOfDay(now) >= WindowMs
    ensures MatchesDose(Some(FormatHourMinute(now)), FormatHourMinute(e))
  {
    var s := StartOfDay(now);
    assert s <= e < s + DayMs;
    assert StartOfDay(e) == s;
    assert TimeOfDay(now) - TimeOfDay(e) == now - e;
    assert MinuteOfDay(now) - MinuteOfDay(e) <= 5;
    MatchOnFormattedTimes(MinuteOfDay(now), MinuteOfDay(e));
  }

  /**
   * Confirming an interval dose without a stored time records the current
   * minute, which silences that medicine's interval alarm for the rest of the
   * firing window (from five minutes past midnight on; a slot at 23:58
   * confirmed at 00:01 reads as a day away).
   */
  lemma LoggedDoseSilencesInterval(a: IntervalAlarm, n: NotifData, uid: string, now: int, taken: seq<TakenRecord>)
    requires IsoInstant(now)
    requires uid != "" && n.tipoAlerta == Some("intervalo") && !Truthy(n.horario) && n.remedioId == Some(a.remedioId)
    requires TimeOfDay(now) >= WindowMs
    ensures !IntervalTiming(a, now, taken + [AsTaken(LogMedicationTaken(Some(uid), n, now).value)])
  {
    var entry := LogMedicationTaken(Some(uid), n, now).value;
    var all := taken + [AsTaken(entry)];
    assert all[|taken|] == TakenRecord(Some(a.remedioId), Some(FormatHourMinute(now)));
    if HasSchedule(a) && StartToday(a.horarioInicio.value, now).Some? {
      var e := ExpectedDose(Reference(StartToday(a.horarioInicio.value, now).value, now), now, IntervalMs(a));
      if 0 <= now - e <= WindowMs {
        ReadingMatchesRecentDose(now, e);
        assert TakenNear(all, a.remedioId, FormatHourMinute(e));
      }
    }
  }

  /** Confirming a fixed-time dose records its "HH:MM", which keeps it out of the rest of today's plan. */
  lemma LoggedDoseSilencesFixed(a: FixedAlarm, n: NotifData, uid: string, now: int,
                                taken: seq<TakenRecord>, remedios: set<string>)
    requires IsoInstant(now)
    requires uid != "" && n.tipoAlerta == Some("dias") && n.horario == a.horario
    ensures !FixedSchedulable(a, now, taken + [AsTaken(LogMedicationTaken(Some(uid), n, now).value)], remedios)
    ensures !FixedFires(a, now, taken + [AsTaken(LogMedicationTaken(Some(uid), n, now).value)], remedios)
  {
    var all := taken + [AsTaken(LogMedicationTaken(Some(uid), n, now).value)];
    assert all[|taken|].horario == a.horario;
  }
}

=== FILE: alert_forms.dfy ===
// The two forms that create an alert: the user's own (`FormAlerta`) and the
// one for a dependent (`FormAlertaDependentes`). Both toggle weekdays in and
// out of a selection, refuse to save without a medicine, a day and a dosage,
// and store the time as "HH:MM". The clock, the signed-in user and the loaded
// medicines are inputs; the document to add is returned as a value.

module AlertForms {
  import opened JsText
  import opened Clock
  import opened Days
  import opened Lookup

  // ---------------------------------------------------------------------------
  // The weekday selection

  /** `s.filter(d => d !== x)`. */
  function Remove(s: seq<string>, x: string): (r: seq<string>)
    ensures |r| <= |s|
  {
    if s == [] then []
    else if s[0] == x then Remove(s[1..], x)
    else [s[0]] + Remove(s[1..], x)
  }

  lemma {:induction false} RemoveMembers(s: seq<string>, x: string)
    ensures forall y :: y in Remove(s, x) <==> y in s && y != x
  {
    if s != [] {
      RemoveMembers(s[1..], x);
      assert forall y :: y in s <==> y == s[0] || y in s[1..];
    }
  }

  lemma {:induction false} RemoveAbsent(s: seq<string>, x: string)
    requires x !in s
    ensures Remove(s, x) == s
  {
    if s != [] {
      RemoveAbsent(s[1..], x);
      assert s == [s[0]] + s[1..];
    }
  }

  /** No day appears twice. */
  predicate NoDup(s: seq<string>)
  {
    s == [] || (s[0] !in s[1..] && NoDup(s[1..]))
  }

  lemma {:induction false} RemoveNoDup(s: seq<string>, x: string)
    requires NoDup(s)
    ensures NoDup(Remove(s, x))
  {
    if s != [] {
      RemoveNoDup(s[1..], x);
      RemoveMembers(s[1..], x);
      if s[0] != x {
        var r := [s[0]] + Remove(s[1..], x);
        assert r[1..] == Remove(s[1..], x);
      }
    }
  }

  lemma {:induction false} AppendNoDup(s: seq<string>, x: string)
    requires NoDup(s) && x !in s
    ensures NoDup(s + [x])
  {
    if s == [] {
      assert [x][1..] == [];
    } else {
      AppendNoDup(s[1..], x);
      assert (s + [x])[1..] == s[1..] + [x];
    }
  }

  /** `toggleDia`: a selected day is removed, any other is appended. */
  function Toggle(s: seq<string>, day: string): (r: seq<string>)
    ensures day in r <==> day !in s
    ensures forall y :: y != day ==> (y in r <==> y in s)
    ensures day !in s ==> r == s + [day]
  {
    RemoveMembers(s, day);
    if day in s then Remove(s, day) else s + [day]
  }

  /** Toggling keeps a selection free of duplicates. */
  lemma ToggleNoDup(s: seq<string>, day: string)
    requires NoDup(s)
    ensures NoDup(Toggle(s, day))
  {
    if day in s {
      RemoveNoDup(s, day);
    } else {
      AppendNoDup(s, day);
    }
  }

  /** Toggling twice gives back the same set of days; an unselected day's double toggle restores the very sequence. */
  lemma ToggleTwice(s: seq<string>, day: string)
    ensures forall y :: y in Toggle(Toggle(s, day), day) <==> y in s
    ensures day !in s ==> Toggle(Toggle(s, day), day) == s
  {
    if day !in s {
      RemoveMembers(s + [day], day);
      assert Remove(s + [day], day) == s by { RemoveSnoc(s, day); }
    }
  }

  lemma {:induction false} RemoveSnoc(s: seq<string>, x: string)
    requires x !in s
    ensures Remove(s + [x], x) == s
  {
    if s == [] {
      assert [x][1..] == [];
    } else {
      RemoveSnoc(s[1..], x);
      assert (s + [x])[1..] == s[1..] + [x];
      assert s == [s[0]] + s[1..];
    }
  }

  lemma {:induction false} NoDupCard(s: seq<string>)
    requires NoDup(s)
    ensures |set x | x in s| == |s|
  {
    if s != [] {
      NoDupCard(s[1..]);
      assert (set x | x in s) == {s[0]} + (set x | x in s[1..]);
    }
  }

  lemma SubsetCard(a: set<string>, b: set<string>)
    requires a <= b
    ensures |a| <= |b|
  {
    assert b == a + (b - a);
  }

  lemma AbbrevsNoDup()
    ensures NoDup(Abbrevs) && |set x | x in Abbrevs| == 7
  {
    forall i, j | 0 <= i < j < |Abbrevs|
      ensures Abbrevs[i] != Abbrevs[j]
    {
      assert Abbrevs[i][2] != Abbrevs[j][2];
    }
    PairwiseNoDup(Abbrevs);
    NoDupCard(Abbrevs);
  }

  lemma {:induction false} PairwiseNoDup(s: seq<string>)
    requires forall i, j :: 0 <= i < j < |s| ==> s[i] != s[j]
    ensures NoDup(s)
  {
    if s != [] {
      forall k | 0 <= k < |s[1..]|
        ensures s[1..][k] != s[0]
      {
        assert s[1..][k] == s[k + 1];
      }
      PairwiseNoDup(s[1..]);
    }
  }

  /** For a selection of the form's days without duplicates, seven selected means every day is selected. */
  lemma SevenMeansEveryDay(s: seq<string>)
    requires NoDup(s) && forall x :: x in s ==> x in Abbrevs
    ensures |s| == 7 <==> forall a :: a in Abbrevs ==> a in s
  {
    AbbrevsNoDup();
    FullIffAll(s, Abbrevs);
  }

  /** A duplicate-free selection from a duplicate-free list is as long as the list exactly when it holds all of it. */
  lemma FullIffAll(s: seq<string>, u: seq<string>)
    requires NoDup(s) && NoDup(u) && forall x :: x in s ==> x in u
    ensures |s| == |u| <==> forall a :: a in u ==> a in s
  {
    NoDupCard(s);
    NoDupCard(u);
    var chosen, all := set x | x in s, set x | x in u;
    SubsetCard(chosen, all);
    if |s| == |u| {
      if a :| a in u && a !in s {
        SubsetCard(chosen, all - {a});
      }
    }
    if forall a :: a in u ==> a in s {
      assert chosen == all;
    }
  }

  // ---------------------------------------------------------------------------
  // The day grid

  /** Days per row: four on a narrow screen (under 360 points), else all seven. */
  function RowSize(width: int): (n: nat)
    ensures n == 4 || n == 7
  {
    if width < 360 then 4 else 7
  }

  /** `for (i = 0; i < s.length; i += n) rows.push(s.slice(i, i + n))`. */
  function Chunks(s: seq<string>, n: nat): (rows: seq<seq<string>>)
    requires n > 0
    ensures forall k :: 0 <= k < |rows| ==> 0 < |rows[k]| <= n
    ensures forall k :: 0 <= k < |rows| - 1 ==> |rows[k]| == n
    decreases |s|
  {
    if s == [] then []
    else if |s| <= n then [s]
    else [s[..n]] + Chunks(s[n..], n)
  }

  function Flatten(rows: seq<seq<string>>): seq<string>
  {
    if rows == [] then [] else rows[0] + Flatten(rows[1..])
  }

  /** Reading the rows in order gives back the days in order. */
  lemma {:induction false} ChunksFlatten(s: seq<string>, n: nat)
    requires n > 0
    ensures Flatten(Chunks(s, n)) == s
    decreases |s|
  {
    if s != [] && |s| > n {
      ChunksFlatten(s[n..], n);
      var rows := Chunks(s, n);
      assert rows[1..] == Chunks(s[n..], n);
      assert s == s[..n] + s[n..];
    } else if s != [] {
      assert Chunks(s, n)[1..] == [];
    }
  }

  /** The week in rows: four then three on a narrow screen, one row otherwise. */
  lemma WeekRows(width: int)
    ensures var rows := Chunks(Abbrevs, RowSize(width));
            Flatten(rows) == Abbrevs
            && (width < 360 ==> |rows| == 2 && |rows[0]| == 4 && |rows[1]| == 3)
            && (width >= 360 ==> |rows| == 1)
  {
    ChunksFlatten(Abbrevs, RowSize(width));
    if width < 360 {
      assert Chunks(Abbrevs, 4) == [Abbrevs[..4]] + Chunks(Abbrevs[4..], 4);
    }
  }

  // ---------------------------------------------------------------------------
  // The selection summaries

  /** The line under the grid: nothing for no day, "Todos os dias" for seven, else the pluralised count. */
  function CountSummary(n: nat): (r: Option<string>)
    ensures r.None? <==> n == 0
    ensures r == Some("Todos os dias") <==> n == 7
    ensures n == 1 ==> r == Some("1 dia selecionado")
    ensures n > 1 && n != 7 ==> r == Some(NatText(n) + " dias selecionados")
  {
    if n == 0 then None
    else if n == 7 then Some("Todos os dias")
    else
      var text := NatText(n) + DaysSelected(n);
      assert text[0] == NatText(n)[0] && IsDigit(text[0]);
      assert "Todos os dias"[0] == 'T';
      assert n == 1 ==> NatText(n) == "1";
      assert n == 1 ==> text == "1 dia selecionado";
      Some(text)
  }

  /** `dia${plural} selecionado${plural}` after the count. */
  function DaysSelected(n: nat): (s: string)
    ensures n <= 1 ==> s == " dia selecionado"
    ensures n > 1 ==> s == " dias selecionados"
  {
    var plural := if n > 1 then "s" else "";
    " dia" + plural + " selecionado" + plural
  }

  /** The summary's frequency line: "Todos os dias" for seven, else the days joined by commas. */
  function Frequency(s: seq<string>): (r: string)
    ensures |s| == 7 ==> r == "Todos os dias"
    ensures s == [] ==> r == ""
  {
    if |s| == 7 then "Todos os dias" else Join(s, ", ")
  }

  /** Every day after the first, with the space the ", " separator leaves before it. */
  function Spaced(t: seq<string>): (r: seq<string>)
    ensures |r| == |t| && forall i :: 0 <= i < |t| ==> r[i] == " " + t[i]
  {
    seq(|t|, i requires 0 <= i < |t| => " " + t[i])
  }

  /** Joining on ", " is joining on "," after prefixing every later part with a space. */
  lemma {:induction false} JoinCommaSpace(s: seq<string>)
    requires |s| >= 1
    ensures Join(s, ", ") == Join([s[0]] + Spaced(s[1..]), ",")
    decreases |s|
  {
    if |s| > 1 {
      JoinCommaSpace(s[1..]);
      var p := [s[0]] + Spaced(s[1..]);
      var q := [s[1]] + Spaced(s[2..]);
      assert s[1..][0] == s[1] && s[1..][1..] == s[2..];
      assert p[1..] == [" " + s[1]] + Spaced(s[2..]);
      if |s| == 2 {
        assert Join(p[1..], ",") == " " + s[1];
      } else {
        assert Join(p[1..], ",") == (" " + s[1]) + "," + Join(Spaced(s[2..]), ",");
        assert Join(q, ",") == s[1] + "," + Join(Spaced(s[2..]), ",");
      }
    }
  }

  /**
   * A frequency line other than "Todos os dias" lists the chosen days in order:
   * split on commas it gives back the first day and then each later day
   * behind one space, provided no day name contains a comma.
   */
  lemma FrequencyListsDays(s: seq<string>)
    requires |s| >= 1 && |s| != 7
    requires forall k :: 0 <= k < |s| ==> ',' !in s[k]
    ensures Split(Frequency(s), ',') == [s[0]] + Spaced(s[1..])
  {
    var p := [s[0]] + Spaced(s[1..]);
    JoinCommaSpace(s);
    assert forall k :: 0 <= k < |p| ==> ',' !in p[k] by {
      forall k | 0 <= k < |p| ensures ',' !in p[k] {
        if k > 0 { assert p[k] == " " + s[k]; }
      }
    }
    JoinSplitRoundTrip(p, ',');
    assert [','] == ",";
  }

  /** The own form shows its summary when a medicine, a dosage and a day are chosen; a dosage of spaces counts. */
  predicate OwnSummaryShown(remedio: string, dias: seq<string>, dosagem: string)
  {
    remedio != "" && dosagem != "" && |dias| > 0
  }

  /** The dependent's form shows its summary only when the save would pass the field check. */
  predicate DependentSummaryShown(remedio: string, dias: seq<string>, dosagem: string)
  {
    remedio != "" && |dias| > 0 && !Blank(dosagem)
  }

  // ---------------------------------------------------------------------------
  // Saving

  /** The field check both forms run before saving. */
  predicate FieldsFilled(remedio: string, dias: seq<string>, dosagem: string)
  {
    remedio != "" && |dias| > 0 && !Blank(dosagem)
  }

  /** The document `FormAlerta` adds to `alertas`. */
  datatype OwnAlert = OwnAlert(usuarioId: string, remedioId: string, dias: seq<string>, horario: string,
                               dosagem: string, ativo: bool)

  datatype OwnSave = MissingFields | NotSignedIn | SavedOwn(alert: OwnAlert)

  /** `FormAlerta.salvarAviso`: the fields first, then the user, then the document. */
  function SaveOwn(remedio: string, dias: seq<string>, t: int, dosagem: string, uid: Option<string>): (r: OwnSave)
    ensures r.MissingFields? <==> !FieldsFilled(remedio, dias, dosagem)
    ensures r.NotSignedIn? <==> FieldsFilled(remedio, dias, dosagem) && !Truthy(uid)
    ensures r.SavedOwn? ==> r.alert.usuarioId == uid.value && r.alert.remedioId == remedio && r.alert.dias == dias
                            && r.alert.dosagem == Trim(dosagem) && r.alert.dosagem != "" && r.alert.ativo
                            && r.alert.horario == FormatHourMinute(t)
  {
    if !FieldsFilled(remedio, dias, dosagem) then MissingFields
    else if !Truthy(uid) then NotSignedIn
    else SavedOwn(OwnAlert(uid.value, remedio, dias, FormatHourMinute(t), Trim(dosagem), true))
  }

  /** The stored "HH:MM" reads back as the minute of the day that was picked. */
  lemma SavedTimeReadsBack(remedio: string, dias: seq<string>, t: int, dosagem: string, uid: Option<string>)
    requires SaveOwn(remedio, dias, t, dosagem, uid).SavedOwn?
    ensures var h := SaveOwn(remedio, dias, t, dosagem, uid).alert.horario;
            |h| == 5 && ClockMinutes(h) == MinuteOfDay(t)
  {
    FormatRoundTrip(t);
  }

  /** The own form can show its summary for a dosage of spaces that the save then refuses. */
  lemma SpacesShowSummaryButDoNotSave(remedio: string, dias: seq<string>, t: int, uid: Option<string>)
    requires remedio != "" && |dias| > 0
    ensures OwnSummaryShown(remedio, dias, " ")
    ensures SaveOwn(remedio, dias, t, " ", uid).MissingFields?
    ensures !DependentSummaryShown(remedio, dias, " ")
  {
    BlankIffAllSpace(" ");
  }

  /** `getRemedioNome`: the selected medicine's name, or the picker's placeholder. */
  function MedicineLabel(remedios: seq<Named>, selected: string): (r: string)
    ensures (forall k :: 0 <= k < |remedios| ==> remedios[k].id != selected) ==> r == "Selecionar medicamento"
    ensures (exists k :: 0 <= k < |remedios| && remedios[k].id == selected)
            ==> exists k :: 0 <= k < |remedios| && remedios[k].id == selected && remedios[k].nome == r
  {
    match NameOf(remedios, selected)
    case Some(nome) => nome
    case None => "Selecionar medicamento"
  }

  // ---------------------------------------------------------------------------
  // The dependent's form

  /** The screen's context once its entry guard has passed. */
  datatype DependentContext = DependentContext(uid: string, dependenteId: string)

  /** Without a signed-in user or a dependent id the screen leaves at once. */
  function OpenDependentForm(uid: Option<string>, dependenteId: Option<string>): (r: Option<DependentContext>)
    ensures r.Some? <==> Truthy(uid) && Truthy(dependenteId)
    ensures r.Some? ==> r.value.uid == uid.value && r.value.dependenteId == dependenteId.value
  {
    if Truthy(uid) && Truthy(dependenteId) then Some(DependentContext(uid.value, dependenteId.value)) else None
  }

  /** The document `FormAlertaDependentes` adds to `alertas_dependentes`: it has no `ativo` field. */
  datatype DependentAlert = DependentAlert(usuarioId: string, dependenteId: string, remedioId: string,
                                           dias: seq<string>, horario: string, dosagem: string)

  /** `FormAlertaDependentes.salvarAviso`: only the field check, then the document. */
  function SaveForDependent(ctx: DependentContext, remedio: string, dias: seq<string>, t: int, dosagem: string)
    : (r: Option<DependentAlert>)
    ensures r.None? <==> !FieldsFilled(remedio, dias, dosagem)
    ensures r.Some? ==> r.value.usuarioId == ctx.uid && r.value.dependenteId == ctx.dependenteId
                        && r.value.remedioId == remedio && r.value.dias == dias
                        && r.value.horario == FormatHourMinute(t) && r.value.dosagem == Trim(dosagem)
  {
    if !FieldsFilled(remedio, dias, dosagem) then None
    else Some(DependentAlert(ctx.uid, ctx.dependenteId, remedio, dias, FormatHourMinute(t), Trim(dosagem)))
  }

  /** A saved dependent's alert always names a user and a dependent, and its summary was on screen. */
  lemma DependentAlertIsComplete(uid: Option<string>, dependenteId: Option<string>, remedio: string,
                                 dias: seq<string>, t: int, dosagem: string)
    requires OpenDependentForm(uid, dependenteId).Some?
    requires SaveForDependent(OpenDependentForm(uid, dependenteId).value, remedio, dias, t, dosagem).Some?
    ensures var a := SaveForDependent(OpenDependentForm(uid, dependenteId).value, remedio, dias, t, dosagem).value;
            a.usuarioId != "" && a.dependenteId != "" && a.dosagem != ""
    ensures DependentSummaryShown(remedio, dias, dosagem)
  {
  }

  /** Both forms accept and refuse the same fields. */
  lemma FormsAgreeOnFields(ctx: DependentContext, remedio: string, dias: seq<string>, t: int, dosagem: string,
                           uid: Option<string>)
    ensures SaveOwn(remedio, dias, t, dosagem, uid).MissingFields?
            <==> SaveForDependent(ctx, remedio, dias, t, dosagem).None?
  {
  }

  /** The success message names the dependent by `nome`, then `nomeCompleto`. */
  function SavedMessage(nome: Option<string>, nomeCompleto: Option<string>): (m: string)
    ensures Truthy(nome) ==> m == "Aviso para " + nome.value + " salvo com sucesso!"
  {
    "Aviso para " + Show(OrOpt(nome, nomeCompleto)) + " salvo com sucesso!"
  }
}

=== FILE: alert_lists.dfy ===
// The two alert lists: the user's own alerts (`AlertasMenu`) and a
// dependent's alerts (`IndexDependentes`). Both show each alert's medicine
// name with fallbacks and its weekdays as upper-case chips; the own list
// counts active alerts and toggles them, and both cancel notifications when an
// alert is deleted. Loaded documents are inputs; the writes and the
// cancellations are returned as values.

module AlertLists {
  import opened JsText
  import opened Days
  import AlertForms
  import Lookup

  /** An alert document as the lists load it. `ativo` may be missing: dependents' alerts have none. */
  datatype ListedAlert = ListedAlert(id: string, remedioId: Option<string>, dependenteId: Option<string>,
                                     dias: Option<Dias>, titulo: Option<string>, ativo: Option<bool>)

  // ---------------------------------------------------------------------------
  // Active alerts

  /** `alerta.ativo !== false`: a missing flag counts as active. */
  function IsActive(a: ListedAlert): (r: bool)
    ensures r <==> a.ativo.None? || a.ativo.value
  {
    a.ativo != Some(false)
  }

  function CountActive(alerts: seq<ListedAlert>): (n: nat)
    ensures n <= |alerts|
  {
    if alerts == [] then 0 else (if IsActive(alerts[0]) then 1 else 0) + CountActive(alerts[1..])
  }

  datatype Stats = Stats(ativos: nat, inativos: nat, total: nat)

  /** `getAlertsStats`. */
  function AlertStats(alerts: seq<ListedAlert>): (s: Stats)
    ensures s.total == |alerts| && s.ativos + s.inativos == s.total
    ensures s.ativos == CountActive(alerts)
  {
    Stats(CountActive(alerts), |alerts| - CountActive(alerts), |alerts|)
  }

  /** `!alerta.ativo`: a missing or false flag becomes true, a true one false. */
  function Flipped(ativo: Option<bool>): (r: Option<bool>)
    ensures r == Some(ativo != Some(true))
  {
    Some(ativo != Some(true))
  }

  function AlertId(a: ListedAlert): string
  {
    a.id
  }

  /** Every alert with the id gets the new flag. */
  function SetAtivo(alerts: seq<ListedAlert>, id: string, status: Option<bool>): (r: seq<ListedAlert>)
    ensures |r| == |alerts|
    ensures forall k :: 0 <= k < |r| ==> r[k] == (if alerts[k].id == id then alerts[k].(ativo := status) else alerts[k])
  {
    if alerts == [] then []
    else [if alerts[0].id == id then alerts[0].(ativo := status) else alerts[0]] + SetAtivo(alerts[1..], id, status)
  }

  /**
   * `toggleAlerta`: the new flag is the negation of the found alert's flag;
   * an unknown id throws before any write, so nothing changes (`None`).
   */
  function ToggleAlert(alerts: seq<ListedAlert>, id: string): (r: Option<seq<ListedAlert>>)
    ensures r.None? <==> forall k :: 0 <= k < |alerts| ==> alerts[k].id != id
    ensures r.Some? ==> |r.value| == |alerts|
                        && forall k :: 0 <= k < |alerts| && alerts[k].id != id ==> r.value[k] == alerts[k]
  {
    match Lookup.FirstIndex(alerts, AlertId, id)
    case None => None
    case Some(i) => Some(SetAtivo(alerts, id, Flipped(alerts[i].ativo)))
  }

  predicate UniqueIds(alerts: seq<ListedAlert>)
  {
    forall i, j :: 0 <= i < j < |alerts| ==> alerts[i].id != alerts[j].id
  }

  /** The change in the active count when one alert's flag changes from `before` to `after`. */
  function Delta(before: Option<bool>, after: Option<bool>): int
  {
    (if after != Some(false) then 1 else 0) - (if before != Some(false) then 1 else 0)
  }

  lemma {:induction false} SetAtivoCount(alerts: seq<ListedAlert>, k: nat, status: Option<bool>)
    requires k < |alerts| && UniqueIds(alerts)
    ensures CountActive(SetAtivo(alerts, alerts[k].id, status)) == CountActive(alerts) + Delta(alerts[k].ativo, status)
  {
    var id := alerts[k].id;
    var r := SetAtivo(alerts, id, status);
    assert r[1..] == SetAtivo(alerts[1..], id, status);
    if k == 0 {
      UnchangedWithout(alerts[1..], id, status);
    } else {
      assert alerts[0].id != id;
      SetAtivoCount(alerts[1..], k - 1, status);
    }
  }

  lemma {:induction false} UnchangedWithout(alerts: seq<ListedAlert>, id: string, status: Option<bool>)
    requires forall k :: 0 <= k < |alerts| ==> alerts[k].id != id
    ensures SetAtivo(alerts, id, status) == alerts
  {
  }

  /**
   * Toggling moves an alert between active and inactive, except one whose
   * flag was missing: it becomes true and stays counted as active.
   */
  lemma ToggleStats(alerts: seq<ListedAlert>, k: nat)
    requires k < |alerts| && UniqueIds(alerts)
    ensures var r := ToggleAlert(alerts, alerts[k].id);
            r.Some? && AlertStats(r.value).total == AlertStats(alerts).total
            && AlertStats(r.value).ativos == AlertStats(alerts).ativos
                 + (if alerts[k].ativo.None? then 0 else if alerts[k].ativo == Some(true) then -1 else 1)
  {
    Lookup.FirstIndexAt(alerts, AlertId, k);
    var after := SetAtivo(alerts, alerts[k].id, Flipped(alerts[k].ativo));
    assert ToggleAlert(alerts, alerts[k].id) == Some(after);
    SetAtivoCount(alerts, k, Flipped(alerts[k].ativo));
    match alerts[k].ativo
    case None =>
    case Some(b) => assert b || alerts[k].ativo == Some(false);
  }

  // ---------------------------------------------------------------------------
  // The weekday chips

  /**
   * `renderDiasSemana`'s parsing: no chips for a missing or empty value; a
   * string is split on commas and each part trimmed; an array is used as it is.
   */
  function ParseDays(dias: Option<Dias>): (r: Option<seq<string>>)
    ensures r.Some? ==> |r.value| > 0
    ensures r.None? <==> dias.None? || dias.value == DayText("") || dias.value == DayList([])
    ensures (dias.Some? && dias.value.DayList?) ==> r.None? || r.value == dias.value.items
  {
    match dias
    case None => None
    case Some(DayList(items)) => if items == [] then None else Some(items)
    case Some(DayText(t)) => if t == "" then None else Some(TrimAll(Split(t, ',')))
  }

  /** Days written out joined by commas parse back to the same days. */
  lemma ParseJoinedDays(days: seq<string>)
    requires |days| > 0
    requires forall k :: 0 <= k < |days| ==> days[k] != "" && ',' !in days[k]
                                             && !IsSpace(days[k][0]) && !IsSpace(days[k][|days[k]| - 1])
    ensures ParseDays(Some(DayText(Join(days, ",")))) == Some(days)
  {
    JoinSplitRoundTrip(days, ',');
    assert Join(days, ",") != "" by {
      assert days == [days[0]] + days[1..];
      JoinNotEmpty(days);
    }
    TrimAllUntouched(days);
  }

  lemma JoinNotEmpty(days: seq<string>)
    requires |days| > 0 && days[0] != ""
    ensures Join(days, ",") != ""
  {
    if |days| > 1 {
      assert Join(days, ",") == days[0] + "," + Join(days[1..], ",");
    } else {
      assert Join(days, ",") == days[0];
    }
  }

  lemma TrimAllUntouched(days: seq<string>)
    requires forall k :: 0 <= k < |days| ==> days[k] != "" && !IsSpace(days[k][0]) && !IsSpace(days[k][|days[k]| - 1])
    ensures TrimAll(days) == days
  {
    forall k | 0 <= k < |days|
      ensures TrimAll(days)[k] == days[k]
    {
      TrimUntouched(days[k]);
    }
  }

  /** The label map both lists declare. */
  const DayLabels: map<string, string> :=
    map["Dom" := "DOM", "Seg" := "SEG", "Ter" := "TER", "Qua" := "QUA", "Qui" := "QUI", "Sex" := "SEX",
        "Sáb" := "SÁB"]

  /** The own list looks the map up with the lower-cased day, falling back to the upper-cased day. */
  function OwnDayLabel(day: string): string
  {
    var key := Lower(day);
    if key in DayLabels then DayLabels[key] else Upper(day)
  }

  /** The dependents' list looks the map up with the day as it is. */
  function DependentDayLabel(day: string): string
  {
    if day in DayLabels then DayLabels[day] else Upper(day)
  }

  lemma DayLabelKeys()
    ensures forall key :: key in DayLabels ==> key != "" && 'A' <= key[0] <= 'Z'
    ensures forall key :: key in DayLabels ==> DayLabels[key] == Upper(key)
  {
    forall key | key in DayLabels
      ensures key != "" && 'A' <= key[0] <= 'Z'
      ensures DayLabels[key] == Upper(key)
    {
      DayLabelKey(key);
    }
  }

  lemma DayLabelKey(key: string)
    requires key in DayLabels
    ensures key != "" && 'A' <= key[0] <= 'Z'
    ensures DayLabels[key] == Upper(key)
  {
    DayLabelCases(key);
    UpperOf3(key, DayLabels[key]);
  }

  lemma DayLabelCases(key: string)
    requires key in DayLabels
    ensures |key| == 3 && |DayLabels[key]| == 3 && 'A' <= key[0] <= 'Z'
    ensures forall i :: 0 <= i < 3 ==> UpperChar(key[i]) == DayLabels[key][i]
  {
    assert key in {"Dom", "Seg", "Ter", "Qua", "Qui", "Sex", "Sáb"};
  }

  lemma UpperOf3(s: string, u: string)
    requires |s| == 3 && |u| == 3 && UpperChar(s[0]) == u[0] && UpperChar(s[1]) == u[1] && UpperChar(s[2]) == u[2]
    ensures Upper(s) == u
  {
  }

  /** A lower-cased day never matches a capitalised key, so the own list's chips are the upper-cased days. */
  lemma OwnLabelIsUpper(day: string)
    ensures OwnDayLabel(day) == Upper(day)
  {
    DayLabelKeys();
  }

  /** The exact-key lookup of the dependents' list gives the same chips. */
  lemma ListsAgreeOnLabels(day: string)
    ensures DependentDayLabel(day) == OwnDayLabel(day) == Upper(day)
  {
    DayLabelKeys();
    OwnLabelIsUpper(day);
  }

  // ---------------------------------------------------------------------------
  // Names

  /** `Some(nome)` when the medicine document was read (its name possibly missing); `None` when absent or unreadable. */
  type MedicineDoc = Option<Option<string>>

  /** The own list: document name, then title, then "Remédio não encontrado"; without a document, title then "Medicamento". */
  function OwnMedicineName(a: ListedAlert, doc: MedicineDoc): (name: string)
    ensures Truthy(a.remedioId) && doc.Some? && Truthy(doc.value) ==> name == doc.value.value
    ensures !(Truthy(a.remedioId) && doc.Some?) ==> name == OrElse(a.titulo, "Medicamento")
    ensures Truthy(a.remedioId) && doc.Some? && !Truthy(doc.value) ==> name == OrElse(a.titulo, "Remédio não encontrado")
  {
    if Truthy(a.remedioId) && doc.Some? then
      OrChainFirstTruthy(doc.value, a.titulo, "Remédio não encontrado");
      OrElse(OrOpt(doc.value, a.titulo), "Remédio não encontrado")
    else OrElse(a.titulo, "Medicamento")
  }

  /** The dependents' list: title or "Medicamento", replaced by the document's name when it has one. */
  function DependentMedicineName(a: ListedAlert, doc: MedicineDoc): (name: string)
    ensures Truthy(a.remedioId) && doc.Some? && Truthy(doc.value) ==> name == doc.value.value
    ensures !(Truthy(a.remedioId) && doc.Some? && Truthy(doc.value)) ==> name == OrElse(a.titulo, "Medicamento")
  {
    var start := OrElse(a.titulo, "Medicamento");
    if Truthy(a.remedioId) && doc.Some? then OrElse(doc.value, start) else start
  }

  /** The lists differ only for a document without a name and an alert without a title. */
  lemma MedicineNamesDiffer(a: ListedAlert, doc: MedicineDoc)
    ensures OwnMedicineName(a, doc) != DependentMedicineName(a, doc)
            <==> Truthy(a.remedioId) && doc.Some? && !Truthy(doc.value) && !Truthy(a.titulo)
  {
  }

  /** The dependent's name: `nome`, then `nomeCompleto`, then "Dependente". */
  function DependentName(nome: Option<string>, nomeCompleto: Option<string>): (r: string)
    ensures r == (if Truthy(nome) then nome.value else if Truthy(nomeCompleto) then nomeCompleto.value else "Dependente")
  {
    OrChainFirstTruthy(nome, nomeCompleto, "Dependente");
    OrElse(OrOpt(nome, nomeCompleto), "Dependente")
  }

  /** The dependents' list leaves at once ('Dependente não encontrado.') without a
      signed-in user or a dependent id; otherwise it loads that dependent. */
  function OpenDependentList(signedIn: bool, dependenteId: Option<string>): (r: Option<string>)
    ensures r.Some? <==> signedIn && Truthy(dependenteId)
    ensures r.Some? ==> r.value == dependenteId.value
  {
    if signedIn && Truthy(dependenteId) then Some(dependenteId.value) else None
  }

  /** The list and the alert form it opens admit the same dependents. */
  lemma ListAndFormAdmitAlike(uid: Option<string>, dependenteId: Option<string>)
    ensures OpenDependentList(Truthy(uid), dependenteId).Some? <==> AlertForms.OpenDependentForm(uid, dependenteId).Some?
    ensures OpenDependentList(Truthy(uid), dependenteId).Some? ==>
              OpenDependentList(Truthy(uid), dependenteId).value == AlertForms.OpenDependentForm(uid, dependenteId).value.dependenteId
  {
  }

  // ---------------------------------------------------------------------------
  // Deleting an alert

  /** `${remedioId}_${dia}` for every day. */
  function OwnCancelIds(remedioId: string, days: seq<string>): (ids: seq<string>)
    ensures |ids| == |days|
    ensures forall k :: 0 <= k < |days| ==> ids[k] == remedioId + "_" + days[k]
  {
    seq(|days|, k requires 0 <= k < |days| => remedioId + "_" + days[k])
  }

  /** `${remedioId}_${dependenteId}_${dia}` for every day. */
  function DependentCancelIds(remedioId: string, dependenteId: string, days: seq<string>): (ids: seq<string>)
    ensures |ids| == |days|
    ensures forall k :: 0 <= k < |days| ==> ids[k] == remedioId + "_" + dependenteId + "_" + days[k]
  {
    seq(|days|, k requires 0 <= k < |days| => remedioId + "_" + dependenteId + "_" + days[k])
  }

  /** What a confirmed deletion does: the document deleted, the notification ids cancelled, whether the dialog closes. */
  datatype Deletion = Deletion(deleted: string, cancelled: seq<string>, closed: bool)

  /**
   * The own list's `excluirAlerta` as written: the canceller is called with no
   * arguments, so its loop over `undefined` throws inside the un-awaited call
   * and nothing is cancelled; the dialog still closes.
   */
  function DeleteOwnAsWritten(a: ListedAlert): (d: Deletion)
    ensures d.deleted == a.id && d.closed
  {
    Deletion(a.id, [], true)
  }

  /** An alert with days still has all its notifications after the own list deletes it. */
  lemma OwnDeletionCancelsNothing(a: ListedAlert, remedioId: string, days: seq<string>)
    requires a.remedioId == Some(remedioId) && a.dias == Some(DayList(days)) && |days| > 0
    ensures |DeleteOwnAsWritten(a).cancelled| == 0 < |OwnCancelIds(remedioId, days)|
  {
  }

  /** The evidently intended own deletion: the alert's medicine and days handed to the canceller. */
  function DeleteOwn(a: ListedAlert): (d: Deletion)
    ensures d.deleted == a.id && d.closed
    ensures a.remedioId.Some? && a.dias.Some? && a.dias.value.DayList?
            ==> d.cancelled == OwnCancelIds(a.remedioId.value, a.dias.value.items)
  {
    match (a.remedioId, a.dias)
    case (Some(r), Some(DayList(days))) => Deletion(a.id, OwnCancelIds(r, days), true)
    case _ => Deletion(a.id, [], true)
  }

  /** Each intended cancellation names the alert's medicine and one of its days, one id per day. */
  lemma DeleteOwnCancelsEveryDay(a: ListedAlert, r: string, days: seq<string>)
    requires a.remedioId == Some(r) && a.dias == Some(DayList(days))
    ensures |DeleteOwn(a).cancelled| == |days|
    ensures forall k :: 0 <= k < |days| ==> DeleteOwn(a).cancelled[k] == r + "_" + days[k]
  {
  }

  /**
   * The dependents' `excluirAlerta`: after the delete, notifications are
   * cancelled only when the alert has a medicine, a dependent and days, and
   * only for an array of days.
   */
  function DeleteDependent(a: ListedAlert): (d: Deletion)
    ensures d.deleted == a.id && d.closed
    ensures d.cancelled != [] ==> Truthy(a.remedioId) && Truthy(a.dependenteId) && a.dias.Some? && a.dias.value.DayList?
    ensures Truthy(a.remedioId) && Truthy(a.dependenteId) && a.dias.Some? && a.dias.value.DayList?
            ==> d.cancelled == DependentCancelIds(a.remedioId.value, a.dependenteId.value, a.dias.value.items)
  {
    var guard := Truthy(a.remedioId) && Truthy(a.dependenteId) && a.dias.Some? && (a.dias.value.DayText? ==> a.dias.value.text != "");
    if guard && a.dias.value.DayList? then
      Deletion(a.id, DependentCancelIds(a.remedioId.value, a.dependenteId.value, a.dias.value.items), true)
    else Deletion(a.id, [], true)
  }

  /** Days stored as text are never cancelled by the dependents' list. */
  lemma TextDaysNeverCancelled(a: ListedAlert, t: string)
    requires a.dias == Some(DayText(t))
    ensures DeleteDependent(a).cancelled == []
  {
  }
}

=== FILE: android_intent.dfy ===
// The slice of the Android platform the native reminder code talks to:
// intents with string extras, the notification it builds, and the platform
// calls it makes, recorded as an effect log instead of being performed.

module Intents {
  import opened JsText

  /** The components an explicit intent can name. */
  datatype Component =
    | MainActivity
    | MedicationForegroundService
    | MedicationConfirmReceiver
    | PersistentForegroundService

  /**
   * An `Intent`: an optional explicit target, an optional action and string
   * extras. A `putExtra` with a Java `null` stores `None`.
   */
  datatype Intent = Intent(target: Option<Component>, action: Option<string>, extras: map<string, Option<string>>)

  /** `getStringExtra`: `null` both for a missing key and for a stored `null`. */
  function GetStringExtra(i: Intent, key: string): (r: Option<string>)
    ensures key !in i.extras ==> r == None
    ensures r.Some? ==> key in i.extras && i.extras[key] == r
  {
    if key in i.extras then i.extras[key] else None
  }

  /** `putExtra`: the key now reads back the value; every other key is untouched. */
  function PutExtra(i: Intent, key: string, v: Option<string>): (r: Intent)
    ensures GetStringExtra(r, key) == v
    ensures forall k :: k != key ==> GetStringExtra(r, k) == GetStringExtra(i, k)
    ensures r.target == i.target && r.action == i.action
  {
    i.(extras := i.extras[key := v])
  }

  /** An intent that names a component and nothing else. */
  function Explicit(c: Component): Intent
  {
    Intent(Some(c), None, map[])
  }

  /** `Service.START_STICKY` and `Service.START_NOT_STICKY`. */
  const StartSticky: int := 1
  const StartNotSticky: int := 2

  /** `NotificationCompat.PRIORITY_HIGH` and `PRIORITY_MAX`. */
  const PriorityHigh: int := 1
  const PriorityMax: int := 2

  /** A notification button and the intent it fires. */
  datatype Action = Action(caption: string, fires: Intent)

  /** The parts of a built notification that the code decides. */
  datatype Notification = Notification(
    channel: string,
    title: string,
    text: string,
    bigText: Option<string>,
    priority: int,
    ongoing: bool,
    autoCancel: bool,
    vibration: seq<int>,
    contentIntent: Intent,
    actions: seq<Action>)

  /** Platform calls, in the order they are made. */
  datatype Effect =
    | StartForeground(id: int, notification: Notification)
    | StopForeground(removeNotification: bool)
    | StopSelf
    | StartService(intent: Intent)
    | StopService(intent: Intent)
    | SendBroadcast(intent: Intent)
    | LogError(message: string)

  /** Java string concatenation prints a `null` operand as "null". */
  function JavaText(o: Option<string>): string
  {
    Coalesce(o, "null")
  }
}

=== FILE: calendar.dfy ===
// Civil dates of the proleptic Gregorian calendar, the way the screens use
// JavaScript `Date`: day arithmetic (`setDate(getDate() - n)`), the
// `YYYY-MM-DD` key that every history record carries in its `dia` field, and
// `new Date(y, m, d)`. Local time is taken to coincide with UTC (no zone, no
// daylight saving).

module Calendar {
  import opened JsText

  const MinuteMs: int := 60000
  const HourMs: int := 3600000
  const DayMs: int := 86400000

  datatype Date = Date(year: int, month: int, day: int)

  predicate IsLeap(y: int)
  {
    (y % 4 == 0 && y % 100 != 0) || y % 400 == 0
  }

  function YearLength(y: int): (n: int)
    ensures n == 365 || n == 366
  {
    if IsLeap(y) then 366 else 365
  }

  function DaysInMonth(y: int, m: int): (n: int)
    requires 1 <= m <= 12
    ensures 28 <= n <= 31
    ensures n == 29 <==> m == 2 && IsLeap(y)
  {
    if m == 2 then (if IsLeap(y) then 29 else 28)
    else if m == 4 || m == 6 || m == 9 || m == 11 then 30
    else 31
  }

  /** A date that names a real calendar day. */
  predicate Valid(d: Date)
  {
    1 <= d.month <= 12 && 1 <= d.day <= DaysInMonth(d.year, d.month)
  }

  /** Years whose `toISOString` year field is four plain digits. */
  predicate IsoYear(d: Date)
  {
    0 <= d.year <= 9999
  }

  // ---------------------------------------------------------------------------
  // Day numbers: days elapsed since 0000-01-01

  /** Days from 0000-01-01 to the first day of year `y` (negative before year 0). */
  function DaysBeforeYear(y: int): int
  {
    365 * y + (y + 3) / 4 - (y + 99) / 100 + (y + 399) / 400
  }

  /** Consecutive years are exactly one year length apart. */
  lemma DaysBeforeNextYear(y: int)
    ensures DaysBeforeYear(y + 1) == DaysBeforeYear(y) + YearLength(y)
  {
    assert (y + 4) / 4 - (y + 3) / 4 == (if y % 4 == 0 then 1 else 0);
    assert (y + 100) / 100 - (y + 99) / 100 == (if y % 100 == 0 then 1 else 0);
    assert (y + 400) / 400 - (y + 399) / 400 == (if y % 400 == 0 then 1 else 0);
  }

  lemma {:induction false} DaysBeforeYearMonotone(a: int, b: int)
    requires a < b
    ensures DaysBeforeYear(b) >= DaysBeforeYear(a) + YearLength(a)
    decreases b - a
  {
    DaysBeforeNextYear(a);
    if a + 1 < b {
      DaysBeforeYearMonotone(a + 1, b);
    }
  }

  /** Days of year `y` before the first day of month `m` (`m == 13` gives the whole year). */
  function DaysBeforeMonth(y: int, m: int): (n: int)
    requires 1 <= m <= 13
    ensures 0 <= n <= 31 * (m - 1)
  {
    if m == 1 then 0 else DaysBeforeMonth(y, m - 1) + DaysInMonth(y, m - 1)
  }

  lemma WholeYear(y: int)
    ensures DaysBeforeMonth(y, 13) == YearLength(y)
  {
    var feb := DaysInMonth(y, 2);
    assert DaysBeforeMonth(y, 3) == 31 + feb;
    assert DaysBeforeMonth(y, 5) == 31 + feb + 31 + 30;
    assert DaysBeforeMonth(y, 7) == 31 + feb + 31 + 30 + 31 + 30;
    assert DaysBeforeMonth(y, 9) == 31 + feb + 31 + 30 + 31 + 30 + 31 + 31;
    assert DaysBeforeMonth(y, 11) == 31 + feb + 31 + 30 + 31 + 30 + 31 + 31 + 30 + 31;
  }

  lemma {:induction false} DaysBeforeMonthMonotone(y: int, a: int, b: int)
    requires 1 <= a < b <= 13
    ensures DaysBeforeMonth(y, b) >= DaysBeforeMonth(y, a) + DaysInMonth(y, a)
    decreases b - a
  {
    if a + 1 < b {
      DaysBeforeMonthMonotone(y, a + 1, b);
    }
  }

  /** The day number of a date: 0000-01-01 is day 0. */
  function DayNumber(d: Date): int
    requires 1 <= d.month <= 12
  {
    DaysBeforeYear(d.year) + DaysBeforeMonth(d.year, d.month) + d.day - 1
  }

  /** The offset of a valid date inside its year lies within the year. */
  lemma DayOfYearBounds(d: Date)
    requires Valid(d)
    ensures 0 <= DaysBeforeMonth(d.year, d.month) + d.day - 1 < YearLength(d.year)
  {
    WholeYear(d.year);
    if d.month < 12 {
      DaysBeforeMonthMonotone(d.year, d.month, 13);
    }
  }

  /** Calendar order: by year, then month, then day. */
  predicate Before(a: Date, b: Date)
  {
    a.year < b.year
    || (a.year == b.year && a.month < b.month)
    || (a.year == b.year && a.month == b.month && a.day < b.day)
  }

  /** Day numbers follow calendar order. */
  lemma DayNumberOrder(a: Date, b: Date)
    requires Valid(a) && Valid(b)
    ensures Before(a, b) <==> DayNumber(a) < DayNumber(b)
    ensures a == b <==> DayNumber(a) == DayNumber(b)
  {
    DayOfYearBounds(a);
    DayOfYearBounds(b);
    if a.year < b.year {
      DaysBeforeYearMonotone(a.year, b.year);
    } else if b.year < a.year {
      DaysBeforeYearMonotone(b.year, a.year);
    } else if a.month < b.month {
      DaysBeforeMonthMonotone(a.year, a.month, b.month);
    } else if b.month < a.month {
      DaysBeforeMonthMonotone(a.year, b.month, a.month);
    }
  }

  /** A valid date at most 365 days before another lies in the same year or the one before. */
  lemma YearOfNearbyDay(a: Date, b: Date)
    requires Valid(a) && Valid(b)
    requires DayNumber(b) - 365 <= DayNumber(a) <= DayNumber(b)
    ensures b.year - 1 <= a.year <= b.year
  {
    DayNumberOrder(b, a);
    var c := Date(b.year - 1, 1, 1);
    DayNumberOrder(a, c);
    DayOfYearBounds(b);
    DaysBeforeNextYear(b.year - 1);
  }

  /** The year holding day number `k`, searched upward from year `y`. */
  function YearOfDay(k: int, y: int): (r: int)
    requires 0 <= y <= 9999 && DaysBeforeYear(y) <= k < DaysBeforeYear(10000)
    ensures y <= r <= 9999 && DaysBeforeYear(r) <= k < DaysBeforeYear(r) + YearLength(r)
    decreases 10000 - y
  {
    DaysBeforeNextYear(y);
    if k < DaysBeforeYear(y + 1) then y else YearOfDay(k, y + 1)
  }

  /** The month of year `y` holding day `r` of that year, searched upward from month `m`. */
  function MonthOfDay(y: int, r: int, m: int): (n: int)
    requires 1 <= m <= 12 && DaysBeforeMonth(y, m) <= r < YearLength(y)
    ensures m <= n <= 12 && DaysBeforeMonth(y, n) <= r < DaysBeforeMonth(y, n) + DaysInMonth(y, n)
    decreases 12 - m
  {
    if r < DaysBeforeMonth(y, m) + DaysInMonth(y, m) then m
    else
      WholeYear(y);
      MonthOfDay(y, r, m + 1)
  }

  /** The date of day number `k`, for the days of years 0 to 9999. */
  function DateOfDay(k: int): (d: Date)
    requires 0 <= k < DaysBeforeYear(10000)
    ensures Valid(d) && IsoYear(d) && DayNumber(d) == k
  {
    var y := YearOfDay(k, 0);
    var r := k - DaysBeforeYear(y);
    var m := MonthOfDay(y, r, 1);
    Date(y, m, r - DaysBeforeMonth(y, m) + 1)
  }

  /** Every date of years 0 to 9999 is the date of its own day number. */
  lemma DateOfDayNumber(d: Date)
    requires Valid(d) && IsoYear(d)
    ensures 0 <= DayNumber(d) < DaysBeforeYear(10000)
    ensures DateOfDay(DayNumber(d)) == d
  {
    DayOfYearBounds(d);
    DaysBeforeNextYear(d.year);
    if d.year < 9999 {
      DaysBeforeYearMonotone(d.year + 1, 10000);
    }
    DayNumberOrder(DateOfDay(DayNumber(d)), d);
  }

  /** The day before a valid date (`setDate(getDate() - 1)`). */
  function PrevDay(d: Date): (r: Date)
    requires Valid(d)
    ensures Valid(r)
    ensures DayNumber(r) == DayNumber(d) - 1
  {
    if d.day > 1 then Date(d.year, d.month, d.day - 1)
    else if d.month > 1 then Date(d.year, d.month - 1, DaysInMonth(d.year, d.month - 1))
    else
      DaysBeforeNextYear(d.year - 1);
      WholeYear(d.year - 1);
      Date(d.year - 1, 12, 31)
  }

  /** `k` days earlier (`setDate(getDate() - k)`). */
  function MinusDays(d: Date, k: nat): (r: Date)
    requires Valid(d)
    ensures Valid(r)
    ensures DayNumber(r) == DayNumber(d) - k
    decreases k
  {
    if k == 0 then d else MinusDays(PrevDay(d), k - 1)
  }

  /** The first day of the month of `d`. */
  function MonthStart(d: Date): (r: Date)
    requires Valid(d)
    ensures Valid(r) && !Before(d, r)
    ensures DayNumber(d) - DayNumber(r) == d.day - 1
  {
    Date(d.year, d.month, 1)
  }

  /** Day of the week, Sunday = 0 (`getDay()`); 0000-01-01 was a Saturday. */
  function Weekday(d: Date): (w: int)
    requires 1 <= d.month <= 12
    ensures 0 <= w < 7
  {
    (DayNumber(d) + 6) % 7
  }

  lemma WeekdayOfPrevDay(d: Date)
    requires Valid(d)
    ensures Weekday(PrevDay(d)) == (Weekday(d) + 6) % 7
  {
    var p := PrevDay(d);
    var n := DayNumber(d);
    assert DayNumber(p) == n - 1;
    assert Weekday(p) == (n + 5) % 7;
    assert Weekday(d) == (n + 6) % 7;
    ModSevenBack(n + 6);
  }

  /** Going back one day turns the week back by one, modulo seven. */
  lemma ModSevenBack(k: int)
    ensures (k - 1) % 7 == (k % 7 + 6) % 7
  {
    var w := k % 7;
    assert k == 7 * (k / 7) + w;
    assert k - 1 == 7 * (k / 7 - 1) + (w + 6);
  }

  /** 1970-01-01, the origin of timestamps, was a Thursday. */
  lemma EpochWasThursday()
    ensures DayNumber(Date(1970, 1, 1)) == UnixEpochDay
    ensures Weekday(Date(1970, 1, 1)) == 4
  {
  }

  const UnixEpochDay: int := 719528

  /** The timestamp (ms) of local midnight starting day `d`. */
  function MidnightMs(d: Date): int
    requires 1 <= d.month <= 12
  {
    (DayNumber(d) - UnixEpochDay) * DayMs
  }

  /**
   * `new Date(y, m, day)` with a zero-based month: the month overflows into the
   * year, the day overflows into following months, and years 0..99 mean
   * 1900..1999. The result is a day number.
   */
  function MakeDay(y: int, m: int, day: int): int
  {
    var yy := if 0 <= y <= 99 then y + 1900 else y;
    var ym := yy + m / 12;
    DaysBeforeYear(ym) + DaysBeforeMonth(ym, m % 12 + 1) + day - 1
  }

  /** For a valid date outside 0..99 the constructor lands on that date. */
  lemma MakeDayOfValid(d: Date)
    requires Valid(d)
    ensures !(0 <= d.year <= 99) ==> MakeDay(d.year, d.month - 1, d.day) == DayNumber(d)
    ensures 0 <= d.year <= 99 ==> MakeDay(d.year, d.month - 1, d.day) == DayNumber(Date(d.year + 1900, d.month, d.day))
  {
    MonthIndexInYear(d.month - 1);
  }

  /** A month index 0..11 stays in its year and names month index + 1. */
  lemma MonthIndexInYear(m: int)
    requires 0 <= m < 12
    ensures m / 12 == 0 && m % 12 + 1 == m + 1
  {
  }

  // ---------------------------------------------------------------------------
  // Text forms

  /** Four-digit year as `toISOString` writes years 0..9999. */
  function Pad4(n: nat): (r: string)
    requires n < 10000
    ensures |r| == 4 && AllDigits(r)
  {
    Pad2(n / 100) + Pad2(n % 100)
  }

  lemma Pad4Order(a: nat, b: nat)
    requires a < 10000 && b < 10000
    ensures StrLt(Pad4(a), Pad4(b)) <==> a < b
  {
    StrLtConcat(Pad2(a / 100), Pad2(b / 100), Pad2(a % 100), Pad2(b % 100));
    Pad2Order(a / 100, b / 100);
    Pad2Order(a % 100, b % 100);
    if Pad2(a / 100) == Pad2(b / 100) {
      StrLtIrreflexive(Pad2(a / 100));
    }
  }

  /** The date part of `toISOString()`: `YYYY-MM-DD`. */
  function Iso(d: Date): (s: string)
    requires Valid(d) && IsoYear(d)
    ensures |s| == 10 && s[4] == '-' && s[7] == '-'
  {
    Pad4(d.year) + ("-" + (Pad2(d.month) + ("-" + Pad2(d.day))))
  }

  /** Comparing `YYYY-MM-DD` keys as strings compares the dates. */
  lemma IsoOrder(a: Date, b: Date)
    requires Valid(a) && IsoYear(a) && Valid(b) && IsoYear(b)
    ensures StrLt(Iso(a), Iso(b)) <==> Before(a, b)
  {
    var ra := "-" + Pad2(a.day);
    var rb := "-" + Pad2(b.day);
    var ma := "-" + (Pad2(a.month) + ra);
    var mb := "-" + (Pad2(b.month) + rb);
    StrLtConcat(Pad4(a.year), Pad4(b.year), ma, mb);
    Pad4Order(a.year, b.year);
    StrLtConcat("-", "-", Pad2(a.month) + ra, Pad2(b.month) + rb);
    StrLtIrreflexive("-");
    StrLtConcat(Pad2(a.month), Pad2(b.month), ra, rb);
    Pad2Order(a.month, b.month);
    StrLtConcat("-", "-", Pad2(a.day), Pad2(b.day));
    Pad2Order(a.day, b.day);
    if a.year == b.year {
      StrLtIrreflexive(Pad4(a.year));
    } else {
      Pad4Order(b.year, a.year);
    }
    if a.month == b.month {
      StrLtIrreflexive(Pad2(a.month));
    } else {
      Pad2Order(b.month, a.month);
    }
  }

  /** `YYYY-MM-DD` keys compare the way day numbers do, and equal keys mean equal days. */
  lemma IsoMatchesDayNumber(a: Date, b: Date)
    requires Valid(a) && IsoYear(a) && Valid(b) && IsoYear(b)
    ensures StrLt(Iso(a), Iso(b)) <==> DayNumber(a) < DayNumber(b)
    ensures StrLe(Iso(a), Iso(b)) <==> DayNumber(a) <= DayNumber(b)
    ensures Iso(a) == Iso(b) <==> a == b
  {
    IsoOrder(a, b);
    IsoOrder(b, a);
    DayNumberOrder(a, b);
    DayNumberOrder(b, a);
    if Iso(a) == Iso(b) {
      StrLtIrreflexive(Iso(a));
    }
  }

  /** Reads a strict `YYYY-MM-DD` key naming a real day; anything else is `None`. */
  function ParseIso(s: string): (r: Option<Date>)
    ensures r.Some? ==> Valid(r.value) && IsoYear(r.value)
  {
    if |s| == 10 && s[4] == '-' && s[7] == '-'
       && AllDigits(s[..4]) && AllDigits(s[5..7]) && AllDigits(s[8..])
    then
      DecimalValueBound(s[..4]);
      var d := Date(DecimalValue(s[..4]), DecimalValue(s[5..7]), DecimalValue(s[8..]));
      if Valid(d) then Some(d) else None
    else None
  }

  lemma {:induction false} DecimalValueBound(s: string)
    requires AllDigits(s) && |s| <= 4
    ensures DecimalValue(s) < if |s| == 0 then 1 else if |s| == 1 then 10 else if |s| == 2 then 100 else if |s| == 3 then 1000 else 10000
  {
    if s != "" {
      DecimalValueBound(s[..|s| - 1]);
    }
  }

  /** Appending two digits multiplies by one hundred and adds their value. */
  lemma DecimalValueAppend2(a: string, b: string)
    requires AllDigits(a) && AllDigits(b) && |b| == 2
    ensures DecimalValue(a + b) == DecimalValue(a) * 100 + DecimalValue(b)
  {
    var s := a + b;
    assert s[..|s| - 1] == a + b[..1];
    var t := a + b[..1];
    assert t[..|t| - 1] == a;
    assert b[..1][..0] == "";
    assert DecimalValue(s) == DecimalValue(t) * 10 + DigitValue(b[1]);
    assert DecimalValue(t) == DecimalValue(a) * 10 + DigitValue(b[0]);
    assert DecimalValue(b[..1]) == DigitValue(b[0]) by {
      assert DecimalValue(b[..1]) == DecimalValue(b[..1][..0]) * 10 + DigitValue(b[..1][0]);
    }
    assert DecimalValue(b) == DecimalValue(b[..1]) * 10 + DigitValue(b[1]);
  }

  /** Reading back a four-digit year gives the year. */
  lemma Pad4RoundTrip(n: nat)
    requires n < 10000
    ensures DecimalValue(Pad4(n)) == n
  {
    DecimalValueAppend2(Pad2(n / 100), Pad2(n % 100));
    Pad2RoundTrip(n / 100);
    Pad2RoundTrip(n % 100);
  }

  /** Reading back the ISO key of a date gives the date. */
  lemma ParseIsoRoundTrip(d: Date)
    requires Valid(d) && IsoYear(d)
    ensures ParseIso(Iso(d)) == Some(d)
  {
    IsoSlices(d);
    Pad4RoundTrip(d.year);
    Pad2RoundTrip(d.month);
    Pad2RoundTrip(d.day);
    ParseIsoOfFields(Iso(d), d);
  }

  /** The three fields of an ISO key sit at fixed positions. */
  lemma IsoSlices(d: Date)
    requires Valid(d) && IsoYear(d)
    ensures Iso(d)[..4] == Pad4(d.year) && Iso(d)[5..7] == Pad2(d.month) && Iso(d)[8..] == Pad2(d.day)
  {
    DashedSlices(Pad4(d.year), Pad2(d.month), Pad2(d.day));
  }

  lemma DashedSlices(y: string, m: string, dd: string)
    requires |y| == 4 && |m| == 2 && |dd| == 2
    ensures var s := y + ("-" + (m + ("-" + dd)));
            s[..4] == y && s[5..7] == m && s[8..] == dd
  {
    var s := y + ("-" + (m + ("-" + dd)));
    assert s[..4] == y;
    assert s[5..7] == m;
    assert s[8..] == dd;
  }

  /** A `YYYY-MM-DD` text whose three digit fields read as a valid date's parts parses to that date. */
  lemma ParseIsoOfFields(s: string, d: Date)
    requires Valid(d) && |s| == 10 && s[4] == '-' && s[7] == '-'
    requires AllDigits(s[..4]) && AllDigits(s[5..7]) && AllDigits(s[8..])
    requires DecimalValue(s[..4]) == d.year && DecimalValue(s[5..7]) == d.month && DecimalValue(s[8..]) == d.day
    ensures ParseIso(s) == Some(d)
  {
  }
}

=== FILE: clock.dfy ===
// Wall-clock arithmetic on integer millisecond timestamps: the start of the
// local day, minutes of the day, the "HH:MM" text the app stores and compares,
// and the lenient "HH:MM" reader used by the dose matchers. Local time is taken
// to coincide with UTC.

module Clock {
  import opened JsText
  import opened Calendar

  /** `Math.floor(a / b)` on integers (Dafny's `/` is Euclidean). */
  function FloorDiv(a: int, b: int): (q: int)
    requires b != 0
    ensures b > 0 ==> b * q <= a < b * q + b
    ensures b < 0 ==> b * q + b < a <= b * q
  {
    if b > 0 then a / b else (-a) / (-b)
  }

  /** Milliseconds since local midnight. */
  function TimeOfDay(t: int): (r: int)
    ensures 0 <= r < DayMs
  {
    t % DayMs
  }

  /** `d.setHours(0, 0, 0, 0)`: local midnight of the day containing `t`. */
  function StartOfDay(t: int): (r: int)
    ensures r <= t < r + DayMs
    ensures r % DayMs == 0
  {
    t - t % DayMs
  }

  /** `getHours() * 60 + getMinutes()`. */
  function MinuteOfDay(t: int): (m: int)
    ensures 0 <= m < 1440
  {
    TimeOfDay(t) / MinuteMs
  }

  /** `getDay()`: 0 for Sunday; 1970-01-01 was a Thursday. */
  function WeekdayOf(t: int): (w: int)
    ensures 0 <= w < 7
  {
    (FloorDiv(t, DayMs) + 4) % 7
  }

  /** Consecutive days advance the weekday by one. */
  lemma WeekdayNextDay(t: int)
    ensures WeekdayOf(t + DayMs) == (WeekdayOf(t) + 1) % 7
  {
    assert FloorDiv(t + DayMs, DayMs) == FloorDiv(t, DayMs) + 1;
  }

  /** Zero-padded "HH:MM" for a minute of the day. */
  function HourMinuteText(minutes: int): (s: string)
    requires 0 <= minutes < 1440
    ensures |s| == 5 && s[2] == ':'
    ensures s[..2] == Pad2(minutes / 60) && s[3..] == Pad2(minutes % 60)
  {
    Pad2(minutes / 60) + ":" + Pad2(minutes % 60)
  }

  /** `formatHourMinute(date)`, also `date.toTimeString().slice(0, 5)`. */
  function FormatHourMinute(t: int): (s: string)
    ensures |s| == 5
  {
    HourMinuteText(MinuteOfDay(t))
  }

  /** `[h, m] = String(s).split(':').map(Number)` then `(h || 0) * 60 + (m || 0)`. */
  function ClockMinutes(s: string): (r: int)
    ensures ToNumber(Part(Split(s, ':'), 0)).NaN? && ToNumber(Part(Split(s, ':'), 1)).NaN? ==> r == 0
  {
    var parts := Split(s, ':');
    OrZero(ToNumber(Part(parts, 0))) * 60 + OrZero(ToNumber(Part(parts, 1)))
  }

  /** An hour and a minute field make up the minute of the day they come from. */
  lemma HoursAndMinutes(minutes: int)
    ensures (minutes / 60) * HourMs + (minutes % 60) * MinuteMs == minutes * MinuteMs
  {
    var h, m := minutes / 60, minutes % 60;
    assert minutes == 60 * h + m;
    assert h * HourMs == h * 60 * MinuteMs;
  }

  /** `Math.abs(a - b)`. */
  function Distance(a: int, b: int): (d: nat)
    ensures d == a - b || d == b - a
  {
    if a >= b then a - b else b - a
  }

  lemma SplitHourMinute(minutes: int)
    requires 0 <= minutes < 1440
    ensures Split(HourMinuteText(minutes), ':') == [Pad2(minutes / 60), Pad2(minutes % 60)]
  {
    var h, m := Pad2(minutes / 60), Pad2(minutes % 60);
    assert ':' !in h by { assert AllDigits(h); }
    assert ':' !in m by { assert AllDigits(m); }
    assert Join([h, m], [':']) == h + [':'] + Join([m], [':']);
    JoinSplitRoundTrip([h, m], ':');
  }

  /** The two fields of formatted text read back as the hour and the minute. */
  lemma HourMinuteFields(minutes: int)
    requires 0 <= minutes < 1440
    ensures ToNumber(Part(Split(HourMinuteText(minutes), ':'), 0)) == Int(minutes / 60)
    ensures ToNumber(Part(Split(HourMinuteText(minutes), ':'), 1)) == Int(minutes % 60)
  {
    SplitHourMinute(minutes);
    NumberOfDigits(Pad2(minutes / 60));
    NumberOfDigits(Pad2(minutes % 60));
    Pad2RoundTrip(minutes / 60);
    Pad2RoundTrip(minutes % 60);
  }

  /** Reading back formatted text gives the minute of the day. */
  lemma HourMinuteRoundTrip(minutes: int)
    requires 0 <= minutes < 1440
    ensures ClockMinutes(HourMinuteText(minutes)) == minutes
  {
    HourMinuteFields(minutes);
  }

  lemma FormatRoundTrip(t: int)
    ensures ClockMinutes(FormatHourMinute(t)) == MinuteOfDay(t)
  {
    HourMinuteRoundTrip(MinuteOfDay(t));
  }

  /** "HH:MM" strings compare as the minutes they name. */
  lemma HourMinuteOrder(a: int, b: int)
    requires 0 <= a < 1440 && 0 <= b < 1440
    ensures StrLt(HourMinuteText(a), HourMinuteText(b)) <==> a < b
    ensures HourMinuteText(a) == HourMinuteText(b) <==> a == b
  {
    HourMinuteLt(a, b);
    if HourMinuteText(a) == HourMinuteText(b) {
      HourMinuteRoundTrip(a);
      HourMinuteRoundTrip(b);
    }
  }

  lemma HourMinuteLt(a: int, b: int)
    requires 0 <= a < 1440 && 0 <= b < 1440
    ensures StrLt(HourMinuteText(a), HourMinuteText(b)) <==> a < b
  {
    var ha, ma := HourMinuteParts(a);
    var hb, mb := HourMinuteParts(b);
    PaddedPairOrder(ha, ma, hb, mb);
    MinutesLexOrder(a, b);
  }

  /** The hour and minute a minute of the day is written with. */
  lemma HourMinuteParts(minutes: int) returns (h: nat, m: nat)
    requires 0 <= minutes < 1440
    ensures h == minutes / 60 && m == minutes % 60 && h < 100 && m < 100
    ensures HourMinuteText(minutes) == Pad2(h) + (":" + Pad2(m))
  {
    h, m := minutes / 60, minutes % 60;
  }

  /** `h:m` texts with equal-length hour parts compare by hour, then by minute. */
  lemma ColonLex(ha: string, hb: string, ma: string, mb: string)
    requires |ha| == |hb|
    ensures StrLt(ha + (":" + ma), hb + (":" + mb)) <==> StrLt(ha, hb) || (ha == hb && StrLt(ma, mb))
  {
    StrLtConcat(":", ":", ma, mb);
    StrLtIrreflexive(":");
    StrLtConcat(ha, hb, ":" + ma, ":" + mb);
  }

  /** Two-digit `h:m` texts compare as the pairs (h, m) do, lexicographically. */
  lemma PaddedPairOrder(h1: nat, m1: nat, h2: nat, m2: nat)
    requires h1 < 100 && m1 < 100 && h2 < 100 && m2 < 100
    ensures StrLt(Pad2(h1) + (":" + Pad2(m1)), Pad2(h2) + (":" + Pad2(m2))) <==> h1 < h2 || (h1 == h2 && m1 < m2)
  {
    ColonLex(Pad2(h1), Pad2(h2), Pad2(m1), Pad2(m2));
    Pad2Order(h1, h2);
    Pad2Order(m1, m2);
    Pad2Distinct(h1, h2);
  }

  /** Distinct two-digit numbers have distinct texts. */
  lemma Pad2Distinct(x: nat, y: nat)
    requires x < 100 && y < 100
    ensures Pad2(x) == Pad2(y) <==> x == y
  {
    if x != y {
      Pad2Order(x, y);
      Pad2Order(y, x);
      StrLtIrreflexive(Pad2(x));
    }
  }

  /** Minutes of the day order as (hour, minute) pairs. */
  lemma MinutesLexOrder(a: int, b: int)
    requires 0 <= a && 0 <= b
    ensures a < b <==> a / 60 < b / 60 || (a / 60 == b / 60 && a % 60 < b % 60)
  {
    assert a == 60 * (a / 60) + a % 60;
    assert b == 60 * (b / 60) + b % 60;
  }

  // ---------------------------------------------------------------------------
  // The day key of an instant: `toISOString().slice(0, 10)`

  /** The instants whose ISO date has a four-digit year, 0000-01-01 to 9999-12-31. */
  predicate IsoInstant(t: int)
  {
    0 <= t / DayMs + UnixEpochDay < DaysBeforeYear(10000)
  }

  /** The calendar date of the day containing `t`. */
  function DateOf(t: int): (d: Date)
    requires IsoInstant(t)
    ensures Valid(d) && IsoYear(d)
    ensures MidnightMs(d) == StartOfDay(t)
  {
    DateOfDay(t / DayMs + UnixEpochDay)
  }

  /** A key that reads as the date whose midnight starts the day of `t`. */
  predicate DayKeyOf(key: string, t: int)
  {
    ParseIso(key).Some? && MidnightMs(ParseIso(key).value) == StartOfDay(t)
  }

  /** `new Date(t).toISOString().slice(0, 10)`: the `dia` key the app stores. */
  function IsoDay(t: int): (key: string)
    requires IsoInstant(t)
    ensures |key| == 10
    ensures DayKeyOf(key, t)
  {
    ParseIsoRoundTrip(DateOf(t));
    Iso(DateOf(t))
  }

  /** Keys of two instants compare as their days do, and agree exactly on the same day. */
  lemma IsoDayOrder(a: int, b: int)
    requires IsoInstant(a) && IsoInstant(b)
    ensures StrLt(IsoDay(a), IsoDay(b)) <==> StartOfDay(a) < StartOfDay(b)
    ensures IsoDay(a) == IsoDay(b) <==> StartOfDay(a) == StartOfDay(b)
  {
    var da, db := DateOf(a), DateOf(b);
    IsoMatchesDayNumber(da, db);
    assert MidnightMs(da) == (DayNumber(da) - UnixEpochDay) * DayMs;
    assert MidnightMs(db) == (DayNumber(db) - UnixEpochDay) * DayMs;
  }

  /** Each instant of a day of years 0 to 9999 has that day's key. */
  lemma IsoDayOfDate(d: Date, t: int)
    requires Valid(d) && IsoYear(d) && MidnightMs(d) <= t < MidnightMs(d) + DayMs
    ensures IsoInstant(t) && IsoDay(t) == Iso(d)
  {
    DateOfDayNumber(d);
    var k := DayNumber(d) - UnixEpochDay;
    assert k * DayMs <= t < k * DayMs + DayMs;
    assert t / DayMs == k;
  }
}

=== FILE: confirm_relay.dfy ===
// The confirm path from the notification button to JavaScript, as an explicit
// message channel: `MedicationConfirmReceiver` turns the confirm intent into a
// "MEDICATION_CONFIRMED" broadcast and asks the service to stop;
// `MedicationModule`'s registered receiver turns that broadcast into an
// "onMedicationConfirmed" event. The module's promise-returning methods and its
// teardown are modelled alongside.

module ConfirmRelay {
  import opened JsText
  import opened Intents
  import FS = ForegroundService

  const ConfirmedAction: string := "MEDICATION_CONFIRMED"
  const EventName: string := "onMedicationConfirmed"
  const StartError: string := "START_SERVICE_ERROR"
  const StopError: string := "STOP_SERVICE_ERROR"

  /** The relay broadcast's keys, in the order the receiver copies them. */
  const RelayKeys: seq<string> := ["medicationName", "dosage", "time", "medicationId", "alarmType", "intervalHours"]

  /** The service's extra keys, in the same order. */
  const ServiceKeys: seq<string> :=
    [FS.ExtraName, FS.ExtraDosage, FS.ExtraTime, FS.ExtraId, FS.ExtraAlarmType, FS.ExtraIntervalHours]

  /** The six values in transit (each may be a Java `null`). */
  datatype Payload = Payload(
    name: Option<string>,
    dosage: Option<string>,
    time: Option<string>,
    id: Option<string>,
    alarmType: Option<string>,
    intervalHours: Option<string>)

  function AsSeq(p: Payload): seq<Option<string>>
  {
    [p.name, p.dosage, p.time, p.id, p.alarmType, p.intervalHours]
  }

  /** The six extras of an intent under the given keys. */
  function ReadPayload(i: Intent, keys: seq<string>): Payload
    requires |keys| == 6
  {
    Payload(GetStringExtra(i, keys[0]), GetStringExtra(i, keys[1]), GetStringExtra(i, keys[2]),
            GetStringExtra(i, keys[3]), GetStringExtra(i, keys[4]), GetStringExtra(i, keys[5]))
  }

  /** The service's fields as they travel in the confirm intent. */
  function FieldsPayload(f: FS.Fields): Payload
  {
    Payload(Some(f.name), Some(f.dosage), Some(f.time), f.id, f.alarmType, f.intervalHours)
  }

  /** The stop request the receiver issues. */
  const StopRequest: Intent := Intent(Some(MedicationForegroundService), Some(FS.ActionStopService), map[])

  // ---------------------------------------------------------------------------
  // MedicationConfirmReceiver

  /** `sendToReactNative`: one broadcast, or a logged error when sending throws. */
  function RelayBroadcast(p: Payload): (b: Intent)
    ensures b.target.None? && b.action == Some(ConfirmedAction)
    ensures ReadPayload(b, RelayKeys) == p
  {
    Intent(None, Some(ConfirmedAction),
      map[RelayKeys[0] := p.name, RelayKeys[1] := p.dosage, RelayKeys[2] := p.time,
          RelayKeys[3] := p.id, RelayKeys[4] := p.alarmType, RelayKeys[5] := p.intervalHours])
  }

  /**
   * `MedicationConfirmReceiver.onReceive`. `sendFailure` is the message of an
   * exception thrown while broadcasting, if one is thrown.
   */
  function ReceiverOnReceive(intent: Option<Intent>, sendFailure: Option<Option<string>>): (effects: seq<Effect>)
    ensures intent.None? || intent.value.action != Some(FS.ActionConfirm) ==> effects == []
    ensures intent.Some? && intent.value.action == Some(FS.ActionConfirm) ==>
              |effects| == 2 && effects[1] == StopService(StopRequest)
              && (sendFailure.None? <==> effects[0] == SendBroadcast(RelayBroadcast(ReadPayload(intent.value, ServiceKeys))))
              && (sendFailure.Some? <==> effects[0].LogError?)
  {
    if intent.None? || intent.value.action != Some(FS.ActionConfirm) then []
    else
      var p := ReadPayload(intent.value, ServiceKeys);
      var relay := if sendFailure.None? then SendBroadcast(RelayBroadcast(p))
                   else LogError("❌ Erro ao enviar para React Native: " + JavaText(sendFailure.value));
      [relay, StopService(StopRequest)]
  }

  // ---------------------------------------------------------------------------
  // MedicationModule

  /** A JavaScript device event with its string map. */
  datatype JsEvent = JsEvent(name: string, params: map<string, Option<string>>)

  /** The module's receiver field and whether it is registered with the context. */
  datatype Module = Module(hasReceiver: bool, registered: bool)

  /** The constructor registers the relay receiver once. */
  const Constructed: Module := Module(true, true)

  /** The module receiver's `onReceive`: only the relay action yields an event. */
  function ModuleOnReceive(i: Intent): (e: Option<JsEvent>)
    ensures e.Some? <==> i.action == Some(ConfirmedAction)
    ensures e.Some? ==> e.value.name == EventName && e.value.params.Keys == set k | k in RelayKeys
  {
    if i.action == Some(ConfirmedAction) then
      var p := ReadPayload(i, RelayKeys);
      Some(JsEvent(EventName,
        map[RelayKeys[0] := p.name, RelayKeys[1] := p.dosage, RelayKeys[2] := p.time,
            RelayKeys[3] := p.id, RelayKeys[4] := p.alarmType, RelayKeys[5] := p.intervalHours]))
    else None
  }

  /** The events JavaScript receives for one broadcast: the filter admits only the relay action. */
  function Dispatch(m: Module, b: Intent): (events: seq<JsEvent>)
    ensures |events| <= 1
    ensures |events| == 1 <==> m.registered && b.action == Some(ConfirmedAction)
  {
    if m.registered && b.action == Some(ConfirmedAction) then [ModuleOnReceive(b).value] else []
  }

  /** Every broadcast among the effects, delivered in order. */
  function DeliverAll(m: Module, effects: seq<Effect>): seq<JsEvent>
  {
    if effects == [] then []
    else
      (if effects[0].SendBroadcast? then Dispatch(m, effects[0].intent) else [])
      + DeliverAll(m, effects[1..])
  }

  /** `onCatalystInstanceDestroy`: unregister when there is a receiver; a failure is only logged. */
  function Teardown(m: Module, unregisterFailure: Option<Option<string>>): (r: (Module, seq<Effect>))
    ensures !m.hasReceiver ==> r == (m, [])
    ensures m.hasReceiver && unregisterFailure.None? ==> !r.0.registered && r.1 == []
    ensures m.hasReceiver && unregisterFailure.Some? ==> r.0 == m && |r.1| == 1 && r.1[0].LogError?
  {
    if !m.hasReceiver then (m, [])
    else if unregisterFailure.None? then (m.(registered := false), [])
    else (m, [LogError("Erro ao desregistrar receiver: " + JavaText(unregisterFailure.value))])
  }

  /** A settled JavaScript promise. */
  datatype PromiseOutcome = Resolved(value: bool) | Rejected(code: string, message: Option<string>)

  /**
   * A `ReadableMap` of strings (a value may be `null`). `getString` of a key
   * the map does not have throws `NoSuchKeyException`, whose message is the key.
   */
  type ReadableMap = map<string, Option<string>>

  /** The value under `key`, or `null` when the map lacks it (as `getStringExtra` reads it back later). */
  function GetString(m: ReadableMap, key: string): Option<string>
  {
    if key in m then m[key] else None
  }

  /** The first of `keys` the map lacks: the key whose `getString` throws first. */
  function FirstMissing(m: ReadableMap, keys: seq<string>): (r: Option<string>)
    ensures r.None? <==> forall k :: 0 <= k < |keys| ==> keys[k] in m
    ensures r.Some? ==> exists k :: 0 <= k < |keys| && keys[k] == r.value && r.value !in m
                                    && forall j :: 0 <= j < k ==> keys[j] in m
  {
    if keys == [] then None
    else if keys[0] !in m then Some(keys[0])
    else
      var rest := FirstMissing(m, keys[1..]);
      assert rest.Some? ==> exists k :: 1 <= k < |keys| && keys[k] == rest.value && rest.value !in m
                                         && forall j :: 0 <= j < k ==> keys[j] in m by {
        if rest.Some? {
          var k :| 0 <= k < |keys| - 1 && keys[1..][k] == rest.value && rest.value !in m
                   && forall j :: 0 <= j < k ==> keys[1..][j] in m;
          assert keys[k + 1] == rest.value;
          assert forall j :: 0 <= j < k + 1 ==> keys[j] in m by {
            forall j | 0 <= j < k + 1 ensures keys[j] in m {
              if j > 0 { assert keys[j] == keys[1..][j - 1]; }
            }
          }
        }
      }
      assert rest.None? ==> forall k :: 0 <= k < |keys| ==> keys[k] in m by {
        if rest.None? {
          forall k | 0 <= k < |keys| ensures keys[k] in m {
            if k > 0 { assert keys[k] == keys[1..][k - 1]; }
          }
        }
      }
      rest
  }

  /** The five keys `startForegroundService` reads unconditionally. */
  const StartKeys: seq<string> := RelayKeys[..5]

  /** The key missing from the map that makes `startForegroundService` throw, if any. */
  function MissingStartKey(data: ReadableMap): (r: Option<string>)
    ensures r.None? <==> forall k :: 0 <= k < 5 ==> RelayKeys[k] in data
    ensures r.Some? ==> r.value !in data && r.value in StartKeys
  {
    FirstMissing(data, StartKeys)
  }

  /** The service intent built by `startForegroundService` once the five keys are known to be present. */
  function ServiceIntent(data: ReadableMap): (i: Intent)
    requires MissingStartKey(data).None?
    ensures i.target == Some(MedicationForegroundService) && i.action.None?
    ensures forall k :: 0 <= k < 5 ==> GetStringExtra(i, ServiceKeys[k]) == data[RelayKeys[k]]
    ensures FS.ExtraIntervalHours in i.extras <==> "intervalHours" in data
    ensures GetStringExtra(i, FS.ExtraIntervalHours) == GetString(data, "intervalHours")
  {
    var base := map[FS.ExtraName := data[RelayKeys[0]],
                    FS.ExtraDosage := data[RelayKeys[1]],
                    FS.ExtraTime := data[RelayKeys[2]],
                    FS.ExtraId := data[RelayKeys[3]],
                    FS.ExtraAlarmType := data[RelayKeys[4]]];
    var extras := if "intervalHours" in data then base[FS.ExtraIntervalHours := data["intervalHours"]] else base;
    Intent(Some(MedicationForegroundService), None, extras)
  }

  /**
   * `startForegroundService`. A missing key throws before any intent is sent;
   * otherwise `failure` is the message of an exception thrown while
   * dispatching, if one is thrown. Either exception rejects the promise.
   */
  function StartForegroundService(data: ReadableMap, failure: Option<Option<string>>): (r: (seq<Effect>, PromiseOutcome))
    ensures MissingStartKey(data).Some? ==> r.1 == Rejected(StartError, MissingStartKey(data))
    ensures MissingStartKey(data).None? && failure.None? ==> r.1 == Resolved(true) && r.0 == [StartService(ServiceIntent(data))]
    ensures MissingStartKey(data).None? && failure.Some? ==> r.1 == Rejected(StartError, failure.value)
    ensures r.1.Rejected? ==> forall k :: 0 <= k < |r.0| ==> !r.0[k].StartService?
  {
    var thrown := if MissingStartKey(data).Some? then Some(MissingStartKey(data)) else failure;
    if thrown.None? then ([StartService(ServiceIntent(data))], Resolved(true))
    else ([LogError("❌ Erro ao iniciar serviço: " + JavaText(thrown.value))], Rejected(StartError, thrown.value))
  }

  /** `stopForegroundService`. */
  function StopForegroundService(failure: Option<Option<string>>): (r: (seq<Effect>, PromiseOutcome))
    ensures failure.None? ==> r.1 == Resolved(true) && r.0 == [StopService(StopRequest)]
    ensures failure.Some? ==> r.1 == Rejected(StopError, failure.value)
                              && forall k :: 0 <= k < |r.0| ==> !r.0[k].StopService?
  {
    if failure.None? then ([StopService(StopRequest)], Resolved(true))
    else ([LogError("❌ Erro ao parar serviço: " + JavaText(failure.value))], Rejected(StopError, failure.value))
  }

  // ---------------------------------------------------------------------------
  // End to end

  /** JavaScript receives exactly one confirm event, whose six parameters are the payload's values. */
  predicate DeliversOne(events: seq<JsEvent>, p: Payload)
  {
    |events| == 1 && events[0].name == EventName
    && forall k :: 0 <= k < 6 ==> RelayKeys[k] in events[0].params && events[0].params[RelayKeys[k]] == AsSeq(p)[k]
  }

  /** Receiver then module: the six values reach JavaScript unchanged, under the relay keys. */
  lemma RelayIsIdentity(i: Intent)
    requires i.action == Some(FS.ActionConfirm)
    ensures DeliversOne(DeliverAll(Constructed, ReceiverOnReceive(Some(i), None)), ReadPayload(i, ServiceKeys))
  {
    var effects := ReceiverOnReceive(Some(i), None);
    var b := RelayBroadcast(ReadPayload(i, ServiceKeys));
    assert effects[0] == SendBroadcast(b);
    assert effects[1..][1..] == [];
    assert DeliverAll(Constructed, effects[1..]) == [] + DeliverAll(Constructed, effects[1..][1..]);
    assert DeliverAll(Constructed, effects) == Dispatch(Constructed, b) == [ModuleOnReceive(b).value];
    BroadcastBecomesEvent(ReadPayload(i, ServiceKeys));
  }

  /** The module turns a relay broadcast back into the payload it carries. */
  lemma BroadcastBecomesEvent(p: Payload)
    ensures DeliversOne([ModuleOnReceive(RelayBroadcast(p)).value], p)
  {
    var e := ModuleOnReceive(RelayBroadcast(p)).value;
    assert ReadPayload(RelayBroadcast(p), RelayKeys) == p;
    assert e.params == map[RelayKeys[0] := p.name, RelayKeys[1] := p.dosage, RelayKeys[2] := p.time,
                           RelayKeys[3] := p.id, RelayKeys[4] := p.alarmType, RelayKeys[5] := p.intervalHours];
    RelayKeysDistinct();
    PayloadMap(RelayKeys, p);
  }

  /** A map built from six distinct keys gives back the payload's values under them. */
  lemma PayloadMap(keys: seq<string>, p: Payload)
    requires |keys| == 6 && forall i, j :: 0 <= i < j < 6 ==> keys[i] != keys[j]
    ensures var m := map[keys[0] := p.name, keys[1] := p.dosage, keys[2] := p.time,
                         keys[3] := p.id, keys[4] := p.alarmType, keys[5] := p.intervalHours];
            forall k :: 0 <= k < 6 ==> keys[k] in m && m[keys[k]] == AsSeq(p)[k]
  {
  }

  lemma RelayKeysDistinct()
    ensures forall i, j :: 0 <= i < j < 6 ==> RelayKeys[i] != RelayKeys[j]
  {
    assert RelayKeys[0][0] == 'm' && RelayKeys[1][0] == 'd' && RelayKeys[2][0] == 't';
    assert RelayKeys[3][0] == 'm' && RelayKeys[4][0] == 'a' && RelayKeys[5][0] == 'i';
    assert RelayKeys[0][10] == 'N' && RelayKeys[3][10] == 'I';
  }

  /** A failed broadcast delivers nothing, but the stop request is still issued. */
  lemma FailedRelayStillStops(i: Intent, message: Option<string>)
    requires i.action == Some(FS.ActionConfirm)
    ensures DeliverAll(Constructed, ReceiverOnReceive(Some(i), Some(message))) == []
    ensures StopService(StopRequest) in ReceiverOnReceive(Some(i), Some(message))
  {
    var effects := ReceiverOnReceive(Some(i), Some(message));
    assert effects[1..][1..] == [];
    assert DeliverAll(Constructed, effects[1..]) == [] + DeliverAll(Constructed, effects[1..][1..]);
    assert effects[1] == StopService(StopRequest);
  }

  /** After teardown no broadcast reaches JavaScript. */
  lemma TornDownModuleIsDeaf(b: Intent)
    ensures Dispatch(Teardown(Constructed, None).0, b) == []
  {
    assert !Teardown(Constructed, None).0.registered;
  }

  /**
   * From the notification button to JavaScript: pressing the confirm action of
   * the service's notification delivers exactly the service's current fields.
   */
  lemma ButtonDeliversServiceFields(f: FS.Fields)
    ensures DeliversOne(DeliverAll(Constructed, ReceiverOnReceive(Some(FS.Build(f).actions[0].fires), None)), FieldsPayload(f))
  {
    var i := FS.Build(f).actions[0].fires;
    assert i == FS.ConfirmIntent(f);
    ConfirmIntentPayload(f);
    RelayIsIdentity(i);
  }

  lemma ConfirmIntentPayload(f: FS.Fields)
    ensures ReadPayload(FS.ConfirmIntent(f), ServiceKeys) == FieldsPayload(f)
  {
  }

  /**
   * From JavaScript to JavaScript: the values passed to `startForegroundService`
   * come back in the confirm event, with only the service's null defaults
   * applied to name, dosage and time.
   */
  lemma StartThenConfirm(data: ReadableMap)
    requires MissingStartKey(data).None?
    ensures var r := FS.OnStartCommand(FS.Fresh, Some(ServiceIntent(data)));
            var events := DeliverAll(Constructed, ReceiverOnReceive(Some(FS.Build(r.state).actions[0].fires), None));
            DeliversOne(events, Payload(Some(Coalesce(GetString(data, "medicationName"), FS.DefaultName)),
                                        Some(Coalesce(GetString(data, "dosage"), "")),
                                        Some(Coalesce(GetString(data, "time"), "")),
                                        GetString(data, "medicationId"), GetString(data, "alarmType"),
                                        GetString(data, "intervalHours")))
  {
    var r := FS.OnStartCommand(FS.Fresh, Some(ServiceIntent(data)));
    StartedFields(data);
    ButtonDeliversServiceFields(r.state);
  }

  /** The fields a fresh service takes from the intent `startForegroundService` builds. */
  lemma StartedFields(data: ReadableMap)
    requires MissingStartKey(data).None?
    ensures FS.OnStartCommand(FS.Fresh, Some(ServiceIntent(data))).state
            == FS.Fields(Coalesce(GetString(data, "medicationName"), FS.DefaultName),
                         Coalesce(GetString(data, "dosage"), ""), Coalesce(GetString(data, "time"), ""),
                         GetString(data, "medicationId"), GetString(data, "alarmType"), GetString(data, "intervalHours"))
  {
    var i := ServiceIntent(data);
    assert !FS.IsStop(Some(i));
    assert ServiceKeys[0] == FS.ExtraName && RelayKeys[0] == "medicationName";
    assert ServiceKeys[1] == FS.ExtraDosage && RelayKeys[1] == "dosage";
    assert ServiceKeys[2] == FS.ExtraTime && RelayKeys[2] == "time";
    assert ServiceKeys[3] == FS.ExtraId && RelayKeys[3] == "medicationId";
    assert ServiceKeys[4] == FS.ExtraAlarmType && RelayKeys[4] == "alarmType";
  }
}

=== FILE: days.dfy ===
// Weekday sets as the alert records store them: usually an array of
// abbreviations such as "Seg", but older records may hold one comma-separated
// string. Membership follows JavaScript's `includes`, which means element
// equality on an array and substring search on a string.

module Days {
  import opened JsText

  /** The abbreviations the alert forms store, indexed by `getDay()`. */
  const Abbrevs: seq<string> := ["Dom", "Seg", "Ter", "Qua", "Qui", "Sex", "Sáb"]

  datatype Dias = DayList(items: seq<string>) | DayText(text: string)

  /** `dias && dias.includes(day)`: an array is always truthy, a string only when non-empty. */
  predicate DiasIncludes(d: Option<Dias>, day: string)
  {
    d.Some? &&
    match d.value
    case DayList(items) => day in items
    case DayText(t) => t != "" && Includes(t, day)
  }
}

=== FILE: dependent_form.dfy ===
// The form that adds or edits a dependent (`FormDependentes`): the ordered
// validation, the messages for the account-creation service's errors, the
// saved record, the relationship label and the edit prefill. The clock and
// the service's answer are inputs; the document write is returned as a value.

module DependentForm {
  import opened JsText
  import opened Login

  datatype Form = Form(nomeCompleto: string, email: string, senha: string, parentesco: string,
                       genero: string, dataNascimento: int)

  /** The relationship labels offered by the picker. */
  const ParentescoLabels: seq<string> := ["Pai/Mãe", "Avô/Avó", "Filho(a)", "Irmão/Irmã", "Marido/Esposa",
                                          "Tio(a)", "Primo(a)", "Sogro(a)", "Genro/Nora", "Outro"]

  const MsgName: string := "Nome completo é obrigatório."
  const MsgEmail: string := "Email é obrigatório."
  const MsgEmailPattern: string := "Digite um email válido."
  const MsgGender: string := "Selecione o gênero."
  const MsgPassword: string := "Senha é obrigatória."
  const MsgPasswordLength: string := "A senha deve ter pelo menos 6 caracteres."
  const MsgParentesco: string := "Selecione o parentesco."
  const MsgFutureBirth: string := "Data de nascimento não pode ser futura."

  /** The outcome of each check, in the order they run. */
  datatype Outcomes = Outcomes(name: bool, email: bool, pattern: bool, gender: bool, password: bool,
                               passwordLength: bool, parentesco: bool, birth: bool)

  function Outcome(f: Form, now: int): Outcomes
  {
    Outcomes(!Blank(f.nomeCompleto), !Blank(f.email), ValidateEmail(f.email), f.genero != "", f.senha != "",
             |f.senha| >= 6, f.parentesco != "", f.dataNascimento <= now)
  }

  /** The checks with their messages; the password checks only when creating. */
  function CheckList(o: Outcomes, editing: bool): (cs: seq<(bool, string)>)
    ensures |cs| == (if editing then 6 else 8)
    ensures (forall k :: 0 <= k < |cs| ==> cs[k].0)
            <==> o.name && o.email && o.pattern && o.gender && (!editing ==> o.password && o.passwordLength)
                 && o.parentesco && o.birth
  {
    if editing then
      var cs := [(o.name, MsgName), (o.email, MsgEmail), (o.pattern, MsgEmailPattern), (o.gender, MsgGender),
                 (o.parentesco, MsgParentesco), (o.birth, MsgFutureBirth)];
      assert cs[0].0 == o.name && cs[1].0 == o.email && cs[2].0 == o.pattern && cs[3].0 == o.gender
             && cs[4].0 == o.parentesco && cs[5].0 == o.birth;
      cs
    else
      var cs := [(o.name, MsgName), (o.email, MsgEmail), (o.pattern, MsgEmailPattern), (o.gender, MsgGender),
                 (o.password, MsgPassword), (o.passwordLength, MsgPasswordLength),
                 (o.parentesco, MsgParentesco), (o.birth, MsgFutureBirth)];
      assert cs[0].0 == o.name && cs[1].0 == o.email && cs[2].0 == o.pattern && cs[3].0 == o.gender
             && cs[4].0 == o.password && cs[5].0 == o.passwordLength && cs[6].0 == o.parentesco && cs[7].0 == o.birth;
      cs
  }

  function Checks(f: Form, editing: bool, now: int): (cs: seq<(bool, string)>)
  {
    CheckList(Outcome(f, now), editing)
  }

  /** The message of the first failing check. */
  function FirstFailure(cs: seq<(bool, string)>): (r: Option<string>)
    ensures r.None? <==> forall k :: 0 <= k < |cs| ==> cs[k].0
    ensures r.Some? ==> exists k :: 0 <= k < |cs| && !cs[k].0 && r.value == cs[k].1
                                   && forall j :: 0 <= j < k ==> cs[j].0
  {
    if cs == [] then None
    else if !cs[0].0 then Some(cs[0].1)
    else
      var r := FirstFailure(cs[1..]);
      assert forall k :: 1 <= k < |cs| ==> cs[k] == cs[1..][k - 1];
      r
  }

  /** Every check passes. */
  predicate Valid(f: Form, editing: bool, now: int)
  {
    !Blank(f.nomeCompleto) && !Blank(f.email) && ValidateEmail(f.email) && f.genero != ""
    && (!editing ==> f.senha != "" && |f.senha| >= 6) && f.parentesco != "" && f.dataNascimento <= now
  }

  /** `validarFormulario`: `None` exactly when every check passes, else the alert it shows. */
  function Validate(f: Form, editing: bool, now: int): (r: Option<string>)
    ensures r.None? <==> Valid(f, editing, now)
  {
    FirstFailure(Checks(f, editing, now))
  }

  /** The checks stop at the first failure: a blank name is reported whatever else is wrong. */
  lemma NameCheckedFirst(f: Form, editing: bool, now: int)
    requires Blank(f.nomeCompleto)
    ensures Validate(f, editing, now) == Some(MsgName)
  {
  }

  /** A valid address with a gender but a short password reports the length when creating. */
  lemma ShortPasswordReported(f: Form, now: int)
    requires !Blank(f.nomeCompleto) && ValidateEmail(f.email) && f.genero != "" && f.senha != "" && |f.senha| < 6
    ensures Validate(f, false, now) == Some(MsgPasswordLength)
  {
    var cs := Checks(f, false, now);
    assert !Blank(f.email) by {
      BlankIffAllSpace(f.email);
      assert f.email != "" && !IsSpace(f.email[0]);
    }
    assert cs[0].0 && cs[1].0 && cs[2].0 && cs[3].0 && cs[4].0 && !cs[5].0;
    assert FirstFailure(cs) == FirstFailure(cs[1..]);
    assert FirstFailure(cs[1..]) == FirstFailure(cs[2..]);
    assert FirstFailure(cs[2..]) == FirstFailure(cs[3..]);
    assert FirstFailure(cs[3..]) == FirstFailure(cs[4..]);
    assert FirstFailure(cs[4..]) == FirstFailure(cs[5..]);
  }

  /** When editing, the password is not looked at: any two passwords give the same outcome. */
  lemma EditingIgnoresPassword(f: Form, senha: string, now: int)
    ensures Validate(f, true, now) == Validate(f.(senha := senha), true, now)
  {
    assert Checks(f, true, now) == Checks(f.(senha := senha), true, now);
  }

  // ---------------------------------------------------------------------------
  // Creating the account

  /** The service's answer: success with the new uid, an HTTP error with its body's `erro`, or a thrown error. */
  datatype ApiAnswer = Created(uid: Option<string>) | HttpError(erro: Option<string>) | Thrown(message: string)

  const GenericApiError: string := "Não foi possível criar o usuário."

  /** The message rethrown by `criarUsuarioViaAPI` for an error message. */
  function ApiMessage(m: string): (r: string)
    ensures (Includes(m, "email-already-in-use") || Includes(m, "already exists"))
              ==> r == "Este email já está sendo usado por outra conta."
    ensures (!Includes(m, "email-already-in-use") && !Includes(m, "already exists") && !Includes(m, "weak-password")
             && !Includes(m, "invalid-email")) ==> r == (if m != "" then m else GenericApiError)
  {
    if Includes(m, "email-already-in-use") || Includes(m, "already exists") then
      "Este email já está sendo usado por outra conta."
    else if Includes(m, "weak-password") then "A senha é muito fraca."
    else if Includes(m, "invalid-email") then "Email inválido."
    else if m != "" then m
    else GenericApiError
  }

  /** The outcome of the account creation: the uid, or the message to show. */
  function CreateAccount(answer: ApiAnswer): (r: Result)
    ensures answer.Created? ==> r == Uid(answer.uid)
    ensures answer.HttpError? ==> r == Message(ApiMessage(OrElse(answer.erro, "Erro ao criar usuário")))
    ensures answer.Thrown? ==> r == Message(ApiMessage(answer.message))
  {
    match answer
    case Created(uid) => Uid(uid)
    case HttpError(erro) => Message(ApiMessage(OrElse(erro, "Erro ao criar usuário")))
    case Thrown(m) => Message(ApiMessage(m))
  }

  datatype Result = Uid(uid: Option<string>) | Message(text: string)

  /** A message naming none of the known codes is shown as it is. */
  lemma PlainMessagePassesThrough(m: string)
    requires m != "" && 'l' !in m && 'w' !in m
    ensures ApiMessage(m) == m
  {
    var a, b, c, d := "email-already-in-use", "already exists", "weak-password", "invalid-email";
    assert a[4] == 'l' && b[1] == 'l' && c[0] == 'w' && d[4] == 'l';
    MissingCharacter(m, a, 'l');
    MissingCharacter(m, b, 'l');
    MissingCharacter(m, c, 'w');
    MissingCharacter(m, d, 'l');
  }

  /** A service error without a body gets the default text, which then passes through unchanged. */
  lemma HttpErrorWithoutBody()
    ensures CreateAccount(HttpError(None)) == Message("Erro ao criar usuário")
  {
    DefaultErrorIsPlain();
    PlainMessagePassesThrough("Erro ao criar usuário");
  }

  lemma DefaultErrorIsPlain()
    ensures 'l' !in "Erro ao criar usuário" && 'w' !in "Erro ao criar usuário"
  {
    var m := "Erro ao criar usuário";
    assert forall k :: 0 <= k < |m| ==> m[k] in "Ero acriusá";
  }

  /** A string without some character of `sub` does not include `sub`. */
  lemma {:induction false} MissingCharacter(s: string, sub: string, c: char)
    requires c in sub && c !in s
    ensures !Includes(s, sub)
    decreases |s|
  {
    if s != "" {
      assert c !in s[1..];
      MissingCharacter(s[1..], sub, c);
    }
  }

  // ---------------------------------------------------------------------------
  // salvarDependente

  /** The dependent being edited: its document id and its account uid. */
  datatype Existing = Existing(docId: string, dependenteUid: Option<string>)

  datatype DependentRecord = DependentRecord(usuarioId: string, dependenteUid: Option<string>, nome: string,
                                             nomeCompleto: string, email: string, parentesco: string,
                                             genero: string, dataNascimento: int)

  datatype SaveOutcome =
    | Invalid(message: string)
    | Failed(message: string)
    | Update(docId: string, record: DependentRecord)
    | Insert(newUid: Option<string>, record: DependentRecord)

  /** `salvarDependente`: validate, create the account when adding, then write the record. */
  function SaveDependent(f: Form, editing: Option<Existing>, uid: string, answer: ApiAnswer, now: int): (r: SaveOutcome)
    ensures r.Invalid? <==> Validate(f, editing.Some?, now).Some?
    ensures (r.Update? || r.Insert?) ==>
              r.record.nome == Trim(f.nomeCompleto) && r.record.nomeCompleto == Trim(f.nomeCompleto)
              && r.record.email == Trim(f.email) && r.record.usuarioId == uid
              && r.record.parentesco == f.parentesco && r.record.genero == f.genero
    ensures r.Update? <==> editing.Some? && Validate(f, true, now).None?
    ensures r.Update? ==> r.docId == editing.value.docId && r.record.dependenteUid == editing.value.dependenteUid
    ensures r.Insert? ==> answer.Created? && r.newUid == answer.uid && r.record.dependenteUid == answer.uid
  {
    match Validate(f, editing.Some?, now)
    case Some(msg) => Invalid(msg)
    case None =>
      var record := DependentRecord(uid, None, Trim(f.nomeCompleto), Trim(f.nomeCompleto), Trim(f.email),
                                    f.parentesco, f.genero, f.dataNascimento);
      match editing
      case Some(e) => Update(e.docId, record.(dependenteUid := e.dependenteUid))
      case None =>
        match CreateAccount(answer)
        case Message(m) => Failed(m)
        case Uid(u) => Insert(u, record.(dependenteUid := u))
  }

  /** `getParentescoLabel`: the stored value when it is one of the labels, else the placeholder. */
  function ParentescoLabel(p: string): (r: string)
    ensures p in ParentescoLabels ==> r == p
    ensures p !in ParentescoLabels ==> r == "Selecionar parentesco"
  {
    if p in ParentescoLabels then p else "Selecionar parentesco"
  }

  /** The shown label is a picker label or the placeholder, and showing it again changes nothing. */
  lemma ParentescoLabelStable(p: string)
    ensures ParentescoLabel(p) in ParentescoLabels || ParentescoLabel(p) == "Selecionar parentesco"
    ensures ParentescoLabel(ParentescoLabel(p)) == ParentescoLabel(p)
  {
    if p !in ParentescoLabels {
      assert "Selecionar parentesco" !in ParentescoLabels by {
        forall k | 0 <= k < |ParentescoLabels|
          ensures ParentescoLabels[k] != "Selecionar parentesco"
        {
          assert |ParentescoLabels[k]| < |"Selecionar parentesco"|;
        }
      }
    }
  }

  /** A stored dependent as the edit screen receives it. */
  datatype StoredDependent = StoredDependent(nome: Option<string>, nomeCompleto: Option<string>,
                                             email: Option<string>, parentesco: Option<string>,
                                             genero: Option<string>, dataNascimento: Option<int>)

  /** The edit prefill: names fall back nome → nomeCompleto → "", the password is blank, a missing date is now. */
  function Prefill(d: StoredDependent, now: int): (f: Form)
    ensures f.nomeCompleto == (if Truthy(d.nome) then d.nome.value else if Truthy(d.nomeCompleto) then d.nomeCompleto.value else "")
    ensures f.senha == "" && f.email == OrElse(d.email, "") && f.parentesco == OrElse(d.parentesco, "")
    ensures f.genero == OrElse(d.genero, "")
    ensures f.dataNascimento == (if d.dataNascimento.Some? then d.dataNascimento.value else now)
  {
    OrChainFirstTruthy(d.nome, d.nomeCompleto, "");
    Form(OrElse(OrOpt(d.nome, d.nomeCompleto), ""), OrElse(d.email, ""), "", OrElse(d.parentesco, ""),
         OrElse(d.genero, ""), if d.dataNascimento.Some? then d.dataNascimento.value else now)
  }

  /** A prefilled stored dependent whose fields were valid is valid again when edited, with the password blank. */
  lemma PrefillKeepsValidity(d: StoredDependent, now: int)
    requires Truthy(d.nome) && !Blank(d.nome.value)
    requires Truthy(d.email) && ValidateEmail(d.email.value)
    requires Truthy(d.genero) && Truthy(d.parentesco) && d.dataNascimento.Some? && d.dataNascimento.value <= now
    ensures Validate(Prefill(d, now), true, now).None?
  {
    var f := Prefill(d, now);
    assert f.nomeCompleto == d.nome.value && f.email == d.email.value;
    assert !Blank(f.email) by {
      BlankIffAllSpace(f.email);
      assert !IsSpace(f.email[0]);
    }
    assert Valid(f, true, now);
  }
}

=== FILE: dependent_history.dfy ===
// A dependent's history of taken medicines
// (screens/menus/dependentes/HistoricoDependentes.js): the query, the period
// filter that rebuilds each record's date with `new Date(y, m - 1, d)` and
// compares timestamps, the day groups with their records sorted by time, and
// the 'Hoje' / 'Ontem' / long-date header.

module DependentHistory {
  import opened JsText
  import opened Calendar
  import opened History
  import OwnHistory

  /** A `medicamentos_tomados_dependentes` document. */
  datatype DepTaken = DepTaken(
    id: string,
    usuarioId: string,
    dependenteId: Option<string>,
    dia: string,
    horario: string,
    remedioId: Option<string>,
    remedioNome: Option<string>)

  function DayOf(r: DepTaken): string { r.dia }

  function DayTime(r: DepTaken): (string, string) { (r.dia, r.horario) }

  function TimeOnly(r: DepTaken): (string, string) { (r.horario, "") }

  // ---------------------------------------------------------------------------
  // The query

  /** `where('usuarioId', '==', uid)`: the documents of the signed-in user, in order. */
  function OfUser(docs: seq<DepTaken>, uid: string): (r: seq<DepTaken>)
    ensures forall x :: multiset(r)[x] == if x.usuarioId == uid then multiset(docs)[x] else 0
  {
    if docs == [] then []
    else
      assert docs == [docs[0]] + docs[1..];
      if docs[0].usuarioId == uid then [docs[0]] + OfUser(docs[1..], uid)
      else OfUser(docs[1..], uid)
  }

  /** The snapshot the screen opened for `dependenteId`: ordered by `dia`, then `horario`, both descending. */
  function Query(docs: seq<DepTaken>, uid: string, dependenteId: string): (r: seq<DepTaken>)
    ensures forall x :: multiset(r)[x] == if x.usuarioId == uid then multiset(docs)[x] else 0
  {
    SortDesc(OfUser(docs, uid), DayTime)
  }

  /** The query selects by user only: a record of any other dependent of the user shows up too. */
  lemma QueryShowsOtherDependents(docs: seq<DepTaken>, uid: string, dependenteId: string, x: DepTaken)
    requires x in docs && x.usuarioId == uid
    ensures x in Query(docs, uid, dependenteId)
  {
    assert x in multiset(docs);
    assert x in multiset(Query(docs, uid, dependenteId));
  }

  /** The snapshot arrives newest first. */
  lemma QueryNewestFirst(docs: seq<DepTaken>, uid: string, dependenteId: string)
    ensures SortedDesc(Query(docs, uid, dependenteId), DayTime)
  {
    SortDescSorted(OfUser(docs, uid), DayTime);
  }

  /** `remedioData.nome || medicamento.remedioNome || 'Medicamento'`; `stored` is the
      `remedios` document's `nome` when that document exists and could be read. */
  function MedicineName(r: DepTaken, stored: Option<Option<string>>): (name: string)
    ensures name != ""
    ensures Truthy(r.remedioId) && stored.Some? && Truthy(stored.value) ==> name == stored.value.value
    ensures !(Truthy(r.remedioId) && stored.Some? && Truthy(stored.value)) && Truthy(r.remedioNome) ==> name == r.remedioNome.value
    ensures name == "Medicamento" || (r.remedioNome.Some? && name == r.remedioNome.value)
            || (stored.Some? && stored.value.Some? && name == stored.value.value)
  {
    var fallback := OrElse(r.remedioNome, "Medicamento");
    if Truthy(r.remedioId) && stored.Some? then OrElse(stored.value, fallback) else fallback
  }

  // ---------------------------------------------------------------------------
  // Rebuilding the date of a key

  /** `new Date(parseInt(ano), parseInt(mes) - 1, parseInt(dia))` after `split('-')`,
      as a day number; `None` is an Invalid Date. */
  function ParsedDay(dia: string): Option<int>
  {
    var parts := Split(dia, '-');
    match (ParseInt(Part(parts, 0)), ParseInt(Part(parts, 1)), ParseInt(Part(parts, 2)))
    case (Int(y), Int(m), Int(d)) => Some(MakeDay(y, m - 1, d))
    case _ => None
  }

  /** An ISO key splits into its year, month and day fields. */
  lemma IsoSplits(d: Date)
    requires Valid(d) && IsoYear(d)
    ensures Split(Iso(d), '-') == [Pad4(d.year), Pad2(d.month), Pad2(d.day)]
  {
    var y, m, dd := Pad4(d.year), Pad2(d.month), Pad2(d.day);
    assert AllDigits(y) && AllDigits(m) && AllDigits(dd);
    assert '-' !in y && '-' !in m && '-' !in dd;
    SplitThree(y, m, dd, '-');
  }

  /** For a date from year 100 on, rebuilding the date of its ISO key gives the same day. */
  lemma ParsedIsoDay(d: Date)
    requires Valid(d) && 100 <= d.year <= 9999
    ensures ParsedDay(Iso(d)) == Some(DayNumber(d))
  {
    IsoSplits(d);
    ReadPad4(d.year);
    ReadPad2(d.month);
    ReadPad2(d.day);
    ParsedDayOfFields(Iso(d), Pad4(d.year), Pad2(d.month), Pad2(d.day), d.year, d.month, d.day);
    MakeDayOfValid(d);
  }

  /** A key whose three fields read as numbers is rebuilt from those numbers. */
  lemma ParsedDayOfFields(dia: string, a: string, b: string, c: string, y: int, m: int, dd: int)
    requires Split(dia, '-') == [a, b, c]
    requires ParseInt(Some(a)) == Int(y) && ParseInt(Some(b)) == Int(m) && ParseInt(Some(c)) == Int(dd)
    ensures ParsedDay(dia) == Some(MakeDay(y, m - 1, dd))
  {
    var parts := Split(dia, '-');
    assert Part(parts, 0) == Some(a) && Part(parts, 1) == Some(b) && Part(parts, 2) == Some(c);
  }

  lemma ReadPad2(n: nat)
    requires n < 100
    ensures ParseInt(Some(Pad2(n))) == Int(n)
  {
    ParseIntOfDigits(Pad2(n));
    Pad2RoundTrip(n);
  }

  lemma ReadPad4(n: nat)
    requires n < 10000
    ensures ParseInt(Some(Pad4(n))) == Int(n)
  {
    ParseIntOfDigits(Pad4(n));
    Pad4RoundTrip(n);
  }

  // ---------------------------------------------------------------------------
  // The period filter

  /** The phone's clock: today's date and the current timestamp, which falls on that date. */
  datatype Now = Now(today: Date, ms: int)

  predicate Consistent(now: Now)
  {
    Valid(now.today) && MidnightMs(now.today) <= now.ms < MidnightMs(now.today) + DayMs
  }

  /** The timestamp a record's date must reach: start of today for 'hoje', the same time
      7 or 30 days ago for 'semana' and 'mes'; no bound for 'todos' or an unknown filter. */
  function Since(f: Filter, now: Now): (r: Option<int>)
    requires Consistent(now)
    ensures r.None? <==> f == Todos || f == Ontem
  {
    match f
    case Todos => None
    case Ontem => None
    case Hoje => Some(MidnightMs(now.today))
    case Semana => Some(now.ms - 7 * DayMs)
    case Mes => Some(now.ms - 30 * DayMs)
  }

  /** `filtrarMedicamentos()` on one record; `dia` is `None` when it is not a string,
      so that `split` throws. */
  function Keeps(f: Filter, dia: Option<string>, now: Now): (r: bool)
    requires Consistent(now)
    ensures f == Todos || f == Ontem || dia.None? ==> r
    ensures dia.Some? && ParsedDay(dia.value).None? ==> (r <==> f == Todos || f == Ontem)
  {
    match Since(f, now)
    case None => true
    case Some(start) =>
      dia.None? ||
      match ParsedDay(dia.value)
      case None => false
      case Some(n) => (n - UnixEpochDay) * DayMs >= start
  }

  /** The records the filter keeps, in snapshot order. */
  function Filtered(recs: seq<DepTaken>, f: Filter, now: Now): (r: seq<DepTaken>)
    requires Consistent(now)
    ensures forall x :: multiset(r)[x] == if Keeps(f, Some(x.dia), now) then multiset(recs)[x] else 0
  {
    if recs == [] then []
    else
      assert recs == [recs[0]] + recs[1..];
      if Keeps(f, Some(recs[0].dia), now) then [recs[0]] + Filtered(recs[1..], f, now)
      else Filtered(recs[1..], f, now)
  }

  /** Whole days against a time of day: `k` days reach `t` ms iff `k` is positive, or zero at `t` = 0. */
  lemma WholeDaysReach(k: int, t: int)
    requires 0 <= t < DayMs
    ensures k * DayMs >= t <==> k >= 1 || (k == 0 && t == 0)
  {
  }

  /** A midnight at or after `now` less `back` days: the day counts from `back` days ago,
      or from `back - 1` days ago once the clock is past midnight. */
  lemma MidnightSince(now: Now, n: int, back: nat)
    requires Consistent(now)
    ensures (n - UnixEpochDay) * DayMs >= now.ms - back * DayMs
            <==> n >= DayNumber(now.today) - back + (if now.ms == MidnightMs(now.today) then 0 else 1)
  {
    var t := now.ms - MidnightMs(now.today);
    var k := n - DayNumber(now.today) + back;
    assert (n - UnixEpochDay) * DayMs - (now.ms - back * DayMs) == k * DayMs - t;
    WholeDaysReach(k, t);
  }

  /** What each filter keeps of a record dated `d`, in days. */
  lemma KeepsByDay(f: Filter, now: Now, d: Date)
    requires Consistent(now) && f != Todos && f != Ontem
    requires Valid(d) && 100 <= d.year <= 9999
    ensures var past := if now.ms == MidnightMs(now.today) then 0 else 1;
            Keeps(f, Some(Iso(d)), now) <==>
              DayNumber(d) >= DayNumber(now.today) - (if f == Hoje then 0 else if f == Semana then 7 - past else 30 - past)
  {
    ParsedIsoDay(d);
    KeepsOfDay(f, now, Iso(d), DayNumber(d));
  }

  /** What each filter keeps of a key that rebuilds into day number `n`. */
  lemma KeepsOfDay(f: Filter, now: Now, s: string, n: int)
    requires Consistent(now) && f != Todos && f != Ontem
    requires ParsedDay(s) == Some(n)
    ensures var past := if now.ms == MidnightMs(now.today) then 0 else 1;
            Keeps(f, Some(s), now) <==>
              n >= DayNumber(now.today) - (if f == Hoje then 0 else if f == Semana then 7 - past else 30 - past)
  {
    if f == Hoje {
      assert (n - UnixEpochDay) * DayMs - MidnightMs(now.today) == (n - DayNumber(now.today)) * DayMs;
    } else if f == Semana {
      MidnightSince(now, n, 7);
    } else {
      MidnightSince(now, n, 30);
    }
  }

  /** A record whose day is not a string is kept by every filter. */
  lemma NonStringDayKept(f: Filter, now: Now)
    requires Consistent(now)
    ensures Keeps(f, None, now)
  {
  }

  /** A key that does not rebuild into a date is dropped by 'hoje', 'semana' and 'mes'. */
  lemma BrokenKeyDropped(f: Filter, now: Now, dia: string)
    requires Consistent(now) && f != Todos && f != Ontem
    requires ParsedDay(dia).None?
    ensures !Keeps(f, Some(dia), now)
  {
  }

  /** An empty key is such a key: `parseInt(undefined)` is NaN. */
  lemma EmptyKeyDoesNotParse()
    ensures ParsedDay("").None?
  {
    assert Split("", '-') == [""];
    assert DigitPrefix("") == 0;
  }

  /** Past midnight, the seventh day back is on the user's own '7 dias' list but not on
      the dependent's. */
  lemma SeventhDayDiffers(now: Now)
    requires Consistent(now) && 101 <= now.today.year <= 9999
    requires now.ms != MidnightMs(now.today)
    ensures var d := OwnHistory.DaysBack(now.today, 7);
            OwnHistory.InRange(Iso(d), OwnHistory.Range(Semana, now.today)) && !Keeps(Semana, Some(Iso(d)), now)
  {
    var d := OwnHistory.DaysBack(now.today, 7);
    OwnHistory.SemanaKeepsEightDays(now.today, 7);
    YearOfNearbyDay(d, now.today);
    KeepsByDay(Semana, now, d);
  }

  // ---------------------------------------------------------------------------
  // Day groups

  /** Each group's records sorted by `horario`, latest first. */
  function SortGroups(gs: seq<(string, seq<DepTaken>)>): (r: seq<(string, seq<DepTaken>)>)
    ensures |r| == |gs|
    ensures forall i :: 0 <= i < |gs| ==>
              r[i].0 == gs[i].0 && multiset(r[i].1) == multiset(gs[i].1) && SortedDesc(r[i].1, TimeOnly)
  {
    if gs == [] then []
    else
      SortDescSorted(gs[0].1, TimeOnly);
      [(gs[0].0, SortDesc(gs[0].1, TimeOnly))] + SortGroups(gs[1..])
  }

  lemma {:induction false} SortGroupsKeepsRecords(gs: seq<(string, seq<DepTaken>)>)
    ensures multiset(Flatten(SortGroups(gs))) == multiset(Flatten(gs))
    decreases |gs|
  {
    if gs != [] {
      var r := SortGroups(gs);
      SortGroupsKeepsRecords(gs[1..]);
      assert r[1..] == SortGroups(gs[1..]);
      assert Flatten(r) == r[0].1 + Flatten(r[1..]);
      assert Flatten(gs) == gs[0].1 + Flatten(gs[1..]);
    }
  }

  /** `agruparPorDia(medicamentos)`. */
  function DayGroups(recs: seq<DepTaken>): (r: seq<(string, seq<DepTaken>)>)
    ensures forall g, h :: 0 <= g < h < |r| ==> StrLt(r[h].0, r[g].0)
    ensures forall g, x :: 0 <= g < |r| && x in r[g].1 ==> x.dia == r[g].0
  {
    var gs := Groups(recs, DayOf);
    var r := SortGroups(gs);
    assert forall g, x :: 0 <= g < |r| && x in r[g].1 ==> x.dia == r[g].0 by {
      forall g, x | 0 <= g < |r| && x in r[g].1 ensures x.dia == r[g].0 {
        var ks := Keys(recs, DayOf);
        assert gs[g] == (ks[g], GroupOf(recs, ks[g], DayOf));
        assert x in multiset(r[g].1);
        assert multiset(GroupOf(recs, ks[g], DayOf))[x] > 0;
      }
    }
    r
  }

  /** Grouping the filtered records neither loses nor duplicates one. */
  lemma DayGroupsPartition(recs: seq<DepTaken>)
    ensures multiset(Flatten(DayGroups(recs))) == multiset(recs)
  {
    SortGroupsKeepsRecords(Groups(recs, DayOf));
    GroupsPartition(recs, DayOf);
  }

  /** Groups run newest day first; inside a group, records of one day run latest time first. */
  lemma DayGroupsOrdered(recs: seq<DepTaken>, g: nat, i: nat, j: nat)
    requires g < |DayGroups(recs)| && i < j < |DayGroups(recs)[g].1|
    ensures forall h :: g < h < |DayGroups(recs)| ==> StrLt(DayGroups(recs)[h].0, DayGroups(recs)[g].0)
    ensures StrLe(DayGroups(recs)[g].1[j].horario, DayGroups(recs)[g].1[i].horario)
    ensures DayGroups(recs)[g].1[i].dia == DayGroups(recs)[g].0
  {
    var gs := Groups(recs, DayOf);
    var grp := DayGroups(recs)[g].1;
    assert multiset(grp) == multiset(gs[g].1);
    assert grp[i] in multiset(gs[g].1);
    assert !PairLt(TimeOnly(grp[i]), TimeOnly(grp[j]));
    StrLtTrichotomy(grp[i].horario, grp[j].horario);
  }

  /**
   * On day keys that are ISO dates the string order of the groups is the
   * calendar order the screen's `new Date(b) - new Date(a)` sorts by: an
   * earlier group holds a later date.
   */
  lemma IsoDayGroupsByDate(recs: seq<DepTaken>, g: nat, h: nat, a: Date, b: Date)
    requires g < h < |DayGroups(recs)|
    requires Valid(a) && IsoYear(a) && Valid(b) && IsoYear(b)
    requires DayGroups(recs)[g].0 == Iso(a) && DayGroups(recs)[h].0 == Iso(b)
    ensures DayNumber(b) < DayNumber(a)
  {
    IsoMatchesDayNumber(b, a);
  }

  /** A record lands in the group of its own day. */
  lemma RecordInItsDayGroup(recs: seq<DepTaken>, x: DepTaken)
    requires x in recs
    ensures exists g :: 0 <= g < |DayGroups(recs)| && DayGroups(recs)[g].0 == x.dia && x in DayGroups(recs)[g].1
  {
    RecordInItsGroup(recs, DayOf, x);
    var gs := Groups(recs, DayOf);
    var g :| 0 <= g < |gs| && gs[g].0 == DayOf(x) && x in gs[g].1;
    assert x in multiset(gs[g].1);
    assert x in multiset(DayGroups(recs)[g].1);
  }

  // ---------------------------------------------------------------------------
  // Header

  /** `formatarData(dataString)`. */
  function DayLabel(dia: Option<string>, today: Date): (h: Header)
    requires Valid(today)
    ensures h.Unchanged? <==> dia.None?
    ensures h.Unchanged? ==> h.input == dia
  {
    match dia
    case None => Unchanged(dia)
    case Some(s) =>
      match ParsedDay(s)
      case None => InvalidDate
      case Some(n) =>
        if n == DayNumber(today) then TodayHeader(n)
        else if n == DayNumber(today) - 1 then YesterdayHeader(n)
        else DateHeader(n)
  }

  /** For keys from year 100 on, both history screens classify a day alike. */
  lemma HeadersAgree(d: Date, today: Date)
    requires Valid(d) && 100 <= d.year <= 9999 && Valid(today)
    ensures DayLabel(Some(Iso(d)), today) == OwnHistory.DayHeader(Iso(d), today)
  {
    ParsedIsoDay(d);
    ParseIsoRoundTrip(d);
    SameHeader(Iso(d), d, today);
  }

  /** A key both parsers read as the same day gets the same header on both screens. */
  lemma SameHeader(s: string, d: Date, today: Date)
    requires Valid(today) && Valid(d) && ParsedDay(s) == Some(DayNumber(d)) && ParseIso(s) == Some(d)
    ensures DayLabel(Some(s), today) == OwnHistory.DayHeader(s, today)
  {
  }
}

=== FILE: dependent_home.dfy ===
// The dependent's home screen (`IndexTelaDependente`): the next dose to take
// today, the window in which it may be marked as taken, the time left until
// it, and the six-digit PIN that guards the administrator's settings. Queries
// arrive as values (the day's alerts, the doses already taken today, the
// medicine names) and the clock as a millisecond timestamp.

module DependentHome {
  import opened JsText
  import opened Calendar
  import opened Clock
  import opened Days

  // ---------------------------------------------------------------------------
  // fetchNextMedication

  /** An alert of the dependent, as loaded. */
  datatype HomeAlert = HomeAlert(docId: string, dependenteId: string, remedioId: string,
                                 horario: string, dosagem: Option<string>, dias: Option<Dias>)

  /** The alert chosen as the next dose, with its medicine's name. */
  datatype NextMed = NextMed(alert: HomeAlert, remedioNome: Option<string>)

  /** The outcome of the search: an alert without days makes `dias.includes` throw. */
  datatype Fetch = Failed | Found(next: Option<NextMed>)

  /** A dose taken today is keyed by dependent, medicine and time. */
  function DoseKey(a: HomeAlert): (string, string, string)
  {
    (a.dependenteId, a.remedioId, a.horario)
  }

  /** `alerta.dias.includes(currentDay)` once `dias` is defined. */
  predicate Lists(d: Dias, day: string)
  {
    match d
    case DayList(items) => day in items
    case DayText(t) => Includes(t, day)
  }

  /**
   * An alert competes for the next dose when it lists today, has no dose
   * taken today at its time, its medicine exists, and its time is not before
   * the current "HH:MM".
   */
  predicate Candidate(a: HomeAlert, day: string, nowText: string,
                      taken: set<(string, string, string)>, remedios: map<string, Option<string>>)
  {
    a.dias.Some? && Lists(a.dias.value, day) && DoseKey(a) !in taken && a.remedioId in remedios
    && !StrLt(a.horario, nowText)
  }

  /**
   * `fetchNextMedication`: the candidate with the smallest time, the first one
   * encountered among equal times; the whole search fails at an alert without days.
   */
  method FetchNext(alerts: seq<HomeAlert>, day: string, nowText: string,
                   taken: set<(string, string, string)>, remedios: map<string, Option<string>>)
    returns (r: Fetch)
    ensures r.Failed? <==> exists i :: 0 <= i < |alerts| && alerts[i].dias.None?
    ensures r.Found? && r.next.None? ==> forall i :: 0 <= i < |alerts| ==> !Candidate(alerts[i], day, nowText, taken, remedios)
    ensures r.Found? && r.next.Some? ==>
              exists k :: 0 <= k < |alerts| && Candidate(alerts[k], day, nowText, taken, remedios)
                          && r.next.value == NextMed(alerts[k], remedios[alerts[k].remedioId])
                          && (forall j :: 0 <= j < |alerts| && Candidate(alerts[j], day, nowText, taken, remedios)
                                ==> !StrLt(alerts[j].horario, alerts[k].horario))
                          && (forall j :: 0 <= j < k && Candidate(alerts[j], day, nowText, taken, remedios)
                                ==> alerts[j].horario != alerts[k].horario)
  {
    var best: Option<nat> := None;
    var i := 0;
    while i < |alerts|
      invariant 0 <= i <= |alerts|
      invariant forall j :: 0 <= j < i ==> alerts[j].dias.Some?
      invariant best.None? ==> forall j :: 0 <= j < i ==> !Candidate(alerts[j], day, nowText, taken, remedios)
      invariant best.Some? ==> best.value < i && Candidate(alerts[best.value], day, nowText, taken, remedios)
      invariant best.Some? ==> forall j :: 0 <= j < i && Candidate(alerts[j], day, nowText, taken, remedios)
                                 ==> !StrLt(alerts[j].horario, alerts[best.value].horario)
      invariant best.Some? ==> forall j :: 0 <= j < best.value && Candidate(alerts[j], day, nowText, taken, remedios)
                                 ==> alerts[j].horario != alerts[best.value].horario
    {
      var a := alerts[i];
      if a.dias.None? {
        return Failed;
      }
      if Candidate(a, day, nowText, taken, remedios) {
        if best.None? {
          StrLtIrreflexive(a.horario);
          best := Some(i);
        } else if StrLt(a.horario, alerts[best.value].horario) {
          var old_best := best.value;
          forall j | 0 <= j < i && Candidate(alerts[j], day, nowText, taken, remedios)
            ensures !StrLt(alerts[j].horario, a.horario)
          {
            if StrLt(alerts[j].horario, a.horario) {
              StrLtTransitive(alerts[j].horario, a.horario, alerts[old_best].horario);
            }
          }
          StrLtIrreflexive(a.horario);
          best := Some(i);
        }
      }
      i := i + 1;
    }
    if best.None? {
      return Found(None);
    }
    var k := best.value;
    return Found(Some(NextMed(alerts[k], remedios[alerts[k].remedioId])));
  }

  // ---------------------------------------------------------------------------
  // checkTimeCorrectness and markMedicationTaken

  /** `[h, m] = s.split(':').map(Number); h * 60 + m`, NaN when either part is not a number. */
  function Minutes(s: string): (v: Num)
    ensures v.Int? <==> ToNumber(Part(Split(s, ':'), 0)).Int? && ToNumber(Part(Split(s, ':'), 1)).Int?
  {
    var parts := Split(s, ':');
    match (ToNumber(Part(parts, 0)), ToNumber(Part(parts, 1)))
    case (Int(h), Int(m)) => Int(h * 60 + m)
    case _ => NaN
  }

  lemma MinutesOfFormattedTime(t: int)
    requires 0 <= t < 1440
    ensures Minutes(HourMinuteText(t)) == Int(t)
  {
    HourMinuteFields(t);
  }

  /** Whether the next dose may be marked now: from 5 minutes before its time to 30 minutes after. */
  function IsTimeCorrect(next: Option<NextMed>, now: int): (ok: bool)
    ensures ok ==> next.Some? && Minutes(next.value.alert.horario).Int?
  {
    next.Some? &&
    match (Minutes(next.value.alert.horario), Minutes(FormatHourMinute(now)))
    case (Int(target), Int(current)) => -5 <= current - target <= 30
    case _ => false
  }

  /**
   * For a dose at minute `t` of the day, marking is allowed exactly when the
   * current minute lies in `t - 5 .. t + 30`. The window does not wrap at
   * midnight.
   */
  lemma TimeWindow(next: NextMed, now: int, t: int)
    requires 0 <= t < 1440 && next.alert.horario == HourMinuteText(t)
    ensures IsTimeCorrect(Some(next), now) <==> t - 5 <= MinuteOfDay(now) <= t + 30
  {
    MinutesOfFormattedTime(t);
    MinutesOfFormattedTime(MinuteOfDay(now));
  }

  /** The taken-dose record written by `markMedicationTaken`. */
  datatype TakenDose = TakenDose(dia: string, dosagem: Option<string>, horario: string,
                                 remedioId: string, remedioNome: Option<string>, dependenteId: string)

  /**
   * `markMedicationTaken` at instant `now`: nothing is written without a next
   * dose or outside the window; the day key is the ISO date of today's midnight.
   */
  function MarkTaken(next: Option<NextMed>, timeCorrect: bool, now: int): (r: Option<TakenDose>)
    requires IsoInstant(now)
    ensures r.Some? <==> next.Some? && timeCorrect
    ensures r.Some? ==> DayKeyOf(r.value.dia, now)
    ensures r.Some? ==> r.value.remedioNome == next.value.remedioNome
                        && (r.value.dependenteId, r.value.remedioId, r.value.horario) == DoseKey(next.value.alert)
                        && r.value.dosagem == next.value.alert.dosagem
  {
    if next.None? || !timeCorrect then None
    else
      var a := next.value.alert;
      var midnight := StartOfDay(now);
      assert midnight / DayMs == now / DayMs;
      Some(TakenDose(IsoDay(midnight), a.dosagem, a.horario, a.remedioId, next.value.remedioNome, a.dependenteId))
  }

  /**
   * Once the dose is recorded, the same alert no longer competes, and every
   * alert with another key competes exactly as before.
   */
  lemma TakenDoseLeavesSelection(next: NextMed, now: int, b: HomeAlert, day: string, nowText: string,
                                 taken: set<(string, string, string)>, remedios: map<string, Option<string>>)
    requires IsoInstant(now)
    ensures var rec := MarkTaken(Some(next), true, now).value;
            var after := taken + {(rec.dependenteId, rec.remedioId, rec.horario)};
            !Candidate(next.alert, day, nowText, after, remedios)
            && (DoseKey(b) != DoseKey(next.alert) ==>
                  (Candidate(b, day, nowText, after, remedios) <==> Candidate(b, day, nowText, taken, remedios)))
  {
  }

  // ---------------------------------------------------------------------------
  // getTimeUntilNext

  /** JavaScript's `%`: the remainder takes the sign of the dividend. */
  function JsRem(a: int, b: int): (r: int)
    requires b > 0
    ensures a >= 0 ==> 0 <= r < b
    ensures a < 0 ==> -b < r <= 0
  {
    if a >= 0 then a % b else -((-a) % b)
  }

  /** The milliseconds from `now` to the next `hour:minute`, moved to tomorrow when not after now. */
  function UntilNext(now: int, hour: int, minute: int): (diff: int)
    ensures var target := StartOfDay(now) + hour * HourMs + minute * MinuteMs;
            now + diff == target || now + diff == target + DayMs
    ensures 0 <= hour * 60 + minute < 1440 ==> 0 < diff <= DayMs
  {
    var target := StartOfDay(now) + hour * HourMs + minute * MinuteMs;
    if target <= now then target + DayMs - now else target - now
  }

  /** `getTimeUntilNext`: "" without a next dose, then hours and minutes as text. */
  function TimeUntilNext(next: Option<NextMed>, now: int): (text: string)
    ensures next.None? <==> text == ""
  {
    if next.None? then ""
    else
      var parts := Split(next.value.alert.horario, ':');
      match (ToNumber(Part(parts, 0)), ToNumber(Part(parts, 1)))
      case (Int(h), Int(m)) =>
        var diff := UntilNext(now, h, m);
        var hours := FloorDiv(diff, HourMs);
        var minutes := FloorDiv(JsRem(diff, HourMs), MinuteMs);
        if hours > 0 then "Faltam " + IntText(hours) + "h " + IntText(minutes) + "min"
        else "Faltam " + IntText(minutes) + " minutos"
      case _ => "Faltam NaN minutos"
  }

  /**
   * For a stored time `t`, the wait is positive, at most a day, and ends
   * exactly at minute `t` of a day; its hours and minutes are the whole
   * hours and the whole remaining minutes.
   */
  lemma UntilNextIsNextOccurrence(now: int, t: int)
    requires 0 <= t < 1440
    ensures var diff := UntilNext(now, t / 60, t % 60);
            0 < diff <= DayMs && TimeOfDay(now + diff) == t * MinuteMs
            && var hours := FloorDiv(diff, HourMs);
               var minutes := FloorDiv(JsRem(diff, HourMs), MinuteMs);
               0 <= hours <= 24 && 0 <= minutes < 60
               && hours * HourMs + minutes * MinuteMs <= diff < hours * HourMs + minutes * MinuteMs + MinuteMs
  {
    var diff := UntilNext(now, t / 60, t % 60);
    var start := StartOfDay(now);
    assert (t / 60) * HourMs + (t % 60) * MinuteMs == t * MinuteMs;
    var target := start + t * MinuteMs;
    assert now + diff == target || now + diff == target + DayMs;
    assert (now + diff) % DayMs == t * MinuteMs;
  }

  /** The hour part is shown only when at least one whole hour is left. */
  lemma TimeUntilNextShape(next: NextMed, now: int, t: int)
    requires 0 <= t < 1440 && next.alert.horario == HourMinuteText(t)
    ensures var diff := UntilNext(now, t / 60, t % 60);
            var minutes := FloorDiv(JsRem(diff, HourMs), MinuteMs);
            diff < HourMs ==> TimeUntilNext(Some(next), now) == "Faltam " + IntText(minutes) + " minutos"
  {
    HourMinuteFields(t);
  }

  // ---------------------------------------------------------------------------
  // The administrator PIN

  /** The six PIN boxes and whether the dialog is open. */
  datatype Pin = Pin(digits: seq<string>, open: bool)

  const Cleared: seq<string> := ["", "", "", "", "", ""]

  /** Six boxes, each empty or holding one digit. */
  predicate WellFormed(p: Pin)
  {
    |p.digits| == 6 && forall k :: 0 <= k < 6 ==> |p.digits[k]| <= 1 && AllDigits(p.digits[k])
  }

  /** `senhaDigits.join('')`. */
  function Entered(p: Pin): string
  {
    Join(p.digits, "")
  }

  /** Joining boxes of at most one character: the result has one character per non-empty box. */
  lemma {:induction false} JoinBoxes(parts: seq<string>)
    requires forall k :: 0 <= k < |parts| ==> |parts[k]| <= 1
    ensures |Join(parts, "")| <= |parts|
    ensures |Join(parts, "")| == |parts| <==> forall k :: 0 <= k < |parts| ==> parts[k] != ""
    decreases |parts|
  {
    if |parts| > 1 {
      JoinBoxes(parts[1..]);
      assert Join(parts, "") == parts[0] + Join(parts[1..], "");
      if |Join(parts, "")| == |parts| {
        forall k | 0 <= k < |parts|
          ensures parts[k] != ""
        {
          if k > 0 {
            assert parts[k] == parts[1..][k - 1];
          }
        }
      }
      if forall k :: 0 <= k < |parts| ==> parts[k] != "" {
        assert forall k :: 0 <= k < |parts| - 1 ==> parts[1..][k] == parts[k + 1];
      }
    }
  }

  /** Joining one-character boxes spells out their characters. */
  lemma {:induction false} JoinSingles(parts: seq<string>, s: string)
    requires |parts| == |s| >= 1 && forall k :: 0 <= k < |s| ==> parts[k] == [s[k]]
    ensures Join(parts, "") == s
    decreases |s|
  {
    if |s| > 1 {
      JoinSingles(parts[1..], s[1..]);
      assert s == [s[0]] + s[1..];
    }
  }

  /** What a PIN step asks for besides the new boxes. */
  datatype PinEffect = NoEffect | CheckPin(entered: string) | AskAllDigits | NotConfigured
                     | OpenSettings | WrongPin

  /**
   * `handleDigitChange`: the non-digits are stripped; text leaving more than
   * one digit is ignored; otherwise only box `index` changes. A digit typed in
   * the last box checks the PIN when all six boxes are filled.
   */
  function DigitChange(p: Pin, text: string, index: int): (r: (Pin, PinEffect))
    requires WellFormed(p) && 0 <= index < 6
    ensures WellFormed(r.0) && r.0.open == p.open
    ensures forall k :: 0 <= k < 6 && k != index ==> r.0.digits[k] == p.digits[k]
    ensures |DigitsOf(text)| > 1 ==> r == (p, NoEffect)
    ensures |DigitsOf(text)| <= 1 ==> r.0.digits[index] == DigitsOf(text)
    ensures r.1 != NoEffect ==> index == 5 && r.1 == CheckPin(Entered(r.0)) && |Entered(r.0)| == 6
  {
    var numeric := DigitsOf(text);
    if |numeric| > 1 then (p, NoEffect)
    else
      var q := Pin(p.digits[index := numeric], p.open);
      if index == 5 && numeric != "" && |Entered(q)| == 6 then (q, CheckPin(Entered(q)))
      else (q, NoEffect)
  }

  /** A check is triggered exactly when the last box gets a digit and every box is filled. */
  lemma DigitChangeChecksWhenFull(p: Pin, text: string, index: int)
    requires WellFormed(p) && 0 <= index < 6 && |DigitsOf(text)| <= 1
    ensures var r := DigitChange(p, text, index);
            r.1.CheckPin? <==> index == 5 && DigitsOf(text) != "" && forall k :: 0 <= k < 6 ==> r.0.digits[k] != ""
  {
    var r := DigitChange(p, text, index);
    JoinBoxes(r.0.digits);
  }

  /** `verificarSenha`: success iff the entry equals the password; both outcomes clear the boxes. */
  function Verify(p: Pin, entered: string, admin: Option<string>): (r: (Pin, PinEffect))
    ensures r.0.digits == Cleared
    ensures r.1 == OpenSettings <==> admin == Some(entered)
    ensures r.1 == OpenSettings ==> !r.0.open
    ensures r.1 != OpenSettings ==> r.1 == WrongPin && r.0.open == p.open
  {
    if admin == Some(entered) then (Pin(Cleared, false), OpenSettings)
    else (Pin(Cleared, p.open), WrongPin)
  }

  /** `handleManualVerify`: the check runs only on a full six-character entry. */
  function ManualVerify(p: Pin, admin: Option<string>): (r: (Pin, PinEffect))
    ensures |Entered(p)| != 6 ==> r == (p, AskAllDigits)
    ensures |Entered(p)| == 6 ==> r == Verify(p, Entered(p), admin)
  {
    if |Entered(p)| != 6 then (p, AskAllDigits) else Verify(p, Entered(p), admin)
  }

  /** `handleSettingsPress`: the dialog opens, cleared, only when a password is loaded. */
  function SettingsPress(p: Pin, admin: Option<string>): (r: (Pin, PinEffect))
    ensures !Truthy(admin) ==> r == (p, NotConfigured)
    ensures Truthy(admin) ==> r == (Pin(Cleared, true), NoEffect)
  {
    if !Truthy(admin) then (p, NotConfigured) else (Pin(Cleared, true), NoEffect)
  }

  /** `fecharModal`. */
  function Close(p: Pin): (r: Pin)
    ensures !r.open && r.digits == Cleared && WellFormed(r)
  {
    Pin(Cleared, false)
  }

  /** Types the characters of `s` into boxes `i..5`, one per box, returning the final boxes and effect. */
  function TypeFrom(p: Pin, s: string, i: nat): (r: (Pin, PinEffect))
    requires WellFormed(p) && |s| == 6 && i <= 6
    decreases 6 - i
  {
    if i == 6 then (p, NoEffect)
    else
      var step := DigitChange(p, [s[i]], i);
      if i == 5 then step else TypeFrom(step.0, s, i + 1)
  }

  /**
   * Typing a six-digit password into the freshly opened dialog, one digit per
   * box, checks exactly that password, and so opens the settings.
   */
  lemma TypingThePinOpensSettings(admin: string)
    requires |admin| == 6 && AllDigits(admin)
    ensures var typed := TypeFrom(Pin(Cleared, true), admin, 0);
            typed.1 == CheckPin(admin)
            && Verify(typed.0, typed.1.entered, Some(admin)).1 == OpenSettings
  {
    TypedPrefix(Pin(Cleared, true), admin, 0);
  }

  lemma {:induction false} TypedPrefix(p: Pin, s: string, i: nat)
    requires |s| == 6 && AllDigits(s) && i <= 5
    requires WellFormed(p)
    requires forall k :: 0 <= k < i ==> p.digits[k] == [s[k]]
    ensures TypeFrom(p, s, i).1 == CheckPin(s)
    decreases 6 - i
  {
    var step := DigitChange(p, [s[i]], i);
    assert DigitsOf([s[i]]) == [s[i]] by {
      assert AllDigits([s[i]]);
    }
    if i == 5 {
      var d := step.0.digits;
      assert forall k :: 0 <= k < 6 ==> d[k] == [s[k]];
      JoinSingles(d, s);
    } else {
      TypedPrefix(step.0, s, i + 1);
    }
  }
}

=== FILE: dependents_menu.dfy ===
// The dependants list (screens/menus/dependentes/DependentesMenu.js): each card
// shows the dependant's age in completed years and an avatar chosen by age
// group and gender, on a gender colour.

module DependentsMenu {
  import opened JsText
  import opened Calendar

  /** A stored `dataNascimento`: a Firestore Timestamp (read with `toDate()`), or any
      other value handed to `new Date(value)`, which may not name a date. */
  datatype Birth = Timestamp(date: Date) | Value(parsed: Option<Date>)

  /** Completed years from `b` to `t`: the year difference, less one while this
      year's birthday (by month and day) is still to come. */
  function YearsBetween(b: Date, t: Date): int
  {
    var idade := t.year - b.year;
    var m := t.month - b.month;
    if m < 0 || (m == 0 && t.day < b.day) then idade - 1 else idade
  }

  /** `calcularIdade(dataNascimento)`: 0 when the value is missing (falsy), NaN when it
      is not a date. */
  function Age(birth: Option<Birth>, today: Date): (a: Num)
    ensures birth.None? ==> a == Int(0)
    ensures a.NaN? <==> birth == Some(Value(None))
  {
    match birth
    case None => Int(0)
    case Some(Timestamp(d)) => Int(YearsBetween(d, today))
    case Some(Value(None)) => NaN
    case Some(Value(Some(d))) => Int(YearsBetween(d, today))
  }

  /** The age is the number of birthdays reached: the `a`-th anniversary (same month
      and day) is not after today and the next one is. */
  lemma AgeIsCompletedYears(b: Date, today: Date)
    ensures var a := YearsBetween(b, today);
            !Before(today, Date(b.year + a, b.month, b.day))
            && Before(today, Date(b.year + a + 1, b.month, b.day))
  {
  }

  /** A Timestamp and a plain date value naming the same day give the same age. */
  lemma BothFormsAgree(d: Date, today: Date)
    ensures Age(Some(Timestamp(d)), today) == Age(Some(Value(Some(d))), today)
  {
  }

  /** Someone born on or before today is not of negative age. */
  lemma AgeNotNegative(b: Date, today: Date)
    requires !Before(today, b)
    ensures YearsBetween(b, today) >= 0
  {
  }

  datatype AgeGroup = Child | Adult | Elder

  /** `idade < 18`, `idade < 60`, else; a NaN age fails both comparisons. */
  function GroupOf(idade: Num): (g: AgeGroup)
    ensures g == Child <==> idade.Int? && idade.n < 18
    ensures g == Adult <==> idade.Int? && 18 <= idade.n < 60
  {
    match idade
    case NaN => Elder
    case Int(n) => if n < 18 then Child else if n < 60 then Adult else Elder
  }

  predicate IsMale(genero: Option<string>)
  {
    genero == Some("masculino")
  }

  const Boy: string := "\U{1F466}"
  const Girl: string := "\U{1F467}"
  const Man: string := "\U{1F468}"
  const Woman: string := "\U{1F469}"
  const OldMan: string := "\U{1F474}"
  const OldWoman: string := "\U{1F475}"

  /** `getAvatar(genero, idade)`. */
  function Avatar(genero: Option<string>, idade: Num): (r: string)
    ensures r in [Boy, Girl, Man, Woman, OldMan, OldWoman]
  {
    var male := IsMale(genero);
    match GroupOf(idade)
    case Child => if male then Boy else Girl
    case Adult => if male then Man else Woman
    case Elder => if male then OldMan else OldWoman
  }

  /** The avatar tells the age group and whether the dependant is recorded as male. */
  lemma AvatarDecodes(g1: Option<string>, a1: Num, g2: Option<string>, a2: Num)
    requires Avatar(g1, a1) == Avatar(g2, a2)
    ensures GroupOf(a1) == GroupOf(a2)
    ensures IsMale(g1) <==> IsMale(g2)
  {
    assert Boy[0] != Girl[0] && Boy[0] != Man[0] && Boy[0] != Woman[0] && Boy[0] != OldMan[0] && Boy[0] != OldWoman[0];
    assert Girl[0] != Man[0] && Girl[0] != Woman[0] && Girl[0] != OldMan[0] && Girl[0] != OldWoman[0];
    assert Man[0] != Woman[0] && Man[0] != OldMan[0] && Man[0] != OldWoman[0];
    assert Woman[0] != OldMan[0] && Woman[0] != OldWoman[0];
    assert OldMan[0] != OldWoman[0];
  }

  /** Only 'masculino' gets the male avatars: a missing or other gender gets the female ones. */
  lemma OnlyMasculinoIsMale(genero: Option<string>, idade: Num)
    ensures Avatar(genero, idade) in [Boy, Man, OldMan] <==> genero == Some("masculino")
  {
    assert Boy[0] != Girl[0] && Man[0] != Woman[0] && OldMan[0] != OldWoman[0];
    assert Boy[0] != Woman[0] && Boy[0] != OldWoman[0] && Man[0] != Girl[0];
    assert Man[0] != OldWoman[0] && OldMan[0] != Girl[0] && OldMan[0] != Woman[0];
  }

  /** A birth value that is not a date makes the age NaN, and the card shows an elder. */
  lemma UnreadableBirthShowsElder(genero: Option<string>, today: Date)
    ensures GroupOf(Age(Some(Value(None)), today)) == Elder
  {
  }

  /** `getAvatarColor(genero)`. */
  function AvatarColor(genero: Option<string>): (c: string)
    ensures c == "#4D97DB" || c == "#9F7AEA"
  {
    if IsMale(genero) then "#4D97DB" else "#9F7AEA"
  }

  /** The card's colour and avatar agree on gender. */
  lemma ColorMatchesAvatar(genero: Option<string>, idade: Num)
    ensures AvatarColor(genero) == "#4D97DB" <==> Avatar(genero, idade) in [Boy, Man, OldMan]
  {
    OnlyMasculinoIsMale(genero, idade);
  }
}

=== FILE: foreground_service.dfy ===
// `MedicationForegroundService`: a single-slot reminder. Each start either
// tears the service down (the stop action) or overwrites the six reminder
// fields from the intent and re-posts the one ongoing notification, whose
// single button sends the fields on to `MedicationConfirmReceiver`.

module ForegroundService {
  import opened JsText
  import opened Intents

  const ChannelId: string := "medication_alarm_channel"
  const NotificationId: int := 1001

  const ActionConfirm: string := "com.app.CONFIRM_MEDICATION"
  const ActionStopService: string := "com.app.STOP_SERVICE"

  const ExtraName: string := "medication_name"
  const ExtraDosage: string := "dosage"
  const ExtraTime: string := "time"
  const ExtraId: string := "medication_id"
  const ExtraAlarmType: string := "alarm_type"
  const ExtraIntervalHours: string := "interval_hours"

  const DefaultName: string := "Medicamento"
  const Title: string := "💊 Hora de tomar seu medicamento"
  const ConfirmLabel: string := "✅ Tomei o medicamento"
  const IntervalTag: string := "intervalo"
  const Vibration: seq<int> := [0, 500, 250, 500]

  /**
   * The service's six string fields. Name, dosage and time are never null
   * (they start as "" and a start replaces a null by a default); the other
   * three may be null after a start.
   */
  datatype Fields = Fields(
    name: string,
    dosage: string,
    time: string,
    id: Option<string>,
    alarmType: Option<string>,
    intervalHours: Option<string>)

  /** A freshly created service instance. */
  const Fresh: Fields := Fields("", "", "", Some(""), Some(""), Some(""))

  /** What `onStartCommand` leaves behind: the fields, the platform calls, the return code. */
  datatype StartOutcome = StartOutcome(state: Fields, effects: seq<Effect>, code: int)

  predicate IsStop(intent: Option<Intent>)
  {
    intent.Some? && intent.value.action == Some(ActionStopService)
  }

  /** The fields read from a start intent, with the null defaults applied. */
  function Accept(i: Intent): Fields
  {
    Fields(
      Coalesce(GetStringExtra(i, ExtraName), DefaultName),
      Coalesce(GetStringExtra(i, ExtraDosage), ""),
      Coalesce(GetStringExtra(i, ExtraTime), ""),
      GetStringExtra(i, ExtraId),
      GetStringExtra(i, ExtraAlarmType),
      GetStringExtra(i, ExtraIntervalHours))
  }

  /** Whether the content text carries the "(A cada …h)" suffix. */
  predicate ShowsInterval(f: Fields)
  {
    f.alarmType == Some(IntervalTag) && f.intervalHours.Some?
  }

  function IntervalSuffix(f: Fields): string
  {
    if ShowsInterval(f) then " (A cada " + f.intervalHours.value + "h)" else ""
  }

  function TimeSuffix(f: Fields): string
  {
    if f.time != "" then " - " + f.time else ""
  }

  /** The notification's expanded text after the name: dosage, interval, time. */
  function ContentText(f: Fields): (t: string)
    ensures |t| >= |f.dosage| && t[..|f.dosage|] == f.dosage
    ensures |t| == |f.dosage|
                   + (if ShowsInterval(f) then 11 + |f.intervalHours.value| else 0)
                   + (if f.time != "" then 3 + |f.time| else 0)
    ensures f.time != "" ==> t[|t| - |f.time|..] == f.time && t[|t| - |f.time| - 3..|t| - |f.time|] == " - "
    ensures !ShowsInterval(f) && f.time == "" ==> t == f.dosage
    ensures ShowsInterval(f) ==> t[|f.dosage|..|f.dosage| + 11 + |f.intervalHours.value|]
                                 == " (A cada " + f.intervalHours.value + "h)"
    ensures !ShowsInterval(f) && f.time != "" ==> t == f.dosage + " - " + f.time
  {
    f.dosage + IntervalSuffix(f) + TimeSuffix(f)
  }

  /** The confirm button's intent: the confirm action plus all six current fields. */
  function ConfirmIntent(f: Fields): (i: Intent)
    ensures i.target == Some(MedicationConfirmReceiver) && i.action == Some(ActionConfirm)
  {
    Intent(Some(MedicationConfirmReceiver), Some(ActionConfirm),
      map[ExtraName := Some(f.name), ExtraDosage := Some(f.dosage), ExtraTime := Some(f.time),
          ExtraId := f.id, ExtraAlarmType := f.alarmType, ExtraIntervalHours := f.intervalHours])
  }

  /** The tap target: the app, carrying the id and alarm type. */
  function ContentIntent(f: Fields): Intent
  {
    Intent(Some(MainActivity), None, map[ExtraId := f.id, ExtraAlarmType := f.alarmType])
  }

  /** `createNotification`. */
  function Build(f: Fields): (n: Notification)
    ensures n.title == Title && n.text == f.name
    ensures n.bigText == Some(f.name + "\n" + ContentText(f))
    ensures n.ongoing && !n.autoCancel && n.priority == PriorityMax
    ensures |n.actions| == 1 && n.actions[0].caption == ConfirmLabel
    ensures n.actions[0].fires.action == Some(ActionConfirm)
  {
    Notification(ChannelId, Title, f.name, Some(f.name + "\n" + ContentText(f)), PriorityMax,
      true, false, Vibration, ContentIntent(f), [Action(ConfirmLabel, ConfirmIntent(f))])
  }

  /** `onStartCommand`. */
  function OnStartCommand(s: Fields, intent: Option<Intent>): (r: StartOutcome)
    ensures IsStop(intent) ==> r.state == s && r.code == StartNotSticky
                               && r.effects == [StopForeground(true), StopSelf]
    ensures !IsStop(intent) ==> r.code == StartSticky && r.effects == [StartForeground(NotificationId, Build(r.state))]
    ensures intent.None? ==> r.state == s
    ensures intent.Some? && !IsStop(intent) ==>
              r.state.name == Coalesce(GetStringExtra(intent.value, ExtraName), DefaultName)
              && r.state.dosage == Coalesce(GetStringExtra(intent.value, ExtraDosage), "")
              && r.state.time == Coalesce(GetStringExtra(intent.value, ExtraTime), "")
              && r.state.id == GetStringExtra(intent.value, ExtraId)
              && r.state.alarmType == GetStringExtra(intent.value, ExtraAlarmType)
              && r.state.intervalHours == GetStringExtra(intent.value, ExtraIntervalHours)
  {
    if IsStop(intent) then
      StartOutcome(s, [StopForeground(true), StopSelf], StartNotSticky)
    else
      var f := if intent.Some? then Accept(intent.value) else s;
      StartOutcome(f, [StartForeground(NotificationId, Build(f))], StartSticky)
  }

  /** The notification posted by a start, if any. */
  function Posted(r: StartOutcome): Option<Notification>
  {
    if |r.effects| == 1 && r.effects[0].StartForeground? then Some(r.effects[0].notification) else None
  }

  // ---------------------------------------------------------------------------
  // Properties

  /** The confirm button carries exactly the fields it was built from. */
  lemma ConfirmPayloadRoundTrip(f: Fields)
    ensures Accept(ConfirmIntent(f)) == f
    ensures Accept(Build(f).actions[0].fires) == f
  {
  }

  /**
   * The last accepted start decides everything: two services in any states
   * that receive the same non-stop intent end in the same state and post the
   * same notification, under the same id.
   */
  lemma LastStartWins(s1: Fields, s2: Fields, i: Intent)
    requires !IsStop(Some(i))
    ensures OnStartCommand(s1, Some(i)).state == OnStartCommand(s2, Some(i)).state
    ensures OnStartCommand(s1, Some(i)).effects == OnStartCommand(s2, Some(i)).effects
  {
  }

  /** Every posting start uses the one notification id, so a second start replaces the first. */
  lemma OneNotificationSlot(s: Fields, a: Option<Intent>, b: Option<Intent>)
    requires !IsStop(a) && !IsStop(b)
    ensures var ra := OnStartCommand(s, a);
            var rb := OnStartCommand(ra.state, b);
            Posted(ra).Some? && Posted(rb).Some?
            && ra.effects[0].id == rb.effects[0].id == NotificationId
  {
  }

  /** A stop posts nothing. */
  lemma StopPostsNothing(s: Fields, i: Option<Intent>)
    requires IsStop(i)
    ensures Posted(OnStartCommand(s, i)).None?
    ensures forall k :: 0 <= k < |OnStartCommand(s, i).effects| ==> !OnStartCommand(s, i).effects[k].StartForeground?
  {
  }

  /** The confirm button's intent read back by the service: the same fields, and no stop. */
  lemma ConfirmIntentIsNotStop(f: Fields)
    ensures !IsStop(Some(ConfirmIntent(f)))
  {
  }

  /** A system restart of a fresh instance shows an empty name, not the default. */
  lemma FreshRestartShowsEmptyName()
    ensures Build(OnStartCommand(Fresh, None).state).text == ""
    ensures OnStartCommand(Fresh, Some(Intent(None, None, map[]))).state.name == DefaultName
  {
  }

  /** Only the exact tag "intervalo" (with hours present) adds the interval suffix. */
  lemma IntervalSuffixOnlyForTag(f: Fields)
    ensures ShowsInterval(f) <==> ContentText(f) != f.dosage + TimeSuffix(f)
  {
    if ShowsInterval(f) {
      assert |ContentText(f)| != |f.dosage + TimeSuffix(f)|;
    }
  }

  lemma ContentTextExamples()
    ensures ContentText(Fields("Dipirona", "50mg", "08:00", None, Some("intervalo"), Some("8")))
              == "50mg (A cada 8h) - 08:00"
    ensures ContentText(Fields("Dipirona", "50mg", "08:00", None, Some("interval"), Some("8")))
              == "50mg - 08:00"
    ensures ContentText(Fields("Dipirona", "50mg", "", None, Some("intervalo"), None)) == "50mg"
  {
    IntervalTagExample();
    OtherTagExample();
  }

  lemma IntervalTagExample()
    ensures ContentText(Fields("Dipirona", "50mg", "08:00", None, Some("intervalo"), Some("8")))
              == "50mg (A cada 8h) - 08:00"
  {
    var f := Fields("Dipirona", "50mg", "08:00", None, Some("intervalo"), Some("8"));
    assert ShowsInterval(f);
    assert " (A cada " + "8" + "h)" == " (A cada 8h)";
    assert IntervalSuffix(f) == " (A cada 8h)";
    assert TimeSuffix(f) == " - 08:00";
    assert "50mg" + " (A cada 8h)" + " - 08:00" == "50mg (A cada 8h) - 08:00";
  }

  lemma OtherTagExample()
    ensures ContentText(Fields("Dipirona", "50mg", "08:00", None, Some("interval"), Some("8")))
              == "50mg - 08:00"
  {
    var f := Fields("Dipirona", "50mg", "08:00", None, Some("interval"), Some("8"));
    assert !ShowsInterval(f);
    assert TimeSuffix(f) == " - 08:00";
    assert "50mg" + "" + " - 08:00" == "50mg - 08:00";
  }
}

=== FILE: help_screen.dfy ===
// The help screen's FAQ accordion (screens/navigation/AjudaScreen.js): tapping a
// question expands its answer and collapses any other; tapping the expanded
// question collapses it.

module HelpScreen {
  import opened JsText

  /** The `id`s of `faqData`. */
  const FaqIds: seq<int> := [1, 2, 3, 4, 5, 6]

  /** `toggleFaq(id)` on the `expandedFaq` state (`null` is `None`). */
  function ToggleFaq(expanded: Option<int>, id: int): (r: Option<int>)
    ensures r.None? <==> expanded == Some(id)
    ensures r.Some? ==> r.value == id
  {
    if expanded == Some(id) then None else Some(id)
  }

  /** `expandedFaq === item.id`: the answer under the question is rendered. */
  predicate AnswerShown(expanded: Option<int>, id: int)
  {
    expanded == Some(id)
  }

  /** The questions, in order, whose answers are rendered. */
  function ShownAnswers(expanded: Option<int>, ids: seq<int>): (r: seq<int>)
    ensures forall x :: x in r <==> x in ids && AnswerShown(expanded, x)
    ensures |r| <= |ids|
  {
    if ids == [] then []
    else if AnswerShown(expanded, ids[0]) then [ids[0]] + ShownAnswers(expanded, ids[1..])
    else ShownAnswers(expanded, ids[1..])
  }

  predicate Distinct(ids: seq<int>)
  {
    forall i, j :: 0 <= i < j < |ids| ==> ids[i] != ids[j]
  }

  lemma {:induction false} NoneShown(expanded: Option<int>, ids: seq<int>)
    requires forall x :: x in ids ==> !AnswerShown(expanded, x)
    ensures ShownAnswers(expanded, ids) == []
  {
    if ids != [] {
      assert ids[0] in ids;
      NoneShown(expanded, ids[1..]);
    }
  }

  /** With distinct question ids at most one answer is ever on screen. */
  lemma {:induction false} AtMostOneAnswer(expanded: Option<int>, ids: seq<int>)
    requires Distinct(ids)
    ensures |ShownAnswers(expanded, ids)| <= 1
  {
    if ids != [] {
      var rest := ids[1..];
      if AnswerShown(expanded, ids[0]) {
        forall x | x in rest
          ensures !AnswerShown(expanded, x)
        {
          var j :| 0 <= j < |rest| && rest[j] == x;
          assert ids[j + 1] == x;
        }
        NoneShown(expanded, rest);
        assert ShownAnswers(expanded, ids) == [ids[0]];
      } else {
        AtMostOneAnswer(expanded, rest);
      }
    }
  }

  lemma FaqIdsDistinct()
    ensures Distinct(FaqIds)
  {
  }

  /** Tapping the same question twice gets back to where one started exactly when
      that question was expanded or nothing was. */
  lemma ToggleTwice(expanded: Option<int>, id: int)
    ensures ToggleFaq(ToggleFaq(expanded, id), id) == expanded <==> expanded.None? || expanded == Some(id)
  {
  }

  /** A run of taps, first to last. */
  function Taps(expanded: Option<int>, ids: seq<int>): Option<int>
    decreases |ids|
  {
    if ids == [] then expanded else Taps(ToggleFaq(expanded, ids[0]), ids[1..])
  }

  lemma {:induction false} TapsSnoc(expanded: Option<int>, ids: seq<int>, id: int)
    ensures Taps(expanded, ids + [id]) == ToggleFaq(Taps(expanded, ids), id)
    decreases |ids|
  {
    if ids != [] {
      assert (ids + [id])[1..] == ids[1..] + [id];
      TapsSnoc(ToggleFaq(expanded, ids[0]), ids[1..], id);
    }
  }

  /** After any taps the expanded question, if any, is the last one tapped; nothing is
      expanded exactly when the last tap hit the question that was open. */
  lemma LastTapDecides(expanded: Option<int>, ids: seq<int>)
    requires ids != []
    ensures var last := ids[|ids| - 1];
            var before := Taps(expanded, ids[..|ids| - 1]);
            (Taps(expanded, ids).Some? ==> Taps(expanded, ids).value == last)
            && (Taps(expanded, ids).None? <==> before == Some(last))
  {
    var n := |ids| - 1;
    assert ids == ids[..n] + [ids[n]];
    TapsSnoc(expanded, ids[..n], ids[n]);
  }
}

=== FILE: history.dfy ===
// What the two history screens share: ordering records newest first by their
// `YYYY-MM-DD` day and `HH:MM` time (string order, as `localeCompare` and
// Firestore's `orderBy` treat these digit strings), and grouping them by day
// into an object whose keys are then listed newest first.

module History {
  import opened JsText

  /** The period buttons (`filtroSelecionado`); `Ontem` has a case in the code but no button. */
  datatype Filter = Todos | Hoje | Ontem | Semana | Mes

  /** What a day group's header shows, before locale formatting of the date. */
  datatype Header =
    | TodayHeader(day: int)         // 'Hoje' (with the date on the user's own screen)
    | YesterdayHeader(day: int)     // 'Ontem' (likewise)
    | DateHeader(day: int)          // the date alone
    | InvalidDate                   // the key did not name a date
    | Unchanged(input: Option<string>) // formatting threw: the input is returned

  // ---------------------------------------------------------------------------
  // Order on (day, time) pairs

  /** `p` sorts before `q`: by the first string, then by the second. */
  predicate PairLt(p: (string, string), q: (string, string))
  {
    StrLt(p.0, q.0) || (p.0 == q.0 && StrLt(p.1, q.1))
  }

  lemma PairLtIrreflexive(p: (string, string))
    ensures !PairLt(p, p)
  {
    StrLtIrreflexive(p.0);
    StrLtIrreflexive(p.1);
  }

  lemma PairLtTransitive(p: (string, string), q: (string, string), r: (string, string))
    requires PairLt(p, q) && PairLt(q, r)
    ensures PairLt(p, r)
  {
    if StrLt(p.0, q.0) && StrLt(q.0, r.0) {
      StrLtTransitive(p.0, q.0, r.0);
    } else if p.0 == q.0 && q.0 == r.0 {
      StrLtTransitive(p.1, q.1, r.1);
    }
  }

  lemma PairLtTrichotomy(p: (string, string), q: (string, string))
    ensures PairLt(p, q) || p == q || PairLt(q, p)
  {
    StrLtTrichotomy(p.0, q.0);
    StrLtTrichotomy(p.1, q.1);
  }

  /** Newest first: no element sorts before a later one. */
  predicate SortedDesc<T>(s: seq<T>, key: T -> (string, string))
  {
    forall i, j :: 0 <= i < j < |s| ==> !PairLt(key(s[i]), key(s[j]))
  }

  /** Inserts `x` into a newest-first list, after every element not older than it. */
  function Insert<T>(x: T, s: seq<T>, key: T -> (string, string)): (r: seq<T>)
    ensures multiset(r) == multiset(s) + multiset{x}
    ensures |r| == |s| + 1
  {
    if s == [] || PairLt(key(s[0]), key(x)) then [x] + s
    else
      assert s == [s[0]] + s[1..];
      [s[0]] + Insert(x, s[1..], key)
  }

  /** `list.sort((a, b) => compare(key(b), key(a)))`, as an insertion sort. */
  function SortDesc<T>(s: seq<T>, key: T -> (string, string)): (r: seq<T>)
    ensures multiset(r) == multiset(s)
    ensures |r| == |s|
  {
    if s == [] then []
    else
      assert s == s[..|s| - 1] + [s[|s| - 1]];
      Insert(s[|s| - 1], SortDesc(s[..|s| - 1], key), key)
  }

  /** An element of `t` that is not `x` is an element of `s`. */
  lemma InsertedFrom<T>(x: T, s: seq<T>, key: T -> (string, string), y: T)
    requires y in Insert(x, s, key)
    ensures y == x || y in s
  {
    assert y in multiset(Insert(x, s, key));
  }

  lemma {:induction false} InsertSorted<T>(x: T, s: seq<T>, key: T -> (string, string))
    requires SortedDesc(s, key)
    ensures SortedDesc(Insert(x, s, key), key)
    decreases |s|
  {
    var r := Insert(x, s, key);
    if s == [] {
    } else if PairLt(key(s[0]), key(x)) {
      forall j | 1 <= j < |r|
        ensures !PairLt(key(x), key(r[j]))
      {
        assert r[j] == s[j - 1];
        if PairLt(key(x), key(s[j - 1])) {
          PairLtTransitive(key(s[0]), key(x), key(s[j - 1]));
          if j - 1 == 0 {
            PairLtIrreflexive(key(s[0]));
          }
        }
      }
    } else {
      var t := Insert(x, s[1..], key);
      InsertSorted(x, s[1..], key);
      assert r == [s[0]] + t;
      forall j | 0 <= j < |t|
        ensures !PairLt(key(s[0]), key(t[j]))
      {
        InsertedFrom(x, s[1..], key, t[j]);
        if t[j] != x {
          var k :| 0 <= k < |s[1..]| && s[1..][k] == t[j];
          assert s[k + 1] == t[j];
        }
      }
      forall i, j | 0 <= i < j < |r|
        ensures !PairLt(key(r[i]), key(r[j]))
      {
        assert r[j] == t[j - 1];
        if i > 0 {
          assert r[i] == t[i - 1];
        }
      }
    }
  }

  /** The sort leaves the list newest first. */
  lemma {:induction false} SortDescSorted<T>(s: seq<T>, key: T -> (string, string))
    ensures SortedDesc(SortDesc(s, key), key)
    decreases |s|
  {
    if s != [] {
      SortDescSorted(s[..|s| - 1], key);
      InsertSorted(s[|s| - 1], SortDesc(s[..|s| - 1], key), key);
    }
  }

  /** In a list newest first by (day, time), records of one day are in descending time. */
  lemma SameDayTimesDescend<T>(s: seq<T>, key: T -> (string, string), i: nat, j: nat)
    requires SortedDesc(s, key)
    requires i < j < |s| && key(s[i]).0 == key(s[j]).0
    ensures StrLe(key(s[j]).1, key(s[i]).1)
  {
    StrLtTrichotomy(key(s[i]).1, key(s[j]).1);
  }

  // ---------------------------------------------------------------------------
  // Day keys, newest first

  /** Strictly descending strings: newest first and no key twice. */
  predicate Descending(ks: seq<string>)
  {
    forall i, j :: 0 <= i < j < |ks| ==> StrLt(ks[j], ks[i])
  }

  /** Adds a key to a descending key list unless it is already there. */
  function AddKey(k: string, ks: seq<string>): (r: seq<string>)
    ensures forall x :: x in r <==> x == k || x in ks
  {
    if ks == [] then [k]
    else if k == ks[0] then ks
    else if StrLt(ks[0], k) then [k] + ks
    else [ks[0]] + AddKey(k, ks[1..])
  }

  lemma {:induction false} AddKeyDescending(k: string, ks: seq<string>)
    requires Descending(ks)
    ensures Descending(AddKey(k, ks))
    decreases |ks|
  {
    var r := AddKey(k, ks);
    if ks == [] || k == ks[0] {
    } else if StrLt(ks[0], k) {
      forall i, j | 0 <= i < j < |r|
        ensures StrLt(r[j], r[i])
      {
        if i == 0 && j > 1 {
          StrLtTransitive(ks[j - 1], ks[0], k);
        }
      }
    } else {
      var t := AddKey(k, ks[1..]);
      AddKeyDescending(k, ks[1..]);
      StrLtTrichotomy(k, ks[0]);
      forall j | 0 <= j < |t|
        ensures StrLt(t[j], ks[0])
      {
        assert t[j] in t;
        if t[j] != k {
          assert t[j] in ks[1..];
          var m :| 0 <= m < |ks[1..]| && ks[1..][m] == t[j];
          assert ks[m + 1] == t[j];
        }
      }
      forall i, j | 0 <= i < j < |r|
        ensures StrLt(r[j], r[i])
      {
        assert r[j] == t[j - 1];
        if i > 0 {
          assert r[i] == t[i - 1];
        }
      }
    }
  }

  /** `Object.keys(grupos).sort((a, b) => b.localeCompare(a))`: every day once, newest first. */
  function Keys<T>(recs: seq<T>, day: T -> string): (ks: seq<string>)
    ensures Descending(ks)
    ensures forall x :: x in ks <==> exists i :: 0 <= i < |recs| && day(recs[i]) == x
  {
    if recs == [] then []
    else
      var rest := Keys(recs[1..], day);
      AddKeyDescending(day(recs[0]), rest);
      assert forall i :: 0 < i < |recs| ==> recs[i] == recs[1..][i - 1];
      AddKey(day(recs[0]), rest)
  }

  // ---------------------------------------------------------------------------
  // Groups

  /** `grupos[k]`: the records of day `k`, in list order. */
  function GroupOf<T(!new)>(recs: seq<T>, k: string, day: T -> string): (g: seq<T>)
    ensures forall x :: multiset(g)[x] == if day(x) == k then multiset(recs)[x] else 0
  {
    if recs == [] then []
    else
      assert recs == [recs[0]] + recs[1..];
      if day(recs[0]) == k then [recs[0]] + GroupOf(recs[1..], k, day)
      else GroupOf(recs[1..], k, day)
  }

  /** One (key, records) pair per key, in key order. */
  function GroupsFor<T(!new)>(recs: seq<T>, ks: seq<string>, day: T -> string): (gs: seq<(string, seq<T>)>)
    ensures |gs| == |ks|
    ensures forall i :: 0 <= i < |ks| ==> gs[i] == (ks[i], GroupOf(recs, ks[i], day))
  {
    if ks == [] then []
    else [(ks[0], GroupOf(recs, ks[0], day))] + GroupsFor(recs, ks[1..], day)
  }

  /** The day groups as the screens render them: newest day first. */
  function Groups<T(!new)>(recs: seq<T>, day: T -> string): seq<(string, seq<T>)>
  {
    GroupsFor(recs, Keys(recs, day), day)
  }

  /** All records of all groups, in group order. */
  function Flatten<T>(gs: seq<(string, seq<T>)>): seq<T>
  {
    if gs == [] then [] else gs[0].1 + Flatten(gs[1..])
  }

  /** The head of a descending key list does not occur again in its tail. */
  lemma HeadNotInTail(ks: seq<string>)
    requires Descending(ks) && ks != []
    ensures ks[0] !in ks[1..]
  {
    if ks[0] in ks[1..] {
      var m :| 0 <= m < |ks[1..]| && ks[1..][m] == ks[0];
      assert StrLt(ks[m + 1], ks[0]);
      StrLtIrreflexive(ks[0]);
    }
  }

  lemma CountInFirstGroup<T(!new)>(recs: seq<T>, ks: seq<string>, day: T -> string, x: T)
    requires ks != []
    ensures multiset(Flatten(GroupsFor(recs, ks, day)))[x]
            == multiset(GroupOf(recs, ks[0], day))[x] + multiset(Flatten(GroupsFor(recs, ks[1..], day)))[x]
  {
    var gs := GroupsFor(recs, ks, day);
    var g0 := GroupOf(recs, ks[0], day);
    var rest := GroupsFor(recs, ks[1..], day);
    assert gs == [(ks[0], g0)] + rest;
    assert gs[1..] == rest;
    assert Flatten(gs) == g0 + Flatten(rest);
  }

  lemma {:induction false} CountInGroups<T(!new)>(recs: seq<T>, ks: seq<string>, day: T -> string, x: T)
    requires Descending(ks)
    ensures multiset(Flatten(GroupsFor(recs, ks, day)))[x] == if day(x) in ks then multiset(recs)[x] else 0
    decreases |ks|
  {
    if ks != [] {
      CountInFirstGroup(recs, ks, day, x);
      CountInGroups(recs, ks[1..], day, x);
      HeadNotInTail(ks);
      assert ks == [ks[0]] + ks[1..];
    }
  }

  /** Grouping neither loses nor duplicates a record. */
  lemma GroupsPartition<T(!new)>(recs: seq<T>, day: T -> string)
    ensures multiset(Flatten(Groups(recs, day))) == multiset(recs)
    ensures |Flatten(Groups(recs, day))| == |recs|
  {
    var ks := Keys(recs, day);
    forall x
      ensures multiset(Flatten(Groups(recs, day)))[x] == multiset(recs)[x]
    {
      CountInGroups(recs, ks, day, x);
      if x in recs {
        var i :| 0 <= i < |recs| && recs[i] == x;
        assert day(recs[i]) in ks;
      }
    }
    assert multiset(Flatten(Groups(recs, day))) == multiset(recs);
  }

  /** Each record sits in the group of its own day, and no other group holds it. */
  lemma RecordInItsGroup<T(!new)>(recs: seq<T>, day: T -> string, x: T)
    requires x in recs
    ensures exists i :: 0 <= i < |Groups(recs, day)| && Groups(recs, day)[i].0 == day(x) && x in Groups(recs, day)[i].1
    ensures forall i :: 0 <= i < |Groups(recs, day)| && x in Groups(recs, day)[i].1 ==> Groups(recs, day)[i].0 == day(x)
  {
    var ks := Keys(recs, day);
    var gs := Groups(recs, day);
    var n :| 0 <= n < |recs| && recs[n] == x;
    assert day(recs[n]) in ks;
    var i :| 0 <= i < |ks| && ks[i] == day(x);
    assert x in multiset(recs);
    assert x in multiset(gs[i].1);
    forall j | 0 <= j < |gs| && x in gs[j].1
      ensures gs[j].0 == day(x)
    {
      assert x in multiset(gs[j].1);
    }
  }

  /** Groups come newest day first, and no day has two groups. */
  lemma GroupsNewestFirst<T(!new)>(recs: seq<T>, day: T -> string)
    ensures forall i, j :: 0 <= i < j < |Groups(recs, day)| ==> StrLt(Groups(recs, day)[j].0, Groups(recs, day)[i].0)
  {
  }

  /** Taking one day's records keeps their relative order. */
  lemma {:induction false} GroupKeepsOrder<T(!new)>(recs: seq<T>, k: string, day: T -> string, key: T -> (string, string))
    requires SortedDesc(recs, key)
    ensures SortedDesc(GroupOf(recs, k, day), key)
    decreases |recs|
  {
    if recs != [] {
      var t := GroupOf(recs[1..], k, day);
      GroupKeepsOrder(recs[1..], k, day, key);
      if day(recs[0]) == k {
        forall j | 0 <= j < |t|
          ensures !PairLt(key(recs[0]), key(t[j]))
        {
          FromTail(recs, t, j, key);
        }
        ConsSorted(recs[0], t, key);
      }
    }
  }

  /** An element of a sub-multiset of a sorted list's tail is not newer than the list's head. */
  lemma FromTail<T>(recs: seq<T>, t: seq<T>, j: int, key: T -> (string, string))
    requires SortedDesc(recs, key) && recs != [] && 0 <= j < |t| && multiset(t) <= multiset(recs[1..])
    ensures !PairLt(key(recs[0]), key(t[j]))
  {
    assert t[j] in multiset(t);
    assert t[j] in multiset(recs[1..]);
    var m :| 0 <= m < |recs[1..]| && recs[1..][m] == t[j];
    assert recs[m + 1] == t[j];
  }

  /** Putting in front of a sorted list an element newer than none of it keeps it sorted. */
  lemma ConsSorted<T>(x: T, t: seq<T>, key: T -> (string, string))
    requires SortedDesc(t, key) && forall j :: 0 <= j < |t| ==> !PairLt(key(x), key(t[j]))
    ensures SortedDesc([x] + t, key)
  {
    var g := [x] + t;
    forall i, j | 0 <= i < j < |g|
      ensures !PairLt(key(g[i]), key(g[j]))
    {
      assert g[j] == t[j - 1];
      if i > 0 {
        assert g[i] == t[i - 1];
      }
    }
  }

  // ---------------------------------------------------------------------------
  // Group header counter

  /** `${n} medicamento${n !== 1 ? 's' : ''}`. */
  function CountText(n: nat): (r: string)
    ensures r == NatText(n) + " medicamento" || r == NatText(n) + " medicamentos"
    ensures r[|r| - 1] == 's' <==> n != 1
  {
    var plural := n != 1;
    var r := NatText(n) + " medicamento" + (if plural then "s" else "");
    assert r[|r| - 1] == (if plural then 's' else 'o');
    r
  }
}

=== FILE: home_screen.dfy ===
// The signed-in home screen (screens/menus/Index.js): a greeting built from the
// e-mail address, a notices list with priority badges, and the medicines
// subscription that feeds it.

module HomeScreen {
  import opened JsText

  const Red: string := "#ff4757"
  const Orange: string := "#ffa502"
  const Green: string := "#2ed573"
  const Grey: string := "#747d8c"

  /** The priorities the badge knows. */
  predicate KnownPriority(p: Option<string>)
  {
    p == Some("alta") || p == Some("media") || p == Some("baixa")
  }

  /** `getPrioridadeCor(prioridade)`: a strict-equality switch with a grey default. */
  function PriorityColor(p: Option<string>): (c: string)
    ensures c == Grey <==> !KnownPriority(p)
    ensures c in [Red, Orange, Green, Grey]
  {
    if p == Some("alta") then Red
    else if p == Some("media") then Orange
    else if p == Some("baixa") then Green
    else Grey
  }

  /** The priority a badge colour stands for, if any. */
  function PriorityOfColor(c: string): Option<string>
  {
    if c == Red then Some("alta")
    else if c == Orange then Some("media")
    else if c == Green then Some("baixa")
    else None
  }

  /** The colour tells a known priority back; every other value shares the grey. */
  lemma ColorTellsPriority(p: Option<string>)
    ensures KnownPriority(p) ==> PriorityOfColor(PriorityColor(p)) == p
    ensures !KnownPriority(p) ==> PriorityOfColor(PriorityColor(p)).None?
  {
    assert Red[3] != Orange[3] && Red[1] != Green[1] && Orange[1] != Green[1];
    assert Grey[1] != Red[1] && Grey[1] != Orange[1] && Grey[1] != Green[1];
  }

  /** The badge text: `prioridade.charAt(0).toUpperCase() + prioridade.slice(1)`. */
  function PriorityLabel(p: string): (r: string)
    ensures |r| == |p|
    ensures p != "" ==> r[0] == UpperChar(p[0]) && r[1..] == p[1..]
  {
    Capitalize(p)
  }

  /** Only the first letter changes: lower-casing a lower-case priority's label gives it back. */
  lemma LabelLowersBack(p: string)
    requires Lower(p) == p
    ensures |PriorityLabel(p)| == |p|
    ensures Lower(PriorityLabel(p)) == p
  {
    if p != "" {
      assert LowerChar(p[0]) == p[0];
      assert LowerChar(UpperChar(p[0])) == p[0];
      assert Lower(PriorityLabel(p))[0] == p[0];
    }
  }

  lemma KnownLabels()
    ensures PriorityLabel("alta") == "Alta"
    ensures PriorityLabel("media") == "Media"
    ensures PriorityLabel("baixa") == "Baixa"
  {
  }

  /** `user?.email?.split('@')[0] || 'Usuário'`; a missing user or e-mail is `None`. */
  function Greeting(email: Option<string>): (r: string)
    ensures r != ""
  {
    match email
    case None => "Usuário"
    case Some(e) => OrElse(Some(Split(e, '@')[0]), "Usuário")
  }

  /** The greeting is the text before the first '@' when there is any, and 'Usuário' otherwise. */
  lemma GreetingIsLocalPart(email: Option<string>)
    ensures email.None? || email.value == "" || email.value[0] == '@' ==> Greeting(email) == "Usuário"
    ensures email.Some? && email.value != "" && email.value[0] != '@' ==>
              var e := email.value;
              var g := Greeting(email);
              0 < |g| <= |e| && g == e[..|g|] && '@' !in g && (|g| == |e| || e[|g|] == '@')
  {
    if email.Some? {
      var e := email.value;
      match IndexOf(e, '@')
      case None =>
        assert Split(e, '@')[0] == e;
      case Some(i) =>
        assert Split(e, '@')[0] == e[..i];
    }
  }

  /** An address `name@domain` greets `name`. */
  lemma GreetingOfAddress(name: string, domain: string)
    requires name != "" && '@' !in name
    ensures Greeting(Some(name + "@" + domain)) == name
  {
    var e := name + "@" + domain;
    GreetingIsLocalPart(Some(e));
    var g := Greeting(Some(e));
    assert e[..|name|] == name;
    assert e[|name|] == '@';
    assert forall k :: 0 <= k < |name| ==> e[k] == name[k] && e[k] != '@';
    assert |g| == |name|;
  }

  /** The screen's state: the notices, the medicines from the subscription, the spinner. */
  datatype Home = Home(avisos: seq<string>, medicamentos: seq<string>, loading: bool)

  /** The first render, and the effect's early exit when nobody is signed in. */
  function Mount(signedIn: bool): Home
  {
    Home([], [], signedIn)
  }

  /** What the `remedios` subscription delivers: documents (`None` for an empty or
      invalid snapshot) or an error. */
  datatype Event = Snapshot(docs: Option<seq<string>>) | SnapshotError

  function Apply(h: Home, e: Event): (r: Home)
    ensures !r.loading
    ensures r.avisos == h.avisos
  {
    match e
    case Snapshot(Some(ds)) => h.(medicamentos := ds, loading := false)
    case Snapshot(None) => h.(loading := false)
    case SnapshotError => h.(loading := false)
  }

  function Run(h: Home, es: seq<Event>): Home
    decreases |es|
  {
    if es == [] then h else Run(Apply(h, es[0]), es[1..])
  }

  datatype View = Spinner | EmptyState | Notices(items: seq<string>)

  /** `loading ? spinner : avisos.length > 0 ? cards : empty state`. */
  function Render(h: Home): (v: View)
    ensures v.Notices? ==> v.items == h.avisos && h.avisos != []
  {
    if h.loading then Spinner
    else if |h.avisos| > 0 then Notices(h.avisos)
    else EmptyState
  }

  /** No event writes the notices. */
  lemma {:induction false} RunKeepsNotices(h: Home, es: seq<Event>)
    ensures Run(h, es).avisos == h.avisos
    ensures es != [] ==> !Run(h, es).loading
    decreases |es|
  {
    if es != [] {
      RunKeepsNotices(Apply(h, es[0]), es[1..]);
    }
  }

  /** The notices list is never filled: once loaded, the screen shows the empty state. */
  lemma AlwaysEmptyState(signedIn: bool, es: seq<Event>)
    ensures Render(Run(Mount(signedIn), es)) != Notices(Run(Mount(signedIn), es).avisos)
    ensures es != [] || !signedIn ==> Render(Run(Mount(signedIn), es)) == EmptyState
  {
    RunKeepsNotices(Mount(signedIn), es);
  }
}

=== FILE: js_text.dfy ===
/** Models of the JavaScript string and number primitives the app relies on:
    `||` on possibly-missing strings, `trim`, case mapping, `split`, `join`,
    `replace(/\D/g, '')`, `String(n)`, `padStart(2, '0')`, `Number(s)`,
    `parseInt(s)` and `includes`.  Strings are `seq<char>`. */
module JsText {

  /** A value that may be absent (`undefined` / `null` in the source). */
  datatype Option<+T> = None | Some(value: T)

  /** The result of a JavaScript numeric conversion: an integer or NaN. */
  datatype Num = Int(n: int) | NaN

  // ---------------------------------------------------------------------------
  // Truthiness and `||` defaults

  /** A possibly-missing string is truthy iff it is present and non-empty. */
  predicate Truthy(o: Option<string>)
  {
    o.Some? && o.value != ""
  }

  /** `o || d`: the first operand when it is truthy, else the default. */
  function OrElse(o: Option<string>, d: string): (r: string)
    ensures Truthy(o) ==> r == o.value
    ensures !Truthy(o) ==> r == d
  {
    if Truthy(o) then o.value else d
  }

  /** `a || b`, where the second operand may itself be missing. */
  function OrOpt(a: Option<string>, b: Option<string>): (r: Option<string>)
    ensures Truthy(a) ==> r == a
    ensures !Truthy(a) ==> r == b
  {
    if Truthy(a) then a else b
  }

  /** `x == null ? d : x` (a Java null check, Kotlin `?:`): only a missing value is replaced. */
  function Coalesce(o: Option<string>, d: string): (r: string)
    ensures o.Some? ==> r == o.value
    ensures o.None? ==> r == d
  {
    if o.Some? then o.value else d
  }

  /** A template literal's rendering of a possibly-undefined string: the string itself, else "undefined". */
  function Show(o: Option<string>): string
  {
    Coalesce(o, "undefined")
  }

  /** A null check keeps an empty string where `||` would replace it. */
  lemma CoalesceVersusOrElse(o: Option<string>, d: string)
    ensures Coalesce(o, d) == OrElse(o, d) <==> o.None? || o.value != "" || d == ""
  {
  }

  /** `a || b || d`: the first truthy of two optional strings, else a default. */
  lemma OrChainFirstTruthy(a: Option<string>, b: Option<string>, d: string)
    ensures OrElse(OrOpt(a, b), d) == if Truthy(a) then a.value else if Truthy(b) then b.value else d
  {
  }

  // ---------------------------------------------------------------------------
  // Whitespace and trim

  /** ECMAScript WhiteSpace and LineTerminator code points (what `\s` and `trim` use). */
  predicate IsSpace(c: char)
  {
    var k := c as int;
    k == 0x09 || k == 0x0A || k == 0x0B || k == 0x0C || k == 0x0D || k == 0x20 ||
    k == 0xA0 || k == 0x1680 || (0x2000 <= k <= 0x200A) || k == 0x2028 || k == 0x2029 ||
    k == 0x202F || k == 0x205F || k == 0x3000 || k == 0xFEFF
  }

  predicate AllSpace(s: string)
  {
    forall k :: 0 <= k < |s| ==> IsSpace(s[k])
  }

  predicate NoSpace(s: string)
  {
    forall k :: 0 <= k < |s| ==> !IsSpace(s[k])
  }

  /** Number of leading whitespace characters. */
  function LeadCount(s: string): (n: nat)
    ensures n <= |s|
    ensures AllSpace(s[..n])
    ensures n < |s| ==> !IsSpace(s[n])
  {
    if |s| > 0 && IsSpace(s[0]) then
      var m := LeadCount(s[1..]);
      assert s[..m + 1] == [s[0]] + s[1..][..m];
      1 + m
    else 0
  }

  /** Number of trailing whitespace characters. */
  function TrailCount(s: string): (n: nat)
    ensures n <= |s|
    ensures AllSpace(s[|s| - n..])
    ensures n < |s| ==> !IsSpace(s[|s| - 1 - n])
  {
    if |s| > 0 && IsSpace(s[|s| - 1]) then
      var u := s[..|s| - 1];
      var m := TrailCount(u);
      var tail, utail := s[|s| - (m + 1)..], u[|u| - m..];
      assert forall k :: 0 <= k < m + 1 ==> tail[k] == (if k < m then utail[k] else s[|s| - 1]);
      assert tail == utail + [s[|s| - 1]];
      assert m < |u| ==> s[|s| - 1 - (m + 1)] == u[|u| - 1 - m];
      1 + m
    else 0
  }

  /** `s.trim()`. */
  function Trim(s: string): (r: string)
    ensures |r| <= |s|
    ensures r == "" <==> AllSpace(s)
    ensures r != "" ==> !IsSpace(r[0]) && !IsSpace(r[|r| - 1])
  {
    var a := LeadCount(s);
    if a == |s| then
      assert s[..a] == s;
      ""
    else
      var b := TrailCount(s[a..]);
      TrimCore(s, a, b);
      s[a..|s| - b]
  }

  /** The non-blank case of `Trim`: the leading and trailing runs do not meet. */
  lemma TrimCore(s: string, a: nat, b: nat)
    requires a < |s| && AllSpace(s[..a]) && !IsSpace(s[a])
    requires b <= |s| - a && AllSpace(s[a..][|s| - a - b..])
    requires b < |s| - a ==> !IsSpace(s[a..][|s| - a - 1 - b])
    ensures b < |s| - a
    ensures !IsSpace(s[a]) && !IsSpace(s[|s| - 1 - b])
    ensures AllSpace(s[|s| - b..]) && !AllSpace(s)
  {
    var t := s[a..];
    assert t[|t| - 1 - b] == s[|s| - 1 - b];
    assert t[|t| - b..] == s[|s| - b..];
  }

  /** `!s.trim()`: the string is empty or whitespace only. */
  predicate Blank(s: string)
  {
    Trim(s) == ""
  }

  lemma BlankIffAllSpace(s: string)
    ensures Blank(s) <==> AllSpace(s)
  {
  }

  // ---------------------------------------------------------------------------
  // Case mapping (ASCII and Latin-1 letters)

  function UpperChar(c: char): (u: char)
  {
    var k := c as int;
    if 0x61 <= k <= 0x7A || (0xE0 <= k <= 0xFE && k != 0xF7) then (k - 32) as char else c
  }

  function LowerChar(c: char): (l: char)
  {
    var k := c as int;
    if 0x41 <= k <= 0x5A || (0xC0 <= k <= 0xDE && k != 0xD7) then (k + 32) as char else c
  }

  /** `s.toUpperCase()`, character by character. */
  function Upper(s: string): (r: string)
    ensures |r| == |s|
    ensures forall k :: 0 <= k < |s| ==> r[k] == UpperChar(s[k])
  {
    if s == "" then "" else [UpperChar(s[0])] + Upper(s[1..])
  }

  /** `s.toLowerCase()`, character by character. */
  function Lower(s: string): (r: string)
    ensures |r| == |s|
    ensures forall k :: 0 <= k < |s| ==> r[k] == LowerChar(s[k])
  {
    if s == "" then "" else [LowerChar(s[0])] + Lower(s[1..])
  }

  /** Lower-casing is idempotent and so is upper-casing. */
  lemma CaseMappingIdempotent(s: string)
    ensures Lower(Lower(s)) == Lower(s)
    ensures Upper(Upper(s)) == Upper(s)
  {
  }

  /** `s.charAt(0).toUpperCase() + s.slice(1)`. */
  function Capitalize(s: string): (r: string)
    ensures |r| == |s|
    ensures s != "" ==> r[0] == UpperChar(s[0]) && r[1..] == s[1..]
  {
    if s == "" then "" else [UpperChar(s[0])] + s[1..]
  }

  // ---------------------------------------------------------------------------
  // Split and join on a one-character separator

  function IndexOf(s: string, c: char): (i: Option<nat>)
    ensures i.Some? ==> i.value < |s| && s[i.value] == c && c !in s[..i.value]
    ensures i.None? ==> c !in s
  {
    if s == "" then None
    else if s[0] == c then Some(0)
    else
      match IndexOf(s[1..], c)
      case None => None
      case Some(j) =>
        assert s[..j + 1] == [s[0]] + s[1..][..j];
        Some(j + 1)
  }

  /** `s.split(c)`. */
  function Split(s: string, c: char): (parts: seq<string>)
    ensures |parts| >= 1
    ensures forall k :: 0 <= k < |parts| ==> c !in parts[k]
    decreases |s|
  {
    match IndexOf(s, c)
    case None => [s]
    case Some(i) => [s[..i]] + Split(s[i + 1..], c)
  }

  /** `parts.join(sep)`. */
  function Join(parts: seq<string>, sep: string): (r: string)
  {
    if parts == [] then ""
    else if |parts| == 1 then parts[0]
    else parts[0] + sep + Join(parts[1..], sep)
  }

  /** Splitting and re-joining on the same separator gives the string back. */
  lemma {:induction false} SplitJoinRoundTrip(s: string, c: char)
    ensures Join(Split(s, c), [c]) == s
    decreases |s|
  {
    match IndexOf(s, c)
    case None =>
    case Some(i) =>
      var rest := Split(s[i + 1..], c);
      SplitJoinRoundTrip(s[i + 1..], c);
      assert Split(s, c) == [s[..i]] + rest;
      assert s == s[..i] + [c] + s[i + 1..];
  }

  /** Joining separator-free parts and splitting again gives the parts back. */
  lemma {:induction false} JoinSplitRoundTrip(parts: seq<string>, c: char)
    requires |parts| >= 1
    requires forall k :: 0 <= k < |parts| ==> c !in parts[k]
    ensures Split(Join(parts, [c]), c) == parts
    decreases |parts|
  {
    if |parts| == 1 {
      assert IndexOf(parts[0], c).None?;
    } else {
      var tail := Join(parts[1..], [c]);
      var s := parts[0] + [c] + tail;
      assert Join(parts, [c]) == s;
      IndexOfAfterPrefix(parts[0], c, tail);
      assert s[|parts[0]| + 1..] == tail;
      assert s[..|parts[0]|] == parts[0];
      JoinSplitRoundTrip(parts[1..], c);
    }
  }

  /** Three separator-free fields joined by the separator split back into those fields. */
  lemma SplitThree(a: string, b: string, x: string, c: char)
    requires c !in a && c !in b && c !in x
    ensures Split(a + ([c] + (b + ([c] + x))), c) == [a, b, x]
  {
    SplitTwo(b, x, c);
    SplitAtFirst(a, c, b + ([c] + x));
  }

  lemma SplitTwo(b: string, x: string, c: char)
    requires c !in b && c !in x
    ensures Split(b + ([c] + x), c) == [b, x]
  {
    SplitNone(x, c);
    SplitAtFirst(b, c, x);
  }

  /** Text without the separator splits into itself alone. */
  lemma SplitNone(s: string, c: char)
    requires c !in s
    ensures Split(s, c) == [s]
  {
  }

  /** Splitting at the first separator: the field before it, then the split of the rest. */
  lemma SplitAtFirst(p: string, c: char, t: string)
    requires c !in p
    ensures Split(p + ([c] + t), c) == [p] + Split(t, c)
  {
    var s := p + ([c] + t);
    assert s == p + [c] + t;
    IndexOfAfterPrefix(p, c, t);
    assert s[..|p|] == p;
    assert s[|p| + 1..] == t;
  }

  lemma IndexOfAfterPrefix(p: string, c: char, t: string)
    requires c !in p
    ensures IndexOf(p + [c] + t, c) == Some(|p|)
  {
    if p != "" {
      assert (p + [c] + t)[1..] == p[1..] + [c] + t;
      IndexOfAfterPrefix(p[1..], c, t);
    }
  }

  /** `parts.map(d => d.trim())`. */
  function TrimAll(parts: seq<string>): (r: seq<string>)
    ensures |r| == |parts|
    ensures forall k :: 0 <= k < |parts| ==> r[k] == Trim(parts[k])
  {
    if parts == [] then [] else [Trim(parts[0])] + TrimAll(parts[1..])
  }

  /** `parts.map(d => d.toLowerCase())`. */
  function LowerAll(parts: seq<string>): (r: seq<string>)
    ensures |r| == |parts|
    ensures forall k :: 0 <= k < |parts| ==> r[k] == Lower(parts[k])
  {
    if parts == [] then [] else [Lower(parts[0])] + LowerAll(parts[1..])
  }

  // ---------------------------------------------------------------------------
  // Substrings

  /** `s.startsWith(p)`. */
  predicate StartsWith(s: string, p: string)
  {
    |p| <= |s| && s[..|p|] == p
  }

  /** `s.includes(sub)` for strings: `sub` starts at some position of `s`. */
  predicate Includes(s: string, sub: string)
    decreases |s|
  {
    StartsWith(s, sub) || (s != "" && Includes(s[1..], sub))
  }

  lemma IncludesSelf(s: string)
    ensures Includes(s, s)
  {
    assert s[..|s|] == s;
  }

  // ---------------------------------------------------------------------------
  // Digits and decimal text

  predicate IsDigit(c: char)
  {
    '0' <= c <= '9'
  }

  predicate AllDigits(s: string)
  {
    forall k :: 0 <= k < |s| ==> IsDigit(s[k])
  }

  /** `s.replace(/\D/g, '')`: the digits of `s`, in order. */
  function DigitsOf(s: string): (r: string)
    ensures AllDigits(r)
    ensures |r| <= |s|
    ensures AllDigits(s) ==> r == s
  {
    if s == "" then ""
    else if IsDigit(s[0]) then [s[0]] + DigitsOf(s[1..])
    else DigitsOf(s[1..])
  }

  lemma {:induction false} DigitsOfAppend(a: string, b: string)
    ensures DigitsOf(a + b) == DigitsOf(a) + DigitsOf(b)
  {
    if a != "" {
      assert (a + b)[1..] == a[1..] + b;
      DigitsOfAppend(a[1..], b);
    } else {
      assert a + b == b;
    }
  }

  function DigitChar(d: nat): (c: char)
    requires d < 10
    ensures IsDigit(c)
  {
    ('0' as int + d) as char
  }

  function DigitValue(c: char): (d: nat)
    requires IsDigit(c)
    ensures d < 10
  {
    c as int - '0' as int
  }

  /** The value of a string of decimal digits; "" is 0. */
  function DecimalValue(s: string): (v: nat)
    requires AllDigits(s)
  {
    if s == "" then 0 else DecimalValue(s[..|s| - 1]) * 10 + DigitValue(s[|s| - 1])
  }

  /** `String(n)` for a natural number. */
  function NatText(n: nat): (r: string)
    ensures r != "" && AllDigits(r)
    ensures |r| == 1 <==> n < 10
    ensures r[0] == '0' ==> n == 0
  {
    if n < 10 then [DigitChar(n)] else NatText(n / 10) + [DigitChar(n % 10)]
  }

  /** Reading back the decimal text of `n` gives `n`. */
  lemma {:induction false} NatTextRoundTrip(n: nat)
    ensures DecimalValue(NatText(n)) == n
  {
    if n >= 10 {
      NatTextRoundTrip(n / 10);
      var s := NatText(n);
      assert s[..|s| - 1] == NatText(n / 10);
    }
  }

  /** Distinct numbers have distinct decimal text. */
  lemma NatTextInjective(a: nat, b: nat)
    requires NatText(a) == NatText(b)
    ensures a == b
  {
    NatTextRoundTrip(a);
    NatTextRoundTrip(b);
  }

  /** `String(i)` for an integer. */
  function IntText(i: int): (r: string)
    ensures r != ""
  {
    if i < 0 then "-" + NatText(-i) else NatText(i)
  }

  /** `String(n).padStart(2, '0')`. */
  function Pad2(n: nat): (r: string)
    ensures |r| >= 2 && AllDigits(r)
    ensures n < 100 ==> r == [DigitChar(n / 10), DigitChar(n % 10)]
  {
    if n < 10 then
      assert DigitChar(0) == '0';
      "0" + NatText(n)
    else
      var t := NatText(n);
      assert n < 100 ==> t[..1] == NatText(n / 10);
      t
  }

  /** Reading back a two-digit padded number gives the number. */
  lemma Pad2RoundTrip(n: nat)
    requires n < 100
    ensures DecimalValue(Pad2(n)) == n
  {
    var r := Pad2(n);
    assert r[..1] == [DigitChar(n / 10)];
    assert r[..1][..0] == "";
    assert DecimalValue(r[..1]) == n / 10 by {
      assert DecimalValue(r[..1]) == DecimalValue(r[..1][..0]) * 10 + DigitValue(r[..1][0]);
    }
    assert DecimalValue(r) == DecimalValue(r[..1]) * 10 + DigitValue(r[1]);
  }

  // ---------------------------------------------------------------------------
  // String order (`<`, `>=`, `localeCompare` on digit strings)

  /** `a < b` on strings: lexicographic order of character codes. */
  predicate StrLt(a: string, b: string)
    decreases |a|
  {
    if a == "" then b != ""
    else if b == "" then false
    else if a[0] != b[0] then a[0] < b[0]
    else StrLt(a[1..], b[1..])
  }

  /** `a <= b` on strings. */
  predicate StrLe(a: string, b: string)
  {
    a == b || StrLt(a, b)
  }

  lemma {:induction false} StrLtIrreflexive(a: string)
    ensures !StrLt(a, a)
    decreases |a|
  {
    if a != "" {
      StrLtIrreflexive(a[1..]);
    }
  }

  lemma {:induction false} StrLtTrichotomy(a: string, b: string)
    ensures StrLt(a, b) || a == b || StrLt(b, a)
    decreases |a|
  {
    if a != "" && b != "" && a[0] == b[0] {
      StrLtTrichotomy(a[1..], b[1..]);
      if a[1..] == b[1..] {
        assert a == [a[0]] + a[1..];
        assert b == [b[0]] + b[1..];
      }
    }
  }

  lemma {:induction false} StrLtAsymmetric(a: string, b: string)
    requires StrLt(a, b)
    ensures !StrLt(b, a)
    decreases |a|
  {
    if a != "" && b != "" && a[0] == b[0] {
      StrLtAsymmetric(a[1..], b[1..]);
    }
  }

  lemma {:induction false} StrLtTransitive(a: string, b: string, c: string)
    requires StrLt(a, b) && StrLt(b, c)
    ensures StrLt(a, c)
    decreases |a|
  {
    if a != "" && b != "" && c != "" && a[0] == b[0] && b[0] == c[0] {
      StrLtTransitive(a[1..], b[1..], c[1..]);
    }
  }

  /** Comparing two strings that share a prefix of equal length. */
  lemma {:induction false} StrLtConcat(p: string, q: string, x: string, y: string)
    requires |p| == |q|
    ensures StrLt(p + x, q + y) <==> StrLt(p, q) || (p == q && StrLt(x, y))
    decreases |p|
  {
    if p != "" {
      assert (p + x)[0] == p[0] && (q + y)[0] == q[0];
      assert (p + x)[1..] == p[1..] + x;
      assert (q + y)[1..] == q[1..] + y;
      StrLtConcat(p[1..], q[1..], x, y);
      if p[0] == q[0] && p[1..] == q[1..] {
        assert p == [p[0]] + p[1..];
        assert q == [q[0]] + q[1..];
      }
      if p == q {
        assert p[1..] == q[1..];
      }
    } else {
      assert p + x == x;
      assert q + y == y;
    }
  }

  /** Two-digit padded numbers compare as strings the way the numbers compare. */
  lemma Pad2Order(a: nat, b: nat)
    requires a < 100 && b < 100
    ensures StrLt(Pad2(a), Pad2(b)) <==> a < b
  {
    var pa, pb := Pad2(a), Pad2(b);
    assert pa[1..] == [DigitChar(a % 10)];
    assert pb[1..] == [DigitChar(b % 10)];
    assert pa[1..][1..] == "" && pb[1..][1..] == "";
    assert !StrLt("", "");
    assert StrLt(pa[1..], pb[1..]) <==> a % 10 < b % 10;
    assert StrLt(pa, pb) <==> a / 10 < b / 10 || (a / 10 == b / 10 && a % 10 < b % 10);
  }

  // ---------------------------------------------------------------------------
  // Number(s), parseInt(s), `x || 0`

  /** `Number(s)` restricted to decimal integer text: surrounding whitespace is
      ignored, the empty string is 0, an optional sign is allowed; anything
      else (and a missing value) is NaN. */
  function ToNumber(o: Option<string>): (v: Num)
    ensures o.None? ==> v == NaN
  {
    match o
    case None => NaN
    case Some(s) =>
      var t := Trim(s);
      if AllDigits(t) then Int(DecimalValue(t))
      else if |t| >= 2 && t[0] == '-' && AllDigits(t[1..]) then Int(0 - DecimalValue(t[1..]))
      else if |t| >= 2 && t[0] == '+' && AllDigits(t[1..]) then Int(DecimalValue(t[1..]))
      else NaN
  }

  /** A string that neither starts nor ends with whitespace is its own trim. */
  lemma TrimUntouched(s: string)
    requires s == "" || (!IsSpace(s[0]) && !IsSpace(s[|s| - 1]))
    ensures Trim(s) == s
  {
    if s != "" {
      assert LeadCount(s) == 0;
      assert s[0..] == s;
      assert TrailCount(s) == 0;
      assert s[..|s| - 0] == s;
    }
  }

  /** `Number` of a non-empty digit string is its decimal value. */
  lemma NumberOfDigits(s: string)
    requires AllDigits(s)
    ensures ToNumber(Some(s)) == Int(DecimalValue(s))
  {
    if s != "" {
      assert IsDigit(s[0]) && IsDigit(s[|s| - 1]);
    }
    TrimUntouched(s);
  }

  /** Length of the longest all-digit prefix. */
  function DigitPrefix(s: string): (n: nat)
    ensures n <= |s| && AllDigits(s[..n])
    ensures n < |s| ==> !IsDigit(s[n])
  {
    if s != "" && IsDigit(s[0]) then
      var m := DigitPrefix(s[1..]);
      assert s[..m + 1] == [s[0]] + s[1..][..m];
      1 + m
    else 0
  }

  /** `parseInt(s)` in base 10: leading whitespace skipped, an optional sign,
      then the longest digit prefix; NaN when there is no digit. */
  function ParseInt(o: Option<string>): (v: Num)
    ensures o.None? ==> v == NaN
  {
    match o
    case None => NaN
    case Some(s) =>
      var t := s[LeadCount(s)..];
      var neg := t != "" && t[0] == '-';
      var u := if t != "" && (t[0] == '-' || t[0] == '+') then t[1..] else t;
      var k := DigitPrefix(u);
      if k == 0 then NaN
      else if neg then Int(0 - DecimalValue(u[..k]))
      else Int(DecimalValue(u[..k]))
  }

  /** The whole of an all-digit string is its digit prefix. */
  lemma {:induction false} DigitPrefixAll(s: string)
    requires AllDigits(s)
    ensures DigitPrefix(s) == |s|
  {
    if s != "" {
      DigitPrefixAll(s[1..]);
    }
  }

  /** `parseInt` of a non-empty digit string is its decimal value. */
  lemma ParseIntOfDigits(s: string)
    requires s != "" && AllDigits(s)
    ensures ParseInt(Some(s)) == Int(DecimalValue(s))
  {
    assert !IsSpace(s[0]);
    assert LeadCount(s) == 0;
    assert s[0..] == s;
    DigitPrefixAll(s);
    assert s[..|s|] == s;
  }

  /** `x || 0` on a number: NaN becomes 0. */
  function OrZero(v: Num): (n: int)
    ensures v.Int? ==> n == v.n
    ensures v.NaN? ==> n == 0
  {
    match v
    case Int(n) => n
    case NaN => 0
  }

  /** The i-th element of a split, or missing past the end (`arr[i]`). */
  function Part(parts: seq<string>, i: nat): (o: Option<string>)
    ensures i < |parts| ==> o == Some(parts[i])
    ensures i >= |parts| ==> o.None?
  {
    if i < |parts| then Some(parts[i]) else None
  }
}

=== FILE: login.dfy ===
// The login screen: the e-mail pattern shared with the dependent form, the
// sign-in guard and its error messages, the password-reset validation and its
// messages, and the reset dialog's fields. Authentication results are inputs.

module Login {
  import opened JsText

  // ---------------------------------------------------------------------------
  // The e-mail pattern /^[^\s@]+@[^\s@]+\.[^\s@]+$/

  /** A character of the class `[^\s@]`. */
  predicate Plain(c: char)
  {
    !IsSpace(c) && c != '@'
  }

  predicate AllPlain(s: string)
  {
    forall k :: 0 <= k < |s| ==> Plain(s[k])
  }

  /**
   * The pattern as a statement about positions: an '@' at `i` and a '.' at
   * `j`, each side non-empty, and every other character plain.
   */
  predicate MatchesPattern(s: string)
  {
    exists i, j :: 0 < i && i + 1 < j && j + 1 < |s| && s[i] == '@' && s[j] == '.'
                   && AllPlain(s[..i]) && AllPlain(s[i + 1..])
  }

  /** `validateEmail` as a computation: split at the first '@' and look for an inner '.' in the domain. */
  function ValidateEmail(s: string): (ok: bool)
    ensures ok ==> NoSpace(s) && multiset(s)['@'] == 1
  {
    match IndexOf(s, '@')
    case None => false
    case Some(i) =>
      if 0 < i && AllPlain(s[..i]) && AllPlain(s[i + 1..]) && i + 2 <= |s| - 1 && '.' in s[i + 2..|s| - 1] then
        PlainSplit(s, i);
        true
      else false
  }

  /** The characters of a string split around a plain prefix and suffix. */
  lemma PlainSplit(s: string, i: int)
    requires 0 <= i < |s| && s[i] == '@' && AllPlain(s[..i]) && AllPlain(s[i + 1..])
    ensures NoSpace(s) && multiset(s)['@'] == 1
  {
    assert s == s[..i] + [s[i]] + s[i + 1..];
    assert '@' !in s[..i] && '@' !in s[i + 1..];
    assert multiset(s) == multiset(s[..i]) + multiset{'@'} + multiset(s[i + 1..]);
    forall k | 0 <= k < |s|
      ensures !IsSpace(s[k])
    {
      if k < i {
        assert s[k] == s[..i][k];
      } else if k > i {
        assert s[k] == s[i + 1..][k - i - 1];
      }
    }
  }

  /** The computation accepts exactly the strings the pattern matches. */
  lemma ValidateEmailMatchesPattern(s: string)
    ensures ValidateEmail(s) <==> MatchesPattern(s)
  {
    if ValidateEmail(s) {
      AcceptedMatches(s);
    }
    if MatchesPattern(s) {
      var i, j :| 0 < i && i + 1 < j && j + 1 < |s| && s[i] == '@' && s[j] == '.'
                  && AllPlain(s[..i]) && AllPlain(s[i + 1..]);
      MatchAccepted(s, i, j);
    }
  }

  lemma AcceptedMatches(s: string)
    requires ValidateEmail(s)
    ensures MatchesPattern(s)
  {
    var i := IndexOf(s, '@').value;
    var d := s[i + 2..|s| - 1];
    var k :| 0 <= k < |d| && d[k] == '.';
    var j := i + 2 + k;
    assert s[j] == '.';
  }

  lemma MatchAccepted(s: string, i: int, j: int)
    requires 0 < i && i + 1 < j && j + 1 < |s| && s[i] == '@' && s[j] == '.'
    requires AllPlain(s[..i]) && AllPlain(s[i + 1..])
    ensures ValidateEmail(s)
  {
    assert '@' !in s[..i] by {
      forall k | 0 <= k < i
        ensures s[..i][k] != '@'
      {
        assert Plain(s[..i][k]);
      }
    }
    assert IndexOf(s, '@') == Some(i);
    assert s[i + 2..|s| - 1][j - i - 2] == '.';
  }

  /** A leading space makes an otherwise valid address fail, e.g. " a@b.c". */
  lemma LeadingSpaceRejected(s: string)
    requires s != "" && IsSpace(s[0])
    ensures !ValidateEmail(s)
  {
  }

  // ---------------------------------------------------------------------------
  // Sign-in and password reset

  /** What the authentication service answered. */
  datatype AuthResult = Accepted | Rejected(code: string)

  datatype SignIn = FieldsRequired | SignedIn | SignInFailed(message: string)

  const LoginDefault: string := "Erro no login. Tente novamente."

  /** The sign-in error message for an error code. */
  function LoginMessage(code: string): (m: string)
    ensures m == LoginDefault <==> code !in {"auth/user-not-found", "auth/wrong-password", "auth/invalid-email",
                                            "auth/too-many-requests"}
  {
    match code
    case "auth/user-not-found" => "Usuário não encontrado."
    case "auth/wrong-password" => "Senha incorreta."
    case "auth/invalid-email" => "Email inválido."
    case "auth/too-many-requests" => "Muitas tentativas. Tente mais tarde."
    case _ => LoginDefault
  }

  /** `signIn`: only an empty field blocks the attempt; nothing is trimmed. */
  function SignInOutcome(email: string, password: string, result: AuthResult): (r: SignIn)
    ensures r.FieldsRequired? <==> email == "" || password == ""
    ensures !r.FieldsRequired? ==> (r.SignedIn? <==> result.Accepted?)
    ensures r.SignInFailed? ==> r.message == LoginMessage(result.code)
  {
    if email == "" || password == "" then FieldsRequired
    else
      match result
      case Accepted => SignedIn
      case Rejected(code) => SignInFailed(LoginMessage(code))
  }

  /** A password of spaces is still attempted. */
  lemma SpacesAreNotEmpty(email: string, result: AuthResult)
    requires email != ""
    ensures !SignInOutcome(email, " ", result).FieldsRequired?
  {
  }

  const ResetDefault: string := "Erro ao enviar email. Tente novamente."

  /** The reset error message for an error code. */
  function ResetMessage(code: string): (m: string)
    ensures m == ResetDefault <==> code !in {"auth/user-not-found", "auth/invalid-email", "auth/too-many-requests",
                                            "auth/network-request-failed"}
  {
    match code
    case "auth/user-not-found" => "Email não encontrado. Verifique e tente novamente."
    case "auth/invalid-email" => "Email inválido. Digite um email válido."
    case "auth/too-many-requests" => "Muitas tentativas. Aguarde alguns minutos."
    case "auth/network-request-failed" => "Erro de conexão. Verifique sua internet."
    case _ => ResetDefault
  }

  datatype Reset = EmailRequired | InvalidEmail | ResetSent | ResetFailed(message: string)

  /** `handlePasswordReset`: blank first, then the pattern on the untrimmed text, then the service. */
  function PasswordReset(resetEmail: string, result: AuthResult): (r: Reset)
    ensures r.EmailRequired? <==> Blank(resetEmail)
    ensures r.InvalidEmail? <==> !Blank(resetEmail) && !ValidateEmail(resetEmail)
    ensures r.ResetSent? <==> ValidateEmail(resetEmail) && !Blank(resetEmail) && result.Accepted?
    ensures r.ResetFailed? ==> r.message == ResetMessage(result.code)
  {
    if Blank(resetEmail) then EmailRequired
    else if !ValidateEmail(resetEmail) then InvalidEmail
    else
      match result
      case Accepted => ResetSent
      case Rejected(code) => ResetFailed(ResetMessage(code))
  }

  /** An address typed with a leading space passes the blank check and fails the pattern. */
  lemma PaddedAddressIsInvalid(result: AuthResult)
    ensures PasswordReset(" a@b.c", result) == InvalidEmail
  {
    assert !Blank(" a@b.c") by {
      assert !IsSpace('a');
      BlankIffAllSpace(" a@b.c");
      assert " a@b.c"[1] == 'a';
    }
    LeadingSpaceRejected(" a@b.c");
  }

  // ---------------------------------------------------------------------------
  // The reset dialog

  datatype ResetDialog = ResetDialog(visible: bool, email: string, sent: bool)

  /** `openForgotPasswordModal`: the dialog opens with the login e-mail. */
  function OpenDialog(d: ResetDialog, loginEmail: string): (r: ResetDialog)
    ensures r.visible && r.email == loginEmail && r.sent == d.sent
  {
    d.(visible := true, email := loginEmail)
  }

  /** Closing the dialog clears the reset e-mail and the sent flag. */
  function CloseDialog(d: ResetDialog): (r: ResetDialog)
    ensures !r.visible && r.email == "" && !r.sent
  {
    ResetDialog(false, "", false)
  }

  /** A reset attempt marks the dialog as sent only on success. */
  function AfterReset(d: ResetDialog, r: Reset): (next: ResetDialog)
    ensures next.sent <==> d.sent || r.ResetSent?
    ensures next.visible == d.visible && next.email == d.email
  {
    if r.ResetSent? then d.(sent := true) else d
  }
}

=== FILE: lookup.dfy ===
// Finding an element by its key, as the screens do with
// `list.find(r => r.id === id)` and as a lookup in a small constant table
// does: the first element with that key wins.

module Lookup {
  import opened JsText

  /** A loaded document reduced to its id and display name. */
  datatype Named = Named(id: string, nome: string)

  /**
   * The index of the first element whose key is `key`, if any: the element
   * `list.find(r => keyOf(r) === key)` returns.
   */
  function FirstIndex<T>(s: seq<T>, keyOf: T -> string, key: string): (r: Option<nat>)
    ensures r.None? <==> forall k :: 0 <= k < |s| ==> keyOf(s[k]) != key
    ensures r.Some? ==> r.value < |s| && keyOf(s[r.value]) == key
                        && forall k :: 0 <= k < r.value ==> keyOf(s[k]) != key
  {
    if s == [] then None
    else if keyOf(s[0]) == key then Some(0)
    else
      match FirstIndex(s[1..], keyOf, key)
      case None => None
      case Some(i) => Some(i + 1)
  }

  /** An element whose key no earlier element carries is the one found. */
  lemma FirstIndexAt<T>(s: seq<T>, keyOf: T -> string, k: nat)
    requires k < |s| && forall i :: 0 <= i < k ==> keyOf(s[i]) != keyOf(s[k])
    ensures FirstIndex(s, keyOf, keyOf(s[k])) == Some(k)
  {
  }

  function DocId(d: Named): string
  {
    d.id
  }

  /** `list.find(r => r.id === id)?.nome`. */
  function NameOf(docs: seq<Named>, id: string): (r: Option<string>)
    ensures r.None? <==> forall k :: 0 <= k < |docs| ==> docs[k].id != id
    ensures r.Some? ==> exists k :: 0 <= k < |docs| && docs[k].id == id && docs[k].nome == r.value
  {
    match FirstIndex(docs, DocId, id)
    case None => None
    case Some(i) => Some(docs[i].nome)
  }

  /** With ids that are unique, the name found is the name of the one document with that id. */
  lemma NameOfUnique(docs: seq<Named>, k: nat)
    requires k < |docs|
    requires forall i, j :: 0 <= i < j < |docs| ==> docs[i].id != docs[j].id
    ensures NameOf(docs, docs[k].id) == Some(docs[k].nome)
  {
    FirstIndexAt(docs, DocId, k);
  }
}

=== FILE: med_reminder.dfy ===
// `MedReminder`: the medication notification the app displays, and the
// handlers that turn a press on its confirm button into a callback with the
// medicine id. The notification library is left out: a displayed
// notification is returned as a value and a handler's platform calls and log
// lines are returned as an effect log. Every failure a step can meet is an
// input, and the contracts say that no failure escapes as an exception.

module MedReminder {
  import opened JsText

  const ChannelId: string := "alarm-channel"
  const ConfirmActionId: string := "confirm"
  const DefaultActionId: string := "default"
  const ConfirmTitle: string := "✅ Tomei o medicamento"

  /** The kinds of notification event the handlers can see. */
  datatype EventType = Press | ActionPress | Dismissed | Delivered

  /** A button of the notification and the press-action id it reports. */
  datatype Button = Button(title: string, pressId: string)

  /** The fields of a displayed notification that the handlers read back. */
  datatype Displayed = Displayed(id: Option<string>, title: Option<string>, body: Option<string>,
                                 channel: string, ongoing: bool, autoCancel: bool,
                                 pressId: string, buttons: seq<Button>, data: map<string, Option<string>>)

  /** An event: its type, the press action's id (`None` without a press action) and `notification.data.id`. */
  datatype Event = Event(kind: EventType, pressAction: Option<string>, dataId: Option<string>)

  /** What a handler or display step does, in order. */
  datatype Effect = CreateChannel(name: string) | Display(n: Displayed) | Callback(medId: string)
                  | LogError(context: string) | Unsubscribed

  // ---------------------------------------------------------------------------
  // showMedicationNotification

  /** The notification posted for medicine `id`. */
  function Notification(id: Option<string>, title: Option<string>, body: Option<string>): (n: Displayed)
    ensures n.id == id && n.title == title && n.body == body
    ensures n.data == map["id" := id]
    ensures n.ongoing && !n.autoCancel && n.channel == ChannelId
    ensures |n.buttons| == 1 && n.buttons[0].pressId == ConfirmActionId
  {
    Displayed(id, title, body, ChannelId, true, false, DefaultActionId,
              [Button(ConfirmTitle, ConfirmActionId)], map["id" := id])
  }

  /**
   * `showMedicationNotification`: create the channel, then display. A failure
   * of either step is caught and logged; a failed channel creation skips the
   * display.
   */
  function Show(id: Option<string>, title: Option<string>, body: Option<string>,
                channelFails: bool, displayFails: bool): (log: seq<Effect>)
    ensures channelFails ==> log == [LogError("display")]
    ensures !channelFails ==> |log| == 2 && log[0] == CreateChannel(ChannelId)
    ensures !channelFails && !displayFails ==> log[1] == Display(Notification(id, title, body))
    ensures !channelFails && displayFails ==> log[1] == LogError("display")
    ensures forall i :: 0 <= i < |log| ==> !log[i].Callback?
  {
    if channelFails then [LogError("display")]
    else if displayFails then [CreateChannel(ChannelId), LogError("display")]
    else [CreateChannel(ChannelId), Display(Notification(id, title, body))]
  }

  // ---------------------------------------------------------------------------
  // registerMedicationHandler

  /**
   * The condition shared by both handlers: an action press on the confirm
   * button of a notification carrying a truthy id. A plain press is ignored.
   */
  function ConfirmedId(e: Event): (r: Option<string>)
    ensures r.Some? <==> e.kind == ActionPress && e.pressAction == Some(ConfirmActionId) && Truthy(e.dataId)
    ensures r.Some? ==> Some(r.value) == e.dataId && r.value != ""
  {
    if e.kind == ActionPress && e.pressAction == Some(ConfirmActionId) && Truthy(e.dataId) then e.dataId
    else None
  }

  /**
   * The foreground listener: the callback is called with the id, and a
   * rejection of its promise is caught and logged.
   */
  function Foreground(e: Event, callbackFails: bool): (log: seq<Effect>)
    ensures ConfirmedId(e).None? ==> log == []
    ensures ConfirmedId(e).Some? ==> |log| >= 1 && log[0] == Callback(ConfirmedId(e).value)
    ensures ConfirmedId(e).Some? ==> (callbackFails <==> |log| == 2)
  {
    match ConfirmedId(e)
    case None => []
    case Some(id) => if callbackFails then [Callback(id), LogError("confirm callback")] else [Callback(id)]
  }

  /** The background listener: the same condition, the callback awaited and its failure logged. */
  function Background(e: Event, callbackFails: bool): (log: seq<Effect>)
    ensures ConfirmedId(e).None? ==> log == []
    ensures ConfirmedId(e).Some? ==> |log| >= 1 && log[0] == Callback(ConfirmedId(e).value)
    ensures ConfirmedId(e).Some? ==> (callbackFails <==> |log| == 2)
  {
    match ConfirmedId(e)
    case None => []
    case Some(id) => if callbackFails then [Callback(id), LogError("background handler")] else [Callback(id)]
  }

  /** The callbacks each listener makes. */
  function Callbacks(log: seq<Effect>): (ids: seq<string>)
    ensures |ids| <= |log|
  {
    if log == [] then []
    else (if log[0].Callback? then [log[0].medId] else []) + Callbacks(log[1..])
  }

  /** Both listeners make the same callback for every event, whatever the callback does. */
  lemma ListenersAgree(e: Event, fails1: bool, fails2: bool)
    ensures Callbacks(Foreground(e, fails1)) == Callbacks(Background(e, fails2))
    ensures |Callbacks(Foreground(e, fails1))| <= 1
  {
  }

  /** The press on a displayed notification's button, as the listeners receive it. */
  function PressButton(n: Displayed, b: int): (e: Event)
    requires 0 <= b < |n.buttons|
    ensures e.kind == ActionPress && e.pressAction == Some(n.buttons[b].pressId)
  {
    Event(ActionPress, Some(n.buttons[b].pressId), if "id" in n.data then n.data["id"] else None)
  }

  /**
   * Pressing the confirm button of the notification shown for `id` calls the
   * callback with that same id, provided the id is non-empty.
   */
  lemma ConfirmReachesCallback(id: Option<string>, title: Option<string>, body: Option<string>, fails: bool)
    ensures var e := PressButton(Notification(id, title, body), 0);
            Truthy(id) ==> Callbacks(Foreground(e, fails)) == [id.value]
    ensures var e := PressButton(Notification(id, title, body), 0);
            !Truthy(id) ==> Foreground(e, fails) == []
  {
  }

  /** The foreground listener's unsubscribe handle as the library returns it. */
  datatype Handle = Function(fails: bool) | NotAFunction

  /** The returned unsubscribe: called only when the handle is callable; a failure is logged. */
  function Unsubscribe(h: Handle): (log: seq<Effect>)
    ensures h.NotAFunction? ==> log == []
    ensures h.Function? ==> (Unsubscribed in log <==> !h.fails)
    ensures h.Function? && h.fails ==> log == [LogError("unsubscribe")]
  {
    match h
    case NotAFunction => []
    case Function(fails) => if fails then [LogError("unsubscribe")] else [Unsubscribed]
  }
}

=== FILE: medicine_forms.dfy ===
// The two medicine forms: the current one (`FormRemedio`), with a type picker
// over eight medicine types, and the older four-field one (`RemedioForm`).
// The signed-in user, the medicine being edited and the outcome of the write
// are inputs; the document write is returned as a value.

module MedicineForms {
  import opened JsText

  // ---------------------------------------------------------------------------
  // The type picker

  datatype TipoEntry = TipoEntry(caption: string, value: string, icon: string, color: string)

  const Tipos: seq<TipoEntry> := [
    TipoEntry("Comprimido", "comprimido", "medical", "#E53E3E"),
    TipoEntry("Cápsula", "capsula", "ellipse", "#4D97DB"),
    TipoEntry("Xarope", "xarope", "flask", "#9F7AEA"),
    TipoEntry("Gotas", "gotas", "water", "#38B2AC"),
    TipoEntry("Pomada", "pomada", "bandage", "#ED8936"),
    TipoEntry("Injeção", "injecao", "medical-outline", "#F56565"),
    TipoEntry("Spray", "spray", "cloud", "#48BB78"),
    TipoEntry("Outro", "outro", "help-circle", "#718096")
  ]

  /** No two entries share a value. */
  predicate DistinctValues(table: seq<TipoEntry>)
  {
    forall i, j :: 0 <= i < j < |table| ==> table[i].value != table[j].value
  }

  /** `tiposRemedio.find(t => t.value === value)`, as an index. */
  function FindTipo(table: seq<TipoEntry>, value: string): (r: Option<nat>)
    ensures r.None? <==> forall k :: 0 <= k < |table| ==> table[k].value != value
    ensures r.Some? ==> r.value < |table| && table[r.value].value == value
                        && forall k :: 0 <= k < r.value ==> table[k].value != value
  {
    if table == [] then None
    else if table[0].value == value then Some(0)
    else
      match FindTipo(table[1..], value)
      case None => None
      case Some(i) => Some(i + 1)
  }

  /** `getTipoLabel`. */
  function TipoLabel(value: string): (r: string)
    ensures (forall k :: 0 <= k < |Tipos| ==> Tipos[k].value != value) ==> r == "Selecionar tipo"
    ensures r != "Selecionar tipo" ==> exists k :: 0 <= k < |Tipos| && Tipos[k].value == value && Tipos[k].caption == r
  {
    match FindTipo(Tipos, value)
    case Some(i) => Tipos[i].caption
    case None => "Selecionar tipo"
  }

  /** `getTipoIcon`. */
  function TipoIcon(value: string): (r: string)
    ensures (forall k :: 0 <= k < |Tipos| ==> Tipos[k].value != value) ==> r == "chevron-down"
    ensures r != "chevron-down" ==> exists k :: 0 <= k < |Tipos| && Tipos[k].value == value && Tipos[k].icon == r
  {
    match FindTipo(Tipos, value)
    case Some(i) => Tipos[i].icon
    case None => "chevron-down"
  }

  /** `getTipoColor`. */
  function TipoColor(value: string): (r: string)
    ensures (forall k :: 0 <= k < |Tipos| ==> Tipos[k].value != value) ==> r == "#8A8A8A"
    ensures r != "#8A8A8A" ==> exists k :: 0 <= k < |Tipos| && Tipos[k].value == value && Tipos[k].color == r
  {
    match FindTipo(Tipos, value)
    case Some(i) => Tipos[i].color
    case None => "#8A8A8A"
  }

  /** In a table with distinct values, looking up an entry's value finds that entry. */
  lemma FindDistinct(table: seq<TipoEntry>, k: nat)
    requires k < |table| && DistinctValues(table)
    ensures FindTipo(table, table[k].value) == Some(k)
  {
    var i := FindTipo(table, table[k].value).value;
    assert i == k;
  }

  lemma TiposDistinct()
    ensures |Tipos| == 8 && DistinctValues(Tipos)
  {
    forall i, j | 0 <= i < j < |Tipos|
      ensures Tipos[i].value != Tipos[j].value
    {
      var a, b := Tipos[i].value, Tipos[j].value;
      assert a[0] != b[0] || a[1] != b[1];
    }
  }

  /** A type picked from the list shows that type's label, icon and colour. */
  lemma PickedTipoShowsItsEntry(k: nat)
    requires k < |Tipos|
    ensures TipoLabel(Tipos[k].value) == Tipos[k].caption
    ensures TipoIcon(Tipos[k].value) == Tipos[k].icon
    ensures TipoColor(Tipos[k].value) == Tipos[k].color
  {
    TiposDistinct();
    FindDistinct(Tipos, k);
  }

  /** A value outside the list shows the picker's placeholder, icon and grey. */
  lemma UnknownTipoShowsDefaults(value: string)
    requires forall k :: 0 <= k < |Tipos| ==> Tipos[k].value != value
    ensures TipoLabel(value) == "Selecionar tipo" && TipoIcon(value) == "chevron-down" && TipoColor(value) == "#8A8A8A"
  {
  }

  // ---------------------------------------------------------------------------
  // FormRemedio

  datatype MedicineFields = MedicineFields(nome: string, utilidade: string, tipo: string, quantidade: string,
                                           dosagem: string, observacoes: string)

  /** The medicine passed in for editing, each field possibly missing. */
  datatype StoredMedicine = StoredMedicine(id: string, nome: Option<string>, utilidade: Option<string>,
                                           tipo: Option<string>, quantidade: Option<string>,
                                           dosagem: Option<string>, observacoes: Option<string>)

  /** The edit prefill: every missing or empty field becomes "". */
  function Prefill(m: StoredMedicine): (f: MedicineFields)
    ensures f.nome == OrElse(m.nome, "") && f.utilidade == OrElse(m.utilidade, "") && f.tipo == OrElse(m.tipo, "")
    ensures f.quantidade == OrElse(m.quantidade, "") && f.dosagem == OrElse(m.dosagem, "")
    ensures f.observacoes == OrElse(m.observacoes, "")
  {
    MedicineFields(OrElse(m.nome, ""), OrElse(m.utilidade, ""), OrElse(m.tipo, ""), OrElse(m.quantidade, ""),
                   OrElse(m.dosagem, ""), OrElse(m.observacoes, ""))
  }

  /** The document written: the free-text fields trimmed, the type as picked, and the user's uid. */
  datatype MedicineDoc = MedicineDoc(fields: MedicineFields, usuarioId: Option<string>)

  datatype MedicineSave = MissingFields | UpdateDoc(docId: string, doc: MedicineDoc) | AddDoc(doc: MedicineDoc)

  function Trimmed(f: MedicineFields): MedicineFields
  {
    MedicineFields(Trim(f.nome), Trim(f.utilidade), f.tipo, Trim(f.quantidade), Trim(f.dosagem), Trim(f.observacoes))
  }

  /**
   * `FormRemedio.handleSalvar` as written: name, purpose and type must be
   * non-empty before trimming; editing updates the edited document, else a
   * new one is added.
   */
  function SaveMedicine(f: MedicineFields, editing: Option<string>, uid: Option<string>): (r: MedicineSave)
    ensures r.MissingFields? <==> f.nome == "" || f.utilidade == "" || f.tipo == ""
    ensures r.UpdateDoc? <==> !r.MissingFields? && editing.Some?
    ensures r.UpdateDoc? ==> r.docId == editing.value
    ensures !r.MissingFields? ==> r.doc.usuarioId == uid && r.doc.fields.tipo == f.tipo
                                  && r.doc.fields.nome == Trim(f.nome) && r.doc.fields.utilidade == Trim(f.utilidade)
                                  && r.doc.fields.quantidade == Trim(f.quantidade)
                                  && r.doc.fields.dosagem == Trim(f.dosagem)
                                  && r.doc.fields.observacoes == Trim(f.observacoes)
  {
    if f.nome == "" || f.utilidade == "" || f.tipo == "" then MissingFields
    else
      var doc := MedicineDoc(Trimmed(f), uid);
      match editing
      case Some(id) => UpdateDoc(id, doc)
      case None => AddDoc(doc)
  }

  /** A name of spaces passes the check and is stored as the empty string. */
  lemma SpacesNameStoredEmpty(f: MedicineFields, editing: Option<string>, uid: Option<string>)
    requires f.nome == " " && f.utilidade != "" && f.tipo != ""
    ensures !SaveMedicine(f, editing, uid).MissingFields?
    ensures SaveMedicine(f, editing, uid).doc.fields.nome == ""
  {
    assert AllSpace(" ");
    BlankIffAllSpace(" ");
  }

  /** The check the screen evidently means: name and purpose must be non-blank after trimming. */
  function SaveMedicineTrimmed(f: MedicineFields, editing: Option<string>, uid: Option<string>): (r: MedicineSave)
    ensures r.MissingFields? <==> Blank(f.nome) || Blank(f.utilidade) || f.tipo == ""
    ensures !r.MissingFields? ==> r == SaveMedicine(f, editing, uid)
  {
    if Blank(f.nome) || Blank(f.utilidade) || f.tipo == "" then MissingFields
    else
      assert f.nome != "" by { BlankIffAllSpace(f.nome); }
      assert f.utilidade != "" by { BlankIffAllSpace(f.utilidade); }
      SaveMedicine(f, editing, uid)
  }

  /** With the trimmed check every stored medicine has a non-empty name and purpose. */
  lemma TrimmedCheckStoresNames(f: MedicineFields, editing: Option<string>, uid: Option<string>)
    requires !SaveMedicineTrimmed(f, editing, uid).MissingFields?
    ensures var d := SaveMedicineTrimmed(f, editing, uid).doc;
            d.fields.nome != "" && d.fields.utilidade != ""
  {
  }

  /** Saving an edit of a prefilled medicine leaves already-trimmed fields as they were. */
  lemma EditRoundTrip(m: StoredMedicine, uid: Option<string>)
    requires Truthy(m.nome) && Truthy(m.utilidade) && Truthy(m.tipo)
    requires forall o :: o in [m.nome, m.utilidade, m.quantidade, m.dosagem, m.observacoes] && o.Some?
                         ==> Trim(o.value) == o.value
    ensures var r := SaveMedicine(Prefill(m), Some(m.id), uid);
            r.UpdateDoc? && r.docId == m.id && r.doc.fields == Prefill(m)
  {
    var f := Prefill(m);
    assert m.quantidade in [m.nome, m.utilidade, m.quantidade, m.dosagem, m.observacoes];
    assert m.dosagem in [m.nome, m.utilidade, m.quantidade, m.dosagem, m.observacoes];
    assert m.observacoes in [m.nome, m.utilidade, m.quantidade, m.dosagem, m.observacoes];
    TrimEmpty();
    assert Trimmed(f) == f;
  }

  lemma TrimEmpty()
    ensures Trim("") == ""
  {
  }

  // ---------------------------------------------------------------------------
  // RemedioForm (the older four-field form)

  datatype OldFields = OldFields(nome: Option<string>, dosagem: Option<string>, intervalo: Option<string>,
                                 hora: Option<string>)

  /** The edit prefill copies the four fields as they are, missing ones included. */
  function OldPrefill(editing: Option<OldFields>): (f: OldFields)
    ensures editing.Some? ==> f == editing.value
    ensures editing.None? ==> f == OldFields(Some(""), Some(""), Some(""), Some(""))
  {
    if editing.Some? then editing.value else OldFields(Some(""), Some(""), Some(""), Some(""))
  }

  datatype OldWrite =
    | OldUpdate(docId: string, fields: OldFields)
    | OldAdd(fields: OldFields, usuarioId: Option<string>)

  /** What the save does: the write it attempts, the alert it shows, and whether it goes back. */
  datatype OldSave = OldSave(write: Option<OldWrite>, message: string, back: bool)

  /**
   * `RemedioForm.handleSalvar`: all four fields must be non-empty; an edit
   * updates them without the user id, a new medicine is added with it, and
   * the screen goes back only when the write succeeded.
   */
  function SaveOld(f: OldFields, editing: Option<string>, uid: Option<string>, writeOk: bool): (r: OldSave)
    ensures r.write.None? <==> !(Truthy(f.nome) && Truthy(f.dosagem) && Truthy(f.intervalo) && Truthy(f.hora))
    ensures r.write.Some? && editing.Some? ==> r.write.value == OldUpdate(editing.value, f)
    ensures r.write.Some? && editing.None? ==> r.write.value == OldAdd(f, uid)
    ensures r.back <==> r.write.Some? && writeOk
  {
    if !(Truthy(f.nome) && Truthy(f.dosagem) && Truthy(f.intervalo) && Truthy(f.hora)) then
      OldSave(None, "Preencha todos os campos.", false)
    else
      var write := if editing.Some? then OldUpdate(editing.value, f) else OldAdd(f, uid);
      if !writeOk then OldSave(Some(write), "Não foi possível salvar o remédio.", false)
      else OldSave(Some(write), if editing.Some? then "Remédio atualizado!" else "Remédio adicionado!", true)
  }

  /** Re-saving an edited medicine whose four fields were filled writes them back unchanged. */
  lemma OldEditRoundTrip(m: OldFields, id: string, uid: Option<string>, writeOk: bool)
    requires Truthy(m.nome) && Truthy(m.dosagem) && Truthy(m.intervalo) && Truthy(m.hora)
    ensures SaveOld(OldPrefill(Some(m)), Some(id), uid, writeOk).write == Some(OldUpdate(id, m))
  {
  }

  /** A new medicine's empty form cannot be saved. */
  lemma OldEmptyFormRefused(uid: Option<string>, writeOk: bool)
    ensures SaveOld(OldPrefill(None), None, uid, writeOk) == OldSave(None, "Preencha todos os campos.", false)
  {
  }
}

=== FILE: medicine_list.dfy ===
// The medicine list (screens/menus/RemediosMenu.js): the type icon of each
// card, the "updated ..." label, the name and type captions, the header count,
// and the "take now" dialog that writes a record to the user's own history.

module MedicineList {
  import opened JsText
  import opened Calendar
  import opened Clock
  import MedicineForms
  import OwnHistory
  import History
  import Lookup

  // ---------------------------------------------------------------------------
  // Type icons

  datatype IconStyle = IconStyle(name: string, color: string, bg: string)

  /** `tipoIconMap`. */
  const IconMap: seq<(string, IconStyle)> := [
    ("comprimido", IconStyle("medical", "#E53E3E", "#E53E3E15")),
    ("capsula", IconStyle("ellipse", "#4D97DB", "#4D97DB15")),
    ("xarope", IconStyle("flask", "#9F7AEA", "#9F7AEA15")),
    ("gotas", IconStyle("water", "#38B2AC", "#38B2AC15")),
    ("pomada", IconStyle("bandage", "#ED8936", "#ED893615")),
    ("injecao", IconStyle("medical-outline", "#F56565", "#F5656515")),
    ("spray", IconStyle("cloud", "#48BB78", "#48BB7815")),
    ("outro", IconStyle("help-circle", "#718096", "#71809615"))
  ]

  const OutroStyle: IconStyle := IconStyle("help-circle", "#718096", "#71809615")

  /** The key of a `tipoIconMap` entry. */
  function EntryKey(e: (string, IconStyle)): string
  {
    e.0
  }

  /** `tipo?.toLowerCase() || 'outro'`. */
  function IconKey(tipo: Option<string>): (k: string)
    ensures k != ""
    ensures tipo.Some? && tipo.value != "" ==> k == Lower(tipo.value)
  {
    if tipo.None? || tipo.value == "" then "outro" else Lower(tipo.value)
  }

  /** `getTipoIcon(tipo)`: the entry of the lower-cased type, else the 'outro' entry. */
  function TipoIcon(tipo: Option<string>): (s: IconStyle)
    ensures exists i :: 0 <= i < |IconMap| && IconMap[i].1 == s
    ensures (forall i :: 0 <= i < |IconMap| ==> IconMap[i].0 != IconKey(tipo)) ==> s == OutroStyle
  {
    match Lookup.FirstIndex(IconMap, EntryKey, IconKey(tipo))
    case Some(i) => IconMap[i].1
    case None => assert IconMap[7].1 == OutroStyle; OutroStyle
  }

  /** Lower-casing leaves lower-case ASCII letters alone. */
  lemma LowerKeepsLowercase(s: string)
    requires forall i :: 0 <= i < |s| ==> 'a' <= s[i] <= 'z'
    ensures Lower(s) == s
  {
    assert forall i :: 0 <= i < |s| ==> LowerChar(s[i]) == s[i];
  }

  /** The icon map lists the form's type values in the same order, with the same icons and colours. */
  lemma IconMapMatchesTipos()
    ensures |IconMap| == |MedicineForms.Tipos| == 8
    ensures forall k :: 0 <= k < 8 ==>
              IconMap[k].0 == MedicineForms.Tipos[k].value
              && IconMap[k].1.name == MedicineForms.Tipos[k].icon
              && IconMap[k].1.color == MedicineForms.Tipos[k].color
  {
  }

  /** A type saved by the medicine form shows that type's icon and colour on its card. */
  lemma FormTipoShowsItsIcon(k: nat)
    requires k < |MedicineForms.Tipos|
    ensures TipoIcon(Some(MedicineForms.Tipos[k].value)).name == MedicineForms.Tipos[k].icon
    ensures TipoIcon(Some(MedicineForms.Tipos[k].value)).color == MedicineForms.Tipos[k].color
  {
    IconMapMatchesTipos();
    MedicineForms.TiposDistinct();
    var v := MedicineForms.Tipos[k].value;
    TipoValueLowercase(k);
    LowerKeepsLowercase(v);
    assert IconKey(Some(v)) == v;
    forall i | 0 <= i < k
      ensures IconMap[i].0 != v
    {
      assert MedicineForms.Tipos[i].value != MedicineForms.Tipos[k].value;
    }
    Lookup.FirstIndexAt(IconMap, EntryKey, k);
  }

  /** The type values are written in lower-case ASCII letters. */
  lemma TipoValueLowercase(k: nat)
    requires k < |MedicineForms.Tipos|
    ensures forall i :: 0 <= i < |MedicineForms.Tipos[k].value| ==> 'a' <= MedicineForms.Tipos[k].value[i] <= 'z'
  {
  }


  /** The lookup ignores letter case. */
  lemma TipoIconIgnoresCase(t: string)
    ensures TipoIcon(Some(t)) == TipoIcon(Some(Lower(t)))
  {
    CaseMappingIdempotent(t);
  }

  /** A missing or empty type shows the 'outro' icon. */
  lemma MissingTipoIsOutro()
    ensures TipoIcon(None) == OutroStyle
    ensures TipoIcon(Some("")) == OutroStyle
  {
    assert IconKey(None) == "outro" == IconMap[7].0 && IconKey(Some("")) == "outro";
    forall i | 0 <= i < 7
      ensures IconMap[i].0 != IconMap[7].0
    {
      assert IconMap[i].0[0] != 'o';
    }
    Lookup.FirstIndexAt(IconMap, EntryKey, 7);
  }

  // ---------------------------------------------------------------------------
  // "Updated" label

  /** A stored, truthy `updatedAt`: a Firestore Timestamp, or a value for
      `new Date(value)`, which may not name a date. Both are read as
      milliseconds. A falsy value (`0`, `""`, `false`) is not a `Stamp`. */
  datatype Stamp = Timestamp(ms: int) | Value(parsed: Option<int>)

  datatype UpdatedLabel = Relative(text: string) | LocaleDate(ms: int) | InvalidDateText

  /** `formatarDataAtualizacao(timestamp)` at time `now`. A missing or falsy
      stamp is `None`, and so is the `null` it returns. */
  function UpdatedLabelOf(stamp: Option<Stamp>, now: int): (r: Option<UpdatedLabel>)
    ensures r.None? <==> stamp.None?
  {
    match stamp
    case None => None
    case Some(s) =>
      var ms := match s case Timestamp(t) => Some(t) case Value(p) => p;
      match ms
      case None => Some(InvalidDateText)
      case Some(t) =>
        var dias := FloorDiv(now - t, DayMs);
        if dias == 0 then Some(Relative("Hoje"))
        else if dias == 1 then Some(Relative("Ontem"))
        else if dias < 7 then Some(Relative(IntText(dias) + " dias atrás"))
        else Some(LocaleDate(t))
  }

  /** The label by elapsed time: under a day 'Hoje', under two 'Ontem', from a week a date. */
  lemma LabelByElapsed(t: int, now: int)
    ensures UpdatedLabelOf(Some(Timestamp(t)), now) == Some(Relative("Hoje")) <==> 0 <= now - t < DayMs
    ensures UpdatedLabelOf(Some(Timestamp(t)), now) == Some(Relative("Ontem")) <==> DayMs <= now - t < 2 * DayMs
    ensures UpdatedLabelOf(Some(Timestamp(t)), now).value.LocaleDate? <==> now - t >= 7 * DayMs
  {
    var dias := FloorDiv(now - t, DayMs);
    assert "Hoje" != "Ontem";
    if dias != 0 && dias != 1 && dias < 7 {
      var text := IntText(dias) + " dias atrás";
      assert |text| > 4;
      assert text != "Hoje" && text != "Ontem";
    }
  }

  /** From two to seven days, the label counts the whole days elapsed. */
  lemma DaysAgoBetween(t: int, now: int)
    requires 2 * DayMs <= now - t < 7 * DayMs
    ensures exists d :: 2 <= d < 7 && d * DayMs <= now - t < (d + 1) * DayMs
                        && UpdatedLabelOf(Some(Timestamp(t)), now) == Some(Relative(IntText(d) + " dias atrás"))
  {
    var dias := FloorDiv(now - t, DayMs);
    assert 2 <= dias < 7;
    assert UpdatedLabelOf(Some(Timestamp(t)), now) == Some(Relative(IntText(dias) + " dias atrás"));
  }

  /** A time stamp in the future gives a negative count of days ago. */
  lemma FutureSaysNegativeDays(t: int, now: int)
    requires t > now
    ensures exists d :: d < 0 && UpdatedLabelOf(Some(Timestamp(t)), now) == Some(Relative(IntText(d) + " dias atrás"))
  {
    var dias := FloorDiv(now - t, DayMs);
    assert dias < 0;
    assert UpdatedLabelOf(Some(Timestamp(t)), now) == Some(Relative(IntText(dias) + " dias atrás"));
  }

  /** A value that is not a date reads 'Invalid Date' rather than nothing. */
  lemma UnreadableStampIsInvalidDate(now: int)
    ensures UpdatedLabelOf(Some(Value(None)), now) == Some(InvalidDateText)
  {
  }

  // ---------------------------------------------------------------------------
  // Card captions and header

  /** `remedio.nome || 'Nome não informado'`. */
  function CardName(nome: Option<string>): (r: string)
    ensures r != ""
    ensures Truthy(nome) ==> r == nome.value
  {
    OrElse(nome, "Nome não informado")
  }

  /** The type caption: first letter upper-cased, or 'Não informado'. */
  function TipoCaption(tipo: Option<string>): (r: string)
    ensures r != ""
    ensures Truthy(tipo) ==> |r| == |tipo.value| && r[1..] == tipo.value[1..] && r[0] == UpperChar(tipo.value[0])
    ensures !Truthy(tipo) ==> r == "Não informado"
  {
    if Truthy(tipo) then Capitalize(tipo.value) else "Não informado"
  }

  /** The caption is built from the stored value, so it shows 'Capsula' where the form said 'Cápsula'. */
  lemma CaptionLosesAccent()
    ensures TipoCaption(Some(MedicineForms.Tipos[1].value)) != MedicineForms.Tipos[1].caption
  {
    assert TipoCaption(Some("capsula"))[1] == 'a';
    assert MedicineForms.Tipos[1].caption[1] == 'á';
  }

  /** `${n} medicamento${n !== 1 ? 's' : ''} cadastrado${n !== 1 ? 's' : ''}`: both words agree in number. */
  function CountHeader(n: nat): (r: string)
    ensures r == NatText(n) + (if n != 1 then " medicamentos cadastrados" else " medicamento cadastrado")
  {
    var s := if n != 1 then "s" else "";
    var r := NatText(n) + " medicamento" + s + " cadastrado" + s;
    assert s == "s" ==> " medicamento" + s + " cadastrado" + s == " medicamentos cadastrados";
    assert s == "" ==> " medicamento" + s + " cadastrado" + s == " medicamento cadastrado";
    assert r == NatText(n) + (" medicamento" + s + " cadastrado" + s);
    r
  }

  // ---------------------------------------------------------------------------
  // "Take now" dialog

  /** A listed medicine. */
  datatype Medicine = Medicine(id: string, nome: Option<string>, dosagem: Option<string>, tipo: Option<string>)

  /** `confirmarTomarRemedio`: the dosage field starts with the medicine's dosage or '1'. */
  function DosagePrefill(m: Medicine): (r: string)
    ensures r != ""
    ensures Truthy(m.dosagem) ==> r == m.dosagem.value
    ensures !Truthy(m.dosagem) ==> r == "1"
  {
    OrElse(m.dosagem, "1")
  }

  /** The `medicamentos_tomados` document `marcarComoTomado` adds. */
  datatype TakenDoc = TakenDoc(dia: string, dosagem: string, horario: string, remedioId: string,
                               remedioNome: Option<string>, usuarioId: string)

  /**
   * `marcarComoTomado` at instant `agora`: the day key is the ISO date of
   * `agora` and the time its "HH:MM" (the 'pt-BR' two-digit hour and minute).
   */
  function TakenRecord(m: Medicine, dosagemInput: string, uid: string, agora: int): (d: TakenDoc)
    requires IsoInstant(agora)
    ensures d.dosagem != ""
    ensures dosagemInput != "" ==> d.dosagem == dosagemInput
    ensures d.remedioId == m.id && d.remedioNome == m.nome && d.usuarioId == uid
    ensures DayKeyOf(d.dia, agora)
    ensures |d.horario| == 5 && ClockMinutes(d.horario) == MinuteOfDay(agora)
  {
    FormatRoundTrip(agora);
    TakenDoc(IsoDay(agora), OrElse(Some(dosagemInput), "1"), FormatHourMinute(agora), m.id, m.nome, uid)
  }

  /** Confirming without editing stores the medicine's own dosage, or '1'. */
  lemma UntouchedDialogStoresPrefill(m: Medicine, uid: string, agora: int)
    requires IsoInstant(agora)
    ensures TakenRecord(m, DosagePrefill(m), uid, agora).dosagem == OrElse(m.dosagem, "1")
  {
  }

  /** The record written is listed by the user's own history under 'Todos'. */
  lemma TakenShowsInHistory(docs: seq<OwnHistory.Taken>, docId: string, m: Medicine, input: string,
                            uid: string, agora: int, today: Date)
    requires IsoInstant(agora) && OwnHistory.Sane(today)
    ensures var d := TakenRecord(m, input, uid, agora);
            OwnHistory.Taken(docId, d.dia, d.horario, d.remedioNome)
              in OwnHistory.Shown(docs + [OwnHistory.Taken(docId, d.dia, d.horario, d.remedioNome)], History.Todos, today)
  {
    var d := TakenRecord(m, input, uid, agora);
    var x := OwnHistory.Taken(docId, d.dia, d.horario, d.remedioNome);
    var all := docs + [x];
    assert x in multiset(all);
    OwnHistory.ShownIsSortedSelection(all, History.Todos, today);
    assert x in multiset(OwnHistory.Shown(all, History.Todos, today));
  }
}

=== FILE: notification_manager.dfy ===
// `NotificationManager`: weekly reminders scheduled on the next listed
// weekday, immediate notifications with defaults and a channel table, and the
// medicine → notification-id map kept by the sync. The scheduler is given the
// current time; the platform scheduler itself is left out and a scheduled
// reminder is returned as a value.

module NotificationManager {
  import opened JsText
  import opened Calendar
  import opened Clock
  import opened Days

  // ---------------------------------------------------------------------------
  // Weekday search

  /** The weekday table as written: lower-case and without the accent on Saturday. */
  const WeekTable: seq<string> := ["dom", "seg", "ter", "qua", "qui", "sex", "sab"]

  /** The table the stored days need: the forms' abbreviations, lower-cased. */
  const FormWeekTable: seq<string> := ["dom", "seg", "ter", "qua", "qui", "sex", "sáb"]

  /** `dias` normalised for the search: an array is lower-cased, a string lower-cased, split on ',' and trimmed. */
  function DayKeys(d: Dias): (keys: seq<string>)
    ensures d.DayList? ==> |keys| == |d.items| && forall k :: 0 <= k < |keys| ==> keys[k] == Lower(d.items[k])
    ensures d.DayText? ==> |keys| >= 1
  {
    match d
    case DayList(items) => LowerAll(items)
    case DayText(t) => TrimAll(Split(Lower(t), ','))
  }

  /** The table entry `j` weekdays after `today`. */
  function DayAt(table: seq<string>, today: int, j: int): string
    requires |table| == 7
  {
    table[(today + j) % 7]
  }

  /** The first `i` in `from..7` whose weekday `(today + i) % 7` is listed. */
  function FirstListedStep(keys: seq<string>, table: seq<string>, today: int, from: int): (r: Option<int>)
    requires |table| == 7 && 0 <= today < 7 && 1 <= from <= 8
    ensures r.Some? ==> from <= r.value <= 7 && DayAt(table, today, r.value) in keys
    ensures r.Some? ==> forall j :: from <= j < r.value ==> DayAt(table, today, j) !in keys
    ensures r.None? ==> forall j :: from <= j <= 7 ==> DayAt(table, today, j) !in keys
    decreases 8 - from
  {
    if from > 7 then None
    else if table[(today + from) % 7] in keys then Some(from)
    else FirstListedStep(keys, table, today, from + 1)
  }

  /** Steps `1..7` from `today` visit every weekday once. */
  lemma StepReaches(today: int, w: int)
    requires 0 <= today < 7 && 0 <= w < 7
    ensures var j := if w == today then 7 else (w - today + 7) % 7;
            1 <= j <= 7 && (today + j) % 7 == w && forall table :: |table| == 7 ==> DayAt(table, today, j) == table[w]
  {
  }

  /** The search fails exactly when no weekday of the table is listed. */
  lemma NoStepIffNoListedDay(keys: seq<string>, table: seq<string>, today: int)
    requires |table| == 7 && 0 <= today < 7
    ensures FirstListedStep(keys, table, today, 1).None? <==> forall w :: 0 <= w < 7 ==> table[w] !in keys
  {
    if FirstListedStep(keys, table, today, 1).None? {
      forall w | 0 <= w < 7
        ensures table[w] !in keys
      {
        StepReaches(today, w);
      }
    }
  }

  // ---------------------------------------------------------------------------
  // The day offset

  /** `(x) || 7`: a zero sum would become 7. */
  function OrSeven(x: int): int
  {
    if x != 0 then x else 7
  }

  /**
   * The argument of `setDate` as written: `getDate() + (next − today + 7) % 7 || 7`,
   * where `||` applies to the whole sum.
   */
  function SetDateArgument(dayOfMonth: int, today: int, next: int): int
  {
    OrSeven(dayOfMonth + (next - today + 7) % 7)
  }

  /** The days added as written: the fallback to 7 never applies, because a day of the month is at least 1. */
  function DayOffsetAsWritten(today: int, next: int): (off: int)
    requires 0 <= today < 7 && 0 <= next < 7
    ensures 0 <= off <= 6
    ensures forall dayOfMonth :: 1 <= dayOfMonth <= 31 ==> SetDateArgument(dayOfMonth, today, next) == dayOfMonth + off
  {
    (next - today + 7) % 7
  }

  /** The days to add as intended: the same weekday next week when only today's weekday is listed. */
  function DayOffset(today: int, next: int): (off: int)
    requires 0 <= today < 7 && 0 <= next < 7
    ensures 1 <= off <= 7
    ensures (today + off) % 7 == next
    ensures off == 7 <==> next == today
  {
    OrSeven((next - today + 7) % 7)
  }

  // ---------------------------------------------------------------------------
  // agendarNotificacaoMedicamento

  /** The medicine fields the scheduler reads; `dias` is `None` when undefined. */
  datatype Medicine = Medicine(id: Option<string>, nome: Option<string>, dosagem: Option<string>,
                               horario: Option<string>, dias: Option<Dias>)

  /** A weekly trigger notification: its id, its first firing (NaN for an invalid date) and its body. */
  datatype Reminder = Reminder(id: string, trigger: Num, body: string)

  /** `String(n)` for a timestamp. */
  function NumText(v: Num): string
  {
    match v
    case Int(n) => IntText(n)
    case NaN => "NaN"
  }

  /** `d.setDate(d.getDate() + offset); d.setHours(hora, minuto, 0, 0)` from `now`. */
  function TriggerAt(now: int, offset: int, horario: string): (t: Num)
    ensures t.Int? <==> ToNumber(Part(Split(horario, ':'), 0)).Int? && ToNumber(Part(Split(horario, ':'), 1)).Int?
  {
    var parts := Split(horario, ':');
    match (ToNumber(Part(parts, 0)), ToNumber(Part(parts, 1)))
    case (Int(h), Int(m)) => Int(StartOfDay(now) + offset * DayMs + h * HourMs + m * MinuteMs)
    case _ => NaN
  }

  /** The next listed weekday after today, searching from tomorrow round to today. */
  function NextListed(table: seq<string>, d: Dias, today: int): (r: Option<int>)
    requires |table| == 7 && 0 <= today < 7
    ensures r.Some? ==> 0 <= r.value < 7 && table[r.value] in DayKeys(d)
    ensures r.None? <==> forall w :: 0 <= w < 7 ==> table[w] !in DayKeys(d)
  {
    NextListedIn(table, DayKeys(d), today)
  }

  /** The search of `NextListed` over normalised keys. */
  function NextListedIn(table: seq<string>, keys: seq<string>, today: int): (r: Option<int>)
    requires |table| == 7 && 0 <= today < 7
    ensures r.Some? ==> 0 <= r.value < 7 && table[r.value] in keys
    ensures r.None? <==> forall w :: 0 <= w < 7 ==> table[w] !in keys
  {
    NoStepIffNoListedDay(keys, table, today);
    match FirstListedStep(keys, table, today, 1)
    case None => None
    case Some(step) => Some((today + step) % 7)
  }

  /** The reminder for a trigger `offset` days from today. */
  function ReminderAt(m: Medicine, now: int, offset: int): (r: Reminder)
    requires m.horario.Some?
    ensures r.trigger == TriggerAt(now, offset, m.horario.value)
    ensures r.id == "med_" + Show(m.id) + "_" + NumText(r.trigger)
  {
    var t := TriggerAt(now, offset, m.horario.value);
    Reminder("med_" + Show(m.id) + "_" + NumText(t), t, Show(m.nome) + " - Dosagem: " + Show(m.dosagem))
  }

  /** The shared body of both schedulers, given the weekday table and the offset rule. */
  function ScheduleWith(table: seq<string>, corrected: bool, m: Medicine, now: int): (r: Option<Reminder>)
    requires |table| == 7
    ensures !Truthy(m.horario) || m.dias.None? ==> r.None?
    ensures m.dias.Some? ==> (r.None? <==> !Truthy(m.horario) || forall w :: 0 <= w < 7 ==> table[w] !in DayKeys(m.dias.value))
    ensures r.Some? ==> m.horario.Some? && m.dias.Some? && NextListed(table, m.dias.value, WeekdayOf(now)).Some?
    ensures r.Some? ==>
              var today := WeekdayOf(now);
              var next := NextListed(table, m.dias.value, today).value;
              r.value == ReminderAt(m, now, if corrected then DayOffset(today, next) else DayOffsetAsWritten(today, next))
  {
    if !Truthy(m.horario) || m.dias.None? then None
    else
      var today := WeekdayOf(now);
      match NextListed(table, m.dias.value, today)
      case None => None
      case Some(next) =>
        Some(ReminderAt(m, now, if corrected then DayOffset(today, next) else DayOffsetAsWritten(today, next)))
  }

  /** `agendarNotificacaoMedicamento` as written. */
  function ScheduleAsWritten(m: Medicine, now: int): (r: Option<Reminder>)
    ensures r.Some? <==> Truthy(m.horario) && m.dias.Some? && exists w :: 0 <= w < 7 && WeekTable[w] in DayKeys(m.dias.value)
    ensures r.Some? ==> r.value.id == "med_" + Show(m.id) + "_" + NumText(r.value.trigger)
  {
    ScheduleWith(WeekTable, false, m, now)
  }

  /** `agendarNotificacaoMedicamento` with both corrections: Saturday spelt as stored, and a full week when only today is listed. */
  function Schedule(m: Medicine, now: int): (r: Option<Reminder>)
    ensures r.Some? <==> Truthy(m.horario) && m.dias.Some? && exists w :: 0 <= w < 7 && FormWeekTable[w] in DayKeys(m.dias.value)
    ensures r.Some? ==> r.value.id == "med_" + Show(m.id) + "_" + NumText(r.value.trigger)
  {
    ScheduleWith(FormWeekTable, true, m, now)
  }

  /** The scheduled id is "med_" + medicine id + "_" + trigger timestamp. */
  lemma ScheduledIdNamesTrigger(m: Medicine, now: int)
    requires Schedule(m, now).Some?
    ensures var r := Schedule(m, now).value;
            r.id == "med_" + Show(m.id) + "_" + NumText(r.trigger)
  {
  }

  /** A stored "HH:MM" time reads back as that minute, `offset` days after today's midnight. */
  lemma TriggerOfFormattedTime(now: int, offset: int, minutes: int)
    requires 0 <= minutes < 1440
    ensures TriggerAt(now, offset, HourMinuteText(minutes)) == Int(StartOfDay(now) + offset * DayMs + minutes * MinuteMs)
  {
    HourMinuteFields(minutes);
    TriggerOfFields(now, offset, HourMinuteText(minutes), minutes);
  }

  /** A time whose fields read as the hour and minute of `minutes` triggers at that minute. */
  lemma TriggerOfFields(now: int, offset: int, horario: string, minutes: int)
    requires ToNumber(Part(Split(horario, ':'), 0)) == Int(minutes / 60)
    requires ToNumber(Part(Split(horario, ':'), 1)) == Int(minutes % 60)
    ensures TriggerAt(now, offset, horario) == Int(StartOfDay(now) + offset * DayMs + minutes * MinuteMs)
  {
    HoursAndMinutes(minutes);
  }

  lemma CorrectedInFuture(table: seq<string>, m: Medicine, now: int, minutes: int)
    requires |table| == 7 && 0 <= minutes < 1440 && m.horario.Some? && m.dias.Some?
    requires ToNumber(Part(Split(m.horario.value, ':'), 0)) == Int(minutes / 60)
    requires ToNumber(Part(Split(m.horario.value, ':'), 1)) == Int(minutes % 60)
    requires ScheduleWith(table, true, m, now).Some?
    ensures ScheduleWith(table, true, m, now).value.trigger.Int?
    ensures var t := ScheduleWith(table, true, m, now).value.trigger.n;
            now < t <= StartOfDay(now) + 7 * DayMs + minutes * MinuteMs
            && MinuteOfDay(t) == minutes
            && table[WeekdayOf(t)] in DayKeys(m.dias.value)
  {
    var today := WeekdayOf(now);
    var next := NextListed(table, m.dias.value, today).value;
    var offset := DayOffset(today, next);
    var r := ScheduleWith(table, true, m, now).value;
    assert r.trigger == TriggerAt(now, offset, m.horario.value);
    TriggerOfFields(now, offset, m.horario.value, minutes);
    TriggerDay(now, next, minutes);
    assert r.trigger.n == StartOfDay(now) + offset * DayMs + minutes * MinuteMs;
    assert table[next] in DayKeys(m.dias.value);
  }

  /** The trigger a week-bounded offset gives: after `now`, at `minutes`, on weekday `next`. */
  lemma TriggerDay(now: int, next: int, minutes: int)
    requires 0 <= next < 7 && 0 <= minutes < 1440
    ensures var offset := DayOffset(WeekdayOf(now), next);
            var t := StartOfDay(now) + offset * DayMs + minutes * MinuteMs;
            now < t <= StartOfDay(now) + 7 * DayMs + minutes * MinuteMs
            && MinuteOfDay(t) == minutes && WeekdayOf(t) == next
  {
    var offset := DayOffset(WeekdayOf(now), next);
    var start := StartOfDay(now);
    WeekdayAfterDays(start, offset, minutes);
    WeekdayOfMidnight(now);
    MinuteOfDayAfterDays(start, offset, minutes);
  }

  /**
   * With a stored "HH:MM" time, the corrected reminder fires strictly after
   * `now`, within a week, at that minute, on a weekday the medicine lists.
   */
  lemma ScheduledInFutureOnListedDay(m: Medicine, now: int, minutes: int)
    requires 0 <= minutes < 1440 && m.horario == Some(HourMinuteText(minutes)) && m.dias.Some?
    requires Schedule(m, now).Some?
    ensures Schedule(m, now).value.trigger.Int?
    ensures var t := Schedule(m, now).value.trigger.n;
            now < t <= StartOfDay(now) + 7 * DayMs + minutes * MinuteMs
            && MinuteOfDay(t) == minutes
            && FormWeekTable[WeekdayOf(t)] in DayKeys(m.dias.value)
  {
    HourMinuteFields(minutes);
    CorrectedInFuture(FormWeekTable, m, now, minutes);
  }

  lemma WeekdayOfMidnight(now: int)
    ensures WeekdayOf(StartOfDay(now)) == WeekdayOf(now)
  {
    assert FloorDiv(StartOfDay(now), DayMs) == FloorDiv(now, DayMs);
  }

  lemma WeekdayAfterDays(start: int, offset: int, minutes: int)
    requires start % DayMs == 0 && 0 <= offset && 0 <= minutes < 1440
    ensures WeekdayOf(start + offset * DayMs + minutes * MinuteMs) == (WeekdayOf(start) + offset) % 7
  {
    var t := start + offset * DayMs + minutes * MinuteMs;
    assert FloorDiv(t, DayMs) == FloorDiv(start, DayMs) + offset;
  }

  lemma MinuteOfDayAfterDays(start: int, offset: int, minutes: int)
    requires start % DayMs == 0 && 0 <= minutes < 1440
    ensures MinuteOfDay(start + offset * DayMs + minutes * MinuteMs) == minutes
  {
    var t := start + offset * DayMs + minutes * MinuteMs;
    assert t % DayMs == minutes * MinuteMs;
  }

  /**
   * As written, a medicine listed only on today's weekday gets today's date:
   * on Monday at 12:00 a Monday 08:00 reminder is set four hours in the past.
   */
  lemma OnlyTodayListedFiresInPast()
    ensures var now := 4 * DayMs + 12 * HourMs;
            var m := Medicine(Some("r1"), Some("Dipirona"), Some("1"), Some(HourMinuteText(480)), Some(DayList(["seg"])));
            ScheduleAsWritten(m, now).Some? && ScheduleAsWritten(m, now).value.trigger == Int(4 * DayMs + 8 * HourMs)
            && Schedule(m, now).Some? && Schedule(m, now).value.trigger == Int(11 * DayMs + 8 * HourMs)
  {
    var now := 4 * DayMs + 12 * HourMs;
    var m := Medicine(Some("r1"), Some("Dipirona"), Some("1"), Some(HourMinuteText(480)), Some(DayList(["seg"])));
    ExampleAsWritten(now, m);
    ExampleCorrected(now, m);
  }

  lemma ExampleAsWritten(now: int, m: Medicine)
    requires now == 4 * DayMs + 12 * HourMs
    requires m == Medicine(Some("r1"), Some("Dipirona"), Some("1"), Some(HourMinuteText(480)), Some(DayList(["seg"])))
    ensures ScheduleAsWritten(m, now).Some? && ScheduleAsWritten(m, now).value.trigger == Int(4 * DayMs + 8 * HourMs)
  {
    MondayNoon();
    OnlyMondayListed(WeekTable, m.dias.value);
    HourMinuteFields(480);
    OnlyTodayTrigger(WeekTable, false, m, now, 480);
  }

  lemma ExampleCorrected(now: int, m: Medicine)
    requires now == 4 * DayMs + 12 * HourMs
    requires m == Medicine(Some("r1"), Some("Dipirona"), Some("1"), Some(HourMinuteText(480)), Some(DayList(["seg"])))
    ensures Schedule(m, now).Some? && Schedule(m, now).value.trigger == Int(11 * DayMs + 8 * HourMs)
  {
    MondayNoon();
    OnlyMondayListed(FormWeekTable, m.dias.value);
    HourMinuteFields(480);
    OnlyTodayTrigger(FormWeekTable, true, m, now, 480);
  }

  /** In both tables, `["seg"]` lists Monday and nothing else. */
  lemma OnlyMondayListed(table: seq<string>, d: Dias)
    requires table == WeekTable || table == FormWeekTable
    requires d == DayList(["seg"])
    ensures table[1] in DayKeys(d) && forall w :: 0 <= w < 7 && w != 1 ==> table[w] !in DayKeys(d)
  {
    assert DayKeys(d) == ["seg"] by {
      assert Lower("seg") == "seg";
    }
  }

  /**
   * A medicine listed only on today's weekday: as written it is set for
   * today at its time, corrected for the same time a week later.
   */
  lemma OnlyTodayTrigger(table: seq<string>, corrected: bool, m: Medicine, now: int, minutes: int)
    requires |table| == 7 && 0 <= minutes < 1440 && m.horario.Some? && m.dias.Some?
    requires ToNumber(Part(Split(m.horario.value, ':'), 0)) == Int(minutes / 60)
    requires ToNumber(Part(Split(m.horario.value, ':'), 1)) == Int(minutes % 60)
    requires table[WeekdayOf(now)] in DayKeys(m.dias.value)
    requires forall w :: 0 <= w < 7 && w != WeekdayOf(now) ==> table[w] !in DayKeys(m.dias.value)
    ensures ScheduleWith(table, corrected, m, now).Some?
    ensures ScheduleWith(table, corrected, m, now).value.trigger
            == Int(StartOfDay(now) + (if corrected then 7 * DayMs else 0) + minutes * MinuteMs)
  {
    var today := WeekdayOf(now);
    OnlyTodayListed(table, m.dias.value, today);
    var offset := if corrected then 7 else 0;
    assert offset == (if corrected then DayOffset(today, today) else DayOffsetAsWritten(today, today));
    TriggerOfFields(now, offset, m.horario.value, minutes);
    assert ScheduleWith(table, corrected, m, now).value == ReminderAt(m, now, offset);
  }

  /** When only today's entry is listed, the next listed weekday is today. */
  lemma OnlyTodayListed(table: seq<string>, d: Dias, today: int)
    requires |table| == 7 && 0 <= today < 7
    requires table[today] in DayKeys(d) && forall w :: 0 <= w < 7 && w != today ==> table[w] !in DayKeys(d)
    ensures NextListed(table, d, today) == Some(today)
  {
    OnlyStepSeven(DayKeys(d), table, today);
  }

  lemma MondayNoon()
    ensures WeekdayOf(4 * DayMs + 12 * HourMs) == 1
    ensures StartOfDay(4 * DayMs + 12 * HourMs) == 4 * DayMs
  {
    assert FloorDiv(4 * DayMs + 12 * HourMs, DayMs) == 4;
  }

  /** When only today's entry is listed, the search goes round to step 7. */
  lemma OnlyStepSeven(keys: seq<string>, table: seq<string>, today: int)
    requires |table| == 7 && 0 <= today < 7
    requires table[today] in keys && forall w :: 0 <= w < 7 && w != today ==> table[w] !in keys
    ensures FirstListedStep(keys, table, today, 1) == Some(7)
  {
    var r := FirstListedStep(keys, table, today, 1);
    NoStepIffNoListedDay(keys, table, today);
    assert r.Some?;
    assert (today + r.value) % 7 == today;
  }

  /** As written, a Saturday stored by the forms ("Sáb") is never found. */
  lemma StoredSaturdayNeverMatches(today: int)
    requires 0 <= today < 7
    ensures FirstListedStep(DayKeys(DayList(["Sáb"])), WeekTable, today, 1).None?
    ensures FirstListedStep(DayKeys(DayList(["Sáb"])), FormWeekTable, today, 1).Some?
  {
    assert Lower("Sáb") == "sáb" by {
      assert LowerChar('S') == 's' && LowerChar('á') == 'á' && LowerChar('b') == 'b';
    }
    assert DayKeys(DayList(["Sáb"])) == ["sáb"];
    NoStepIffNoListedDay(["sáb"], WeekTable, today);
    NoStepIffNoListedDay(["sáb"], FormWeekTable, today);
    assert FormWeekTable[6] in ["sáb"];
  }

  /** With the corrected table every abbreviation the forms store is found, from any weekday. */
  lemma EveryStoredDayIsFound(w: int, today: int)
    requires 0 <= w < 7 && 0 <= today < 7
    ensures FirstListedStep(DayKeys(DayList([Abbrevs[w]])), FormWeekTable, today, 1).Some?
  {
    assert LowerAll([Abbrevs[w]]) == [Lower(Abbrevs[w])];
    assert Lower(Abbrevs[w]) == FormWeekTable[w];
    NoStepIffNoListedDay(DayKeys(DayList([Abbrevs[w]])), FormWeekTable, today);
  }

  // ---------------------------------------------------------------------------
  // mostrarNotificacaoImediata

  /** Options as passed; destructuring defaults replace only `undefined`. */
  datatype ImmediateOptions = ImmediateOptions(titulo: Option<string>, mensagem: Option<string>, tipo: Option<string>)

  datatype Importance = ImportanceDefault | ImportanceMax

  datatype Immediate = Immediate(title: string, body: string, channel: Option<string>, importance: Importance)

  /** `canais[tipo]`: `None` for a type outside the table. */
  function Channel(tipo: string): (c: Option<string>)
    ensures c.Some? <==> tipo in {"general", "alarm", "urgent"}
    ensures c.Some? ==> c.value == tipo + "-channel"
  {
    if tipo == "general" then Some("general-channel")
    else if tipo == "alarm" then Some("alarm-channel")
    else if tipo == "urgent" then Some("urgent-channel")
    else None
  }

  function ShowImmediate(o: ImmediateOptions): (n: Immediate)
    ensures o.titulo.None? ==> n.title == "PillCheck"
    ensures o.mensagem.None? ==> n.body == "Nova notificação"
    ensures o.titulo.Some? ==> n.title == o.titulo.value
    ensures o.mensagem.Some? ==> n.body == o.mensagem.value
    ensures o.tipo.None? ==> n.channel == Some("general-channel") && n.importance == ImportanceDefault
    ensures n.importance == ImportanceMax <==> o.tipo == Some("urgent")
  {
    var tipo := Coalesce(o.tipo, "general");
    Immediate(Coalesce(o.titulo, "PillCheck"), Coalesce(o.mensagem, "Nova notificação"), Channel(tipo),
              if tipo == "urgent" then ImportanceMax else ImportanceDefault)
  }

  // ---------------------------------------------------------------------------
  // sincronizarNotificacoes

  /** An active alert of the user, as the sync reads it. */
  datatype Alert = Alert(remedioId: string, dosagem: Option<string>, horario: Option<string>, dias: Option<Dias>)

  /** The reminder the sync schedules for one alert, if its medicine exists and scheduling succeeds; the sync calls the scheduler as written. */
  function SyncOne(a: Alert, remedios: map<string, Option<string>>, now: int): (r: Option<Reminder>)
    ensures r.Some? <==> a.remedioId in remedios && Truthy(a.horario) && a.dias.Some?
                         && exists w :: 0 <= w < 7 && WeekTable[w] in DayKeys(a.dias.value)
    ensures r.Some? ==> r.value.id == "med_" + a.remedioId + "_" + NumText(r.value.trigger)
  {
    if a.remedioId in remedios then
      ScheduleAsWritten(Medicine(Some(a.remedioId), remedios[a.remedioId], a.dosagem, a.horario, a.dias), now)
    else None
  }

  /** Each alert's medicine id, paired with the reminder id the sync obtained for it, if any. */
  function Outcomes(alerts: seq<Alert>, remedios: map<string, Option<string>>, now: int): (r: seq<(string, Option<string>)>)
    ensures |r| == |alerts|
    ensures forall i :: 0 <= i < |alerts| ==> r[i].0 == alerts[i].remedioId
                                              && (r[i].1.Some? <==> SyncOne(alerts[i], remedios, now).Some?)
  {
    seq(|alerts|, i requires 0 <= i < |alerts| =>
      (alerts[i].remedioId, match SyncOne(alerts[i], remedios, now) case Some(rem) => Some(rem.id) case None => None))
  }

  /** The id map after the loop: every obtained id is recorded under its medicine, in order. */
  function RecordIds(results: seq<(string, Option<string>)>, ids: map<string, string>): (r: map<string, string>)
    ensures forall k :: k in r <==> k in ids || exists i :: 0 <= i < |results| && results[i].0 == k && results[i].1.Some?
    decreases |results|
  {
    if results == [] then ids
    else
      var next := if results[0].1.Some? then ids[results[0].0 := results[0].1.value] else ids;
      var r := RecordIds(results[1..], next);
      assert forall i :: 1 <= i < |results| ==> results[i] == results[1..][i - 1];
      r
  }

  /** `sincronizarNotificacoes`: the id map written back after scheduling every alert. */
  function SyncIds(alerts: seq<Alert>, remedios: map<string, Option<string>>, now: int, ids: map<string, string>): (r: map<string, string>)
    ensures forall k :: k in r <==> k in ids || exists i :: 0 <= i < |alerts| && alerts[i].remedioId == k && SyncOne(alerts[i], remedios, now).Some?
  {
    var out := Outcomes(alerts, remedios, now);
    RecordIds(out, ids)
  }

  /** The stored id of a medicine is the one its last schedulable alert produced. */
  lemma SyncKeepsLastId(alerts: seq<Alert>, remedios: map<string, Option<string>>, now: int,
                        ids: map<string, string>, i: int)
    requires 0 <= i < |alerts| && SyncOne(alerts[i], remedios, now).Some?
    requires forall j :: i < j < |alerts| ==> alerts[j].remedioId != alerts[i].remedioId || SyncOne(alerts[j], remedios, now).None?
    ensures SyncIds(alerts, remedios, now, ids)[alerts[i].remedioId] == SyncOne(alerts[i], remedios, now).value.id
  {
    var out := Outcomes(alerts, remedios, now);
    RecordKeepsLast(out, ids, i);
  }

  /** Generic form: the last recorded id for a key wins. */
  lemma {:induction false} RecordKeepsLast(results: seq<(string, Option<string>)>, ids: map<string, string>, i: int)
    requires 0 <= i < |results| && results[i].1.Some?
    requires forall j :: i < j < |results| ==> results[j].0 != results[i].0 || results[j].1.None?
    ensures results[i].0 in RecordIds(results, ids) && RecordIds(results, ids)[results[i].0] == results[i].1.value
    decreases |results|
  {
    var next := if results[0].1.Some? then ids[results[0].0 := results[0].1.value] else ids;
    assert RecordIds(results, ids) == RecordIds(results[1..], next);
    if i == 0 {
      assert forall j :: 0 <= j < |results| - 1 ==> results[1..][j] == results[j + 1];
      RecordLeavesUntouched(results[1..], next, results[0].0);
    } else {
      assert forall j :: i - 1 < j < |results| - 1 ==> results[1..][j] == results[j + 1];
      RecordKeepsLast(results[1..], next, i - 1);
    }
  }

  /** A medicine no later alert schedules keeps its entry. */
  lemma SyncLeavesUntouched(alerts: seq<Alert>, remedios: map<string, Option<string>>, now: int,
                            ids: map<string, string>, k: string)
    requires k in ids
    requires forall j :: 0 <= j < |alerts| ==> alerts[j].remedioId != k || SyncOne(alerts[j], remedios, now).None?
    ensures k in SyncIds(alerts, remedios, now, ids) && SyncIds(alerts, remedios, now, ids)[k] == ids[k]
  {
    RecordLeavesUntouched(Outcomes(alerts, remedios, now), ids, k);
  }

  lemma {:induction false} RecordLeavesUntouched(results: seq<(string, Option<string>)>, ids: map<string, string>, k: string)
    requires k in ids
    requires forall j :: 0 <= j < |results| ==> results[j].0 != k || results[j].1.None?
    ensures k in RecordIds(results, ids) && RecordIds(results, ids)[k] == ids[k]
    decreases |results|
  {
    if results != [] {
      var next := if results[0].1.Some? then ids[results[0].0 := results[0].1.value] else ids;
      assert RecordIds(results, ids) == RecordIds(results[1..], next);
      assert k in next && next[k] == ids[k];
      assert forall j :: 0 <= j < |results| - 1 ==> results[1..][j] == results[j + 1];
      RecordLeavesUntouched(results[1..], next, k);
    }
  }
}

=== FILE: onboarding.dfy ===
// The onboarding pager (components/OnBoarding.js): 'next' scrolls to the
// following slide until the last one, where it resets navigation to the login
// route; the button's ring shows the share of slides seen.

module OnBoarding {
  import opened JsText

  /** The slides of slides.js. */
  const SlideCount: nat := 3

  datatype Action = ScrollToIndex(index: int) | ResetTo(routes: seq<string>)

  /** `scrollTo()` on the current index. */
  function Next(current: int, n: nat): (a: Action)
    ensures a.ScrollToIndex? <==> current < n - 1
    ensures a.ScrollToIndex? ==> a.index == current + 1
    ensures a.ResetTo? ==> a.routes == ["Login"]
  {
    if current < n - 1 then ScrollToIndex(current + 1) else ResetTo(["Login"])
  }

  /** `viewableItemsChanged`: the first viewable item's index, if any item is viewable. */
  function OnViewable(current: int, viewable: seq<int>): (r: int)
    ensures r == current || r in viewable
  {
    if |viewable| > 0 then viewable[0] else current
  }

  /** Pressing 'next' `presses` times, the list reporting each slide it scrolls to;
      the result is the index reached and the reset, if one happened. */
  function Walk(current: int, n: nat, presses: nat): (int, Option<seq<string>>)
    decreases presses
  {
    if presses == 0 then (current, None)
    else
      match Next(current, n)
      case ScrollToIndex(j) => Walk(OnViewable(current, [j]), n, presses - 1)
      case ResetTo(rs) => (current, Some(rs))
  }

  /** From any slide, each press moves one slide on; the press after the last slide
      resets to the login route and nothing else does. */
  lemma {:induction false} WalkToLogin(i: int, n: nat, k: nat)
    requires 0 <= i < n
    ensures k <= n - 1 - i ==> Walk(i, n, k) == (i + k, None)
    ensures k > n - 1 - i ==> Walk(i, n, k) == (n - 1, Some(["Login"]))
    decreases k
  {
    if k > 0 && i < n - 1 {
      assert OnViewable(i, [i + 1]) == i + 1;
      WalkToLogin(i + 1, n, k - 1);
    }
  }

  /** `(currentIndex + 1) * (100 / slides.length)`, over exact rationals. */
  function Percentage(current: int, n: nat): (r: real)
    requires n > 0
    ensures r * n as real == 100.0 * (current + 1) as real
  {
    (current + 1) as real * (100.0 / n as real)
  }

  /** The ring fills strictly as the index grows, stays within (0, 100] on the slides,
      and is full exactly on the last slide. */
  lemma PercentageProgress(i: int, j: int, n: nat)
    requires n > 0
    ensures i < j ==> Percentage(i, n) < Percentage(j, n)
    ensures 0 <= i < n ==> 0.0 < Percentage(i, n) <= 100.0
    ensures Percentage(i, n) == 100.0 <==> i == n - 1
  {
    var step := 100.0 / n as real;
    assert step * n as real == 100.0;
    assert Percentage(i, n) == (i + 1) as real * step;
    assert Percentage(j, n) == (j + 1) as real * step;
    if i < j {
      assert (j + 1) as real * step - (i + 1) as real * step == (j - i) as real * step;
    }
    if 0 <= i < n {
      assert (i + 1) as real <= n as real;
      assert (i + 1) as real * step <= n as real * step;
    }
    if i != n - 1 {
      assert (i + 1) as real != n as real;
      assert (i + 1) as real * step != n as real * step;
    }
  }
}

=== FILE: own_history.dfy ===
// The user's own history of taken medicines (screens/menus/HistoricoMenu.js):
// the period filter compares `YYYY-MM-DD` keys as strings against a start and
// an end key, the list is sorted newest first by day and then time, grouped
// by day, and each group gets a 'Hoje' / 'Ontem' / date header.

module OwnHistory {
  import opened JsText
  import opened Calendar
  import opened History

  /** A `medicamentos_tomados` document as the screen reads it. */
  datatype Taken = Taken(id: string, dia: string, horario: string, remedioNome: Option<string>)

  function DayOf(r: Taken): string { r.dia }

  function DayTime(r: Taken): (string, string) { (r.dia, r.horario) }

  /** A date whose neighbourhood `toISOString` writes with a four-digit year. */
  predicate Sane(today: Date)
  {
    Valid(today) && 1 <= today.year <= 9999
  }

  /** `obterDataFiltro()`: the first and last key the filter admits; `Todos` has none. */
  function Range(f: Filter, today: Date): (r: Option<(string, string)>)
    requires Sane(today)
    ensures r.None? <==> f == Todos
    ensures r.Some? ==> |r.value.0| == 10 && |r.value.1| == 10
  {
    match f
    case Todos => None
    case Hoje => Some((Iso(today), Iso(today)))
    case Ontem =>
      var y := PrevDay(today);
      YearOfNearbyDay(y, today);
      Some((Iso(y), Iso(y)))
    case Semana =>
      var w := MinusDays(today, 7);
      YearOfNearbyDay(w, today);
      Some((Iso(w), Iso(today)))
    case Mes => Some((Iso(MonthStart(today)), Iso(today)))
  }

  /** `dia >= inicio && dia <= fim`, or everything when there is no range. */
  predicate InRange(dia: string, range: Option<(string, string)>)
  {
    range.None? || (StrLe(range.value.0, dia) && StrLe(dia, range.value.1))
  }

  /** The records the filter keeps, in their original order. */
  function Filtered(recs: seq<Taken>, f: Filter, today: Date): (r: seq<Taken>)
    requires Sane(today)
    ensures forall x :: multiset(r)[x] == if InRange(x.dia, Range(f, today)) then multiset(recs)[x] else 0
  {
    if recs == [] then []
    else
      assert recs == [recs[0]] + recs[1..];
      if InRange(recs[0].dia, Range(f, today)) then [recs[0]] + Filtered(recs[1..], f, today)
      else Filtered(recs[1..], f, today)
  }

  /** `carregarHistorico`: filter, then sort by day and time, newest first. */
  function Shown(recs: seq<Taken>, f: Filter, today: Date): (r: seq<Taken>)
    requires Sane(today)
    ensures forall x :: multiset(r)[x] == if InRange(x.dia, Range(f, today)) then multiset(recs)[x] else 0
  {
    SortDesc(Filtered(recs, f, today), DayTime)
  }

  /** The shown list is newest first and holds exactly the records the filter keeps. */
  lemma ShownIsSortedSelection(recs: seq<Taken>, f: Filter, today: Date)
    requires Sane(today)
    ensures SortedDesc(Shown(recs, f, today), DayTime)
    ensures forall x :: multiset(Shown(recs, f, today))[x] == if InRange(x.dia, Range(f, today)) then multiset(recs)[x] else 0
  {
    SortDescSorted(Filtered(recs, f, today), DayTime);
  }

  /** The days each filter admits, as a closed range of day numbers. */
  function Window(f: Filter, today: Date): (w: (int, int))
    requires Valid(today) && f != Todos
    ensures w.1 == DayNumber(today) || (f == Ontem && w.1 == DayNumber(today) - 1)
  {
    var n := DayNumber(today);
    match f
    case Hoje => (n, n)
    case Ontem => (n - 1, n - 1)
    case Semana => (n - 7, n)
    case Mes => (n - (today.day - 1), n)
  }

  /** Comparing keys as strings admits exactly the days of the filter's window. */
  lemma RangeMatchesWindow(f: Filter, today: Date, d: Date)
    requires Sane(today) && f != Todos
    requires Valid(d) && IsoYear(d)
    ensures InRange(Iso(d), Range(f, today)) <==> Window(f, today).0 <= DayNumber(d) <= Window(f, today).1
  {
    match f
    case Hoje =>
      IsoMatchesDayNumber(today, d);
      IsoMatchesDayNumber(d, today);
    case Ontem =>
      var y := PrevDay(today);
      YearOfNearbyDay(y, today);
      IsoMatchesDayNumber(y, d);
      IsoMatchesDayNumber(d, y);
    case Semana =>
      var w := MinusDays(today, 7);
      YearOfNearbyDay(w, today);
      IsoMatchesDayNumber(w, d);
      IsoMatchesDayNumber(d, today);
    case Mes =>
      IsoMatchesDayNumber(MonthStart(today), d);
      IsoMatchesDayNumber(d, today);
  }

  /** The day `k` days before today, for `k` within a year: its key has a four-digit year. */
  function DaysBack(today: Date, k: nat): (d: Date)
    requires Sane(today) && k <= 365
    ensures Valid(d) && IsoYear(d)
    ensures DayNumber(d) == DayNumber(today) - k
  {
    YearOfNearbyDay(MinusDays(today, k), today);
    MinusDays(today, k)
  }

  /** 'hoje' keeps today's key only. */
  lemma HojeKeepsToday(today: Date, k: nat)
    requires Sane(today) && k <= 365
    ensures InRange(Iso(DaysBack(today, k)), Range(Hoje, today)) <==> k == 0
  {
    RangeMatchesWindow(Hoje, today, DaysBack(today, k));
  }

  /** 'semana' (the '7 dias' button) keeps eight days: today and the seven before it. */
  lemma SemanaKeepsEightDays(today: Date, k: nat)
    requires Sane(today) && k <= 365
    ensures InRange(Iso(DaysBack(today, k)), Range(Semana, today)) <==> k <= 7
  {
    RangeMatchesWindow(Semana, today, DaysBack(today, k));
  }

  /** 'mes' (the '30 dias' button) keeps the current month up to today, not thirty days. */
  lemma MesKeepsMonthSoFar(today: Date, k: nat)
    requires Sane(today) && k <= 365
    ensures InRange(Iso(DaysBack(today, k)), Range(Mes, today)) <==> k < today.day
  {
    RangeMatchesWindow(Mes, today, DaysBack(today, k));
  }

  /** No filter but 'todos' shows a day after today. */
  lemma NoFutureDays(f: Filter, today: Date, d: Date)
    requires Sane(today) && f != Todos
    requires Valid(d) && IsoYear(d) && DayNumber(today) < DayNumber(d)
    ensures !InRange(Iso(d), Range(f, today))
  {
    RangeMatchesWindow(f, today, d);
  }

  /** `formatarData(dia)`: `new Date(dia + 'T00:00:00')` compared with today and yesterday. */
  function DayHeader(dia: string, today: Date): (h: Header)
    requires Valid(today)
    ensures h.InvalidDate? <==> ParseIso(dia).None?
    ensures !h.Unchanged?
  {
    match ParseIso(dia)
    case None => InvalidDate
    case Some(d) =>
      var n := DayNumber(d);
      if n == DayNumber(today) then TodayHeader(n)
      else if n == DayNumber(today) - 1 then YesterdayHeader(n)
      else DateHeader(n)
  }

  /** The header of a record's key says 'Hoje' exactly for today and 'Ontem' exactly for yesterday. */
  lemma HeaderOfKey(d: Date, today: Date)
    requires Valid(d) && IsoYear(d) && Valid(today)
    ensures DayHeader(Iso(d), today).TodayHeader? <==> d == today
    ensures DayHeader(Iso(d), today).YesterdayHeader? <==> d == PrevDay(today)
    ensures var h := DayHeader(Iso(d), today);
            (h.TodayHeader? || h.YesterdayHeader? || h.DateHeader?) && h.day == DayNumber(d)
  {
    ParseIsoRoundTrip(d);
    DayNumberOrder(d, today);
    DayNumberOrder(d, PrevDay(today));
  }

  /** `agruparPorDia()` with `diasOrdenados`: the groups of the shown list. */
  function DayGroups(recs: seq<Taken>, f: Filter, today: Date): (r: seq<(string, seq<Taken>)>)
    requires Sane(today)
    ensures forall g, h :: 0 <= g < h < |r| ==> StrLt(r[h].0, r[g].0)
    ensures forall g, x :: 0 <= g < |r| && x in r[g].1 ==> x.dia == r[g].0 && InRange(x.dia, Range(f, today))
  {
    Groups(Shown(recs, f, today), DayOf)
  }

  /** Inside a day group the records run from the latest time to the earliest. */
  lemma GroupTimesDescend(recs: seq<Taken>, f: Filter, today: Date, g: nat, i: nat, j: nat)
    requires Sane(today)
    requires g < |DayGroups(recs, f, today)| && i < j < |DayGroups(recs, f, today)[g].1|
    ensures StrLe(DayGroups(recs, f, today)[g].1[j].horario, DayGroups(recs, f, today)[g].1[i].horario)
  {
    var shown := Shown(recs, f, today);
    var gs := DayGroups(recs, f, today);
    var k := gs[g].0;
    var grp := gs[g].1;
    assert grp == GroupOf(shown, k, DayOf);
    ShownIsSortedSelection(recs, f, today);
    GroupKeepsOrder(shown, k, DayOf, DayTime);
    assert grp[i] in multiset(grp);
    assert grp[j] in multiset(grp);
    SameDayTimesDescend(grp, DayTime, i, j);
  }
}

=== FILE: persistent_service.dfy ===
// `PersistentForegroundService`: a stateless start/stop machine. A stop
// intent ends the service; anything else posts one ongoing notification whose
// only button sends the stop intent back to this same service.

module PersistentService {
  import opened JsText
  import opened Intents

  const ChannelId: string := "persistent_notification_channel"
  const NotificationId: int := 1
  const ActionStopService: string := "com.app.action.STOP_SERVICE"
  const DefaultTitle: string := "Hora do Remédio"
  const DefaultMessage: string := "Confirme que tomou o medicamento"
  const ConfirmLabel: string := "Confirmar"

  /** `intent?.action == ACTION_STOP_SERVICE`: false for a null intent. */
  predicate IsStop(intent: Option<Intent>)
  {
    intent.Some? && intent.value.action == Some(ActionStopService)
  }

  /** The button's intent: this service, with the stop action. */
  const StopIntent: Intent := Intent(Some(PersistentForegroundService), Some(ActionStopService), map[])

  /** `intent?.getStringExtra(key) ?: default`. */
  function ExtraOr(intent: Option<Intent>, key: string, default: string): (r: string)
    ensures intent.None? ==> r == default
    ensures intent.Some? ==> r == Coalesce(GetStringExtra(intent.value, key), default)
  {
    if intent.Some? then Coalesce(GetStringExtra(intent.value, key), default) else default
  }

  function Build(title: string, message: string): (n: Notification)
    ensures n.title == title && n.text == message
    ensures n.ongoing && !n.autoCancel && n.priority == PriorityHigh
    ensures n.actions == [Action(ConfirmLabel, StopIntent)]
  {
    Notification(ChannelId, title, message, None, PriorityHigh, true, false, [],
      Explicit(MainActivity), [Action(ConfirmLabel, StopIntent)])
  }

  /** `onStartCommand`: the platform calls made and the return code. */
  function OnStartCommand(intent: Option<Intent>): (r: (seq<Effect>, int))
    ensures IsStop(intent) ==> r == ([StopSelf], StartNotSticky)
    ensures !IsStop(intent) ==> r.1 == StartSticky && |r.0| == 1 && r.0[0].StartForeground?
                                && r.0[0].id == NotificationId
    ensures !IsStop(intent) && intent.None? ==> r.0[0].notification.title == DefaultTitle
                                                && r.0[0].notification.text == DefaultMessage
  {
    if IsStop(intent) then ([StopSelf], StartNotSticky)
    else
      var title := ExtraOr(intent, "title", DefaultTitle);
      var message := ExtraOr(intent, "message", DefaultMessage);
      ([StartForeground(NotificationId, Build(title, message))], StartSticky)
  }

  /** Pressing the posted notification's only button stops the service. */
  lemma ButtonStopsService(intent: Option<Intent>)
    requires !IsStop(intent)
    ensures var posted := OnStartCommand(intent).0[0].notification;
            |posted.actions| == 1
            && posted.actions[0].fires.target == Some(PersistentForegroundService)
            && OnStartCommand(Some(posted.actions[0].fires)) == ([StopSelf], StartNotSticky)
  {
  }

  /** The title and message come from the extras, and only a missing extra takes the default. */
  lemma TitleAndMessage(i: Intent, title: Option<string>, message: Option<string>)
    requires i.action != Some(ActionStopService)
    requires GetStringExtra(i, "title") == title && GetStringExtra(i, "message") == message
    ensures var n := OnStartCommand(Some(i)).0[0].notification;
            n.title == (if title.Some? then title.value else DefaultTitle)
            && n.text == (if message.Some? then message.value else DefaultMessage)
  {
  }
}

=== FILE: phone_mask.dfy ===
// The Brazilian phone mask shared by the profile wizard and the profile
// screen. It is three leftmost regular-expression replacements applied to the
// digits of the input; each replacement is modelled by the first position at
// which its pattern matches, and the composition is then shown equal to a
// closed form from which digit preservation and idempotence follow.

module PhoneMask {
  import opened JsText

  // ---------------------------------------------------------------------------
  // Leftmost matches

  /** The pattern `\d{len}` matches at position `i`. */
  predicate RunAt(s: string, len: nat, i: nat)
  {
    i + len <= |s| && AllDigits(s[i..i + len])
  }

  /** The leftmost position at or after `from` where `\d{len}` matches. */
  function FirstRun(s: string, len: nat, from: nat): (r: Option<nat>)
    ensures r.Some? ==> from <= r.value && RunAt(s, len, r.value)
                        && forall j :: from <= j < r.value ==> !RunAt(s, len, j)
    ensures r.None? ==> forall j :: from <= j ==> !RunAt(s, len, j)
    decreases |s| - from
  {
    if from + len > |s| then None
    else if AllDigits(s[from..from + len]) then Some(from)
    else FirstRun(s, len, from + 1)
  }

  /** `s.replace(/(\d{2})(\d)/, '($1) $2')`. */
  function ParenStep(s: string): string
  {
    match FirstRun(s, 3, 0)
    case None => s
    case Some(i) => s[..i] + "(" + s[i..i + 2] + ") " + s[i + 2..]
  }

  /** `s.replace(/(\d{k})(\d)/, '$1-$2')`. */
  function HyphenStep(s: string, k: nat): string
  {
    match FirstRun(s, k + 1, 0)
    case None => s
    case Some(i) => s[..i] + s[i..i + k] + "-" + s[i + k..]
  }

  /** The pattern `(-\d{4})\d+?$` matches at position `i`: a hyphen, then at least five digits up to the end. */
  predicate TailAt(s: string, i: nat)
  {
    i + 6 <= |s| && s[i] == '-' && AllDigits(s[i + 1..])
  }

  function FirstTail(s: string, from: nat): (r: Option<nat>)
    ensures r.Some? ==> from <= r.value && TailAt(s, r.value) && forall j :: from <= j < r.value ==> !TailAt(s, j)
    ensures r.None? ==> forall j :: from <= j ==> !TailAt(s, j)
    decreases |s| - from
  {
    if from + 6 > |s| then None
    else if TailAt(s, from) then Some(from)
    else FirstTail(s, from + 1)
  }

  /** `s.replace(/(-\d{4})\d+?$/, '$1')`: the digits after the fourth following the hyphen are dropped. */
  function TrimStep(s: string): string
  {
    match FirstTail(s, 0)
    case None => s
    case Some(i) => s[..i + 5]
  }

  /** `formatPhone(text)`. */
  function FormatPhone(text: string): (r: string)
    ensures |DigitsOf(text)| <= 2 ==> r == DigitsOf(text)
  {
    var cleaned := DigitsOf(text);
    if |cleaned| <= 10 then HyphenStep(ParenStep(cleaned), 4)
    else TrimStep(HyphenStep(ParenStep(cleaned), 5))
  }

  // ---------------------------------------------------------------------------
  // The closed form

  /** `(DD) rest`. */
  function Area(d: string): string
    requires |d| >= 2
  {
    "(" + d[..2] + ") "
  }

  /**
   * The mask by digit count: up to 2 digits unchanged, up to 6 with the area
   * code, up to 10 as "(DD) XXXX-Y…", and from 11 on as "(DD) XXXXX-YYYY".
   */
  function Masked(d: string): (r: string)
    requires AllDigits(d)
  {
    var n := |d|;
    if n <= 2 then d
    else if n <= 6 then Area(d) + d[2..]
    else if n <= 10 then Area(d) + d[2..6] + "-" + d[6..]
    else Area(d) + d[2..7] + "-" + d[7..11]
  }

  lemma ParenOfDigits(d: string)
    requires AllDigits(d)
    ensures |d| <= 2 ==> ParenStep(d) == d
    ensures |d| >= 3 ==> ParenStep(d) == Area(d) + d[2..]
  {
    if |d| >= 3 {
      assert RunAt(d, 3, 0);
      assert d[..0] == "" && d[0..2] == d[..2];
    }
  }

  /** After the area code, the first run of `len` digits starts right after it. */
  lemma RunAfterArea(a: string, r: string, len: nat)
    requires |a| == 2 && AllDigits(a) && AllDigits(r) && len >= 3
    ensures var s := "(" + a + ") " + r;
            FirstRun(s, len, 0) == (if |r| >= len then Some(5) else None)
  {
    var s := "(" + a + ") " + r;
    assert s[0] == '(' && s[3] == ')' && s[4] == ' ';
    forall j | 0 <= j < 5
      ensures !RunAt(s, len, j)
    {
      if j + len <= |s| {
        var w := s[j..j + len];
        if j == 0 {
          assert w[0] == '(';
        } else if j <= 3 {
          assert w[3 - j] == ')';
        } else {
          assert w[0] == ' ';
        }
      }
    }
    assert s[5..] == r;
    if |r| >= len {
      assert s[5..5 + len] == r[..len];
      assert RunAt(s, len, 5);
    } else {
      forall j | 5 <= j
        ensures !RunAt(s, len, j)
      {
      }
    }
  }

  lemma HyphenAfterArea(a: string, r: string, k: nat)
    requires |a| == 2 && AllDigits(a) && AllDigits(r) && k >= 2
    ensures var s := "(" + a + ") " + r;
            HyphenStep(s, k) == if |r| >= k + 1 then "(" + a + ") " + r[..k] + "-" + r[k..] else s
  {
    var s := "(" + a + ") " + r;
    RunAfterArea(a, r, k + 1);
    if |r| >= k + 1 {
      assert s[..5] == "(" + a + ") ";
      assert s[5..5 + k] == r[..k];
      assert s[5 + k..] == r[k..];
    }
  }

  lemma TrimAfterHyphen(a: string, b: string, c: string)
    requires |a| == 2 && |b| == 5 && AllDigits(a) && AllDigits(b) && AllDigits(c)
    ensures var s := "(" + a + ") " + b + "-" + c;
            TrimStep(s) == if |c| >= 5 then "(" + a + ") " + b + "-" + c[..4] else s
  {
    var s := "(" + a + ") " + b + "-" + c;
    assert s[10] == '-' && s[11..] == c;
    forall j | 0 <= j < 10
      ensures !TailAt(s, j)
    {
      assert s[j] != '-' by {
        if 1 <= j < 3 {
          assert s[j] == a[j - 1];
        } else if 5 <= j < 10 {
          assert s[j] == b[j - 5];
        }
      }
    }
    if |c| >= 5 {
      assert TailAt(s, 10);
      assert s[..15] == "(" + a + ") " + b + "-" + c[..4];
    } else {
      forall j | 10 <= j
        ensures !TailAt(s, j)
      {
      }
    }
  }

  /** The three replacements give the closed form. */
  lemma FormatPhoneIsMasked(text: string)
    ensures FormatPhone(text) == Masked(DigitsOf(text))
  {
    var d := DigitsOf(text);
    if |d| <= 10 {
      MaskUpToTen(d);
    } else {
      MaskFromEleven(d);
    }
  }

  /** Up to ten digits: the area code and the hyphen after four more digits. */
  lemma MaskUpToTen(d: string)
    requires AllDigits(d) && |d| <= 10
    ensures HyphenStep(ParenStep(d), 4) == Masked(d)
  {
    ParenOfDigits(d);
    if |d| <= 2 {
      assert FirstRun(d, 5, 0).None?;
    } else {
      var a, r := d[..2], d[2..];
      assert Area(d) + r == "(" + a + ") " + r;
      HyphenAfterArea(a, r, 4);
      if |d| > 6 {
        assert r[..4] == d[2..6] && r[4..] == d[6..];
      }
    }
  }

  /** From eleven digits on: the hyphen after five digits, then the tail cut to four. */
  lemma MaskFromEleven(d: string)
    requires AllDigits(d) && |d| > 10
    ensures TrimStep(HyphenStep(ParenStep(d), 5)) == Masked(d)
  {
    ParenOfDigits(d);
    var a, r := d[..2], d[2..];
    assert Area(d) + r == "(" + a + ") " + r;
    HyphenAfterArea(a, r, 5);
    assert r[..5] == d[2..7] && r[5..] == d[7..];
    assert HyphenStep(ParenStep(d), 5) == "(" + a + ") " + d[2..7] + "-" + d[7..];
    TrimAfterHyphen(a, d[2..7], d[7..]);
    assert d[7..][..4] == d[7..11];
  }

  // ---------------------------------------------------------------------------
  // Properties

  lemma DigitsOfArea(d: string, rest: string)
    requires |d| >= 2 && AllDigits(d)
    ensures DigitsOf(Area(d) + rest) == d[..2] + DigitsOf(rest)
  {
    DigitsOfAppend(Area(d), rest);
    DigitsOfAppend("(" + d[..2], ") ");
    DigitsOfAppend("(", d[..2]);
  }

  lemma DigitsAroundHyphen(p: string, q: string)
    requires AllDigits(p) && AllDigits(q)
    ensures DigitsOf(p + "-" + q) == p + q
  {
    DigitsOfAppend(p + "-", q);
    DigitsOfAppend(p, "-");
  }

  /** The digits of the closed form: the first eleven of its input. */
  lemma MaskedDigits(d: string)
    requires AllDigits(d)
    ensures DigitsOf(Masked(d)) == if |d| <= 11 then d else d[..11]
  {
    var n := |d|;
    if n <= 2 {
    } else if n <= 6 {
      DigitsOfArea(d, d[2..]);
      assert d[..2] + d[2..] == d;
    } else {
      if n <= 10 {
        assert Masked(d) == Area(d) + d[2..6] + "-" + d[6..n];
        GroupedDigits(d, 6, n);
        assert d[..n] == d;
      } else {
        assert Masked(d) == Area(d) + d[2..7] + "-" + d[7..11];
        GroupedDigits(d, 7, 11);
      }
    }
  }

  lemma GroupedDigits(d: string, k: int, e: int)
    requires AllDigits(d) && 2 < k <= e <= |d|
    ensures DigitsOf(Area(d) + d[2..k] + "-" + d[k..e]) == d[..e]
  {
    var rest := d[2..k] + "-" + d[k..e];
    assert Area(d) + d[2..k] + "-" + d[k..e] == Area(d) + rest;
    DigitsOfArea(d, rest);
    DigitsAroundHyphen(d[2..k], d[k..e]);
    assert d[..2] + (d[2..k] + d[k..e]) == d[..e];
  }

  /** The mask keeps the first eleven digits, in order, and adds none. */
  lemma MaskKeepsDigits(text: string)
    ensures var d := DigitsOf(text);
            DigitsOf(FormatPhone(text)) == if |d| <= 11 then d else d[..11]
  {
    FormatPhoneIsMasked(text);
    MaskedDigits(DigitsOf(text));
  }

  /** Formatting an already formatted number changes nothing. */
  lemma FormatPhoneIdempotent(text: string)
    ensures FormatPhone(FormatPhone(text)) == FormatPhone(text)
  {
    var d := DigitsOf(text);
    MaskKeepsDigits(text);
    FormatPhoneIsMasked(text);
    FormatPhoneIsMasked(FormatPhone(text));
    if |d| > 11 {
      var e := d[..11];
      assert e[..2] == d[..2] && e[2..7] == d[2..7] && e[7..11] == d[7..11];
    }
  }

  /** The two layouts: a four-digit middle group up to ten digits, a five-digit one from eleven. */
  lemma MaskLayout(text: string)
    ensures var d := DigitsOf(text);
            7 <= |d| <= 10 ==> FormatPhone(text) == "(" + d[..2] + ") " + d[2..6] + "-" + d[6..]
    ensures var d := DigitsOf(text);
            |d| >= 11 ==> FormatPhone(text) == "(" + d[..2] + ") " + d[2..7] + "-" + d[7..11]
                          && |FormatPhone(text)| == 15
  {
    FormatPhoneIsMasked(text);
  }
}

=== FILE: profile.dfy ===
// The profile screen (`PerfilScreen`): loading the profile with its fallbacks,
// editing the birth date and blood type, saving the trimmed fields, and the
// avatar letter. The stored document and the signed-in user are inputs; the
// document write and the display-name update are returned as values.

module Profile {
  import opened JsText

  /** The signed-in user as the authentication service reports it. */
  datatype AuthUser = AuthUser(uid: string, displayName: Option<string>, email: Option<string>)

  /** The stored user document's fields, each possibly missing. */
  datatype StoredUser = StoredUser(nome: Option<string>, email: Option<string>, telefone: Option<string>,
                                   dataNascimento: Option<string>, tipoSanguineo: Option<string>,
                                   alergias: Option<string>, condicoesEspeciais: Option<string>)

  /** The profile as the screen holds it. */
  datatype UserData = UserData(nome: string, email: string, telefone: string, dataNascimento: string,
                               tipoSanguineo: string, alergias: string, condicoesEspeciais: string)

  datatype LoadOutcome =
    | NoUser
    | FromDocument(data: UserData)
    | Created(data: UserData, written: StoredUser)

  /**
   * `loadUserData`: the stored name falls back to the display name and then
   * to "", the email likewise; a missing document is created from the user.
   */
  function Load(user: Option<AuthUser>, doc: Option<StoredUser>): (r: LoadOutcome)
    ensures user.None? <==> r.NoUser?
    ensures user.Some? && doc.Some? ==> (r.FromDocument?
              && r.data.nome == (if Truthy(doc.value.nome) then doc.value.nome.value
                                 else if Truthy(user.value.displayName) then user.value.displayName.value else "")
              && r.data.email == (if Truthy(doc.value.email) then doc.value.email.value
                                  else if Truthy(user.value.email) then user.value.email.value else "")
              && r.data.telefone == OrElse(doc.value.telefone, "")
              && r.data.tipoSanguineo == OrElse(doc.value.tipoSanguineo, ""))
    ensures user.Some? && doc.None? ==> (r.Created?
              && r.data == UserData(OrElse(user.value.displayName, ""), OrElse(user.value.email, ""), "", "", "", "", "")
              && r.written == Stored(r.data))
  {
    if user.None? then NoUser
    else
      var u := user.value;
      match doc
      case Some(d) =>
        OrChainFirstTruthy(d.nome, u.displayName, "");
        OrChainFirstTruthy(d.email, u.email, "");
        FromDocument(UserData(OrElse(OrOpt(d.nome, u.displayName), ""), OrElse(OrOpt(d.email, u.email), ""),
                              OrElse(d.telefone, ""), OrElse(d.dataNascimento, ""), OrElse(d.tipoSanguineo, ""),
                              OrElse(d.alergias, ""), OrElse(d.condicoesEspeciais, "")))
      case None =>
        var data := UserData(OrElse(u.displayName, ""), OrElse(u.email, ""), "", "", "", "", "");
        Created(data, Stored(data))
  }

  /** A profile written back as a document. */
  function Stored(d: UserData): StoredUser
  {
    StoredUser(Some(d.nome), Some(d.email), Some(d.telefone), Some(d.dataNascimento), Some(d.tipoSanguineo),
               Some(d.alergias), Some(d.condicoesEspeciais))
  }

  /** The fields `handleSaveProfile` updates; the email is not among them. */
  datatype ProfileUpdate = ProfileUpdate(nome: string, telefone: string, dataNascimento: string,
                                         tipoSanguineo: string, alergias: string, condicoesEspeciais: string)

  datatype SaveOutcome =
    | NotSignedIn
    | NameRequired
    | Saved(update: ProfileUpdate, rename: Option<string>)

  /**
   * `handleSaveProfile`: nothing is written without a user or with a blank
   * name; otherwise the trimmed fields are written, and the display name is
   * changed to the untrimmed name when it differs.
   */
  function Save(user: Option<AuthUser>, d: UserData): (r: SaveOutcome)
    ensures user.None? <==> r.NotSignedIn?
    ensures r.NameRequired? <==> user.Some? && Blank(d.nome)
    ensures r.Saved? ==> r.update.nome == Trim(d.nome) && r.update.nome != ""
                         && r.update.telefone == Trim(d.telefone) && r.update.dataNascimento == d.dataNascimento
                         && r.update.tipoSanguineo == Trim(d.tipoSanguineo) && r.update.alergias == Trim(d.alergias)
                         && r.update.condicoesEspeciais == Trim(d.condicoesEspeciais)
    ensures r.Saved? ==> (r.rename.Some? <==> user.value.displayName != Some(d.nome))
                         && (r.rename.Some? ==> r.rename.value == d.nome)
  {
    if user.None? then NotSignedIn
    else if Blank(d.nome) then NameRequired
    else
      var update := ProfileUpdate(Trim(d.nome), Trim(d.telefone), d.dataNascimento, Trim(d.tipoSanguineo),
                                  Trim(d.alergias), Trim(d.condicoesEspeciais));
      Saved(update, if user.value.displayName != Some(d.nome) then Some(d.nome) else None)
  }

  /** The stored document after an update: the updated fields replaced, the email kept. */
  function Apply(doc: StoredUser, u: ProfileUpdate): StoredUser
  {
    doc.(nome := Some(u.nome), telefone := Some(u.telefone), dataNascimento := Some(u.dataNascimento),
         tipoSanguineo := Some(u.tipoSanguineo), alergias := Some(u.alergias),
         condicoesEspeciais := Some(u.condicoesEspeciais))
  }

  /** Loading after a save shows the trimmed fields that were saved, and the email that was stored before. */
  lemma SaveThenLoad(user: AuthUser, d: UserData, doc: StoredUser)
    requires Save(Some(user), d).Saved?
    ensures var u := Save(Some(user), d).update;
            var again := Load(Some(user), Some(Apply(doc, u)));
            again.FromDocument?
            && again.data == UserData(Trim(d.nome), Load(Some(user), Some(doc)).data.email, Trim(d.telefone),
                                      d.dataNascimento, Trim(d.tipoSanguineo), Trim(d.alergias),
                                      Trim(d.condicoesEspeciais))
  {
  }

  /** The screen's profile and whether the blood-type picker is open. */
  datatype Screen = Screen(data: UserData, bloodPicker: bool)

  /** `selectBloodType`: only the blood type changes, and the picker closes. */
  function SelectBloodType(s: Screen, tipo: string): (r: Screen)
    ensures r.data == s.data.(tipoSanguineo := tipo) && !r.bloodPicker
  {
    Screen(s.data.(tipoSanguineo := tipo), false)
  }

  /** `onDateChange`: a dismissed picker (no date) leaves the profile as it was. */
  function OnDateChange(d: UserData, selectedIso: Option<string>): (r: UserData)
    ensures selectedIso.None? ==> r == d
    ensures selectedIso.Some? ==> r == d.(dataNascimento := selectedIso.value)
  {
    match selectedIso
    case None => d
    case Some(iso) => d.(dataNascimento := iso)
  }

  /** The avatar letter: the name's first character upper-cased, or "U" without a name. */
  function AvatarLetter(nome: string): (r: string)
    ensures |r| == 1
    ensures nome == "" ==> r == "U"
    ensures nome != "" ==> r == Upper(nome[..1])
  {
    if nome == "" then "U" else [UpperChar(nome[0])]
  }
}

=== FILE: profile_wizard.dfy ===
// The seven-step profile wizard shown after sign-up (`FormUser`): each step
// validates its own field, "next" advances or, on the last step, saves the
// profile, and "back" steps back without leaving the range of steps. The
// clock and the signed-in user are parameters; the saved profile is returned
// as a value.

module ProfileWizard {
  import opened JsText
  import opened PhoneMask

  /** What a step asks for. */
  datatype StepKind = Name | BirthDate | Gender | Phone | BloodType | Allergies | Conditions

  /** The steps in order. */
  const Steps: seq<StepKind> := [Name, BirthDate, Gender, Phone, BloodType, Allergies, Conditions]

  /** The length of a Julian year in milliseconds: 365.25 days. */
  const YearMs: int := 31557600000

  const MinimumAge: int := 13

  datatype Wizard = Wizard(step: int, nome: string, birth: int, genero: string, telefone: string,
                           tipoSanguineo: string, alergias: string, condicoes: string)

  predicate ValidStep(w: Wizard)
  {
    0 <= w.step < |Steps|
  }

  /** The initial state: the first step, every field empty, the birth date set to the current time. */
  function Start(now: int): (w: Wizard)
    ensures ValidStep(w) && w.step == 0 && w.birth == now
  {
    Wizard(0, "", now, "", "", "", "", "")
  }

  /** `Math.floor((now - birth) / 365.25 days)`. */
  function Age(now: int, birth: int): (years: int)
    ensures years * YearMs <= now - birth < (years + 1) * YearMs
  {
    if now - birth >= 0 then (now - birth) / YearMs else -((birth - now + YearMs - 1) / YearMs)
  }

  /** The alert a step shows instead of advancing, if its field is not acceptable. */
  function Blocker(w: Wizard, now: int): (msg: Option<string>)
    requires ValidStep(w)
    ensures Steps[w.step] == Name ==> (msg.Some? <==> AllSpace(w.nome))
    ensures Steps[w.step] == BirthDate ==> (msg.Some? <==> Age(now, w.birth) < MinimumAge)
    ensures Steps[w.step] == Gender ==> (msg.Some? <==> w.genero == "")
    ensures Steps[w.step] == Phone ==> (msg.Some? <==> AllSpace(w.telefone))
    ensures Steps[w.step] == BloodType ==> (msg.Some? <==> w.tipoSanguineo == "")
    ensures Steps[w.step] in {Allergies, Conditions} ==> msg.None?
  {
    BlankIffAllSpace(w.nome);
    BlankIffAllSpace(w.telefone);
    match Steps[w.step]
    case Name => if Blank(w.nome) then Some("Por favor, digite seu nome completo") else None
    case BirthDate =>
      if Age(now, w.birth) < MinimumAge then Some("Você deve ter pelo menos 13 anos para usar o aplicativo") else None
    case Gender => if w.genero == "" then Some("Por favor, selecione seu gênero") else None
    case Phone => if Blank(w.telefone) then Some("Por favor, digite seu telefone") else None
    case BloodType => if w.tipoSanguineo == "" then Some("Por favor, selecione seu tipo sanguíneo") else None
    case Allergies => None
    case Conditions => None
  }

  /** The profile document written on completion. */
  datatype Profile = Profile(nome: string, dataNascimento: int, genero: string, telefone: string,
                             tipoSanguineo: string, alergias: string, condicoesEspeciais: string,
                             email: Option<string>, perfilCompleto: bool)

  /** The signed-in user, if any. */
  datatype User = User(uid: string, email: Option<string>)

  /** `completeProfile`: nothing is written without a user. */
  function Complete(w: Wizard, user: Option<User>): (p: Option<Profile>)
    ensures p.Some? <==> user.Some?
    ensures p.Some? ==> p.value.nome == w.nome && p.value.telefone == w.telefone
                        && p.value.alergias == Trim(w.alergias) && p.value.condicoesEspeciais == Trim(w.condicoes)
                        && p.value.email == user.value.email && p.value.perfilCompleto
  {
    if user.None? then None
    else
      Some(Profile(w.nome, w.birth, w.genero, w.telefone, w.tipoSanguineo,
                   Trim(w.alergias), Trim(w.condicoes), user.value.email, true))
  }

  datatype NextOutcome = Blocked(message: string) | Advanced(next: Wizard) | Completed(saved: Option<Profile>)

  /** `handleNext`. */
  function Next(w: Wizard, now: int, user: Option<User>): (r: NextOutcome)
    requires ValidStep(w)
    ensures r.Blocked? <==> Blocker(w, now).Some?
    ensures r.Advanced? ==> ValidStep(r.next) && r.next == w.(step := w.step + 1)
    ensures r.Completed? <==> Blocker(w, now).None? && w.step == |Steps| - 1
  {
    match Blocker(w, now)
    case Some(msg) => Blocked(msg)
    case None =>
      if w.step < |Steps| - 1 then Advanced(w.(step := w.step + 1)) else Completed(Complete(w, user))
  }

  /** `handleBack`. */
  function Back(w: Wizard): (r: Wizard)
    requires ValidStep(w)
    ensures ValidStep(r) && r == (if w.step > 0 then w.(step := w.step - 1) else w)
  {
    if w.step > 0 then w.(step := w.step - 1) else w
  }

  /** Typing in the phone field stores the masked text. */
  function EnterPhone(w: Wizard, text: string): (r: Wizard)
    ensures r == w.(telefone := FormatPhone(text))
    ensures FormatPhone(r.telefone) == r.telefone
  {
    FormatPhoneIdempotent(text);
    w.(telefone := FormatPhone(text))
  }

  /** The birth-date step passes exactly when at least 13 Julian years have elapsed; a future date never passes. */
  lemma BirthDateRule(w: Wizard, now: int)
    requires ValidStep(w) && Steps[w.step] == BirthDate
    ensures Blocker(w, now).None? <==> now - w.birth >= MinimumAge * YearMs
    ensures w.birth > now ==> Next(w, now, None).Blocked?
  {
    var a := Age(now, w.birth);
    if a >= MinimumAge {
      assert a * YearMs >= MinimumAge * YearMs;
    }
    if now - w.birth >= MinimumAge * YearMs {
      assert (a + 1) * YearMs > MinimumAge * YearMs;
    }
  }

  /** The optional steps never block. */
  lemma OptionalStepsAdvance(w: Wizard, now: int, user: Option<User>)
    requires ValidStep(w) && Steps[w.step] in {Allergies, Conditions}
    ensures !Next(w, now, user).Blocked?
  {
  }

  /** The profile is saved only from the last step, whose field is optional, so the last "next" always completes. */
  lemma LastStepCompletes(w: Wizard, now: int, user: Option<User>)
    requires ValidStep(w) && w.step == |Steps| - 1
    ensures Next(w, now, user).Completed?
    ensures Next(w, now, user).saved == Complete(w, user)
  {
  }
}

=== FILE: settings_screen.dfy ===
// The settings screen (screens/navigation/ConfigScreen.js): three switches kept
// in local storage under '@app_settings'. Sound and vibration are locked while
// notifications are off, and a reset restores the initial values.

module SettingsScreen {
  import opened JsText

  datatype Key = Notificacoes | NotificacaoSom | Vibracao

  /** One setting as the screen holds it. Loading replaces the whole object with
      the stored one, so a key can be missing (undefined, hence falsy). */
  type Flag = Option<bool>

  predicate On(f: Flag)
  {
    f == Some(true)
  }

  datatype Settings = Settings(notificacoes: Flag, notificacaoSom: Flag, vibracao: Flag)

  /** The state the screen starts in, and the one a reset restores. */
  const Defaults: Settings := Settings(Some(true), Some(true), Some(true))

  function Get(s: Settings, k: Key): Flag
  {
    match k
    case Notificacoes => s.notificacoes
    case NotificacaoSom => s.notificacaoSom
    case Vibracao => s.vibracao
  }

  function Set(s: Settings, k: Key, f: Flag): Settings
  {
    match k
    case Notificacoes => s.(notificacoes := f)
    case NotificacaoSom => s.(notificacaoSom := f)
    case Vibracao => s.(vibracao := f)
  }

  /** The settings shown, and what local storage holds under '@app_settings'. */
  datatype Screen = Screen(settings: Settings, stored: Option<Settings>)

  function Mount(stored: Option<Settings>): Screen
  {
    Screen(Defaults, stored)
  }

  /** `loadSettings`: a stored object replaces the settings wholesale; with nothing
      stored the screen keeps what it had. */
  function Load(s: Screen): (r: Screen)
    ensures r.stored == s.stored
    ensures s.stored.Some? ==> forall k :: Get(r.settings, k) == Get(s.stored.value, k)
    ensures s.stored.None? ==> r == s
  {
    match s.stored
    case None => s
    case Some(v) => Screen(v, s.stored)
  }

  /** `toggleSetting(key)`: flip one setting and write the whole object; `saved` says
      whether the write succeeded. The second component is whether the
      'Notificações Desabilitadas' warning appears. */
  function Toggle(s: Screen, k: Key, saved: bool): (r: (Screen, bool))
    ensures On(Get(r.0.settings, k)) == !On(Get(s.settings, k))
    ensures Get(r.0.settings, k).Some?
    ensures forall j :: j != k ==> Get(r.0.settings, j) == Get(s.settings, j)
    ensures r.0.stored == if saved then Some(r.0.settings) else s.stored
    ensures r.1 <==> k == Notificacoes && !On(r.0.settings.notificacoes)
  {
    var updated := Set(s.settings, k, Some(!On(Get(s.settings, k))));
    (Screen(updated, if saved then Some(updated) else s.stored), k == Notificacoes && On(s.settings.notificacoes))
  }

  /** Flipping the same switch twice restores the settings exactly when the key was
      present: a missing key comes back as an explicit `false`. */
  lemma ToggleTwice(s: Screen, k: Key, saved: bool)
    ensures Toggle(Toggle(s, k, saved).0, k, saved).0.settings == s.settings <==> Get(s.settings, k).Some?
  {
    var once := Toggle(s, k, saved).0;
    var twice := Toggle(once, k, saved).0;
    if Get(s.settings, k).Some? {
      var b := Get(s.settings, k).value;
      assert once.settings == Set(s.settings, k, Some(!b));
      assert twice.settings == Set(once.settings, k, Some(b));
      match k
      case Notificacoes =>
      case NotificacaoSom =>
      case Vibracao =>
    } else {
      assert Get(twice.settings, k) != Get(s.settings, k);
    }
  }

  /** A successful write is what the next visit to the screen loads. */
  lemma SavedSettingsReload(s: Screen, k: Key)
    ensures Load(Mount(Toggle(s, k, true).0.stored)).settings == Toggle(s, k, true).0.settings
  {
  }

  /** `handleDataClear` after 'Confirmar': remove the stored object and go back to all
      three on; when the removal fails nothing changes. */
  function Reset(s: Screen, removed: bool): (r: Screen)
    ensures removed ==> r.stored.None? && forall k :: On(Get(r.settings, k))
    ensures !removed ==> r == s
  {
    if removed then Screen(Defaults, None) else s
  }

  /** After a reset the next visit shows what a first visit shows. */
  lemma ResetSurvivesReload(s: Screen, stored: Option<Settings>)
    ensures Load(Mount(Reset(s, true).stored)) == Mount(None)
    ensures Reset(s, true).settings == Mount(stored).settings
  {
  }

  /** The `disabled` flag of a switch: sound and vibration while notifications are not on. */
  predicate Disabled(s: Settings, k: Key)
  {
    k != Notificacoes && !On(s.notificacoes)
  }

  /** Pressing a switch's row: a disabled row does nothing, any other flips its setting. */
  function Press(s: Screen, k: Key, saved: bool): (r: (Screen, bool))
    ensures r.0.settings == s.settings <==> Disabled(s.settings, k)
    ensures Disabled(s.settings, k) ==> r.0 == s && !r.1
  {
    if Disabled(s.settings, k) then (s, false)
    else
      var t := Toggle(s, k, saved);
      assert Get(t.0.settings, k) != Get(s.settings, k);
      t
  }

  /** A run of presses, each write succeeding. */
  function Presses(s: Screen, ks: seq<Key>): Screen
    decreases |ks|
  {
    if ks == [] then s else Presses(Press(s, ks[0], true).0, ks[1..])
  }

  /** While notifications are off, pressing anything but the notifications switch changes nothing. */
  lemma {:induction false} LockedWhileOff(s: Screen, ks: seq<Key>)
    requires !On(s.settings.notificacoes)
    requires Notificacoes !in ks
    ensures Presses(s, ks) == s
    decreases |ks|
  {
    if ks != [] {
      assert Press(s, ks[0], true).0 == s;
      assert Notificacoes !in ks[1..];
      LockedWhileOff(s, ks[1..]);
    }
  }
}
